=== FILE: README.md ===
# MediaGrab download core in Dafny

MediaGrab is a desktop front end for yt-dlp. This project models the part of it that decides what happens to a download, together with the pure helpers around it:

- **Lifecycle** (`state.dfy`, `manager.dfy`). A download moves through nine lifecycle states along an allow-list of eighteen moves. The single-download manager's start, complete, fail, cancel, reset and retry operations are driven by that allow-list.
- **yt-dlp output** (`parser.dfy`, `process.dfy`).
  - Progress lines, in the legacy `[download]` format and the pipe-delimited template format, become progress events. Merge markers are recognised.
  - ETA, byte sizes and speed are parsed, and error lines are categorised and turned into user-facing messages.
  - Stdout is cut into lines at every line feed or carriage return, and stderr is read line by line. Both are routed through the parsers, the final media-file path is recognised, and the exit status becomes the last event.
- **Queue** (`queue.dfy`, `queue_lemmas.dfy`, `worker.dfy`).
  - The download queue holds its items, a FIFO of pending ids and the active ids.
  - Its operations are add, pop, progress and status updates, complete, fail, cancel, remove, clear, move, reorder, pause and resume.
  - The worker folds one item's process outputs into the queue, and picks the newest media file of the output folder when the process named none.
- **Errors** (`errors.dfy`, `retry_lemmas.dfy`, `media_info.dfy`). The download error model covers categories, retryability, suggested actions and the retry back-off. yt-dlp's stderr is classified twice: by the download error model and by the media-info command's own classifier.
- **Command lines** (`args.dfy`, `subtitles.dfy`, `playlist.dfy`). The yt-dlp command line is built for a download, a subtitle listing and a playlist listing.
- **Smaller commands** (`update.dfy`, `logging.dfy`, `media_info.dfy`, `playlist.dfy`, `subtitles.dfy`, `history.dfy`).
  - Date versions are extracted from yt-dlp's update output, and the update result is decided from it.
  - Logs are kept in an in-memory ring buffer of 500 entries, and Windows profile paths are anonymised in them.
  - The records read from yt-dlp's JSON for media info, playlists and subtitles are modelled over abstract JSON records.
  - The download history keeps a newest-first list capped at 500 and running totals.

Shared helpers live in `wrappers.dfy` (Option and Result), `text.dfy` (Rust string operations on `seq<char>`: find, split, trim, replace, ASCII case folding), `utf8.dfy` (UTF-8 encoding and decoding), `ints.dfy` (fixed-width integers and float-to-integer casts), `seqs.dfy` (filtering, duplicate-free sequences, swaps), `sorting.dfy` (string order and a sort) and `models.dfy` (the plain records shared by the commands). `keywords.dfy` holds the keyword rules as tables, which serve as the independent reference for the error classifiers.

Every operation is a pure function over immutable datatypes. The stateful objects (`DownloadManager`, `DownloadQueue`, `LogBuffer`, the history store) are records that each operation maps to a new record. Process runs, stores, directory listings and the user name are parameters.

Where the code and its tests or comments disagree, the model follows the code:
- The `download:` branch of `parse_progress_line` (src-tauri/src/download/parser.rs:52-57) is unreachable. The pipe test at line 47 takes every line with a `|` that does not start with `[`, so template lines are pipe-parsed whole and their percentage field reads as 0. The parser tests that expect the prefix to be stripped describe other code. `ParserLemmas.DownloadPrefixNotStripped` states the behaviour as coded.
- The comments of `is_date_version` mention month and day ranges that the code never checks. The model checks digits only, as the code does.
- src-tauri/src/download/process.rs:213-221 is a stray duplicate of the stdout loop's tail, and is ignored.

## Model

| member | source | states |
|---|---|---|
| State.DefaultState | src-tauri/src/models/state.rs:81-85 | A fresh state is Idle: neither active nor finished, and it is entered only from a finished state or from Analyzing |
| State.TransitionTo | src-tauri/src/models/state.rs:64-72 | A move succeeds exactly when the pair is allowed, yielding the target; a refused move returns the unchanged current state |
| State.CanTransitionMatchesList | src-tauri/src/models/state.rs:31-62 | The allowed moves are exactly the eighteen listed pairs |
| State.ActivePartition | src-tauri/src/models/state.rs:74-78 | A state is active exactly when it is neither Idle nor finished (Completed, Cancelled, Failed) |
| State.NoSelfLoop | src-tauri/src/models/state.rs:31-62 | No state may move to itself |
| State.OnlySuccessors | src-tauri/src/models/state.rs:55-60 | A finished state can only be reset to Idle, and Cancelling can only end in Cancelled |
| State.RunSucceedsIffPath | src-tauri/src/models/state.rs:64-72 | A series of moves is accepted exactly when every consecutive pair is allowed, and it then ends at the last target |
| State.TypicalFlows | src-tauri/src/models/state.rs:37-60 | The download, merge, complete and reset flow and the cancel flow are accepted, while Downloading back to Starting is refused with the state unchanged |
| State.CompletedNeedsDownload | src-tauri/src/models/state.rs:44-54 | Any allowed path from Idle to Completed passes through Starting and Downloading |
| State.CancelledOnlyViaCancelling | src-tauri/src/models/state.rs:55-56 | Cancelled is only entered from Cancelling |
| Manager.NewManager | src-tauri/src/download/manager.rs:44-53 | A new manager is in the default (Idle) state with no job, no error and no progress |
| Manager.Transition | src-tauri/src/download/manager.rs:73-84 | Only the state changes, and only along an allowed move; a refused move leaves the manager as it was and reports its state |
| Manager.StartDownload | src-tauri/src/download/manager.rs:91-128 | A start is accepted exactly when the manager is Idle. It then moves to Starting with a fresh job (retry 0) and clears the error and progress; otherwise it refuses with AlreadyDownloading and changes nothing |
| Manager.UpdateProgress | src-tauri/src/download/manager.rs:137-140 | The event is recorded in any state, and nothing else changes |
| Manager.Complete | src-tauri/src/download/manager.rs:148-173 | Completion is accepted exactly from Downloading or Merging. The path is recorded on the stored job and returned as a success; otherwise the manager is unchanged and the error is "Invalid state transition" |
| Manager.Fail | src-tauri/src/download/manager.rs:177-198 | The error text is always stored and reported as a failed result; the state becomes Failed when that move is allowed and otherwise stays |
| Manager.Cancel | src-tauri/src/download/manager.rs:203-232 | Cancellation succeeds exactly from Downloading or Merging and ends in Cancelled. Idle, finished and Cancelling managers report "No active download to cancel", Analyzing and Starting report "Cannot cancel in current state", and a refusal changes nothing |
| Manager.Reset | src-tauri/src/download/manager.rs:235-267 | A reset succeeds exactly from a finished state and yields a manager equal to a new one; an active manager reports AlreadyDownloading, an Idle one "Cannot reset in current state", and nothing changes |
| Manager.ActiveConfig | src-tauri/src/download/manager.rs:270-273 | The configuration of the stored job, present exactly when a job is stored |
| Manager.RetryAttempt | src-tauri/src/download/manager.rs:281-284 | The stored job's retry count, or 0 without a job |
| Manager.IncrementRetry | src-tauri/src/download/manager.rs:287-293 | With a stored job, the counter goes up by one (wrapping at 2^32) and the error text is kept; without a job nothing changes |
| Manager.PrepareRetry | src-tauri/src/download/manager.rs:296-310 | The manager ends in Starting with its progress cleared exactly when it was Idle, Analyzing or finished; from the other active states it is unchanged and reports "Cannot prepare for retry" |
| Manager.StartDownloading | src-tauri/src/download/manager.rs:313-318 | Succeeds exactly from Starting, moving to Downloading; otherwise nothing changes |
| Manager.StartMerging | src-tauri/src/download/manager.rs:321-326 | Succeeds exactly from Downloading, moving to Merging; otherwise nothing changes |
| Manager.StepIsLegal | src-tauri/src/download/manager.rs:73-84 | Every manager call moves the state only along allowed transitions, including the intermediate Cancelling and Idle steps |
| Manager.TraceIsPath | src-tauri/src/download/manager.rs:73-84 | Any sequence of manager calls traces an allowed path that ends in the final state |
| Manager.FreshManagerCompletesAfterDownloading | src-tauri/src/download/manager.rs:148-152 | Whatever calls are made, a new manager reaches Completed only after having been in Starting and Downloading |
| Manager.RetriesCounted | src-tauri/src/download/manager.rs:281-293 | After a start and k retries (k below 2^32), the retry counter reads k |
| Worker.CompletionPath | src-tauri/src/commands/queue.rs:218-220 | The path passed to `complete` is the reported path, else the newest media file, else the empty string |
| Worker.HandleOutput | src-tauri/src/commands/queue.rs:200-247 | Progress, merging and file-path outputs keep the handling going and the others end it. A file path is remembered and a termination changes nothing; the pending list is never touched |
| Worker.HandleOutputs | src-tauri/src/commands/queue.rs:192-248 | Only the handled item changes. A finished item is Completed with the chosen path, a failed one is Failed with the error's text, and both leave the active list; a stopped handling leaves the active list alone and the status either unchanged or Merging |
| Worker.ProcessQueueItem | src-tauri/src/commands/queue.rs:150-190 | When executables cannot be resolved or the process cannot be spawned, the item fails with that error and no output is read; otherwise outputs are handled starting with no path |
| Worker.IgnoresAfterEnd | src-tauri/src/commands/queue.rs:210-246 | Outputs after an error, a completion, a non-zero exit or a termination are never applied |
| Worker.LastPathWins | src-tauri/src/commands/queue.rs:207-222 | With file paths reported before completion, the item completes with the last one; with none it completes with the fallback or the empty path |
| Worker.ExitErrorMessage | src-tauri/src/commands/queue.rs:235-242 | A non-zero exit fails the item with "Download failed: Process exited with code <code>" |
| Worker.HandleKeepsInv | src-tauri/src/commands/queue.rs:192-248 | Handling a process's outputs preserves the queue invariant |
| Worker.HandleOutputKeepsInv | src-tauri/src/commands/queue.rs:200-247 | Applying one output preserves the queue invariant |
| Worker.HistoryEntry | src-tauri/src/commands/queue.rs:252-273 | A finished download is recorded as "completed" with its path and no error, a failed one as "failed" with the error's text and no path or size, and a stopped one is not recorded; URL, title (default "Unknown") and thumbnail come from the item |
| Worker.RecordOutcome | src-tauri/src/commands/queue.rs:316-327 | Recording a worker's result adds one to the total and one to exactly one of the successful and failed counters (modulo 2^64) |
| Worker.Newest | src-tauri/src/commands/queue.rs:372-403 | The scan yields a path exactly when every entry is readable and some entry is a candidate, and the path is that of the first candidate with the greatest time |
| Worker.FindLatestFile | src-tauri/src/commands/queue.rs:355-404 | None for a missing or unreadable folder, an unreadable entry or no media file; otherwise the first newest regular file that has one of the thirteen media extensions and is not `.part` or `.ytdl` |
| Worker.NewestAtUnique | src-tauri/src/commands/queue.rs:393-399 | Ties go to the first file, so the chosen entry is unique |
| Queue.NewItem | src-tauri/src/download/queue.rs:60-73 | A new item is Pending with zero progress, an empty speed, and no ETA, error, path, title or thumbnail |
| Queue.NewQueue | src-tauri/src/download/queue.rs:111-121 | A new queue has no items, nothing pending or active, and its id counter at 1 |
| Queue.Get | src-tauri/src/download/queue.rs:149-152 | The item found has the requested id, and nothing is found exactly when no item has that id |
| Queue.Touch | src-tauri/src/download/queue.rs:155-161 | The find-and-edit step changes only the first item with the id and reports it in one ItemUpdated event. Every other id finds the same item as before, and with no such item nothing changes and nothing is emitted |
| Queue.Add | src-tauri/src/download/queue.rs:124-141 | The new item takes the counter's value as its id (the counter wraps at 2^64). It is appended to the items, its id joins the back of the pending list, and ItemAdded is emitted |
| Queue.UpdateStatus | src-tauri/src/download/queue.rs:155-161 | Only the status of the item with the id changes, with one event; an unknown id changes nothing |
| Queue.UpdateProgress | src-tauri/src/download/queue.rs:164-175 | Percentage, speed and ETA are copied from the event, and the status becomes Merging only for a "merging" event; the error, path, title and thumbnail are kept |
| Queue.Complete | src-tauri/src/download/queue.rs:178-193 | The id leaves the active list, and the item becomes Completed at 100% with the path recorded and speed and ETA cleared; its error and title are kept, and an unknown id changes no item |
| Queue.Fail | src-tauri/src/download/queue.rs:196-210 | The id leaves the active list, and the item becomes Failed with the error's text and speed and ETA cleared; progress and path are kept |
| Queue.Cancel | src-tauri/src/download/queue.rs:213-234 | Always Ok. The id leaves the pending list, whose other ids keep their order, and the item becomes Cancelled whatever its status, even Completed or Failed; the active list is untouched |
| Queue.SetMediaInfoOf | src-tauri/src/download/queue.rs:309-316 | Only the title and thumbnail of the item with the id change |
| Queue.Remove | src-tauri/src/download/queue.rs:237-252 | Succeeds exactly for an existing Completed, Failed or Cancelled item: that one item is deleted, the others keep their order, ItemRemoved is emitted, and every other id finds the same item. Otherwise the result is "Cannot remove active item" and nothing changes |
| Queue.ClearCompleted | src-tauri/src/download/queue.rs:255-264 | Exactly the unfinished items remain, in their original order (a subsequence of the item list). QueueCleared is always emitted, and the pending and active lists are untouched |
| Queue.PopNext | src-tauri/src/download/queue.rs:267-286 | With nothing pending, nothing changes and the result is None. Otherwise the front id moves to the back of the active list, and its item, if any, becomes Downloading and is returned; other items are unchanged |
| Queue.MoveUp | src-tauri/src/download/queue.rs:319-326 | The pending id swaps with its predecessor and every other position is unchanged; at the front, or for an id that is not pending, nothing changes |
| Queue.MoveDown | src-tauri/src/download/queue.rs:329-336 | The pending id swaps with its successor and every other position is unchanged; at the back, or for an id that is not pending, nothing changes |
| Queue.ReorderFront | src-tauri/src/download/queue.rs:342-345 | The requested ids that are pending, in request order (a subsequence of the request), each repeated as often as it was requested |
| Queue.ReorderRest | src-tauri/src/download/queue.rs:348-352 | The pending ids that were not requested, in their pending order (a subsequence of the pending list), each with its pending multiplicity |
| Queue.Reorder | src-tauri/src/download/queue.rs:339-362 | The new pending list holds the same ids as before: the requested ones first in request order, then the rest in their original order |
| Queue.PauseEvents | src-tauri/src/download/queue.rs:371-377 | An ItemUpdated event carrying the item unchanged for every drained id that still has an item. Every event carries a stored item, there are never more events than ids, and exactly one per id when every id has an item |
| Queue.PauseEventsAppend | src-tauri/src/download/queue.rs:371-377 | The events of a drained list are those of its first part followed by those of the rest, so they come in drained order |
| Queue.PauseEventsOne | src-tauri/src/download/queue.rs:372-376 | A single drained id gives its item's event, or none when no item has the id |
| Queue.PauseAll | src-tauri/src/download/queue.rs:365-378 | The pending list is emptied while no item and no status changes; each drained id with an item is reported, one event per id when all have items |
| Queue.PendingIds | src-tauri/src/download/queue.rs:385-389 | Only ids of stored items are listed |
| Queue.ResumeFrom | src-tauri/src/download/queue.rs:385-389 | The loop keeps the existing pending list as a prefix and adds exactly the ids of Pending items, never creating a duplicate |
| Queue.ResumeAll | src-tauri/src/download/queue.rs:381-390 | The pending list is extended at the back with the ids of Pending items not already waiting, with no duplicates added and no event emitted |
| QueueLemmas.NewQueueInv | src-tauri/src/download/queue.rs:111-121 | A new queue satisfies the invariant: ids unique, no id pending twice, and every id below the counter |
| QueueLemmas.AddIdFresh | src-tauri/src/download/queue.rs:124-126 | The id `add` hands out belongs to no item and is not pending |
| QueueLemmas.AddKeepsInv | src-tauri/src/download/queue.rs:124-141 | `add` keeps the invariant while the counter is below 2^64-1 |
| QueueLemmas.ClearCompletedKeepsInv | src-tauri/src/download/queue.rs:255-264 | `clear_completed` keeps the invariant |
| QueueLemmas.IdsFilterCount | src-tauri/src/download/queue.rs:257-262 | Keeping a subset of the items never duplicates an id |
| QueueLemmas.RemoveIds | src-tauri/src/download/queue.rs:239-248 | A successful `remove` drops exactly one occurrence of the id |
| QueueLemmas.RemoveKeepsInv | src-tauri/src/download/queue.rs:237-252 | `remove` keeps the invariant |
| QueueLemmas.PopNextKeepsInv | src-tauri/src/download/queue.rs:267-286 | `pop_next` keeps the invariant |
| QueueLemmas.ReorderPermutes | src-tauri/src/download/queue.rs:339-362 | With no id requested twice, `reorder` permutes the pending list |
| QueueLemmas.ReorderFrontDetermined | src-tauri/src/download/queue.rs:342-345 | Any subsequence of the request with the pending ids' multiplicities is the front, so the front's order is exactly the request's order |
| QueueLemmas.ReorderRestDetermined | src-tauri/src/download/queue.rs:348-352 | Any subsequence of the pending list without the requested ids, at their pending multiplicities, is the rest, so the rest keeps the queue's order |
| QueueLemmas.ReorderCopiesRepeats | src-tauri/src/download/queue.rs:342-361 | A repeated request copies the id into the pending list: reordering [1, 2] by [2, 2] gives [2, 2, 1] |
| QueueLemmas.ReorderKeepsInv | src-tauri/src/download/queue.rs:339-362 | `reorder` without repeated ids keeps the invariant |
| QueueLemmas.ResumeAllKeepsInv | src-tauri/src/download/queue.rs:381-390 | `resume_all` keeps the invariant |
| QueueLemmas.RunKeepsInv | src-tauri/src/download/queue.rs:123-390 | Every public queue operation keeps the invariant, excluding only the wrapping `add` and a `reorder` with repeats |
| QueueLemmas.RunAllKeepsInv | src-tauri/src/download/queue.rs:123-390 | Any sequence of such operations keeps the invariant |
| QueueLemmas.AddAllNumbers | src-tauri/src/download/queue.rs:118-125 | Ids are handed out as 1, 2, 3, … in order of addition, and the new items wait in that order |
| QueueLemmas.AddThenPopNext | src-tauri/src/download/queue.rs:124-141 | Adding never jumps the queue: the next item popped is the same after an `add`, and with an empty pending list it is the new item |
| QueueLemmas.MoveDownUndoesMoveUp | src-tauri/src/download/queue.rs:319-336 | `move_down` undoes a `move_up` that moved something |
| QueueLemmas.MoveUpUndoesMoveDown | src-tauri/src/download/queue.rs:319-336 | `move_up` undoes a `move_down` that moved something, when no id is pending twice |
| QueueLemmas.ClearCompletedIdempotent | src-tauri/src/download/queue.rs:255-264 | Clearing twice is the same as clearing once |
| QueueLemmas.ClearCompletedKeepsUnfinished | src-tauri/src/download/queue.rs:255-264 | An unfinished item is found unchanged after clearing |
| QueueLemmas.RemoveDeletes | src-tauri/src/download/queue.rs:237-252 | After a successful `remove` the id finds nothing and exactly one item is gone |
| QueueLemmas.CancelThenRemove | src-tauri/src/download/queue.rs:213-252 | Any existing item can be removed after being cancelled |
| QueueLemmas.FinishThenRemove | src-tauri/src/download/queue.rs:178-252 | Any existing item can be removed after being completed or failed |
| QueueLemmas.ResumeFromAppends | src-tauri/src/download/queue.rs:385-389 | From a list holding none of them, the resume loop appends exactly the ids of the Pending items, in item order |
| QueueLemmas.PauseThenResume | src-tauri/src/download/queue.rs:365-390 | Pausing and then resuming leaves exactly the Pending items' ids waiting, in item order and without duplicates, with the items unchanged |
| Errors.Display | src-tauri/src/models/error.rs:14-64 | Every variant that carries a message displays as its fixed prefix followed by the message |
| Errors.DisplayInjective | src-tauri/src/models/error.rs:14-64 | Two errors of the same variant display alike only when they carry the same message |
| Errors.Category | src-tauri/src/models/error.rs:68-87 | Every error has one of the twelve UI categories |
| Errors.CategoryGroups | src-tauri/src/models/error.rs:68-87 | "access" is exactly PrivateVideo, AgeRestricted and RegionLocked; "validation" is exactly InvalidUrl and UnsupportedUrl; "network" is exactly NetworkError and Timeout; every other category belongs to one variant |
| Errors.RetryableByCategory | src-tauri/src/models/error.rs:90-98 | An error is retryable exactly when its category is network, download or rate_limit, i.e. exactly for NetworkError, DownloadFailed, RateLimited and Timeout |
| Errors.SuggestedAction | src-tauri/src/models/error.rs:101-112 | A hint exists exactly for PrivateVideo, AgeRestricted, AuthenticationRequired, RateLimited, NetworkError, FolderNotAccessible and ExecutableNotFound |
| Errors.SuggestedActionByVariant | src-tauri/src/models/error.rs:101-112 | The hint depends only on the variant, and both cookie-related errors give the same hint |
| Errors.FilesystemDisplay | src-tauri/src/models/error.rs:122-146 | A filesystem error's text ends with its message |
| Errors.PreferencesDisplay | src-tauri/src/models/error.rs:162-174 | A preferences error's text ends with its message |
| Errors.UpdateDisplay | src-tauri/src/models/error.rs:190-211 | Every update error except UpdaterNotConfigured displays text that ends with its message |
| Errors.QueueDisplay | src-tauri/src/models/error.rs:227-245 | An item-not-found error's text ends with the decimal id |
| Errors.MediaInfoDisplay | src-tauri/src/models/error.rs:261-276 | A wrapped download error displays as its stored text alone |
| Errors.MediaInfoFromDownload | src-tauri/src/models/error.rs:285-287 | Wrapping a download error for the media-info command keeps its text |
| Errors.FromDownload | src-tauri/src/models/error.rs:320-324 | The conversion wraps the error unchanged, and the unified error displays the same text |
| Errors.FromFilesystem | src-tauri/src/models/error.rs:326-330 | The conversion wraps the error unchanged, and the unified error displays the same text |
| Errors.FromPreferences | src-tauri/src/models/error.rs:332-336 | The conversion wraps the error unchanged, and the unified error displays the same text |
| Errors.FromUpdate | src-tauri/src/models/error.rs:338-342 | The conversion wraps the error unchanged, and the unified error displays the same text |
| Errors.FromQueue | src-tauri/src/models/error.rs:344-348 | The conversion wraps the error unchanged, and the unified error displays the same text |
| Errors.FromMediaInfo | src-tauri/src/models/error.rs:350-354 | The conversion wraps the error unchanged, and the unified error displays the same text |
| Errors.AppErrorToString | src-tauri/src/models/error.rs:357-361 | A unified download error converts to the download error's own text |
| Errors.WrappedTextPreserved | src-tauri/src/models/error.rs:285-361 | Wrapping a download error as a media-info error and then as a unified error gives the same string as wrapping it directly |
| Errors.DefaultRetryConfig | src-tauri/src/models/error.rs:381-390 | The default initial delay is within the cap and the multiplier is at least 1 |
| Errors.PowI | src-tauri/src/models/error.rs:395 | For a non-negative exponent this is the ordinary power; only zero to a negative power has no finite value |
| Errors.DelayForAttempt | src-tauri/src/models/error.rs:394-397 | The delay never exceeds the configured maximum, and a zero initial delay always gives zero |
| RetryLemmas.DelayValue | src-tauri/src/models/error.rs:394-397 | For attempts below 2^31 the delay is the initial delay times the multiplier to the power of the attempt, cast to u64 with saturation, capped at the maximum |
| RetryLemmas.DelayValueWrapped | src-tauri/src/models/error.rs:394-397 | From attempt 2^31 the `as i32` cast makes the exponent negative, so the delay divides by the multiplier to the power 2^32 - attempt; a zero multiplier gives the cap, or 0 from a zero initial delay |
| Errors.DelayMonotone | src-tauri/src/models/error.rs:394-397 | With a multiplier of at least 1, a later attempt (below 2^31) never waits less than an earlier one |
| Errors.DefaultDelays | src-tauri/src/models/error.rs:381-397 | The default schedule gives 1000, 2000 and 4000 ms for attempts 0 to 2, and the 30000 ms cap at attempt 10 |
| Errors.DelayAtWrappedAttempt | src-tauri/src/models/error.rs:395 | Attempt 2^32-1 becomes exponent -1 through the `as i32` cast and gives half the initial delay |
| Errors.FirstLineWith | src-tauri/src/models/error.rs:433-434 | The line found is the first line containing the word; nothing is found exactly when no line contains it |
| Errors.ErrorLineOrFirst | src-tauri/src/models/error.rs:447-452 | When some stderr line mentions "ERROR" the text is the first such line; otherwise it is the first line, or "Unknown error" when there is none |
| Errors.ParseYtdlpError | src-tauri/src/models/error.rs:405-454 | The variant is the one the keyword chain picks. An unsupported-URL error carries the first line containing "http", else "Unknown URL". Timeout and network errors carry the first stderr line, else "Connection timed out" or "Network error". A generic error carries the first line mentioning "ERROR", else the first line, else "Unknown error" |
| Errors.WithPayload | src-tauri/src/models/error.rs:432-453 | The error has the chosen variant. An unsupported URL carries the first line with "http" or "Unknown URL"; a timeout or network error the first stderr line or its fixed text; a generic error the first "ERROR" line, else the first line, else "Unknown error" |
| Errors.EmptyStderr | src-tauri/src/models/error.rs:448-453 | Empty stderr gives GenericError("Unknown error") |
| Errors.ParseYtdlpErrorFollowsTable | src-tauri/src/models/error.rs:405-454 | On every input the hand-written chain picks the variant of the first holding rule of a nine-row keyword table, or the catch-all |
| Errors.YtdlpRulesMean | src-tauri/src/models/error.rs:408-446 | Each table row holds exactly when the source's keyword test for that variant does |
| Parser.ParsePercentage | src-tauri/src/download/parser.rs:188-199 | The percentage always lies in [0, 100], and the placeholders "na", "n/a" and "unknown" (any case) give 0 |
| Parser.UnitMultiplier | src-tauri/src/download/parser.rs:236-243 | Every unit maps to a power of 1024 from 1 to 1024^4, and an unknown unit counts as bytes |
| Parser.NumberPrefixLength | src-tauri/src/download/parser.rs:269-273 | The number part is the longest prefix of digits, '.' and '-' |
| Parser.SplitNumberUnit | src-tauri/src/download/parser.rs:265-276 | The two parts concatenate back to the trimmed input; the first is made only of digits, '.' and '-', and the second does not start with one |
| Parser.ParseBytes | src-tauri/src/download/parser.rs:208-246 | The placeholders "n/a", "na", "unknown" and "none" (any case) and the empty text give no size |
| Parser.WithUnit | src-tauri/src/download/parser.rs:232-245 | A size with a unit exists exactly when its numeric part parses as a number |
| Parser.CleanSpeed | src-tauri/src/download/parser.rs:249-255 | The speed is "--" for the placeholders and otherwise the trimmed text |
| Parser.ParseEta | src-tauri/src/download/parser.rs:280-306 | "n/a", "unknown", empty text and four or more colon fields give no ETA |
| Parser.EtaFromFields | src-tauri/src/download/parser.rs:289-305 | No ETA for zero or more than three fields, and an ETA only when every field is an unsigned number |
| Parser.ParseProgressLine | src-tauri/src/download/parser.rs:32-60 | A line is Merging exactly when its trimmed text contains "[Merger]", "Merging" or "[ffmpeg]". Every progress result has a percentage in [0, 100] and status "downloading" |
| Parser.ParseDownloadLine | src-tauri/src/download/parser.rs:64-135 | A `[download]` line never reads as Merging; its percentage is in [0, 100], and the downloaded bytes never exceed the total, or are 0 when the total is unknown |
| Parser.DownloadLineEvent | src-tauri/src/download/parser.rs:107-134 | The downloaded count is the percentage's share of the total when a total is known, and 0 otherwise |
| Parser.DownloadLineEta | src-tauri/src/download/parser.rs:98-104 | Without "ETA " there is no ETA |
| Parser.DownloadLineSpeed | src-tauri/src/download/parser.rs:83-95 | Without " at " the speed is "--" |
| Parser.DownloadLineTotal | src-tauri/src/download/parser.rs:107-115 | Without " of " there is no total |
| Parser.DownloadedFromPercentage | src-tauri/src/download/parser.rs:117-118 | The downloaded count never exceeds the total and equals it at 100% |
| Parser.ParsePipeLine | src-tauri/src/download/parser.rs:139-184 | Unknown exactly when there are fewer than five fields. Otherwise the percentage is in [0, 100] with status "downloading", and the speed is "--" or the trimmed fourth field |
| Parser.PercentageFromBytes | src-tauri/src/download/parser.rs:161-174 | A non-zero percentage is kept. A zero one with positive downloaded and total counts becomes min(downloaded / total × 100, 100), and the result stays in [0, 100] |
| Parser.ParseErrorLine | src-tauri/src/download/parser.rs:329-353 | A line is an error line exactly when its trimmed text contains "ERROR:", and the error is then the categorised error text of the trimmed line |
| Parser.ErrorText | src-tauri/src/download/parser.rs:338-346 | With a leading "ERROR:" the message is the trimmed rest of the line. Otherwise it is the trimmed text after the first "ERROR:" up to the next "ERROR:" or the end of the line, so it contains no "ERROR:" |
| Parser.MakeParsedError | src-tauri/src/download/parser.rs:349-352 | The parsed error's category is the message's category |
| Parser.TruncateMessage | src-tauri/src/download/parser.rs:443-449 | The result is never longer than the limit. A short message is kept, and a long one is cut to limit-3 characters followed by "..." |
| Parser.UserMessage | src-tauri/src/download/parser.rs:418-440 | A generic message is the text truncated to 200 characters, and a network message starts with "Network error: " |
| Parser.ToDownloadError | src-tauri/src/download/parser.rs:452-463 | Network and generic categories carry the parsed message into the matching download error |
| ParserLemmas.PercentageRoundTrip | src-tauri/src/download/parser.rs:188-199 | "N%" reads back as N for every N from 0 to 100 |
| ParserLemmas.EtaSecondsRoundTrip | src-tauri/src/download/parser.rs:291-292 | A bare number of seconds reads back as itself |
| ParserLemmas.EtaMinutesRoundTrip | src-tauri/src/download/parser.rs:293-297 | "M:S" reads back as 60·M + S (modulo 2^64) |
| ParserLemmas.EtaHoursRoundTrip | src-tauri/src/download/parser.rs:298-303 | "H:M:S" reads back as 3600·H + 60·M + S (modulo 2^64) |
| ParserLemmas.BytesRoundTrip | src-tauri/src/download/parser.rs:221-224 | A plain byte count reads back as itself |
| ParserLemmas.BytesWithUnit | src-tauri/src/download/parser.rs:231-245 | A count followed by a unit word is scaled by that unit's multiplier |
| ParserLemmas.KnownUnits | src-tauri/src/download/parser.rs:236-243 | The multipliers of b, kib, k, mib, mb, gib and tib, and 1 for an unknown unit |
| ParserLemmas.BytesInMebibytes | src-tauri/src/download/parser.rs:231-245 | "NMiB" reads back as N × 1048576 below the 64-bit limit |
| ParserLemmas.PipeOfFields | src-tauri/src/download/parser.rs:139-184 | A five-field line whose fields read as a positive percentage, two byte counts and an ETA carries exactly those values |
| ParserLemmas.PipeRoundTrip | src-tauri/src/download/parser.rs:139-184 | A pipe line rendered from a positive percentage, two byte counts, a speed and an ETA in seconds parses back to exactly those values |
| ParserLemmas.CategorizeFollowsTable | src-tauri/src/download/parser.rs:357-415 | The category is that of the first pattern group matching the lower-cased message, in the order private, age, region, network, not-found, else generic |
| ParserLemmas.RedundantPatterns | src-tauri/src/download/parser.rs:361-373 | "this video is private" and "sign in to confirm your age" never decide anything, since each contains an earlier pattern of its group |
| ParserLemmas.ErrorLineOfMessage | src-tauri/src/download/parser.rs:338-352 | "ERROR: m" is recognised and categorised by m itself |
| ParserLemmas.NonErrorLine | src-tauri/src/download/parser.rs:343-346 | A line without "ERROR:" is not an error line |
| ParserLemmas.ToDownloadErrorKeepsCategory | src-tauri/src/download/parser.rs:452-463 | Converting to a download error loses no category |
| ParserLemmas.PipeLinesParsedWhole | src-tauri/src/download/parser.rs:46-49 | A line with '|' that does not start with '[' (and is no merge line) is pipe-parsed whole |
| ParserLemmas.WordPercentageIsZero | src-tauri/src/download/parser.rs:196-198 | A percentage field starting with a letter other than the placeholders' initials reads as 0 |
| ParserLemmas.PrefixedPipeLine | src-tauri/src/download/parser.rs:139-174 | A pipe line whose first field starts with "download:" gets a percentage only from its byte counts |
| ParserLemmas.DownloadPrefixNotStripped | src-tauri/src/download/parser.rs:46-57 | The "download:" branch is never reached: such lines are parsed whole, and their percentage is 0 unless recovered from the byte counts |
| Process.ListedIsIn | src-tauri/src/download/process.rs:312-315 | The `matches!` test on the extension accepts exactly the extensions in the media list |
| Process.FileName | src-tauri/src/download/process.rs:289 | A file name, when there is one, is a single non-empty component other than "." and "..", with no '/' |
| Process.Extension | src-tauri/src/download/process.rs:297 | An extension never contains a '.' |
| Process.FileNameOfParts | src-tauri/src/download/process.rs:289-292 | A path joined from a root, directories and a file name is absolute, and its file name is that last piece |
| Process.ValidFilepathOfName | src-tauri/src/download/process.rs:288-316 | An absolute path with no '[', ']' or "download:" whose file name is stem.ext is accepted exactly when the stem is non-empty and the extension, in any letter case, is one of the thirteen media extensions |
| Process.ExtractOutputPath | src-tauri/src/download/process.rs:320-335 | A path comes back exactly when the line holds the download-destination marker or the merger marker |
| Process.DestinationRoundTrip | src-tauri/src/download/process.rs:321-324 | A download-destination line gives back the (trimmed) path it names |
| Process.MergerRoundTrip | src-tauri/src/download/process.rs:326-332 | A merger line gives back the quoted path it names, as long as the path has no "into" and no surrounding spaces or quotes |
| Process.MergerPathHasNoInto | src-tauri/src/download/process.rs:327-331 | The merger path is cut at the first "into" after the marker's own: what comes back never contains "into" |
| Process.StdoutEvent | src-tauri/src/download/process.rs:182-199 | A stdout line gives progress, merging or a file path. A file path is reported exactly for an unparsed line that passes the file-path test, and it is the line itself |
| Process.StderrEvent | src-tauri/src/download/process.rs:232-253 | A stderr line gives progress, merging or an error, with progress parsing first. An unparsed line gives an event exactly when the error parser recognises it |
| Process.StderrErrorNotSpawn | src-tauri/src/download/process.rs:249-253 | No stderr line produces an event that only the process's exit can produce |
| Process.ChunksFrom | src-tauri/src/download/process.rs:170-211 | Every flushed chunk is non-empty and holds no line feed or carriage return |
| Process.ChunkLine | src-tauri/src/download/process.rs:176-178 | A chunk yields a line only when it is valid UTF-8 and non-empty after trimming; the line has no surrounding whitespace |
| Process.ReadStdoutChunks | src-tauri/src/download/process.rs:166-211 | The byte-by-byte loop flushes exactly the chunks the stream's line splitting defines |
| Process.StdoutOutputs | src-tauri/src/download/process.rs:164-212 | The stdout reader sends only progress, merging and file paths, and every file path passes the file-path test |
| Process.CollectChunk | src-tauri/src/download/process.rs:205-207 | Bytes with no line end are only buffered, never flushed |
| Process.StdoutLine | src-tauri/src/download/process.rs:174-204 | A line end flushes the buffer when it is non-empty and clears it, so "\r\n" and repeated line ends give no empty chunk |
| Process.StdoutTailDropped | src-tauri/src/download/process.rs:172 | Bytes after the last line end are never flushed: the stream's unterminated tail is lost |
| Process.StdoutLineRoundTrip | src-tauri/src/download/process.rs:170-204 | A trimmed, non-empty text line closed by '\n' or '\r' is read back as that line, followed by the rest of the stream's lines |
| Process.FilePathLineReported | src-tauri/src/download/process.rs:193-198 | A printed absolute media-file path on stdout is reported as a file path, followed by the rest of the stream's events |
| Process.IndexOfByte | src-tauri/src/download/process.rs:227 | The position found is that of the first such byte, and none means the byte does not occur |
| Process.DropCR | src-tauri/src/download/process.rs:227 | The line is its bytes with exactly one trailing carriage return removed when there is one, and unchanged otherwise |
| Process.FirstLine | src-tauri/src/download/process.rs:227 | The stream splits at its first line feed into a line with no line feed and the rest; with no line feed, everything is the last line |
| Process.StderrOutputs | src-tauri/src/download/process.rs:226-255 | The stderr reader never sends a file path or an event only the exit produces |
| Process.ProgressBounded | src-tauri/src/download/process.rs:164-255 | Every progress event either reader sends, from either line format, has a percentage in [0, 100] and status "downloading" |
| Process.StderrLineRoundTrip | src-tauri/src/download/process.rs:227 | A text line without line ends, closed by "\n" or "\r\n", is read back as that line followed by the rest of the lines |
| Process.StderrStopsAtInvalid | src-tauri/src/download/process.rs:227 | A line that is not valid UTF-8 ends the stderr reader: nothing from it or after it is read |
| Process.ExitEvent | src-tauri/src/download/process.rs:260-282 | Exit code 0 gives Completed with an empty path. No code, -1, 137 or 9 gives Terminated; any other code gives ExitError with that code; a failed wait gives a spawn error |
| Process.Interleave | src-tauri/src/download/process.rs:158-159 | The channel receives every event of both readers exactly once (the multiset of events is the union of theirs), and each reader's events arrive in the order that reader sent them |
| Process.InterleavePaths | src-tauri/src/download/process.rs:158-159 | When one reader reports no file, the merged stream reports exactly the other reader's files, in its order, under every schedule |
| Process.StreamPaths | src-tauri/src/download/process.rs:158-282 | The file paths on the channel are exactly those the stdout reader sent, in its order, whichever way the readers interleave |
| Process.StreamOutputs | src-tauri/src/download/process.rs:257-282 | The exit event comes last and only last, after both readers finish, and every file path on the channel passes the file-path test |
| Args.ConvertTemplate | src-tauri/src/download/args.rs:21-42 | The converted template always contains the extension field "%(ext)s" |
| Args.ConvertPlain | src-tauri/src/download/args.rs:21-42 | A template without placeholders is kept as it is. ".%(ext)s" is appended unless the extension field is already there |
| Args.ConvertPieces | src-tauri/src/download/args.rs:21-42 | A template of literal text (without "{") and placeholders converts to the same sequence with every placeholder written in yt-dlp's syntax and the text unchanged. ".%(ext)s" is appended exactly when no "{ext}" placeholder gave the extension field |
| Args.RenderStep | src-tauri/src/download/args.rs:25-34 | Each `replace` call of the chain rewrites exactly the occurrences of its own placeholder, whatever the other placeholders and the text around them |
| Args.FilenameTemplate | src-tauri/src/download/args.rs:77-82 | A non-empty user template is converted, and a missing or empty one gives "%(title)s.%(ext)s"; either way the extension field is present |
| Args.FormatSelector | src-tauri/src/download/args.rs:89-110 | The six audio formats take "bestaudio/best". Any other format gets the height-capped selector for 1080p or 720p, and "bestvideo+bestaudio/best" for every other quality |
| Args.ExtractionArgs | src-tauri/src/download/args.rs:128-164 | The extraction block is empty exactly for non-audio formats and starts with "-x" otherwise. "--audio-format" is passed for every audio format but audio-best, and "--audio-quality" only for mp3, aac and opus |
| Args.MergeFormat | src-tauri/src/download/args.rs:202-216 | A merge container exists exactly for video-mp4, video-webm and video-mkv |
| Args.MergeArgs | src-tauri/src/download/args.rs:202-216 | The merge option names the format's container, and is absent for every other format |
| Args.NewBuilder | src-tauri/src/download/args.rs:56-62 | A new builder holds the configuration with no ffmpeg directory and no proxy |
| Args.SpawnBuilder | src-tauri/src/download/process.rs:63-74 | The spawn builder holds the configuration, the resolved ffmpeg directory and the configuration's proxy |
| Args.OptionArgs | src-tauri/src/download/args.rs:180-199 | A cookies or proxy option is passed with its value exactly when the value is present and non-empty |
| Args.SubtitleArgs | src-tauri/src/download/args.rs:173-177 | Subtitle embedding passes "--embed-subs --sub-langs all" exactly when enabled |
| Args.FfmpegArgs | src-tauri/src/download/args.rs:188-191 | The ffmpeg directory is passed whenever it is set, even when empty |
| Args.Head | src-tauri/src/download/args.rs:116-125 | The command line starts with the URL, "-f" with the selector and "-o" with the template |
| Args.Build | src-tauri/src/download/args.rs:113-256 | Every command line starts with the five head words and ends with the fixed tail of fourteen words, from the progress template to "--retries 10" |
| Args.BuildWords | src-tauri/src/download/args.rs:113-256 | An option word that no user value equals occurs in the command line exactly when it occurs in the head, the extraction block, the middle options or the tail |
| Args.ExtractFlagIff | src-tauri/src/download/args.rs:128-164 | "-x" is passed exactly for the six audio formats |
| Args.AudioFormatFlagIff | src-tauri/src/download/args.rs:128-159 | "--audio-format" is passed exactly for the audio formats other than audio-best |
| Args.AudioQualityFlagIff | src-tauri/src/download/args.rs:129-149 | "--audio-quality" is passed exactly for audio-mp3, audio-aac and audio-opus |
| Args.EmbedSubsFlagIff | src-tauri/src/download/args.rs:173-177 | "--embed-subs" is passed exactly when subtitles are to be embedded |
| Args.CookiesFlagIff | src-tauri/src/download/args.rs:180-185 | "--cookies-from-browser" is passed exactly when a non-empty browser is set |
| Args.ProxyFlagIff | src-tauri/src/download/args.rs:194-199 | "--proxy" is passed exactly when a non-empty proxy is set |
| Args.FfmpegFlagIff | src-tauri/src/download/args.rs:188-191 | "--ffmpeg-location" is passed exactly when an ffmpeg directory is set |
| Args.MergeFlagIff | src-tauri/src/download/args.rs:202-216 | "--merge-output-format" is passed exactly for the three video formats |
| Args.AudioFormatValue | src-tauri/src/download/args.rs:128-159 | Every "--audio-format" on the command line is followed by the codec of the audio format |
| Args.AudioQualityValue | src-tauri/src/download/args.rs:129-149 | Every "--audio-quality" is followed by "0" |
| Args.SubLangsValue | src-tauri/src/download/args.rs:173-177 | Every "--sub-langs" is followed by "all" |
| Args.CookiesValue | src-tauri/src/download/args.rs:180-185 | Every "--cookies-from-browser" is followed by the configured browser |
| Args.FfmpegValue | src-tauri/src/download/args.rs:188-191 | Every "--ffmpeg-location" is followed by the ffmpeg directory |
| Args.ProxyValue | src-tauri/src/download/args.rs:194-199 | Every "--proxy" is followed by the proxy URL |
| Args.MergeValue | src-tauri/src/download/args.rs:202-216 | Every "--merge-output-format" is followed by the container of the video format |
| Subtitles.DefaultOptions | src-tauri/src/commands/subtitles.rs:53-63 | By default nothing is downloaded or embedded, all languages are meant, automatic captions are off and the format is SRT |
| Subtitles.LangValue | src-tauri/src/commands/subtitles.rs:243-250 | The language selection is "all" for an empty list and the codes joined by commas otherwise |
| Subtitles.SubFormat | src-tauri/src/commands/subtitles.rs:253-260 | SRT, VTT and ASS are requested by name with a "/best" fallback, and every other format falls back to "srt/best" |
| Subtitles.WriteArgs | src-tauri/src/commands/subtitles.rs:229-236 | "--write-subs" is passed only when downloading, followed by "--write-auto-subs" when automatic captions are included |
| Subtitles.FormatArgs | src-tauri/src/commands/subtitles.rs:252-265 | Format selection and conversion to the requested format are passed only when downloading |
| Subtitles.SubtitleArgs | src-tauri/src/commands/subtitles.rs:222-268 | There are no options exactly when subtitles are neither downloaded nor embedded. Otherwise the language selection follows the write and embed options, and a download ends with the format and conversion options |
| Subtitles.SubtitleWords | src-tauri/src/commands/subtitles.rs:222-268 | A word other than the user's values and the fixed option names occurs exactly as the write, automatic-caption and embed flags say |
| Subtitles.WriteSubsIff | src-tauri/src/commands/subtitles.rs:230-231 | Subtitle files are written exactly when downloading is asked for |
| Subtitles.WriteAutoSubsIff | src-tauri/src/commands/subtitles.rs:233-235 | Automatic captions are written exactly when downloading them is asked for |
| Subtitles.EmbedSubsIff | src-tauri/src/commands/subtitles.rs:239-241 | Subtitles are embedded exactly when asked for |
| Subtitles.Lookup | src-tauri/src/commands/subtitles.rs:215-216 | A found name is stored in the table under the key, and nothing is found exactly when no entry has the key |
| Subtitles.BaseCode | src-tauri/src/commands/subtitles.rs:216 | The base code has no '-' |
| Subtitles.LanguageName | src-tauri/src/commands/subtitles.rs:172-219 | A code is named by the table's name for its base code, and is upper-cased when the table does not know it |
| Subtitles.RegionalCode | src-tauri/src/commands/subtitles.rs:216 | A regional code "base-region" has that base, and is named like its base language when the table knows it |
| Subtitles.KnownCodeExamples | src-tauri/src/commands/subtitles.rs:276-278 | "en" and "en-US" are both named "English", and "tr" is named "Türkçe" |
| Subtitles.UnknownCodeExample | src-tauri/src/commands/subtitles.rs:279 | An unknown code is named by its upper-case form |
| Subtitles.Dedup | src-tauri/src/commands/subtitles.rs:148-154 | The kept extensions are exactly the given ones, each once, in the order of their first occurrence |
| Subtitles.ParseTrack | src-tauri/src/commands/subtitles.rs:145-169 | A track keeps its code and kind. Its formats are each extension some entry names, once each, in order of first mention, and its name is the first entry's name, else the code's language name |
| Subtitles.Kept | src-tauri/src/commands/subtitles.rs:110-115 | A language is kept exactly when its value is an array yielding at least one format |
| Subtitles.Tracks | src-tauri/src/commands/subtitles.rs:108-133 | The tracks are sorted by language code and are a permutation of the kept languages; a missing object gives no tracks |
| Subtitles.ParseSubtitleJson | src-tauri/src/commands/subtitles.rs:100-142 | Malformed JSON is exactly the error case, reported as "Failed to parse subtitle info: " and serde's reason. Otherwise both lists are built from their objects, and there are subtitles exactly when either list is non-empty |
| Subtitles.TracksAreKept | src-tauri/src/commands/subtitles.rs:108-129 | Every listed track has a format, has its list's kind and comes from a language of that object |
| Subtitles.KeptAreTracks | src-tauri/src/commands/subtitles.rs:108-129 | Every language with some format is listed |
| Subtitles.FetchArgs | src-tauri/src/commands/subtitles.rs:73-80 | The listing run takes four fixed options and then the URL |
| Subtitles.FetchSubtitles | src-tauri/src/commands/subtitles.rs:67-97 | A blank URL is refused first. A run that cannot start, or that fails, reports its error or the first stderr line ("Unknown error" when there is none); a successful run is parsed |
| Update.IsDateVersionIff | src-tauri/src/commands/update.rs:258-280 | The version test on a ten-character window accepts exactly the texts that begin with the YYYY.MM.DD shape: four digits starting "20", a dot, two digits, a dot, two digits |
| Update.DateVersionHasPattern | src-tauri/src/commands/update.rs:258-280 | Whatever the version test accepts begins with the YYYY.MM.DD shape |
| Update.PatternIsDateVersion | src-tauri/src/commands/update.rs:258-280 | Whatever begins with the YYYY.MM.DD shape is accepted, whatever follows the day |
| Update.DateVersionStartsWithTwo | src-tauri/src/commands/update.rs:264-267 | Every accepted text has at least ten characters and starts with '2' |
| Update.FirstWindow | src-tauri/src/commands/update.rs:240-244 | The scan stops at the first window that passes the test, and finds none exactly when no window passes |
| Update.DigitsDotsEnd | src-tauri/src/commands/update.rs:246-249 | The version is extended through the whole run of digits and dots that follows the window, and stops at the first other character |
| Update.ExtractWith | src-tauri/src/commands/update.rs:235-255 | With any window test, the scan finds nothing exactly when no ten-character window passes |
| Update.VersionAtShape | src-tauri/src/commands/update.rs:246-250 | The version found at a date window is a piece of the text of the date shape, made of digits and dots and ending in a digit. Only dots are dropped after it before the run of digits and dots ends |
| Update.ExtractDateVersionSpec | src-tauri/src/commands/update.rs:235-255 | Where the first date window starts at position i, the result starts at i: a digits-and-dots piece of the text of the date shape, ending in a digit, with only trailing dots dropped |
| Update.ExtractDateVersionNone | src-tauri/src/commands/update.rs:235-255 | Nothing is found exactly when no ten consecutive characters have the date shape |
| Update.ExtractAfterPrefix | src-tauri/src/commands/update.rs:235-255 | After a prefix without the digit 2, a version of digits and dots in the date shape and ending in a digit is found whole |
| Update.NoTwoNoVersion | src-tauri/src/commands/update.rs:264-267 | A text without the digit 2 has no version |
| Update.ExtractDateVersionExamples | src-tauri/src/commands/update.rs:289-291 | After a word without the digit 2, such as "yt-dlp " or "version ", "2024.01.15" is found whole and "2024.01.15.1" keeps its fourth part |
| Update.ExtractDateVersionNoDate | src-tauri/src/commands/update.rs:292 | "no version here" has no version |
| Update.FirstVersion | src-tauri/src/commands/update.rs:225-231 | The output's version is that of the first line that has one, and there is none exactly when no line has one |
| Update.ExtractVersionFromOutput | src-tauri/src/commands/update.rs:223-232 | The version is searched line by line, and empty output has none |
| Update.GetVersion | src-tauri/src/commands/update.rs:42-60 | A run that cannot start gives "Failed to execute yt-dlp: …". A successful run gives its trimmed output, and a failed one "Failed to get yt-dlp version: " with its stderr |
| Update.CheckUpdate | src-tauri/src/commands/update.rs:161-214 | An unreadable installed version is the only error. A check that cannot start is reported in the result with no update and no latest version. Otherwise an update is available exactly when the combined output announces one, the latest version then comes from that output, and with no announcement it is the installed version |
| Update.CheckUpdateLatest | src-tauri/src/commands/update.rs:186-195 | A latest version other than the installed one needs an announcement and a version in the output, and an announcement without a version leaves the latest version unknown |
| Update.UpdateYtdlp | src-tauri/src/commands/update.rs:67-155 | Spawn and wait failures are errors. Otherwise the result succeeds exactly when the run did, and counts as an update exactly when it succeeded without "is up to date". An up-to-date result says "yt-dlp is already up to date (version)", with "unknown" for an unreadable version. An update's version is the version read afterwards, else the one in the output, and its message is "Successfully updated yt-dlp to version v", or "Successfully updated yt-dlp" without one. A failure keeps the version read before and reports "Update failed: " with the last output line, or "Update failed with unknown error" on empty output |
| Update.UpToDateIsContains | src-tauri/src/commands/update.rs:113-114 | The up-to-date test is the test for "is up to date" alone: its first phrase contains the second |
| Update.ByteSlice | src-tauri/src/commands/update.rs:243-250 | A byte slice of a string exists only between character boundaries, and any other slice panics |
| Update.IsDateVersionAsWritten | src-tauri/src/commands/update.rs:258-280 | A text passes only when it has at least three dot-separated parts |
| Update.ScanAsWritten | src-tauri/src/commands/update.rs:235-255 | With fewer than ten characters left the scan ends with no version, and a window end that is not a character boundary panics |
| Update.ArrowLinePanics | src-tauri/src/commands/update.rs:240-244 | "Updated → 2024.01.15" makes the scan as written cut the arrow's bytes at its first window and panic |
| Update.ArrowLineDate | src-tauri/src/commands/update.rs:235-255 | On the same line the scan over characters finds "2024.01.15" |
| Logging.Last | src-tauri/src/utils/logging.rs:67-74 | The last n entries, in their order, or all of them when there are fewer |
| Logging.LastAppend | src-tauri/src/utils/logging.rs:46-52 | Trimming to the newest n entries and then appending, then trimming again, equals appending and trimming once |
| Logging.NewBuffer | src-tauri/src/utils/logging.rs:39-43 | A new buffer is empty and within the 500-entry bound |
| Logging.Push | src-tauri/src/utils/logging.rs:46-52 | A pushed entry is the newest. A bounded buffer stays bounded and holds the last 500 of its old entries followed by the new one |
| Logging.PushAllKeepsLast | src-tauri/src/utils/logging.rs:46-52 | After any run of pushes a bounded buffer holds exactly the last 500 of its old entries followed by the pushed ones, in order |
| Logging.PushesFromEmpty | src-tauri/src/utils/logging.rs:39-52 | From a new buffer, the buffer holds the last 500 pushes in the order they came, and never more than 500 |
| Logging.Format | src-tauri/src/utils/logging.rs:59 | A formatted entry is "[timestamp] ", then the level and the target separated by one space, then " - message", with nothing else in it |
| Logging.FormatAll | src-tauri/src/utils/logging.rs:57-59 | Each entry is formatted, one line per entry, in order |
| Logging.GetLogs | src-tauri/src/utils/logging.rs:55-62 | Every kept entry's formatted line occurs in the export, and an empty buffer exports the empty text. When no entry holds a line feed, splitting the export at line feeds gives back the formatted entries in buffer order |
| Logging.GetRecentLogs | src-tauri/src/utils/logging.rs:65-78 | The recent export is the full export of the last `count` entries. It is the whole export when `count` covers the buffer, and empty for a count of 0 |
| Logging.Clear | src-tauri/src/utils/logging.rs:81-84 | A cleared buffer holds nothing and exports the empty text |
| Logging.UserPatterns | src-tauri/src/utils/logging.rs:317-327 | Six exact patterns name the user's profile |
| Logging.LowerPatterns | src-tauri/src/utils/logging.rs:336-339 | Two lower-case patterns are tried ignoring case |
| Logging.ReplacePatterns | src-tauri/src/utils/logging.rs:329-332 | Text in which no pattern occurs is left unchanged |
| Logging.Escape | src-tauri/src/utils/logging.rs:396-411 | Escaping never shortens a text and leaves a text without special characters unchanged |
| Logging.EscapeAppend | src-tauri/src/utils/logging.rs:396-411 | Escaping distributes over concatenation, because the backslash is escaped first and never again |
| Logging.ReplaceAllIgnoringCase | src-tauri/src/utils/logging.rs:341-351 | Text in which no escaped, lower-cased pattern occurs, ignoring case, is left unchanged |
| Logging.FirstSeparator | src-tauri/src/utils/logging.rs:374 | The user name ends at the first '\\' or '/' and contains neither |
| Logging.ProfilePrefixShape | src-tauri/src/utils/logging.rs:364-366 | A profile prefix has its colon at index 1 and separators at indexes 2 and 8 |
| Logging.SeparatorAsWritten | src-tauri/src/utils/logging.rs:367-371 | As written, the separator test reads index 2, which holds a separator and never a colon, so the separator is always '/' |
| Logging.SeparatorKept | src-tauri/src/utils/logging.rs:367-371 | Looking for the colon at index 1 keeps the separator the prefix uses |
| Logging.ProfileSegment | src-tauri/src/utils/logging.rs:360-386 | A profile path keeps its prefix, its user name becomes "<USER>" followed by one separator, and the pass continues after the name's separator |
| Logging.NoProfileUnchanged | src-tauri/src/utils/logging.rs:360-386 | Text with no profile prefix anywhere passes through unchanged |
| Logging.NoUsersUnchanged | src-tauri/src/utils/logging.rs:311-393 | Text that never spells "users", in any letter case, is returned unchanged, whatever the user name |
| Logging.ProfileSegmentAsWritten | src-tauri/src/utils/logging.rs:364-380 | As written, a profile path always gets a '/' after the placeholder, whichever separator the path uses |
| Logging.ProfileSegmentKeepsSeparator | src-tauri/src/utils/logging.rs:364-380 | With the colon looked for at index 1, a profile path keeps its prefix's separator after the placeholder |
| Logging.BackslashPathExample | src-tauri/src/utils/logging.rs:364-380 | "C:\Users\Bob\notes.txt" becomes "C:\Users\<USER>/notes.txt" as written, and "C:\Users\<USER>\notes.txt" when corrected |
| MediaInfoFetch.MaxOf | src-tauri/src/commands/media_info.rs:80 | The maximum is absent exactly for no sizes, is one of them, and is at least every one |
| MediaInfoFetch.SizeFromFormats | src-tauri/src/commands/media_info.rs:70-82 | With no top-level size, an estimate exists exactly when some format reports a size (exact, else approximate), and it is the largest such size |
| MediaInfoFetch.ParseMediaInfoJson | src-tauri/src/commands/media_info.rs:49-91 | Malformed JSON is exactly the error case, reported with "Failed to parse media info: ". The title defaults to "Unknown Title", the uploader falls back to the channel, and the size is the top-level estimate, else the top-level size |
| MediaInfoFetch.MediaVariant | src-tauri/src/commands/media_info.rs:94-116 | The command's classifier only reports private, age-restricted, region-locked, not-found, network or generic failures |
| MediaInfoFetch.MediaErrorText | src-tauri/src/commands/media_info.rs:94-122 | Private, age-restricted, region-locked and not-found failures show their fixed texts. A network failure shows the network error with the first stderr line. A generic one shows the first line mentioning "ERROR", else the first line, or "Unknown error" for empty stderr |
| MediaInfoFetch.MediaTextIsDisplay | src-tauri/src/commands/media_info.rs:97-121 | For each kind the command reports, its message is the display text of the download error of that kind |
| MediaInfoFetch.SameTextWhereAgreed | src-tauri/src/commands/media_info.rs:94-122 | Where the command's classifier and the download error classifier agree on the kind, the command shows the download error's display text |
| MediaInfoFetch.FetchMediaInfo | src-tauri/src/commands/media_info.rs:19-46 | A blank URL is refused as an invalid URL before anything runs. A missing program and a failed start are reported as such, a failed run by its classified stderr, and a successful run's output is parsed |
| Playlist.NonEmpty | src-tauri/src/commands/playlist.rs:23-33 | A stored cookie setting is kept exactly when present and non-empty, and then unchanged |
| Playlist.CookiesFromPreferences | src-tauri/src/commands/playlist.rs:12-36 | An unreadable store or missing preferences give no cookie settings. Otherwise both settings are read, with empty values dropped |
| Playlist.ListingArgs | src-tauri/src/commands/playlist.rs:102-117 | A listing starts with the three fixed options and ends with the URL. A cookie file is passed when set, the browser only when no file is set, and otherwise nothing is added |
| Playlist.CookieFileWins | src-tauri/src/commands/playlist.rs:107-115 | With a cookie file set, "--cookies" is passed and "--cookies-from-browser" never is |
| Playlist.CheckIsPlaylist | src-tauri/src/commands/playlist.rs:80-138 | A blank URL is not a playlist, and a YouTube URL with "list=" or "/playlist" is one without a listing. Errors arise only from a listing that cannot start or whose output does not parse; a failed listing means no, and otherwise the listing's `_type` decides |
| Playlist.ParseEntry | src-tauri/src/commands/playlist.rs:214-239 | An entry is kept exactly when it is watchable and has an id. It gets index position+1 (as a 32-bit number), "Unknown" for a missing title, the watch URL built from its id for a missing URL, and the channel for a missing uploader |
| Playlist.KeptAt | src-tauri/src/commands/playlist.rs:214-240 | Each listing entry contributes one playlist entry when kept and none otherwise |
| Playlist.Entries | src-tauri/src/commands/playlist.rs:209-243 | There are never more playlist entries than listing entries |
| Playlist.EntriesCount | src-tauri/src/commands/playlist.rs:209-245 | The number of entries is the number of listed (watchable, identified) listing entries |
| Playlist.EntriesOrdered | src-tauri/src/commands/playlist.rs:213-235 | Without wrap-around each index lies within the positions of the listing and the indexes strictly increase, so the entries keep playlist order |
| Playlist.EntrySource | src-tauri/src/commands/playlist.rs:209-243 | Every entry is the parse of a listed listing entry at its position |
| Playlist.EntryKept | src-tauri/src/commands/playlist.rs:209-243 | Every listed listing entry appears among the entries |
| Playlist.ParsePlaylistJson | src-tauri/src/commands/playlist.rs:187-256 | Malformed JSON and a kind other than "playlist" are the errors. The count is the number of kept entries (modulo 2^32), the title defaults to "Unknown Playlist", the URL prefers the web page URL, and the uploader falls back to the channel |
| Playlist.FetchPlaylistInfo | src-tauri/src/commands/playlist.rs:142-184 | A blank URL is refused first. A listing that cannot start reports its error, a failed one reports its first stderr line ("Unknown error" when there is none), and a successful one is parsed |
| History.DefaultStats | src-tauri/src/commands/history.rs:31-40 | The default totals are all zero |
| History.OrDefault | src-tauri/src/commands/history.rs:50-72 | A missing or unreadable stored value counts as the default, and a readable one as itself |
| History.Prepend | src-tauri/src/commands/history.rs:55-61 | The new item goes first, the old entries follow in order, and the list is cut to 500 |
| History.AddOpt | src-tauri/src/commands/history.rs:77-82 | A missing size or duration leaves the total alone, and a present one is added with 64-bit wrap-around |
| History.Record | src-tauri/src/commands/history.rs:74-85 | Every download is counted. A completed one also counts as successful and adds its size and duration; any other counts as failed and changes nothing else |
| History.Add | src-tauri/src/commands/history.rs:44-96 | After adding, both keys hold values: the list with the item prepended and capped, and the totals with the item recorded, starting from the defaults when a value was missing or unreadable |
| History.GetAll | src-tauri/src/commands/history.rs:100-110 | A missing list reads as empty, a readable one as itself, and only an unreadable one is an error, "Failed to parse history: " and serde's reason |
| History.GetStats | src-tauri/src/commands/history.rs:114-124 | Missing totals read as zero, readable ones as themselves, and only unreadable ones are an error, "Failed to parse stats: " and serde's reason |
| History.Remove | src-tauri/src/commands/history.rs:128-149 | The totals are untouched and a store without a list is left alone. An unreadable list becomes empty. Otherwise the list keeps every copy of each item whose id differs and none with the id, in their original order |
| History.RemoveDetermined | src-tauri/src/commands/history.rs:138 | Any order-keeping selection of the list with exactly those multiplicities is the result, so repeated entries all stay, in place |
| History.Clear | src-tauri/src/commands/history.rs:153-165 | The list becomes empty and the totals are untouched |
| History.RecordKeepsBalanced | src-tauri/src/commands/history.rs:74-85 | Below the 64-bit limit, recording keeps total = successful + failed and adds one to the total |
| History.RecordAllCounts | src-tauri/src/commands/history.rs:74-85 | After a run of downloads without overflow, the totals stay balanced, the total grows by their number and the successful count by the number of completed ones |
| History.AddAllCapped | src-tauri/src/commands/history.rs:58-61 | However many items are added, the list never exceeds 500 entries |
| History.AddAllNewestFirst | src-tauri/src/commands/history.rs:55-61 | Whatever the store held, after a run of adds the list holds the added items newest first, for as many as fit |
| History.ClearKeepsStats | src-tauri/src/commands/history.rs:128-165 | Removing and clearing leave the reported totals unchanged |
| History.RemoveIdempotent | src-tauri/src/commands/history.rs:138 | Removing an id twice is the same as removing it once |

## Left out

- Tauri glue is not modelled: IPC command wrappers, event emission, notifications, tray and window handling, app setup and the `queue_*` wrappers. The rules they rely on are modelled in the manager, the queue and the error model.
- Concurrency is not modelled: async tasks, channels, locks, the semaphore-gated worker loop. Each operation is one atomic step. The interleaving of the stdout and stderr readers is a schedule parameter of `Process.Interleave`, and the queue's event channel is not modelled.
- Process and OS calls are not modelled: spawning yt-dlp, killing it, waiting for it, executable resolution, the output-folder checks of `spawn_ytdlp`, and version probing. A process run is a parameter holding its exit status and output bytes or parsed output.
- Windows path rules are not modelled. `Process.IsValidFilepath` follows Unix `Path` rules: absolute means starting with '/', and only '/' separates components.
- The filesystem is not modelled. A directory listing is an input list of paths with optional metadata.
- Store I/O is not modelled: the key-value store and serde (de)serialisation. The history store is a record of two values, each absent, unreadable (with serde's reason) or present. JSON documents are abstract records of the fields the code reads; an unreadable document carries serde's reason as an opaque string.
- `String::from_utf8_lossy` on the outputs of the listing and version runs is not modelled. Those outputs are strings already.
- Floating point is modelled only partly. A percentage is a `real`, and a number is read by a plain decimal grammar (optional sign, digits, optional fraction). Rust's `f64` parsing also accepts exponents, "inf" and "NaN", which are not modelled. The `as u64` casts are modelled exactly on that grammar (truncation, saturation at both ends), and `powi` is modelled on reals without rounding.
- Text is `seq<char>` and case folding is ASCII only. Where the code mixes byte and character positions, the model uses characters, except for the two findings below, which model the byte positions explicitly.
- Parser.TruncateMessage: counts characters. The code compares the byte length and slices at a byte position, which panics when the cut falls inside a multi-byte character.
- Parser.UserMessage: its contract states the generic message and the network prefix only. The four fixed messages, and the network message's truncation to 100 characters, are stated by its body alone.
- Parser.ParseEta: the sums 60·M + S and 3600·H + 60·M + S wrap modulo 2^64, as a release build does; a debug build panics instead.
- Manager.IncrementRetry: the retry counter wraps modulo 2^32 as in a release build; a debug build panics instead.
- History.RecordKeepsBalanced: proved only while the total stays below 2^64 - 1, because the counters wrap.
- History.RecordAllCounts: proved only for runs that do not reach 2^64 downloads.
- Playlist.EntriesOrdered: proved only for listings shorter than 2^32 entries, because `(idx + 1) as u32` wraps.
- QueueLemmas.RunAllKeepsInv: excludes the 2^64-th `add`, whose id counter wraps, and a `reorder` that names an id twice, which copies that id into the pending list (`QueueLemmas.ReorderCopiesRepeats` shows this).
- Args.BuildWords: assumes that the option word is not one of the user's values (URL, browser, ffmpeg directory, proxy). A URL that is literally "-x" would otherwise put "-x" on a video download's command line.
- Args.ExtractFlagIff: the same assumption about the user's values.
- Args.AudioFormatFlagIff: the same assumption about the user's values.
- Args.AudioQualityFlagIff: the same assumption about the user's values.
- Args.EmbedSubsFlagIff: the same assumption about the user's values.
- Args.CookiesFlagIff: the same assumption about the user's values.
- Args.ProxyFlagIff: the same assumption about the user's values.
- Args.FfmpegFlagIff: the same assumption about the user's values.
- Args.MergeFlagIff: the same assumption about the user's values.
- Args.AudioFormatValue: the same assumption about the user's values.
- Args.AudioQualityValue: the same assumption about the user's values.
- Args.SubLangsValue: the same assumption about the user's values.
- Args.CookiesValue: the same assumption about the user's values.
- Args.FfmpegValue: the same assumption about the user's values.
- Args.ProxyValue: the same assumption about the user's values.
- Args.MergeValue: the same assumption about the user's values.
- Args.ConvertPieces: covers templates whose every "{" opens one of the ten placeholders. A stray "{" (as in "{titl{title}") can combine with a placeholder the chain creates or leaves, and the piece-wise description does not apply.
- Logging.GetLogs: the round trip through line splitting holds only when no entry holds a line feed; a multi-line message splits into several lines.
- Subtitles.SubtitleWords: assumes that the word is neither the language list nor the format the user gave.
- Subtitles.WriteSubsIff: the same assumption about the user's values.
- Subtitles.WriteAutoSubsIff: the same assumption about the user's values.
- Subtitles.EmbedSubsIff: the same assumption about the user's values.
- Playlist.CookieFileWins: assumes that neither the cookie file nor the URL is literally "--cookies-from-browser".
- Sorting is not required to be stable. `Subtitles.Tracks` is stated as sorted and a permutation, and the order among equal language codes is left open. A JSON object has unique keys, so ties do not arise there.
- The user name that `anonymize_paths` reads from the environment is a parameter, and composing the anonymiser with the log buffer (`get_anonymized_logs`) is not modelled.
- Logging.ProfileSegment: the pass walks characters. The code advances a byte index but copies `chars().nth(i)`, so on non-ASCII text it copies the wrong characters, and `&result[i..]` (logging.rs:361) panics when i lands inside a multi-byte character, as with the user name "café". The model covers the ASCII behaviour only.
- Logging.Escape: modelled as one pass that escapes each special character once. The code's chain of `replace` calls is equivalent, because the backslash is escaped first.
- The tracing layer is not modelled: the subscriber setup, the global log buffer and the log lines the code writes.
- The worker's history entry takes the timestamp, the item's display title and the format and quality names as an input record (`Worker.EntryContext`), because they come from the clock and the front end.
- `Update.ByteSlice` models a slice that does not fall on character boundaries as a panic outcome, not as a crash of the model.
- The stale tests in src-tauri/src/download/tests.rs use a builder API and a configuration shape that the code no longer has, and are not used.

## Findings

| source | as written | input that shows it | evidently intended | confidence | as-written member | corrected member |
|---|---|---|---|---|---|---|
| src-tauri/src/commands/update.rs:240-250 | The window start and end are character counts, but `&text[i..i + 10]` and `&text[i..end]` slice bytes | "Updated → 2024.01.15": the first window ends inside the three bytes of '→', so the slice panics | Slide a ten-character window over characters and return "2024.01.15" | high (not executed) | Update.ArrowLinePanics | Update.ExtractDateVersionSpec |
| src-tauri/src/utils/logging.rs:367-371 | The separator test reads byte i+2, which in "C:\Users\" is the backslash and never the colon | "C:\Users\Bob\notes.txt" becomes "C:\Users\<USER>/notes.txt" | Read the colon at i+1 and keep the path's own separator: "C:\Users\<USER>\notes.txt" | high (not executed) | Logging.ProfileSegmentAsWritten | Logging.ProfileSegmentKeepsSeparator |

=== FILE: args.dfy ===
/** The yt-dlp command line built from a download configuration: the format
    selector, the output template, the extraction and merge options and a
    fixed tail. */
module Args {
  import opened Wrappers
  import opened Text
  import opened Models

  // ---------------------------------------------------------------------------
  // Output template
  // ---------------------------------------------------------------------------

  /** The placeholders a user template may use and what each becomes, in the
      order they are replaced. */
  const Placeholders: seq<(string, string)> := [
    ("{title}", "%(title)s"),
    ("{uploader}", "%(uploader)s"),
    ("{channel}", "%(channel)s"),
    ("{date}", "%(upload_date)s"),
    ("{quality}", "%(height)sp"),
    ("{resolution}", "%(resolution)s"),
    ("{duration}", "%(duration)s"),
    ("{id}", "%(id)s"),
    ("{playlist_index}", "%(playlist_index)s"),
    ("{ext}", "%(ext)s")]

  const ExtField: string := "%(ext)s"

  /** The template used when the user gives none: "%(title)s.%(ext)s". */
  const DefaultTemplate: string := "%(title)s." + ExtField

  /** A string followed by the extension field contains it. */
  lemma EndsWithExtField(s: string)
    ensures Contains(s + ExtField, ExtField)
  {
    assert MatchAt(ExtField, ExtField, 0) by {
      assert ExtField[0..|ExtField|] == ExtField;
    }
    ContainsConcatRight(s, ExtField, ExtField);
  }

  /** The replacements of `table` applied one after another. */
  function ReplaceEach(s: string, table: seq<(string, string)>): string
    decreases |table|
  {
    if |table| == 0 then s else ReplaceEach(Replace(s, table[0].0, table[0].1), table[1..])
  }

  /** A string holding the extension field contains `%`. */
  lemma ExtFieldHasPercent(s: string)
    requires Contains(s, ExtField)
    ensures '%' in s
  {
    var i := IndexOf(s, ExtField).value;
    assert s[i..i + |ExtField|][0] == ExtField[0];
  }

  /** `convert_template_to_ytdlp`: every placeholder rewritten, and the
      extension field appended when the result has none. The result always
      names the extension. */
  function ConvertTemplate(template: string): (r: string)
    ensures Contains(r, ExtField)
  {
    var s := ReplaceEach(template, Placeholders);
    if Contains(s, ExtField) then s
    else
      EndsWithExtField(s + ".");
      s + "." + ExtField
  }

  /** A template without placeholders is kept, with the extension field
      appended unless it is already there. */
  lemma ConvertPlain(template: string)
    requires '{' !in template
    ensures ConvertTemplate(template) ==
      if Contains(template, ExtField) then template else template + "." + ExtField
  {
    var ps := [Literal(template)];
    RenderLiteral(template, 0);
    RenderLiteral(template, |Placeholders|);
    ConvertPieces(ps);
  }

  /** A token of a user template: literal text without `{`, or the
      placeholder at an index of the table. */
  datatype Piece = Literal(text: string) | Field(index: nat)

  predicate ValidPieces(ps: seq<Piece>) {
    forall i :: 0 <= i < |ps| ==>
      (ps[i].Literal? ==> '{' !in ps[i].text) && (ps[i].Field? ==> ps[i].index < |Placeholders|)
  }

  /** The template with the first `n` table entries already rewritten:
      fields below `n` show their yt-dlp form, the rest their braces. */
  function Render(ps: seq<Piece>, n: nat): string
    requires ValidPieces(ps)
    decreases |ps|
  {
    if |ps| == 0 then ""
    else
      var head := match ps[0]
        case Literal(t) => t
        case Field(k) => if k < n then Placeholders[k].1 else Placeholders[k].0;
      head + Render(ps[1..], n)
  }

  /** The template as the user writes it. */
  function UserTemplate(ps: seq<Piece>): string
    requires ValidPieces(ps)
  {
    Render(ps, 0)
  }

  /** The same template written directly in yt-dlp's syntax. */
  function YtdlpTemplate(ps: seq<Piece>): string
    requires ValidPieces(ps)
  {
    Render(ps, |Placeholders|)
  }

  /** A template of one literal renders as that literal. */
  lemma RenderLiteral(t: string, n: nat)
    requires '{' !in t
    ensures ValidPieces([Literal(t)]) && Render([Literal(t)], n) == t
  {
    var ps := [Literal(t)];
    assert ps[1..] == [];
    assert Render(ps[1..], n) == "";
    assert t + "" == t;
  }

  /** Converting a template made of literal text and placeholders rewrites
      each placeholder in place and leaves the text alone; the extension
      field is appended when no `{ext}` gave one. */
  lemma ConvertPieces(ps: seq<Piece>)
    requires ValidPieces(ps)
    ensures var y := YtdlpTemplate(ps);
      ConvertTemplate(UserTemplate(ps)) == if Contains(y, ExtField) then y else y + "." + ExtField
  {
    assert Placeholders[0..] == Placeholders;
    RenderStages(ps, 0);
  }

  /** Applying the table from entry `n` on finishes the rewriting. */
  lemma {:induction false} RenderStages(ps: seq<Piece>, n: nat)
    requires ValidPieces(ps) && n <= |Placeholders|
    ensures ReplaceEach(Render(ps, n), Placeholders[n..]) == Render(ps, |Placeholders|)
    decreases |Placeholders| - n
  {
    if n < |Placeholders| {
      RenderStep(ps, n);
      RenderStages(ps, n + 1);
      assert ReplaceEach(Render(ps, n), Placeholders[n..]) == ReplaceEach(Render(ps, n + 1), Placeholders[n + 1..]) by {
        assert Placeholders[n..][0] == Placeholders[n];
        assert Placeholders[n..][1..] == Placeholders[n + 1..];
      }
    }
  }

  /** One `replace` call rewrites exactly the fields of entry `n`. */
  lemma {:induction false} RenderStep(ps: seq<Piece>, n: nat)
    requires ValidPieces(ps) && n < |Placeholders|
    ensures Replace(Render(ps, n), Placeholders[n].0, Placeholders[n].1) == Render(ps, n + 1)
    decreases |ps|
  {
    var (p, r) := Placeholders[n];
    PlaceholderShape(n);
    if |ps| > 0 {
      var rest := Render(ps[1..], n);
      assert ValidPieces(ps[1..]) by {
        forall i | 0 <= i < |ps[1..]| ensures (ps[1..][i].Literal? ==> '{' !in ps[1..][i].text) && (ps[1..][i].Field? ==> ps[1..][i].index < |Placeholders|) {
          assert ps[1..][i] == ps[i + 1];
        }
      }
      RenderStep(ps[1..], n);
      match ps[0]
      case Literal(t) =>
        PlainPrefix(t, rest, p, r);
      case Field(k) =>
        PlaceholderShape(k);
        if k < n {
          PlainPrefix(Placeholders[k].1, rest, p, r);
        } else if k == n {
          assert (p + rest)[..|p|] == p;
          assert (p + rest)[|p|..] == rest;
        } else {
          OtherPlaceholderPrefix(k, n, rest, r);
        }
    }
  }

  /** Text without `{` passes through a replacement of a pattern starting
      with `{`. */
  lemma PlainPrefix(t: string, u: string, p: string, r: string)
    requires '{' !in t && |p| > 0 && p[0] == '{'
    ensures Replace(t + u, p, r) == t + Replace(u, p, r)
  {
    forall i | 0 <= i < |t| ensures !StartsWith((t + u)[i..], p) {
      assert (t + u)[i..][0] == t[i];
    }
    ReplaceSkip(t, u, p, r);
  }

  /** One placeholder passes through the replacement of another. */
  lemma OtherPlaceholderPrefix(k: nat, n: nat, u: string, r: string)
    requires k < |Placeholders| && n < |Placeholders| && k != n
    ensures Replace(Placeholders[k].0 + u, Placeholders[n].0, r) == Placeholders[k].0 + Replace(u, Placeholders[n].0, r)
  {
    PlaceholderShape(k);
    PlaceholderShape(n);
    PlaceholdersDistinct(k, n);
    FieldSkip(Placeholders[k].0, Placeholders[n].0, u, r);
  }

  /** A `{name}` field passes through the replacement of a different
      `{name}` field. */
  lemma FieldSkip(q: string, p: string, u: string, r: string)
    requires |q| >= 2 && q[0] == '{' && q[|q| - 1] == '}' && '{' !in q[1..|q| - 1] && '}' !in q[1..|q| - 1]
    requires |p| >= 2 && p[0] == '{' && p[|p| - 1] == '}' && '{' !in p[1..|p| - 1] && '}' !in p[1..|p| - 1]
    requires q != p
    ensures Replace(q + u, p, r) == q + Replace(u, p, r)
  {
    var a, b := q[1..|q| - 1], p[1..|p| - 1];
    forall i | 0 <= i < |q| ensures !StartsWith((q + u)[i..], p) {
      var s := (q + u)[i..];
      if i > 0 {
        assert s[0] == q[i];
        assert i < |q| - 1 ==> q[i] == a[i - 1];
        DifferAt(s, p, 0);
      } else if |b| < |a| {
        assert s[|b| + 1] == a[|b|];
        DifferAt(s, p, |b| + 1);
      } else if |b| > |a| {
        assert p[|a| + 1] == b[|a|];
        DifferAt(s, p, |a| + 1);
      } else {
        var j :| 0 <= j < |q| && q[j] != p[j];
        DifferAt(s, p, j);
      }
    }
    ReplaceSkip(q, u, p, r);
  }

  /** A prefix at none of whose positions the pattern starts is copied
      unchanged. */
  lemma {:induction false} ReplaceSkip(q: string, u: string, p: string, r: string)
    requires |p| > 0
    requires forall i :: 0 <= i < |q| ==> !StartsWith((q + u)[i..], p)
    ensures Replace(q + u, p, r) == q + Replace(u, p, r)
    decreases |q|
  {
    if |q| > 0 {
      var s, t := q + u, q[1..] + u;
      assert s[0..] == s;
      assert s[1..] == t;
      ReplaceCopiesHead(s, p, r);
      forall i | 0 <= i < |q[1..]| ensures !StartsWith(t[i..], p) {
        assert t[i..] == s[i + 1..];
      }
      ReplaceSkip(q[1..], u, p, r);
      HeadAndRest(q, Replace(u, p, r));
    } else {
      assert q + u == u;
      HeadAndRest(q, Replace(u, p, r));
    }
  }

  lemma HeadAndRest(q: string, x: string)
    ensures |q| > 0 ==> [q[0]] + (q[1..] + x) == q + x
    ensures |q| == 0 ==> q + x == x
  {
    if |q| > 0 {
      assert q == [q[0]] + q[1..];
    }
  }

  /** Where the pattern does not start, `replace` copies the first
      character. */
  lemma ReplaceCopiesHead(s: string, p: string, r: string)
    requires |s| > 0 && |p| > 0 && !StartsWith(s, p)
    ensures Replace(s, p, r) == [s[0]] + Replace(s[1..], p, r)
  {
  }

  /** A string that differs from the pattern at one of its positions does
      not start with it. */
  lemma DifferAt(s: string, p: string, j: nat)
    requires j < |s| && j < |p| && s[j] != p[j]
    ensures !StartsWith(s, p)
  {
    if |p| <= |s| {
      assert s[..|p|][j] == s[j];
    }
  }

  /** Each entry rewrites `{name}`, with a name free of braces, into text
      free of `{`. */
  predicate Shaped(e: (string, string))
  {
    var (p, r) := e;
    |p| >= 2 && p[0] == '{' && p[|p| - 1] == '}' &&
    '{' !in p[1..|p| - 1] && '}' !in p[1..|p| - 1] && '{' !in r
  }

  lemma PlaceholderShape(k: nat)
    requires k < |Placeholders|
    ensures var (p, r) := Placeholders[k];
      |p| >= 2 && p[0] == '{' && p[|p| - 1] == '}' &&
      '{' !in p[1..|p| - 1] && '}' !in p[1..|p| - 1] && '{' !in r
  {
    if k < 2 {
      TitleShapes(k);
    } else if k < 4 {
      ChannelShapes(k);
    } else if k < 6 {
      QualityShapes(k);
    } else if k < 8 {
      DurationShapes(k);
    } else {
      IndexShapes(k);
    }
  }

  /** An entry `("{" + name + "}", r)` is shaped when neither brace occurs in
      the name and `{` does not occur in r. */
  lemma ShapedEntry(name: string, r: string)
    requires '{' !in name && '}' !in name && '{' !in r
    ensures Shaped(("{" + name + "}", r))
  {
    var p := "{" + name + "}";
    assert p[1..|p| - 1] == name;
  }

  /** The table two entries at a time, to keep each proof small:
      title and uploader. */
  lemma TitleShapes(k: nat)
    requires k < 2
    ensures Shaped(Placeholders[k])
  {
    if k == 0 {
      assert Placeholders[0].0 == "{" + "title" + "}";
      ShapedEntry("title", "%(title)s");
    } else {
      assert Placeholders[1].0 == "{" + "uploader" + "}";
      ShapedEntry("uploader", "%(uploader)s");
    }
  }

  /** Channel and date. */
  lemma ChannelShapes(k: nat)
    requires 2 <= k < 4
    ensures Shaped(Placeholders[k])
  {
    if k == 2 {
      assert Placeholders[2].0 == "{" + "channel" + "}";
      ShapedEntry("channel", "%(channel)s");
    } else {
      assert Placeholders[3].0 == "{" + "date" + "}";
      ShapedEntry("date", "%(upload_date)s");
    }
  }

  /** Quality and resolution. */
  lemma QualityShapes(k: nat)
    requires 4 <= k < 6
    ensures Shaped(Placeholders[k])
  {
    if k == 4 {
      assert Placeholders[4].0 == "{" + "quality" + "}";
      ShapedEntry("quality", "%(height)sp");
    } else {
      assert Placeholders[5].0 == "{" + "resolution" + "}";
      ShapedEntry("resolution", "%(resolution)s");
    }
  }

  /** Duration and id. */
  lemma DurationShapes(k: nat)
    requires 6 <= k < 8
    ensures Shaped(Placeholders[k])
  {
    if k == 6 {
      assert Placeholders[6].0 == "{" + "duration" + "}";
      ShapedEntry("duration", "%(duration)s");
    } else {
      assert Placeholders[7].0 == "{" + "id" + "}";
      ShapedEntry("id", "%(id)s");
    }
  }

  /** Playlist index and extension. */
  lemma IndexShapes(k: nat)
    requires 8 <= k < |Placeholders|
    ensures Shaped(Placeholders[k])
  {
    if k == 8 {
      assert Placeholders[8].0 == "{" + "playlist_index" + "}";
      ShapedEntry("playlist_index", "%(playlist_index)s");
    } else {
      assert Placeholders[9].0 == "{" + "ext" + "}";
      ShapedEntry("ext", "%(ext)s");
    }
  }

  /** No two entries share a placeholder. */
  lemma PlaceholdersDistinct(k: nat, n: nat)
    requires k < |Placeholders| && n < |Placeholders| && k != n
    ensures Placeholders[k].0 != Placeholders[n].0
  {
  }

  /** `get_filename_template`: the converted user template when there is a
      non-empty one, else the default. */
  function FilenameTemplate(config: DownloadConfig): (r: string)
    ensures config.filenameTemplate.Some? && config.filenameTemplate.value != "" ==>
      r == ConvertTemplate(config.filenameTemplate.value)
    ensures config.filenameTemplate.None? || config.filenameTemplate.value == "" ==>
      r == DefaultTemplate
    ensures Contains(r, ExtField)
  {
    if config.filenameTemplate.Some? && config.filenameTemplate.value != "" then
      ConvertTemplate(config.filenameTemplate.value)
    else
      EndsWithExtField("%(title)s.");
      DefaultTemplate
  }

  // ---------------------------------------------------------------------------
  // Format selection and extraction
  // ---------------------------------------------------------------------------

  /** The formats that extract audio. */
  const AudioFormats: seq<string> :=
    ["audio-mp3", "audio-aac", "audio-opus", "audio-flac", "audio-wav", "audio-best"]

  /** `is_audio_extraction`. */
  predicate IsAudioExtraction(format: string) {
    format in AudioFormats
  }

  /** The four format selectors. */
  const Selectors: seq<string> := [
    "bestaudio/best",
    "bestvideo[height<=1080]+bestaudio/best[height<=1080]/best",
    "bestvideo[height<=720]+bestaudio/best[height<=720]/best",
    "bestvideo+bestaudio/best"]

  /** `build_format_selector`: audio formats take the best audio; any other
      format selects video by the quality, capped at 1080 or 720 lines and
      otherwise unrestricted. */
  function FormatSelector(format: string, quality: string): (r: string)
    ensures IsAudioExtraction(format) ==> r == "bestaudio/best"
    ensures !IsAudioExtraction(format) && quality == "1080p" ==>
      r == "bestvideo[height<=1080]+bestaudio/best[height<=1080]/best"
    ensures !IsAudioExtraction(format) && quality == "720p" ==>
      r == "bestvideo[height<=720]+bestaudio/best[height<=720]/best"
    ensures !IsAudioExtraction(format) && quality != "1080p" && quality != "720p" ==>
      r == "bestvideo+bestaudio/best"
    ensures r in Selectors
  {
    if format in AudioFormats then "bestaudio/best"
    else if quality == "1080p" then "bestvideo[height<=1080]+bestaudio/best[height<=1080]/best"
    else if quality == "720p" then "bestvideo[height<=720]+bestaudio/best[height<=720]/best"
    else "bestvideo+bestaudio/best"
  }

  /** The target codec `--audio-format` names for an audio format; None for
      "audio-best", which keeps the original. */
  function AudioCodec(format: string): Option<string> {
    match format
    case "audio-mp3" => Some("mp3")
    case "audio-aac" => Some("m4a")
    case "audio-opus" => Some("opus")
    case "audio-flac" => Some("flac")
    case "audio-wav" => Some("wav")
    case _ => None
  }

  /** The lossy formats that also ask for the best quality. */
  predicate BestQuality(format: string) {
    format == "audio-mp3" || format == "audio-aac" || format == "audio-opus"
  }

  /** The extraction block: "-x" for every audio format, then the codec,
      then "--audio-quality 0" for the lossy ones. */
  function ExtractionArgs(format: string): (r: seq<string>)
    ensures r == [] <==> !IsAudioExtraction(format)
    ensures IsAudioExtraction(format) ==> r[0] == "-x"
    ensures "--audio-format" in r <==> IsAudioExtraction(format) && format != "audio-best"
    ensures "--audio-quality" in r <==> BestQuality(format)
    ensures "-x" in r <==> IsAudioExtraction(format)
  {
    if format !in AudioFormats then []
    else
      ["-x"]
      + (match AudioCodec(format) case Some(c) => ["--audio-format", c] case None => [])
      + (if BestQuality(format) then ["--audio-quality", "0"] else [])
  }

  /** The container a video format is merged into. */
  function MergeFormat(format: string): (r: Option<string>)
    ensures r.Some? <==> format == "video-mp4" || format == "video-webm" || format == "video-mkv"
  {
    match format
    case "video-mp4" => Some("mp4")
    case "video-webm" => Some("webm")
    case "video-mkv" => Some("mkv")
    case _ => None
  }

  function MergeArgs(format: string): (r: seq<string>)
    ensures MergeFormat(format).Some? ==> r == ["--merge-output-format", MergeFormat(format).value]
    ensures MergeFormat(format).None? ==> r == []
  {
    match MergeFormat(format)
    case Some(c) => ["--merge-output-format", c]
    case None => []
  }

  /** The progress line format the parser reads. */
  const ProgressTemplate: string :=
    "download:%(progress._percent_str)s|%(progress._downloaded_bytes_str)s|%(progress._total_bytes_str)s|%(progress._speed_str)s|%(progress._eta_str)s"

  /** The options every command line ends with. */
  const Tail: seq<string> := [
    "--progress-template", ProgressTemplate,
    "--print", "after_move:filepath",
    "--no-playlist",
    "--windows-filenames",
    "--encoding", "utf-8",
    "--no-warnings",
    "--continue",
    "--keep-fragments",
    "--fragment-retries", "10",
    "--retries", "10"]

  // ---------------------------------------------------------------------------
  // The builder
  // ---------------------------------------------------------------------------

  /** `ArgumentBuilder`: the configuration plus the ffmpeg directory and the
      proxy set on it. */
  datatype Builder = Builder(config: DownloadConfig, ffmpegLocation: Option<string>, proxyUrl: Option<string>)

  function NewBuilder(config: DownloadConfig): (b: Builder)
    ensures b.config == config && b.ffmpegLocation.None? && b.proxyUrl.None?
  {
    Builder(config, None, None)
  }

  /** The builder `spawn_ytdlp` uses: the resolved ffmpeg directory, and the
      configuration's proxy when it has one. */
  function SpawnBuilder(config: DownloadConfig, ffmpegLocation: Option<string>): (b: Builder)
    ensures b.config == config && b.ffmpegLocation == ffmpegLocation && b.proxyUrl == config.proxyUrl
  {
    var b := NewBuilder(config);
    var b := if ffmpegLocation.Some? then b.(ffmpegLocation := ffmpegLocation) else b;
    if config.proxyUrl.Some? then b.(proxyUrl := config.proxyUrl) else b
  }

  /** `flag value` when the value is present and non-empty. */
  function OptionArgs(flag: string, v: Option<string>): (r: seq<string>)
    ensures v.Some? && v.value != "" ==> r == [flag, v.value]
    ensures v.None? || v.value == "" ==> r == []
  {
    if v.Some? && v.value != "" then [flag, v.value] else []
  }

  function SubtitleArgs(embed: bool): (r: seq<string>)
    ensures embed ==> r == ["--embed-subs", "--sub-langs", "all"]
    ensures !embed ==> r == []
  {
    if embed then ["--embed-subs", "--sub-langs", "all"] else []
  }

  /** The ffmpeg directory is passed whenever it is set, even when empty. */
  function FfmpegArgs(location: Option<string>): (r: seq<string>)
    ensures location.Some? ==> r == ["--ffmpeg-location", location.value]
    ensures location.None? ==> r == []
  {
    match location
    case Some(p) => ["--ffmpeg-location", p]
    case None => []
  }

  /** The URL, "-f" with the selector and "-o" with the template. */
  function Head(config: DownloadConfig): (r: seq<string>)
    ensures r == [config.url, "-f", FormatSelector(config.format, config.quality), "-o", FilenameTemplate(config)]
  {
    [config.url, "-f", FormatSelector(config.format, config.quality), "-o", FilenameTemplate(config)]
  }

  /** The options between the extraction block and the tail. */
  function Middle(b: Builder): (r: seq<string>)
  {
    ["--embed-thumbnail", "--add-metadata"]
    + SubtitleArgs(b.config.embedSubtitles)
    + OptionArgs("--cookies-from-browser", b.config.cookiesFromBrowser)
    + FfmpegArgs(b.ffmpegLocation)
    + OptionArgs("--proxy", b.proxyUrl)
    + MergeArgs(b.config.format)
  }

  /** `build`: the head, the extraction block, the always-on embedding
      options, the optional ones, the merge container and the fixed tail. */
  function Build(b: Builder): (r: seq<string>)
    ensures |r| >= 5 + |Tail|
    ensures r[..5] == Head(b.config)
    ensures r[|r| - |Tail|..] == Tail
  {
    var head, mid := Head(b.config), ExtractionArgs(b.config.format) + Middle(b);
    ConcatEnds(head, mid, Tail);
    head + mid + Tail
  }

  lemma ConcatEnds<T>(a: seq<T>, b: seq<T>, c: seq<T>)
    ensures (a + b + c)[..|a|] == a
    ensures (a + b + c)[|a + b + c| - |c|..] == c
  {
  }

  // ---------------------------------------------------------------------------
  // Which options appear
  // ---------------------------------------------------------------------------

  /** A word of the builder's own: it starts with `-`, has no `%` and is
      not a format selector. */
  predicate IsOptionWord(w: string) {
    |w| > 0 && w[0] == '-' && '%' !in w && w !in Selectors
  }

  /** `w` is an option word and none of the values the user supplies, so it
      can only appear where the builder puts it. */
  predicate NotUserValue(b: Builder, w: string) {
    IsOptionWord(w) &&
    b.config.url != w &&
    (b.config.cookiesFromBrowser.Some? ==> b.config.cookiesFromBrowser.value != w) &&
    (b.ffmpegLocation.Some? ==> b.ffmpegLocation.value != w) &&
    (b.proxyUrl.Some? ==> b.proxyUrl.value != w)
  }

  /** The only option words of the head are "-f" and "-o": the template
      holds a `%`. */
  lemma HeadWords(config: DownloadConfig, w: string)
    requires IsOptionWord(w) && w != config.url
    ensures w in Head(config) <==> w == "-f" || w == "-o"
  {
    var t := FilenameTemplate(config);
    ExtFieldHasPercent(t);
    HeadWordsOf(config.url, FormatSelector(config.format, config.quality), t, w);
  }

  lemma HeadWordsOf(url: string, sel: string, t: string, w: string)
    requires IsOptionWord(w) && w != url && sel in Selectors && '%' in t
    ensures w in [url, "-f", sel, "-o", t] <==> w == "-f" || w == "-o"
  {
    assert t != w;
  }

  /** The option words of the extraction block. */
  lemma ExtractionWords(format: string, w: string)
    requires IsOptionWord(w)
    ensures w in ExtractionArgs(format) <==>
      (IsAudioExtraction(format) && w == "-x") ||
      (AudioCodec(format).Some? && w == "--audio-format") ||
      (BestQuality(format) && w == "--audio-quality")
  {
    if format in AudioFormats {
      var c := match AudioCodec(format) case Some(c) => ["--audio-format", c] case None => [];
      var q := if BestQuality(format) then ["--audio-quality", "0"] else [];
      assert ExtractionArgs(format) == ["-x"] + c + q;
      if AudioCodec(format).Some? {
        var v := AudioCodec(format).value;
        assert v[0] != '-';
      }
    }
  }

  /** The option words between the extraction block and the tail. */
  lemma MiddleWords(b: Builder, w: string)
    requires NotUserValue(b, w)
    ensures w in Middle(b) <==>
      w == "--embed-thumbnail" || w == "--add-metadata" ||
      (b.config.embedSubtitles && (w == "--embed-subs" || w == "--sub-langs")) ||
      (b.config.cookiesFromBrowser.Some? && b.config.cookiesFromBrowser.value != "" && w == "--cookies-from-browser") ||
      (b.ffmpegLocation.Some? && w == "--ffmpeg-location") ||
      (b.proxyUrl.Some? && b.proxyUrl.value != "" && w == "--proxy") ||
      (MergeFormat(b.config.format).Some? && w == "--merge-output-format")
  {
    if MergeFormat(b.config.format).Some? {
      var v := MergeFormat(b.config.format).value;
      assert v[0] != '-';
    }
  }

  /** The option words of the tail; the progress template holds `%`. */
  lemma TailWords(w: string)
    requires IsOptionWord(w)
    ensures w in Tail <==>
      w == "--progress-template" || w == "--print" || w == "--no-playlist" ||
      w == "--windows-filenames" || w == "--encoding" || w == "--no-warnings" ||
      w == "--continue" || w == "--keep-fragments" || w == "--fragment-retries" || w == "--retries"
  {
    assert '%' in ProgressTemplate;
  }

  /** Where an option word can occur in the whole command line. */
  lemma BuildWords(b: Builder, w: string)
    requires NotUserValue(b, w)
    ensures w in Build(b) <==>
      w in Head(b.config) || w in ExtractionArgs(b.config.format) || w in Middle(b) || w in Tail
  {
  }

  /** "-x" is passed exactly for the six audio formats. */
  lemma ExtractFlagIff(b: Builder)
    requires NotUserValue(b, "-x")
    ensures "-x" in Build(b) <==> IsAudioExtraction(b.config.format)
  {
    HeadWords(b.config, "-x");
    ExtractionWords(b.config.format, "-x");
    MiddleWords(b, "-x");
    TailWords("-x");
    BuildWords(b, "-x");
  }

  /** "--audio-format" is passed for every audio format but "audio-best". */
  lemma AudioFormatFlagIff(b: Builder)
    requires NotUserValue(b, "--audio-format")
    ensures "--audio-format" in Build(b) <==> IsAudioExtraction(b.config.format) && b.config.format != "audio-best"
  {
    HeadWords(b.config, "--audio-format");
    ExtractionWords(b.config.format, "--audio-format");
    MiddleWords(b, "--audio-format");
    TailWords("--audio-format");
    BuildWords(b, "--audio-format");
  }

  /** "--audio-quality" is passed only for mp3, aac and opus. */
  lemma AudioQualityFlagIff(b: Builder)
    requires NotUserValue(b, "--audio-quality")
    ensures "--audio-quality" in Build(b) <==> BestQuality(b.config.format)
  {
    HeadWords(b.config, "--audio-quality");
    ExtractionWords(b.config.format, "--audio-quality");
    MiddleWords(b, "--audio-quality");
    TailWords("--audio-quality");
    BuildWords(b, "--audio-quality");
  }

  /** Subtitles are embedded exactly when asked for. */
  lemma EmbedSubsFlagIff(b: Builder)
    requires NotUserValue(b, "--embed-subs")
    ensures "--embed-subs" in Build(b) <==> b.config.embedSubtitles
  {
    HeadWords(b.config, "--embed-subs");
    ExtractionWords(b.config.format, "--embed-subs");
    MiddleWords(b, "--embed-subs");
    TailWords("--embed-subs");
    BuildWords(b, "--embed-subs");
  }

  /** Browser cookies are passed exactly when a non-empty browser is set. */
  lemma CookiesFlagIff(b: Builder)
    requires NotUserValue(b, "--cookies-from-browser")
    ensures "--cookies-from-browser" in Build(b) <==>
      b.config.cookiesFromBrowser.Some? && b.config.cookiesFromBrowser.value != ""
  {
    HeadWords(b.config, "--cookies-from-browser");
    ExtractionWords(b.config.format, "--cookies-from-browser");
    MiddleWords(b, "--cookies-from-browser");
    TailWords("--cookies-from-browser");
    BuildWords(b, "--cookies-from-browser");
  }

  /** The proxy is passed exactly when a non-empty one is set. */
  lemma ProxyFlagIff(b: Builder)
    requires NotUserValue(b, "--proxy")
    ensures "--proxy" in Build(b) <==> b.proxyUrl.Some? && b.proxyUrl.value != ""
  {
    HeadWords(b.config, "--proxy");
    ExtractionWords(b.config.format, "--proxy");
    MiddleWords(b, "--proxy");
    TailWords("--proxy");
    BuildWords(b, "--proxy");
  }

  /** The ffmpeg directory is passed exactly when it is set. */
  lemma FfmpegFlagIff(b: Builder)
    requires NotUserValue(b, "--ffmpeg-location")
    ensures "--ffmpeg-location" in Build(b) <==> b.ffmpegLocation.Some?
  {
    HeadWords(b.config, "--ffmpeg-location");
    ExtractionWords(b.config.format, "--ffmpeg-location");
    MiddleWords(b, "--ffmpeg-location");
    TailWords("--ffmpeg-location");
    BuildWords(b, "--ffmpeg-location");
  }

  /** A merge container is named exactly for the three video formats. */
  lemma MergeFlagIff(b: Builder)
    requires NotUserValue(b, "--merge-output-format")
    ensures "--merge-output-format" in Build(b) <==> MergeFormat(b.config.format).Some?
  {
    HeadWords(b.config, "--merge-output-format");
    ExtractionWords(b.config.format, "--merge-output-format");
    MiddleWords(b, "--merge-output-format");
    TailWords("--merge-output-format");
    BuildWords(b, "--merge-output-format");
  }

  // ---------------------------------------------------------------------------
  // The value after each option
  // ---------------------------------------------------------------------------

  /** Every occurrence of `w` in `s` is followed by `v`. */
  predicate FollowedBy(s: seq<string>, w: string, v: string) {
    forall k :: 0 <= k < |s| && s[k] == w ==> k + 1 < |s| && s[k + 1] == v
  }

  lemma {:induction false} FollowedByConcat(a: seq<string>, b: seq<string>, w: string, v: string)
    requires FollowedBy(a, w, v) && FollowedBy(b, w, v)
    ensures FollowedBy(a + b, w, v)
  {
    forall k | 0 <= k < |a + b| && (a + b)[k] == w
      ensures k + 1 < |a + b| && (a + b)[k + 1] == v
    {
      if k < |a| {
        assert a[k] == w;
      } else {
        assert b[k - |a|] == w;
      }
    }
  }

  /** The middle options keep the pairing when each group does. */
  lemma MiddleFollowedBy(b: Builder, w: string, v: string)
    requires FollowedBy(["--embed-thumbnail", "--add-metadata"], w, v)
    requires FollowedBy(SubtitleArgs(b.config.embedSubtitles), w, v)
    requires FollowedBy(OptionArgs("--cookies-from-browser", b.config.cookiesFromBrowser), w, v)
    requires FollowedBy(FfmpegArgs(b.ffmpegLocation), w, v)
    requires FollowedBy(OptionArgs("--proxy", b.proxyUrl), w, v)
    requires FollowedBy(MergeArgs(b.config.format), w, v)
    ensures FollowedBy(Middle(b), w, v)
  {
    var m1 := ["--embed-thumbnail", "--add-metadata"];
    var m2 := SubtitleArgs(b.config.embedSubtitles);
    var m3 := OptionArgs("--cookies-from-browser", b.config.cookiesFromBrowser);
    var m4 := FfmpegArgs(b.ffmpegLocation);
    var m5 := OptionArgs("--proxy", b.proxyUrl);
    var m6 := MergeArgs(b.config.format);
    FollowedByConcat(m1, m2, w, v);
    FollowedByConcat(m1 + m2, m3, w, v);
    FollowedByConcat(m1 + m2 + m3, m4, w, v);
    FollowedByConcat(m1 + m2 + m3 + m4, m5, w, v);
    FollowedByConcat(m1 + m2 + m3 + m4 + m5, m6, w, v);
  }

  /** The whole command line keeps the pairing when its parts do. */
  lemma BuildFollowedBy(b: Builder, w: string, v: string)
    requires w !in Head(b.config) && w !in Tail
    requires FollowedBy(ExtractionArgs(b.config.format), w, v)
    requires FollowedBy(Middle(b), w, v)
    ensures FollowedBy(Build(b), w, v)
  {
    var head, ext, mid := Head(b.config), ExtractionArgs(b.config.format), Middle(b);
    FollowedByConcat(ext, mid, w, v);
    FollowedByConcat(head, ext + mid, w, v);
    FollowedByConcat(head + (ext + mid), Tail, w, v);
    BuildParts(b);
  }

  lemma BuildParts(b: Builder)
    ensures Build(b) == Head(b.config) + (ExtractionArgs(b.config.format) + Middle(b)) + Tail
  {
  }

  /** The pairing inside the extraction block: the codec after
      "--audio-format" and "0" after "--audio-quality". */
  lemma ExtractionFollowedBy(format: string)
    ensures FollowedBy(ExtractionArgs(format), "--audio-format", AudioCodec(format).GetOr(""))
    ensures FollowedBy(ExtractionArgs(format), "--audio-quality", "0")
  {
    if format in AudioFormats {
      var codec := AudioCodec(format).GetOr("");
      var c := match AudioCodec(format) case Some(c) => ["--audio-format", c] case None => [];
      var q := if BestQuality(format) then ["--audio-quality", "0"] else [];
      assert ExtractionArgs(format) == ["-x"] + c + q;
      assert codec == "" || codec[0] != '-';
      PairFollowedBy(c, "--audio-format", codec);
      PairFollowedBy(c, "--audio-quality", "0");
      PairFollowedBy(q, "--audio-format", codec);
      PairFollowedBy(q, "--audio-quality", "0");
      FollowedByConcat(["-x"], c, "--audio-format", codec);
      FollowedByConcat(["-x"] + c, q, "--audio-format", codec);
      FollowedByConcat(["-x"], c, "--audio-quality", "0");
      FollowedByConcat(["-x"] + c, q, "--audio-quality", "0");
    }
  }

  /** An option and its value, or nothing: `w` is followed by `v` unless it
      stands second. */
  lemma PairFollowedBy(s: seq<string>, w: string, v: string)
    requires |s| == 0 || (|s| == 2 && s[1] != w && (s[0] == w ==> s[1] == v))
    ensures FollowedBy(s, w, v)
  {
  }

  /** "--audio-format" is always followed by the codec of the format. */
  lemma AudioFormatValue(b: Builder)
    requires NotUserValue(b, "--audio-format")
    ensures FollowedBy(Build(b), "--audio-format", AudioCodec(b.config.format).GetOr(""))
  {
    var w, v := "--audio-format", AudioCodec(b.config.format).GetOr("");
    HeadWords(b.config, w);
    TailWords(w);
    ExtractionFollowedBy(b.config.format);
    MiddleWords(b, w);
    BuildFollowedBy(b, w, v);
  }

  /** "--audio-quality" is always followed by "0", the best quality. */
  lemma AudioQualityValue(b: Builder)
    requires NotUserValue(b, "--audio-quality")
    ensures FollowedBy(Build(b), "--audio-quality", "0")
  {
    var w := "--audio-quality";
    HeadWords(b.config, w);
    TailWords(w);
    ExtractionFollowedBy(b.config.format);
    MiddleWords(b, w);
    BuildFollowedBy(b, w, "0");
  }

  /** The pairing inside the middle options for a word of the builder's own
      that is none of the values there. */
  lemma MiddlePieces(b: Builder, w: string, v: string)
    requires NotUserValue(b, w) && w != "--embed-thumbnail" && w != "--add-metadata" && w != "--embed-subs"
    requires w == "--sub-langs" ==> v == "all"
    requires w == "--cookies-from-browser" ==> v == b.config.cookiesFromBrowser.GetOr("")
    requires w == "--ffmpeg-location" ==> v == b.ffmpegLocation.GetOr("")
    requires w == "--proxy" ==> v == b.proxyUrl.GetOr("")
    requires w == "--merge-output-format" ==> v == MergeFormat(b.config.format).GetOr("")
    ensures FollowedBy(Middle(b), w, v)
  {
    var subs := SubtitleArgs(b.config.embedSubtitles);
    if b.config.embedSubtitles {
      assert subs == ["--embed-subs"] + ["--sub-langs", "all"];
      PairFollowedBy(["--sub-langs", "all"], w, v);
      FollowedByConcat(["--embed-subs"], ["--sub-langs", "all"], w, v);
    }
    PairFollowedBy(OptionArgs("--cookies-from-browser", b.config.cookiesFromBrowser), w, v);
    PairFollowedBy(FfmpegArgs(b.ffmpegLocation), w, v);
    PairFollowedBy(OptionArgs("--proxy", b.proxyUrl), w, v);
    if MergeFormat(b.config.format).Some? {
      assert MergeFormat(b.config.format).value[0] != '-';
    }
    PairFollowedBy(MergeArgs(b.config.format), w, v);
    MiddleFollowedBy(b, w, v);
  }

  /** "--sub-langs" is always followed by "all". */
  lemma SubLangsValue(b: Builder)
    requires NotUserValue(b, "--sub-langs")
    ensures FollowedBy(Build(b), "--sub-langs", "all")
  {
    var w := "--sub-langs";
    HeadWords(b.config, w);
    TailWords(w);
    ExtractionWords(b.config.format, w);
    MiddlePieces(b, w, "all");
    BuildFollowedBy(b, w, "all");
  }

  /** "--cookies-from-browser" is always followed by the configured browser. */
  lemma CookiesValue(b: Builder)
    requires NotUserValue(b, "--cookies-from-browser")
    ensures FollowedBy(Build(b), "--cookies-from-browser", b.config.cookiesFromBrowser.GetOr(""))
  {
    var w, v := "--cookies-from-browser", b.config.cookiesFromBrowser.GetOr("");
    HeadWords(b.config, w);
    TailWords(w);
    ExtractionWords(b.config.format, w);
    MiddlePieces(b, w, v);
    BuildFollowedBy(b, w, v);
  }

  /** "--ffmpeg-location" is always followed by the ffmpeg directory. */
  lemma FfmpegValue(b: Builder)
    requires NotUserValue(b, "--ffmpeg-location")
    ensures FollowedBy(Build(b), "--ffmpeg-location", b.ffmpegLocation.GetOr(""))
  {
    var w, v := "--ffmpeg-location", b.ffmpegLocation.GetOr("");
    HeadWords(b.config, w);
    TailWords(w);
    ExtractionWords(b.config.format, w);
    MiddlePieces(b, w, v);
    BuildFollowedBy(b, w, v);
  }

  /** "--proxy" is always followed by the proxy URL. */
  lemma ProxyValue(b: Builder)
    requires NotUserValue(b, "--proxy")
    ensures FollowedBy(Build(b), "--proxy", b.proxyUrl.GetOr(""))
  {
    var w, v := "--proxy", b.proxyUrl.GetOr("");
    HeadWords(b.config, w);
    TailWords(w);
    ExtractionWords(b.config.format, w);
    MiddlePieces(b, w, v);
    BuildFollowedBy(b, w, v);
  }

  /** "--merge-output-format" is always followed by the container of the
      video format. */
  lemma MergeValue(b: Builder)
    requires NotUserValue(b, "--merge-output-format")
    ensures FollowedBy(Build(b), "--merge-output-format", MergeFormat(b.config.format).GetOr(""))
  {
    var w, v := "--merge-output-format", MergeFormat(b.config.format).GetOr("");
    HeadWords(b.config, w);
    TailWords(w);
    ExtractionWords(b.config.format, w);
    MiddlePieces(b, w, v);
    BuildFollowedBy(b, w, v);
  }
}

=== FILE: errors.dfy ===
/** The application's error types, their user-facing messages, the retry
    backoff rule and the stderr classifier of the download error model. */
module Errors {
  import opened Wrappers
  import opened Ints
  import opened Text
  import opened Keywords

  // ---------------------------------------------------------------------------
  // Download errors
  // ---------------------------------------------------------------------------

  datatype DownloadError =
    | InvalidUrl(msg: string)
    | AlreadyDownloading
    | ProcessSpawnError(msg: string)
    | DownloadFailed(msg: string)
    | FolderNotAccessible(msg: string)
    | ExecutableNotFound(msg: string)
    | PrivateVideo
    | AgeRestricted
    | RegionLocked
    | NetworkError(msg: string)
    | NotFound
    | RateLimited
    | AuthenticationRequired
    | UnsupportedUrl(msg: string)
    | Timeout(msg: string)
    | GenericError(msg: string)

  /** The variant of a `DownloadError` without its payload. */
  datatype Variant =
    | VInvalidUrl | VAlreadyDownloading | VProcessSpawnError | VDownloadFailed
    | VFolderNotAccessible | VExecutableNotFound | VPrivateVideo | VAgeRestricted
    | VRegionLocked | VNetworkError | VNotFound | VRateLimited
    | VAuthenticationRequired | VUnsupportedUrl | VTimeout | VGenericError

  function VariantOf(e: DownloadError): Variant {
    match e
    case InvalidUrl(_) => VInvalidUrl
    case AlreadyDownloading => VAlreadyDownloading
    case ProcessSpawnError(_) => VProcessSpawnError
    case DownloadFailed(_) => VDownloadFailed
    case FolderNotAccessible(_) => VFolderNotAccessible
    case ExecutableNotFound(_) => VExecutableNotFound
    case PrivateVideo => VPrivateVideo
    case AgeRestricted => VAgeRestricted
    case RegionLocked => VRegionLocked
    case NetworkError(_) => VNetworkError
    case NotFound => VNotFound
    case RateLimited => VRateLimited
    case AuthenticationRequired => VAuthenticationRequired
    case UnsupportedUrl(_) => VUnsupportedUrl
    case Timeout(_) => VTimeout
    case GenericError(_) => VGenericError
  }

  /** The fixed text a payload-carrying variant puts before its payload. */
  function Prefix(e: DownloadError): string {
    match e
    case InvalidUrl(_) => "Invalid URL: "
    case ProcessSpawnError(_) => "Failed to spawn yt-dlp: "
    case DownloadFailed(_) => "Download failed: "
    case FolderNotAccessible(_) => "Output folder not accessible: "
    case ExecutableNotFound(_) => "Bundled executable not found: "
    case NetworkError(_) => "Network error: "
    case UnsupportedUrl(_) => "Unsupported URL: "
    case Timeout(_) => "Timeout: "
    case _ => ""
  }

  predicate HasPayload(e: DownloadError) {
    e.InvalidUrl? || e.ProcessSpawnError? || e.DownloadFailed? || e.FolderNotAccessible?
    || e.ExecutableNotFound? || e.NetworkError? || e.UnsupportedUrl? || e.Timeout? || e.GenericError?
  }

  /** The `Display` text of a download error. */
  function Display(e: DownloadError): (s: string)
    ensures HasPayload(e) ==> s == Prefix(e) + e.msg
  {
    match e
    case AlreadyDownloading => AlreadyDownloadingText
    case PrivateVideo => PrivateVideoText
    case AgeRestricted => AgeRestrictedText
    case RegionLocked => RegionLockedText
    case NotFound => NotFoundText
    case RateLimited => RateLimitedText
    case AuthenticationRequired => AuthenticationRequiredText
    case _ => Prefix(e) + e.msg
  }

  /** The texts of the variants without a payload. */
  const AlreadyDownloadingText: string := "Download already in progress"
  const PrivateVideoText: string := "Video is private"
  const AgeRestrictedText: string := "Age restricted content - try enabling cookie import"
  const RegionLockedText: string := "Content not available in your region"
  const NotFoundText: string := "Video not found"
  const RateLimitedText: string := "Rate limited - please wait and try again"
  const AuthenticationRequiredText: string := "Authentication required"

  /** The message is recoverable from the text: two errors of the same variant
      display alike only when they carry the same payload. */
  lemma DisplayInjective(a: DownloadError, b: DownloadError)
    requires VariantOf(a) == VariantOf(b) && Display(a) == Display(b)
    ensures a == b
  {
    if HasPayload(a) {
      assert Prefix(a) == Prefix(b);
      assert a.msg == Display(a)[|Prefix(a)|..];
      assert b.msg == Display(b)[|Prefix(b)|..];
    }
  }

  /** The UI category of an error. */
  function Category(e: DownloadError): (c: string)
    ensures c in {"validation", "state", "process", "download", "filesystem", "dependency",
                  "access", "network", "not_found", "rate_limit", "auth", "generic"}
  {
    match e
    case InvalidUrl(_) => "validation"
    case AlreadyDownloading => "state"
    case ProcessSpawnError(_) => "process"
    case DownloadFailed(_) => "download"
    case FolderNotAccessible(_) => "filesystem"
    case ExecutableNotFound(_) => "dependency"
    case PrivateVideo => "access"
    case AgeRestricted => "access"
    case RegionLocked => "access"
    case NetworkError(_) => "network"
    case NotFound => "not_found"
    case RateLimited => "rate_limit"
    case AuthenticationRequired => "auth"
    case UnsupportedUrl(_) => "validation"
    case Timeout(_) => "network"
    case GenericError(_) => "generic"
  }

  /** The shared categories are exactly the documented groups; every other
      category belongs to a single variant. */
  lemma CategoryGroups(e: DownloadError)
    ensures Category(e) == "access" <==> e.PrivateVideo? || e.AgeRestricted? || e.RegionLocked?
    ensures Category(e) == "validation" <==> e.InvalidUrl? || e.UnsupportedUrl?
    ensures Category(e) == "network" <==> e.NetworkError? || e.Timeout?
    ensures forall f: DownloadError {:trigger Category(f)} ::
      (Category(e) == Category(f) && Category(e) !in {"access", "validation", "network"})
      ==> VariantOf(e) == VariantOf(f)
  {
  }

  /** Whether the error supports retrying the download. */
  predicate IsRetryable(e: DownloadError) {
    e.NetworkError? || e.DownloadFailed? || e.RateLimited? || e.Timeout?
  }

  /** Retryable errors are exactly the network, download and rate-limit
      categories. */
  lemma RetryableByCategory(e: DownloadError)
    ensures IsRetryable(e) <==> Category(e) in {"network", "download", "rate_limit"}
  {
  }

  /** The hint shown next to an error, if any. */
  function SuggestedAction(e: DownloadError): (r: Option<string>)
    ensures r.Some? <==> (e.PrivateVideo? || e.AgeRestricted? || e.AuthenticationRequired?
                          || e.RateLimited? || e.NetworkError? || e.FolderNotAccessible?
                          || e.ExecutableNotFound?)
  {
    match e
    case PrivateVideo => Some("Ensure you have access to this video")
    case AgeRestricted => Some("Enable cookie import in settings")
    case AuthenticationRequired => Some("Enable cookie import in settings")
    case RateLimited => Some("Wait a few minutes before retrying")
    case NetworkError(_) => Some("Check your internet connection")
    case FolderNotAccessible(_) => Some("Choose a different output folder")
    case ExecutableNotFound(_) => Some("Reinstall the application")
    case _ => None
  }

  /** Both cookie-related errors point to the cookie setting, and the hint
      depends only on the variant, never on the payload. */
  lemma SuggestedActionByVariant(a: DownloadError, b: DownloadError)
    ensures VariantOf(a) == VariantOf(b) ==> SuggestedAction(a) == SuggestedAction(b)
    ensures SuggestedAction(AgeRestricted) == SuggestedAction(AuthenticationRequired)
  {
  }

  // ---------------------------------------------------------------------------
  // The other error domains and the unified error
  // ---------------------------------------------------------------------------

  datatype FilesystemError =
    | FolderNotFound(msg: string)
    | NotADirectory(msg: string)
    | NotWritable(msg: string)
    | FileNotFound(msg: string)
    | NotAFile(msg: string)
    | DiskSpaceError(msg: string)
    | OpenError(msg: string)
    | PermissionDenied(msg: string)

  function FilesystemDisplay(e: FilesystemError): (s: string)
    ensures EndsWith(s, e.msg)
  {
    match e
    case FolderNotFound(m) => "Folder does not exist: " + m
    case NotADirectory(m) => "Path is not a directory: " + m
    case NotWritable(m) => "Cannot write to folder: " + m
    case FileNotFound(m) => "File does not exist: " + m
    case NotAFile(m) => "Path is not a file: " + m
    case DiskSpaceError(m) => "Failed to get disk space: " + m
    case OpenError(m) => "Failed to open file/folder: " + m
    case PermissionDenied(m) => "Permission denied: " + m
  }

  datatype PreferencesError =
    | StoreOpenError(msg: string)
    | ParseError(msg: string)
    | SerializeError(msg: string)
    | SaveError(msg: string)

  function PreferencesDisplay(e: PreferencesError): (s: string)
    ensures EndsWith(s, e.msg)
  {
    match e
    case StoreOpenError(m) => "Failed to open preferences store: " + m
    case ParseError(m) => "Failed to parse preferences: " + m
    case SerializeError(m) => "Failed to serialize preferences: " + m
    case SaveError(m) => "Failed to save preferences: " + m
  }

  datatype UpdateError =
    | ExecutionError(msg: string)
    | SpawnError(msg: string)
    | VersionError(msg: string)
    | UpdateFailed(msg: string)
    | CheckFailed(msg: string)
    | UpdaterNotConfigured
    | UpdateNetworkError(msg: string)

  function UpdateDisplay(e: UpdateError): (s: string)
    ensures !e.UpdaterNotConfigured? ==> EndsWith(s, e.msg)
  {
    match e
    case ExecutionError(m) => "Failed to execute yt-dlp: " + m
    case SpawnError(m) => "Failed to spawn update process: " + m
    case VersionError(m) => "Failed to get version: " + m
    case UpdateFailed(m) => "Update failed: " + m
    case CheckFailed(m) => "Update check failed: " + m
    case UpdaterNotConfigured => "App updater is not configured"
    case UpdateNetworkError(m) => "Network error during update: " + m
  }

  datatype QueueError =
    | ItemNotFound(id: u64)
    | CannotCancel(status: string)
    | CannotRemove(status: string)
    | HistorySaveError(msg: string)
    | QueueFull(max: u64)
    | InvalidOperation(msg: string)

  function QueueDisplay(e: QueueError): (s: string)
    ensures e.ItemNotFound? ==> EndsWith(s, NatToString(e.id))
  {
    match e
    case ItemNotFound(id) => "Queue item not found: " + NatToString(id)
    case CannotCancel(st) => "Item cannot be cancelled (status: " + st + ")"
    case CannotRemove(st) => "Item cannot be removed (status: " + st + ")"
    case HistorySaveError(m) => "Failed to save history: " + m
    case QueueFull(n) => "Queue is full (max " + NatToString(n) + " items)"
    case InvalidOperation(m) => "Invalid queue operation: " + m
  }

  datatype MediaInfoError =
    | EmptyUrl
    | MediaParseError(msg: string)
    | MediaUnsupportedUrl(msg: string)
    | FetchError(msg: string)
    | Download(msg: string)

  function MediaInfoDisplay(e: MediaInfoError): (s: string)
    ensures e.Download? ==> s == e.msg
  {
    match e
    case EmptyUrl => "URL cannot be empty"
    case MediaParseError(m) => "Failed to parse media info: " + m
    case MediaUnsupportedUrl(m) => "Unsupported URL format: " + m
    case FetchError(m) => "Failed to fetch info: " + m
    case Download(m) => m
  }

  /** `MediaInfoError::from_download_error`: keeps the download error's text. */
  function MediaInfoFromDownload(e: DownloadError): (r: MediaInfoError)
    ensures MediaInfoDisplay(r) == Display(e)
  {
    Download(Display(e))
  }

  datatype AppError =
    | AppDownload(download: DownloadError)
    | AppFilesystem(filesystem: FilesystemError)
    | AppPreferences(preferences: PreferencesError)
    | AppUpdate(update: UpdateError)
    | AppQueue(queue: QueueError)
    | AppMediaInfo(mediaInfo: MediaInfoError)

  /** `Display` for the unified error: transparent, the wrapped error's text. */
  function AppDisplay(e: AppError): string {
    match e
    case AppDownload(d) => Display(d)
    case AppFilesystem(f) => FilesystemDisplay(f)
    case AppPreferences(p) => PreferencesDisplay(p)
    case AppUpdate(u) => UpdateDisplay(u)
    case AppQueue(q) => QueueDisplay(q)
    case AppMediaInfo(m) => MediaInfoDisplay(m)
  }

  /** The `From` conversions into the unified error. */
  function FromDownload(e: DownloadError): (r: AppError)
    ensures r.AppDownload? && r.download == e
    ensures AppDisplay(r) == Display(e)
  {
    AppDownload(e)
  }

  function FromFilesystem(e: FilesystemError): (r: AppError)
    ensures r.AppFilesystem? && r.filesystem == e
    ensures AppDisplay(r) == FilesystemDisplay(e)
  {
    AppFilesystem(e)
  }

  function FromPreferences(e: PreferencesError): (r: AppError)
    ensures r.AppPreferences? && r.preferences == e
    ensures AppDisplay(r) == PreferencesDisplay(e)
  {
    AppPreferences(e)
  }

  function FromUpdate(e: UpdateError): (r: AppError)
    ensures r.AppUpdate? && r.update == e
    ensures AppDisplay(r) == UpdateDisplay(e)
  {
    AppUpdate(e)
  }

  function FromQueue(e: QueueError): (r: AppError)
    ensures r.AppQueue? && r.queue == e
    ensures AppDisplay(r) == QueueDisplay(e)
  {
    AppQueue(e)
  }

  function FromMediaInfo(e: MediaInfoError): (r: AppError)
    ensures r.AppMediaInfo? && r.mediaInfo == e
    ensures AppDisplay(r) == MediaInfoDisplay(e)
  {
    AppMediaInfo(e)
  }

  /** `From<AppError> for String`. */
  function AppErrorToString(e: AppError): (s: string)
    ensures e.AppDownload? ==> s == Display(e.download)
  {
    AppDisplay(e)
  }

  /** Wrapping a download error for the media-info command and then in the
      unified error leaves the user-facing text unchanged. */
  lemma WrappedTextPreserved(e: DownloadError)
    ensures AppErrorToString(FromMediaInfo(MediaInfoFromDownload(e))) == AppErrorToString(FromDownload(e))
  {
  }

  // ---------------------------------------------------------------------------
  // Retry backoff
  // ---------------------------------------------------------------------------

  datatype RetryConfig = RetryConfig(
    maxRetries: u32,
    initialDelayMs: u64,
    maxDelayMs: u64,
    backoffMultiplier: real)

  function DefaultRetryConfig(): (c: RetryConfig)
    ensures c.initialDelayMs <= c.maxDelayMs && c.backoffMultiplier >= 1.0
  {
    RetryConfig(3, 1000, 30000, 2.0)
  }

  function Pow(m: real, n: nat): (r: real)
    ensures m != 0.0 ==> r != 0.0
    ensures m > 0.0 ==> r > 0.0
  {
    if n == 0 then 1.0 else m * Pow(m, n - 1)
  }

  /** `powi` with a possibly negative exponent: a reciprocal power below
      zero, and `None` for the infinity that zero to a negative power gives. */
  function PowI(m: real, e: int): (r: Option<real>)
    ensures e >= 0 ==> r == Some(Pow(m, e))
    ensures r.None? <==> e < 0 && m == 0.0
  {
    if e >= 0 then Some(Pow(m, e))
    else if m == 0.0 then None
    else Some(1.0 / Pow(m, -e))
  }

  /** `delay_for_attempt`: `initial * multiplier^(attempt as i32)` cast to
      u64, capped at `max_delay_ms`. The exponent wraps to a negative one for
      attempts of 2^31 and above. An infinite power casts to `u64::MAX`,
      unless the initial delay is 0, where `0 * inf` is NaN and casts to 0. */
  function DelayForAttempt(c: RetryConfig, attempt: u32): (d: u64)
    ensures d <= c.maxDelayMs
    ensures c.initialDelayMs == 0 ==> d == 0
  {
    Min(Scaled(c.initialDelayMs, PowI(c.backoffMultiplier, U32AsI32(attempt))), c.maxDelayMs)
  }

  /** `(initial as f64 * power) as u64`, where a missing power is infinity. */
  function Scaled(initial: u64, power: Option<real>): (r: u64)
    ensures initial == 0 ==> r == 0
  {
    if power.Some? then AsU64(initial as real * power.value)
    else if initial == 0 then 0
    else U64_MAX
  }

  lemma {:induction false} PowMonotone(m: real, a: nat, b: nat)
    requires m >= 1.0 && a <= b
    ensures 1.0 <= Pow(m, a) <= Pow(m, b)
    decreases b
  {
    if a < b {
      PowMonotone(m, a, b - 1);
      MulAtLeast(m, Pow(m, b - 1));
      assert Pow(m, b) == m * Pow(m, b - 1);
    } else if a > 0 {
      PowMonotone(m, a - 1, a - 1);
      MulAtLeast(m, Pow(m, a - 1));
      assert Pow(m, a) == m * Pow(m, a - 1);
    } else {
      assert Pow(m, 0) == 1.0;
    }
  }

  lemma MulAtLeast(m: real, x: real)
    requires m >= 1.0 && x >= 1.0
    ensures m * x >= x
  {
  }

  lemma MulMonotone(x: real, a: real, b: real)
    requires x >= 0.0 && a <= b
    ensures x * a <= x * b
  {
  }

  /** With a multiplier of at least 1, later attempts (below 2^31) never wait
      less than earlier ones. */
  lemma DelayMonotone(c: RetryConfig, a: u32, b: u32)
    requires c.backoffMultiplier >= 1.0
    requires a <= b < 0x8000_0000
    ensures DelayForAttempt(c, a) <= DelayForAttempt(c, b)
  {
    var m := c.backoffMultiplier;
    PowMonotone(m, a, b);
    ScaledMonotone(c.initialDelayMs, Pow(m, a), Pow(m, b));
    assert U32AsI32(a) == a && U32AsI32(b) == b;
  }

  lemma ScaledMonotone(initial: u64, x: real, y: real)
    requires x <= y
    ensures Scaled(initial, Some(x)) <= Scaled(initial, Some(y))
  {
    MulMonotone(initial as real, x, y);
    AsU64Monotone(initial as real * x, initial as real * y);
  }

  /** The default schedule: 1 s, 2 s, 4 s, and the 30 s cap by attempt 10. */
  lemma DefaultDelays()
    ensures DelayForAttempt(DefaultRetryConfig(), 0) == 1000
    ensures DelayForAttempt(DefaultRetryConfig(), 1) == 2000
    ensures DelayForAttempt(DefaultRetryConfig(), 2) == 4000
    ensures DelayForAttempt(DefaultRetryConfig(), 10) == 30000
  {
    assert Pow(2.0, 2) == 4.0;
    assert Pow(2.0, 10) == 1024.0 by {
      assert Pow(2.0, 5) == 32.0;
      assert Pow(2.0, 10) == 2.0 * 2.0 * 2.0 * 2.0 * 2.0 * Pow(2.0, 5);
    }
    AsU64OfNat(1000);
    AsU64OfNat(2000);
    AsU64OfNat(4000);
    AsU64OfNat(1024000);
  }

  /** The largest attempt number wraps to exponent -1 and halves the delay. */
  lemma DelayAtWrappedAttempt()
    ensures DelayForAttempt(DefaultRetryConfig(), 0xFFFF_FFFF) == 500
  {
    AsU64OfNat(500);
  }

  // ---------------------------------------------------------------------------
  // Classifying yt-dlp stderr
  // ---------------------------------------------------------------------------

  /** `x` is the first of `lines` that contains `p`. */
  ghost predicate IsFirstWith(lines: seq<string>, p: string, x: string) {
    exists i :: 0 <= i < |lines| && lines[i] == x && Contains(x, p) &&
      forall j :: 0 <= j < i ==> !Contains(lines[j], p)
  }

  /** Some line contains `p`. */
  ghost predicate SomeLineWith(lines: seq<string>, p: string) {
    exists i :: 0 <= i < |lines| && Contains(lines[i], p)
  }

  /** The first of `lines` that contains `p`. */
  function FirstLineWith(lines: seq<string>, p: string): (r: Option<string>)
    ensures r.Some? ==> r.value in lines && Contains(r.value, p)
    ensures r.Some? ==> IsFirstWith(lines, p, r.value)
    ensures r.None? <==> !SomeLineWith(lines, p)
    decreases |lines|
  {
    if |lines| == 0 then None
    else if Contains(lines[0], p) then
      Some(lines[0])
    else
      var r := FirstLineWith(lines[1..], p);
      if r.Some? then
        var i :| 0 <= i < |lines[1..]| && lines[1..][i] == r.value && Contains(r.value, p) &&
          forall j :: 0 <= j < i ==> !Contains(lines[1..][j], p);
        assert lines[i + 1] == r.value;
        assert forall j :: 0 <= j < i + 1 ==> !Contains(lines[j], p) by {
          forall j | 0 <= j < i + 1 ensures !Contains(lines[j], p) {
            if j > 0 { assert lines[j] == lines[1..][j - 1]; }
          }
        }
        r
      else
        assert forall i :: 1 <= i < |lines| ==> lines[i] == lines[1..][i - 1];
        r
  }

  /** The first line of `s`, or `default` when it has none. */
  function FirstLine(s: string, default: string): (r: string)
    ensures r in Lines(s) || (Lines(s) == [] && r == default)
    ensures Lines(s) != [] ==> r == Lines(s)[0]
    ensures s == [] ==> r == default
  {
    var ls := Lines(s);
    if |ls| == 0 then default else ls[0]
  }

  /** The text a catch-all error carries: the first line mentioning "ERROR",
      else the first line, else "Unknown error". */
  function ErrorLineOrFirst(stderr: string): (r: string)
    ensures r in Lines(stderr) || (Lines(stderr) == [] && r == "Unknown error")
    ensures SomeLineWith(Lines(stderr), "ERROR") ==> IsFirstWith(Lines(stderr), "ERROR", r)
    ensures !SomeLineWith(Lines(stderr), "ERROR") ==> r == FirstLine(stderr, "Unknown error")
  {
    match FirstLineWith(Lines(stderr), "ERROR")
    case Some(l) => l
    case None => FirstLine(stderr, "Unknown error")
  }

  /** The variants `parse_ytdlp_error` can produce. */
  const YtdlpOutcomes: set<Variant> := {
    VPrivateVideo, VAgeRestricted, VRegionLocked, VNotFound, VRateLimited,
    VAuthenticationRequired, VUnsupportedUrl, VTimeout, VNetworkError, VGenericError
  }

  /** The variant `parse_ytdlp_error` picks: keyword tests on the
      lower-cased text, in a fixed order. */
  function YtdlpVariant(l: string): (v: Variant)
    ensures v == VGenericError || v in YtdlpVariants
    ensures v in YtdlpOutcomes
  {
    if Contains(l, "private video") || Contains(l, "video is private") then VPrivateVideo
    else if Contains(l, "age") && (Contains(l, "restricted") || Contains(l, "verify") || Contains(l, "confirm"))
    then VAgeRestricted
    else if Contains(l, "not available") && Contains(l, "country") then VRegionLocked
    else if Contains(l, "video unavailable") || Contains(l, "does not exist") then VNotFound
    else if Contains(l, "rate limit") || Contains(l, "429") || Contains(l, "too many requests") then VRateLimited
    else if Contains(l, "sign in") || Contains(l, "login") || Contains(l, "authentication")
    then VAuthenticationRequired
    else if Contains(l, "unsupported url") || Contains(l, "no video formats") then VUnsupportedUrl
    else if Contains(l, "timed out") || Contains(l, "timeout") then VTimeout
    else if Contains(l, "unable to download") || Contains(l, "connection") || Contains(l, "network")
    then VNetworkError
    else VGenericError
  }

  /** `parse_ytdlp_error`: the variant chosen from the lower-cased text, with
      a payload taken from the original text's lines. */
  function ParseYtdlpError(stderr: string): (e: DownloadError)
    ensures VariantOf(e) == YtdlpVariant(Lower(stderr))
    ensures e.UnsupportedUrl? && SomeLineWith(Lines(stderr), "http") ==> IsFirstWith(Lines(stderr), "http", e.msg)
    ensures e.UnsupportedUrl? && !SomeLineWith(Lines(stderr), "http") ==> e.msg == "Unknown URL"
    ensures e.Timeout? ==> e.msg == FirstLine(stderr, "Connection timed out")
    ensures e.NetworkError? ==> e.msg == FirstLine(stderr, "Network error")
    ensures e.GenericError? ==> e.msg == ErrorLineOrFirst(stderr)
  {
    WithPayload(YtdlpVariant(Lower(stderr)), stderr)
  }

  /** The error of variant `v` whose payload `parse_ytdlp_error` takes from
      the lines of `stderr`. */
  function WithPayload(v: Variant, stderr: string): (e: DownloadError)
    requires v in YtdlpOutcomes
    ensures VariantOf(e) == v
    ensures e.UnsupportedUrl? && SomeLineWith(Lines(stderr), "http") ==> IsFirstWith(Lines(stderr), "http", e.msg)
    ensures e.UnsupportedUrl? && !SomeLineWith(Lines(stderr), "http") ==> e.msg == "Unknown URL"
    ensures e.Timeout? ==> e.msg == FirstLine(stderr, "Connection timed out")
    ensures e.NetworkError? ==> e.msg == FirstLine(stderr, "Network error")
    ensures e.GenericError? ==> e.msg == ErrorLineOrFirst(stderr)
  {
    match v
    case VPrivateVideo => PrivateVideo
    case VAgeRestricted => AgeRestricted
    case VRegionLocked => RegionLocked
    case VNotFound => NotFound
    case VRateLimited => RateLimited
    case VAuthenticationRequired => AuthenticationRequired
    case VUnsupportedUrl => UnsupportedUrl(UrlPayload(stderr))
    case VTimeout => Timeout(FirstLine(stderr, "Connection timed out"))
    case VNetworkError => NetworkError(FirstLine(stderr, "Network error"))
    case VGenericError => GenericError(ErrorLineOrFirst(stderr))
  }

  /** The URL an unsupported-URL error names: the first line mentioning
      "http", else "Unknown URL". */
  function UrlPayload(stderr: string): (m: string)
    ensures SomeLineWith(Lines(stderr), "http") ==> IsFirstWith(Lines(stderr), "http", m)
    ensures !SomeLineWith(Lines(stderr), "http") ==> m == "Unknown URL"
  {
    FirstLineWith(Lines(stderr), "http").GetOr("Unknown URL")
  }

  /** No keyword occurs in empty text. */
  lemma NothingInEmpty()
    ensures forall p :: Contains([], p) ==> p == []
  {
    forall p | Contains([], p) ensures p == [] {
      assert MatchAt([], p, 0);
    }
  }

  /** Empty text matches no keyword. */
  lemma EmptyVariant()
    ensures YtdlpVariant([]) == VGenericError
  {
    NothingInEmpty();
  }

  /** Empty stderr gives the catch-all error with the fixed text. */
  lemma EmptyStderr()
    ensures ParseYtdlpError([]) == GenericError("Unknown error")
  {
    assert Lower([]) == [];
    EmptyVariant();
    assert WithPayload(VGenericError, []) == GenericError("Unknown error") by {
      assert ErrorLineOrFirst([]) == "Unknown error";
    }
    assert ParseYtdlpError([]) == WithPayload(YtdlpVariant(Lower([])), []);
  }

  /** The same classification as a rule table: the variant of the first rule
      that holds, or the catch-all. */
  const YtdlpRules: seq<Rule> := [
    [["private video", "video is private"]],
    [["age"], ["restricted", "verify", "confirm"]],
    [["not available"], ["country"]],
    [["video unavailable", "does not exist"]],
    [["rate limit", "429", "too many requests"]],
    [["sign in", "login", "authentication"]],
    [["unsupported url", "no video formats"]],
    [["timed out", "timeout"]],
    [["unable to download", "connection", "network"]]
  ]

  const YtdlpVariants: seq<Variant> := [
    VPrivateVideo, VAgeRestricted, VRegionLocked, VNotFound, VRateLimited,
    VAuthenticationRequired, VUnsupportedUrl, VTimeout, VNetworkError
  ]

  function TableVariant(rules: seq<Rule>, variants: seq<Variant>, text: string): Variant
    requires |rules| == |variants|
  {
    match FirstHolding(rules, text)
    case Some(i) => variants[i]
    case None => VGenericError
  }

  /** The hand-written chain agrees with the rule table on every input. */
  lemma ParseYtdlpErrorFollowsTable(l: string)
    ensures YtdlpVariant(l) == TableVariant(YtdlpRules, YtdlpVariants, l)
  {
    var rs := YtdlpRules;
    YtdlpRulesMean(l);
    UnrollFirstHolding(rs, l);
  }

  /** What each row of the table tests, in terms of `Contains`. */
  lemma YtdlpRulesMean(l: string)
    ensures Holds(l, YtdlpRules[0]) <==> Contains(l, "private video") || Contains(l, "video is private")
    ensures Holds(l, YtdlpRules[1]) <==>
      Contains(l, "age") && (Contains(l, "restricted") || Contains(l, "verify") || Contains(l, "confirm"))
    ensures Holds(l, YtdlpRules[2]) <==> Contains(l, "not available") && Contains(l, "country")
    ensures Holds(l, YtdlpRules[3]) <==> Contains(l, "video unavailable") || Contains(l, "does not exist")
    ensures Holds(l, YtdlpRules[4]) <==>
      Contains(l, "rate limit") || Contains(l, "429") || Contains(l, "too many requests")
    ensures Holds(l, YtdlpRules[5]) <==>
      Contains(l, "sign in") || Contains(l, "login") || Contains(l, "authentication")
    ensures Holds(l, YtdlpRules[6]) <==> Contains(l, "unsupported url") || Contains(l, "no video formats")
    ensures Holds(l, YtdlpRules[7]) <==> Contains(l, "timed out") || Contains(l, "timeout")
    ensures Holds(l, YtdlpRules[8]) <==>
      Contains(l, "unable to download") || Contains(l, "connection") || Contains(l, "network")
  {
    AccessRulesMean(l);
    LookupRulesMean(l);
    TransportRulesMean(l);
  }

  lemma AccessRulesMean(l: string)
    ensures Holds(l, YtdlpRules[0]) <==> Contains(l, "private video") || Contains(l, "video is private")
    ensures Holds(l, YtdlpRules[1]) <==>
      Contains(l, "age") && (Contains(l, "restricted") || Contains(l, "verify") || Contains(l, "confirm"))
    ensures Holds(l, YtdlpRules[2]) <==> Contains(l, "not available") && Contains(l, "country")
  {
    HoldsAnyOfTwo(l, "private video", "video is private");
    HoldsBoth(l, ["age"], ["restricted", "verify", "confirm"]);
    AnyInOne(l, "age");
    AnyInThree(l, "restricted", "verify", "confirm");
    HoldsBoth(l, ["not available"], ["country"]);
    AnyInOne(l, "not available");
    AnyInOne(l, "country");
  }

  lemma LookupRulesMean(l: string)
    ensures Holds(l, YtdlpRules[3]) <==> Contains(l, "video unavailable") || Contains(l, "does not exist")
    ensures Holds(l, YtdlpRules[4]) <==>
      Contains(l, "rate limit") || Contains(l, "429") || Contains(l, "too many requests")
    ensures Holds(l, YtdlpRules[5]) <==>
      Contains(l, "sign in") || Contains(l, "login") || Contains(l, "authentication")
  {
    HoldsAnyOfTwo(l, "video unavailable", "does not exist");
    HoldsAnyOfThree(l, "rate limit", "429", "too many requests");
    HoldsAnyOfThree(l, "sign in", "login", "authentication");
  }

  lemma TransportRulesMean(l: string)
    ensures Holds(l, YtdlpRules[6]) <==> Contains(l, "unsupported url") || Contains(l, "no video formats")
    ensures Holds(l, YtdlpRules[7]) <==> Contains(l, "timed out") || Contains(l, "timeout")
    ensures Holds(l, YtdlpRules[8]) <==>
      Contains(l, "unable to download") || Contains(l, "connection") || Contains(l, "network")
  {
    HoldsAnyOfTwo(l, "unsupported url", "no video formats");
    HoldsAnyOfTwo(l, "timed out", "timeout");
    HoldsAnyOfThree(l, "unable to download", "connection", "network");
  }

}

=== FILE: history.dfy ===
/** The download history: a newest-first list of finished downloads capped at
    500 entries, and running totals. Both live in a key-value store; here the
    store is a record of the two values, each of which may be missing or
    unreadable. */
module History {
  import opened Wrappers
  import opened Ints
  import opened Seqs

  /** The cap on the stored list. */
  const MaxHistoryItems: nat := 500

  /** One finished download. `status` is "completed" or "failed". */
  datatype HistoryItem = HistoryItem(
    id: string,
    url: string,
    title: string,
    thumbnail: Option<string>,
    format: string,
    quality: string,
    filePath: Option<string>,
    fileSize: Option<u64>,
    duration: Option<u64>,
    downloadedAt: int,
    status: string,
    error: Option<string>)

  /** The running totals. */
  datatype DownloadStats = DownloadStats(
    totalDownloads: u64,
    successfulDownloads: u64,
    failedDownloads: u64,
    totalBytesDownloaded: u64,
    totalDurationSeconds: u64)

  /** `DownloadStats::default()`. */
  function DefaultStats(): (s: DownloadStats)
    ensures s.totalDownloads == 0 && s.successfulDownloads == 0 && s.failedDownloads == 0
    ensures s.totalBytesDownloaded == 0 && s.totalDurationSeconds == 0
  {
    DownloadStats(0, 0, 0, 0, 0)
  }

  /** A store value: not yet written, written but not decodable as the
      expected type (with serde's reason), or a decoded value. */
  datatype Stored<T> = Absent | Malformed(reason: string) | Present(value: T)

  /** The history store's two keys. */
  datatype Store = Store(history: Stored<seq<HistoryItem>>, stats: Stored<DownloadStats>)

  /** `unwrap_or_default` of a read: a missing or unreadable value counts as
      the default. */
  function OrDefault<T>(v: Stored<T>, default: T): (r: T)
    ensures v.Present? ==> r == v.value
    ensures !v.Present? ==> r == default
  {
    if v.Present? then v.value else default
  }

  predicate Completed(item: HistoryItem) {
    item.status == "completed"
  }

  /** Insert at the front and keep the first 500. */
  function Prepend(history: seq<HistoryItem>, item: HistoryItem): (r: seq<HistoryItem>)
    ensures |r| == Min(|history| + 1, MaxHistoryItems)
    ensures r[0] == item
    ensures forall k :: 1 <= k < |r| ==> r[k] == history[k - 1]
  {
    var h := [item] + history;
    if |h| > MaxHistoryItems then h[..MaxHistoryItems] else h
  }

  /** `Option<u64>` added into a total, wrapping as a release build does. */
  function AddOpt(total: u64, v: Option<u64>): (r: u64)
    ensures v.None? ==> r == total
    ensures v.Some? ==> r == (total + v.value) % U64_LIMIT
  {
    if v.Some? then WrapU64(total + v.value) else total
  }

  /** The totals after one more download: every download is counted, a
      completed one as successful together with its size and duration, any
      other as failed. */
  function Record(stats: DownloadStats, item: HistoryItem): (r: DownloadStats)
    ensures r.totalDownloads == (stats.totalDownloads + 1) % U64_LIMIT
    ensures Completed(item) ==>
      r.successfulDownloads == (stats.successfulDownloads + 1) % U64_LIMIT &&
      r.failedDownloads == stats.failedDownloads &&
      r.totalBytesDownloaded == AddOpt(stats.totalBytesDownloaded, item.fileSize) &&
      r.totalDurationSeconds == AddOpt(stats.totalDurationSeconds, item.duration)
    ensures !Completed(item) ==>
      r == stats.(totalDownloads := r.totalDownloads, failedDownloads := (stats.failedDownloads + 1) % U64_LIMIT)
  {
    var s := stats.(totalDownloads := WrapU64(stats.totalDownloads + 1));
    if Completed(item) then
      s.(successfulDownloads := WrapU64(s.successfulDownloads + 1),
         totalBytesDownloaded := AddOpt(s.totalBytesDownloaded, item.fileSize),
         totalDurationSeconds := AddOpt(s.totalDurationSeconds, item.duration))
    else
      s.(failedDownloads := WrapU64(s.failedDownloads + 1))
  }

  /** `history_add` (and the worker's copy of it): the item goes first in
      the list, the list is capped, and the totals count it. */
  function Add(store: Store, item: HistoryItem): (r: Store)
    ensures r.history.Present? && r.stats.Present?
    ensures r.history.value == Prepend(OrDefault(store.history, []), item)
    ensures r.stats.value == Record(OrDefault(store.stats, DefaultStats()), item)
  {
    Store(Present(Prepend(OrDefault(store.history, []), item)),
          Present(Record(OrDefault(store.stats, DefaultStats()), item)))
  }

  /** `history_get_all`: a missing list reads as empty, an unreadable one is
      an error. */
  function GetAll(store: Store): (r: Result<seq<HistoryItem>, string>)
    ensures store.history.Absent? ==> r == Ok([])
    ensures store.history.Present? ==> r == Ok(store.history.value)
    ensures store.history.Malformed? <==> r.Err?
    ensures store.history.Malformed? ==> r.error == "Failed to parse history: " + store.history.reason
  {
    match store.history
    case Absent => Ok([])
    case Malformed(e) => Err("Failed to parse history: " + e)
    case Present(h) => Ok(h)
  }

  /** `history_get_stats`: missing totals read as zero, unreadable ones are
      an error. */
  function GetStats(store: Store): (r: Result<DownloadStats, string>)
    ensures store.stats.Absent? ==> r == Ok(DefaultStats())
    ensures store.stats.Present? ==> r == Ok(store.stats.value)
    ensures store.stats.Malformed? <==> r.Err?
    ensures store.stats.Malformed? ==> r.error == "Failed to parse stats: " + store.stats.reason
  {
    match store.stats
    case Absent => Ok(DefaultStats())
    case Malformed(e) => Err("Failed to parse stats: " + e)
    case Present(s) => Ok(s)
  }

  /** `history_remove`: every entry with the id is dropped, the rest keep
      their order; a store without a list is left alone, and an unreadable
      list is replaced by an empty one. The totals are not touched. */
  function Remove(store: Store, id: string): (r: Store)
    ensures r.stats == store.stats
    ensures store.history.Absent? ==> r == store
    ensures store.history.Malformed? ==> r.history == Present([])
    ensures store.history.Present? ==>
      r.history.Present? && (forall it :: it in r.history.value <==> it in store.history.value && it.id != id) &&
      IsSubseq(r.history.value, store.history.value)
    ensures store.history.Present? ==> forall it ::
      multiset(r.history.value)[it] == if it.id != id then multiset(store.history.value)[it] else 0
  {
    match store.history
    case Absent => store
    case Malformed(_) => store.(history := Present([]))
    case Present(h) =>
      var keep := (it: HistoryItem) => it.id != id;
      FilterIsSubseq(keep, h);
      FilterCount(keep, h);
      store.(history := Present(Filter(keep, h)))
  }

  /** `history_clear`: the list becomes empty; the totals are not touched. */
  function Clear(store: Store): (r: Store)
    ensures r.history == Present([]) && r.stats == store.stats
  {
    store.(history := Present([]))
  }

  // ---------------------------------------------------------------------------
  // Properties
  // ---------------------------------------------------------------------------

  /** Every download was counted exactly once as successful or failed. */
  predicate Balanced(s: DownloadStats) {
    s.totalDownloads == s.successfulDownloads + s.failedDownloads
  }

  /** Recording keeps the totals balanced while the count stays below the
      u64 limit. */
  lemma RecordKeepsBalanced(stats: DownloadStats, item: HistoryItem)
    requires Balanced(stats) && stats.totalDownloads < U64_MAX
    ensures Balanced(Record(stats, item))
    ensures Record(stats, item).totalDownloads == stats.totalDownloads + 1
  {
  }

  /** The number of completed items. */
  function CompletedCount(items: seq<HistoryItem>): (n: nat)
    ensures n <= |items|
  {
    |Filter(Completed, items)|
  }

  /** Recording items one after another. */
  function RecordAll(stats: DownloadStats, items: seq<HistoryItem>): DownloadStats
    decreases |items|
  {
    if |items| == 0 then stats else RecordAll(Record(stats, items[0]), items[1..])
  }

  /** From zero totals, after fewer than 2^64 - 1 downloads the totals
      count every download, the completed ones as successful and the rest
      as failed. */
  lemma {:induction false} RecordAllCounts(stats: DownloadStats, items: seq<HistoryItem>)
    requires Balanced(stats) && stats.totalDownloads + |items| < U64_LIMIT
    ensures var r := RecordAll(stats, items);
      Balanced(r) &&
      r.totalDownloads == stats.totalDownloads + |items| &&
      r.successfulDownloads == stats.successfulDownloads + CompletedCount(items)
    decreases |items|
  {
    if |items| > 0 {
      RecordKeepsBalanced(stats, items[0]);
      RecordAllCounts(Record(stats, items[0]), items[1..]);
      assert items == [items[0]] + items[1..];
      FilterAppend(Completed, [items[0]], items[1..]);
    }
  }

  /** The store after adding items one after another. */
  function AddAll(store: Store, items: seq<HistoryItem>): Store
    decreases |items|
  {
    if |items| == 0 then store else AddAll(Add(store, items[0]), items[1..])
  }

  /** The list never grows beyond 500 entries. */
  lemma {:induction false} AddAllCapped(store: Store, items: seq<HistoryItem>)
    requires store.history.Present? ==> |store.history.value| <= MaxHistoryItems
    ensures var r := AddAll(store, items);
      r.history.Present? ==> |r.history.value| <= MaxHistoryItems
    decreases |items|
  {
    if |items| > 0 {
      AddAllCapped(Add(store, items[0]), items[1..]);
    }
  }

  /** Adding a sequence and then one more item. */
  lemma {:induction false} AddAllSnoc(store: Store, items: seq<HistoryItem>, item: HistoryItem)
    ensures AddAll(store, items + [item]) == Add(AddAll(store, items), item)
    decreases |items|
  {
    if |items| == 0 {
      assert items + [item] == [item];
    } else {
      assert (items + [item])[1..] == items[1..] + [item];
      AddAllSnoc(Add(store, items[0]), items[1..], item);
    }
  }

  /** Whatever the store held, the list holds the added items newest
      first, for as many as fit. */
  lemma {:induction false} AddAllNewestFirst(store: Store, items: seq<HistoryItem>, k: nat)
    requires k < |items| && k < MaxHistoryItems
    ensures AddAll(store, items).history.Present?
    ensures |AddAll(store, items).history.value| > k
    ensures AddAll(store, items).history.value[k] == items[|items| - 1 - k]
    decreases |items|
  {
    var n := |items|;
    var init := items[..n - 1];
    assert items == init + [items[n - 1]];
    AddAllSnoc(store, init, items[n - 1]);
    var prev := AddAll(store, init);
    if k > 0 {
      AddAllNewestFirst(store, init, k - 1);
      assert init[|init| - 1 - (k - 1)] == items[n - 1 - k];
    }
  }

  /** Removing and clearing leave the totals alone, so the counts keep
      describing every download ever recorded. */
  lemma ClearKeepsStats(store: Store, id: string)
    ensures GetStats(Clear(store)) == GetStats(store)
    ensures GetStats(Remove(store, id)) == GetStats(store)
  {
  }

  /** The kept list is the only order-keeping selection of the old list
      with every copy of the other ids: repeated entries all stay. */
  lemma RemoveDetermined(store: Store, id: string, r: seq<HistoryItem>)
    requires store.history.Present? && IsSubseq(r, store.history.value)
    requires forall it :: multiset(r)[it] == if it.id != id then multiset(store.history.value)[it] else 0
    ensures Remove(store, id).history == Present(r)
  {
    var keep := (it: HistoryItem) => it.id != id;
    FilterUnique(keep, store.history.value, r);
    FilterUnique(keep, store.history.value, Remove(store, id).history.value);
  }

  /** Removing twice is removing once. */
  lemma RemoveIdempotent(store: Store, id: string)
    ensures Remove(Remove(store, id), id) == Remove(store, id)
  {
    if store.history.Present? {
      var h := Remove(store, id).history.value;
      FilterAll((it: HistoryItem) => it.id != id, h);
    }
  }
}

=== FILE: ints.dfy ===
/** Rust's fixed-width integer types as subset types of `int`, and the casts
    between them that the source performs. */
module Ints {

  const U32_LIMIT: nat := 0x1_0000_0000
  const U64_LIMIT: nat := 0x1_0000_0000_0000_0000
  const U64_MAX: nat := U64_LIMIT - 1

  type u32 = x: int | 0 <= x < U32_LIMIT
  type u64 = x: int | 0 <= x < U64_LIMIT
  type i32 = x: int | -0x8000_0000 <= x < 0x8000_0000

  /** `x as i32` for a `u32`: two's-complement reinterpretation, so values
      from 2^31 upwards become negative. */
  function U32AsI32(x: u32): (r: i32)
    ensures r >= 0 ==> r == x
    ensures r < 0 ==> r == x - U32_LIMIT
    ensures (r >= 0) <==> x < 0x8000_0000
  {
    if x < 0x8000_0000 then x else x - U32_LIMIT
  }

  /** Rust's saturating `f64 as u64` on a finite value: values at or below
      zero give 0, values beyond the range give `u64::MAX`, anything else is
      truncated toward zero. */
  function AsU64(x: real): (r: u64)
    ensures 0.0 <= x < U64_LIMIT as real ==> r as real <= x < r as real + 1.0
    ensures x <= 0.0 ==> r == 0
    ensures x >= U64_LIMIT as real ==> r == U64_MAX
  {
    if x <= 0.0 then 0
    else if x >= U64_LIMIT as real then U64_MAX
    else x.Floor
  }

  /** Truncation keeps order: a larger value never casts to a smaller one. */
  lemma AsU64Monotone(x: real, y: real)
    requires x <= y
    ensures AsU64(x) <= AsU64(y)
  {
  }

  /** Whole numbers in range cast exactly. */
  lemma AsU64OfNat(n: nat)
    requires n < U64_LIMIT
    ensures AsU64(n as real) == n
  {
  }

  function Min(a: int, b: int): (r: int)
    ensures r <= a && r <= b && (r == a || r == b)
  {
    if a <= b then a else b
  }

  /** Unsigned 64-bit arithmetic as a release build performs it: modulo 2^64. */
  function WrapU64(x: nat): (r: u64)
    ensures x < U64_LIMIT ==> r == x
  {
    x % U64_LIMIT
  }

  /** Unsigned 32-bit arithmetic as a release build performs it: modulo 2^32. */
  function WrapU32(x: nat): (r: u32)
    ensures x < U32_LIMIT ==> r == x
    ensures x == U32_LIMIT ==> r == 0
  {
    x % U32_LIMIT
  }

  /** `f64::min` on finite values: the smaller of the two, which caps a
      percentage computed from byte counts at 100. */
  function MinReal(a: real, b: real): (r: real)
    ensures r <= a && r <= b && (r == a || r == b)
  {
    if a <= b then a else b
  }

  /** `f64::clamp` for an ordered range. */
  function Clamp(x: real, lo: real, hi: real): (r: real)
    requires lo <= hi
    ensures lo <= r <= hi
    ensures lo <= x <= hi ==> r == x
  {
    if x < lo then lo else if x > hi then hi else x
  }
}

=== FILE: keywords.dfy ===
/** Keyword rule tables: the shape shared by the source's three error
    classifiers, each an ordered chain of "the text contains one of these
    words (and one of those)" tests. Used as the reference definition the
    hand-written classifiers are proved against. */
module Keywords {
  import opened Wrappers
  import opened Text

  /** Some word of `words` occurs in `text`. */
  predicate AnyIn(text: string, words: seq<string>) {
    exists i :: 0 <= i < |words| && Contains(text, words[i])
  }

  /** A rule is a conjunction of word groups; it holds when every group has a
      word that occurs in the text. */
  type Rule = seq<seq<string>>

  predicate Holds(text: string, rule: Rule) {
    forall g :: 0 <= g < |rule| ==> AnyIn(text, rule[g])
  }

  /** The position of the first rule of `rules` (from `k` on) that holds. */
  function FirstHolding(rules: seq<Rule>, text: string, k: nat := 0): (r: Option<nat>)
    requires k <= |rules|
    ensures r.Some? ==> k <= r.value < |rules| && Holds(text, rules[r.value])
    ensures r.Some? ==> forall j :: k <= j < r.value ==> !Holds(text, rules[j])
    ensures r.None? ==> forall j :: k <= j < |rules| ==> !Holds(text, rules[j])
    decreases |rules| - k
  {
    if k == |rules| then None
    else if Holds(text, rules[k]) then Some(k)
    else FirstHolding(rules, text, k + 1)
  }

  /** The first holding rule is unique: any index whose rule holds and whose
      predecessors all fail is the one `FirstHolding` finds. */
  lemma FirstHoldingUnique(rules: seq<Rule>, text: string, i: nat)
    requires i < |rules| && Holds(text, rules[i])
    requires forall j :: 0 <= j < i ==> !Holds(text, rules[j])
    ensures FirstHolding(rules, text) == Some(i)
  {
  }

  /** No rule holds: `FirstHolding` finds nothing. */
  lemma FirstHoldingNone(rules: seq<Rule>, text: string)
    requires forall j :: 0 <= j < |rules| ==> !Holds(text, rules[j])
    ensures FirstHolding(rules, text) == None
  {
  }

  lemma AnyInTwo(text: string, a: string, b: string)
    ensures AnyIn(text, [a, b]) <==> Contains(text, a) || Contains(text, b)
  {
    assert [a, b][0] == a && [a, b][1] == b;
  }

  lemma AnyInThree(text: string, a: string, b: string, c: string)
    ensures AnyIn(text, [a, b, c]) <==> Contains(text, a) || Contains(text, b) || Contains(text, c)
  {
    assert [a, b, c][0] == a && [a, b, c][1] == b && [a, b, c][2] == c;
  }

  lemma AnyInOne(text: string, a: string)
    ensures AnyIn(text, [a]) <==> Contains(text, a)
  {
    assert [a][0] == a;
  }

  lemma HoldsAnyOfTwo(text: string, a: string, b: string)
    ensures Holds(text, [[a, b]]) <==> Contains(text, a) || Contains(text, b)
  {
    AnyInTwo(text, a, b);
    assert [[a, b]][0] == [a, b];
  }

  lemma HoldsAnyOfThree(text: string, a: string, b: string, c: string)
    ensures Holds(text, [[a, b, c]]) <==> Contains(text, a) || Contains(text, b) || Contains(text, c)
  {
    AnyInThree(text, a, b, c);
    assert [[a, b, c]][0] == [a, b, c];
  }

  lemma HoldsBoth(text: string, g1: seq<string>, g2: seq<string>)
    ensures Holds(text, [g1, g2]) <==> AnyIn(text, g1) && AnyIn(text, g2)
  {
    assert [g1, g2][0] == g1 && [g1, g2][1] == g2;
  }

  /** `FirstHolding` over a nine-rule table, spelled out as the chain of tests
      it performs. */
  lemma UnrollFirstHolding(rs: seq<Rule>, l: string)
    requires |rs| == 9
    ensures FirstHolding(rs, l) ==
      if Holds(l, rs[0]) then Some(0) else if Holds(l, rs[1]) then Some(1)
      else if Holds(l, rs[2]) then Some(2) else if Holds(l, rs[3]) then Some(3)
      else if Holds(l, rs[4]) then Some(4) else if Holds(l, rs[5]) then Some(5)
      else if Holds(l, rs[6]) then Some(6) else if Holds(l, rs[7]) then Some(7)
      else if Holds(l, rs[8]) then Some(8) else None
  {
    assert FirstHolding(rs, l, 9) == None;
    assert FirstHolding(rs, l, 8) == if Holds(l, rs[8]) then Some(8) else FirstHolding(rs, l, 9);
    assert FirstHolding(rs, l, 7) == if Holds(l, rs[7]) then Some(7) else FirstHolding(rs, l, 8);
    assert FirstHolding(rs, l, 6) == if Holds(l, rs[6]) then Some(6) else FirstHolding(rs, l, 7);
    assert FirstHolding(rs, l, 5) == if Holds(l, rs[5]) then Some(5) else FirstHolding(rs, l, 6);
    assert FirstHolding(rs, l, 4) == if Holds(l, rs[4]) then Some(4) else FirstHolding(rs, l, 5);
    assert FirstHolding(rs, l, 3) == if Holds(l, rs[3]) then Some(3) else FirstHolding(rs, l, 4);
    assert FirstHolding(rs, l, 2) == if Holds(l, rs[2]) then Some(2) else FirstHolding(rs, l, 3);
    assert FirstHolding(rs, l, 1) == if Holds(l, rs[1]) then Some(1) else FirstHolding(rs, l, 2);
  }
}

=== FILE: logging.dfy ===
/** The in-memory log buffer kept for debug exports and the anonymiser that
    hides the user's name in Windows profile paths before logs leave the
    machine. */
module Logging {
  import opened Wrappers
  import opened Text

  // ---------------------------------------------------------------------------
  // The log buffer
  // ---------------------------------------------------------------------------

  /** At most this many entries are kept. */
  const MaxLogEntries: nat := 500

  datatype LogEntry = LogEntry(timestamp: string, level: string, target: string, message: string)

  /** The kept entries, oldest first. */
  datatype LogBuffer = LogBuffer(entries: seq<LogEntry>)

  predicate Bounded(b: LogBuffer) {
    |b.entries| <= MaxLogEntries
  }

  /** The last `n` elements of `xs`, or all of them when there are fewer. */
  function Last<T>(xs: seq<T>, n: nat): (r: seq<T>)
    ensures |r| == if |xs| < n then |xs| else n
    ensures forall k :: 0 <= k < |r| ==> r[k] == xs[|xs| - |r| + k]
  {
    if |xs| <= n then xs else xs[|xs| - n..]
  }

  /** Keeping the last `n` twice is keeping them once. */
  lemma LastAppend<T>(x: seq<T>, y: seq<T>, n: nat)
    ensures Last(Last(x, n) + y, n) == Last(x + y, n)
  {
    if |x| > n {
      var z := x[|x| - n..] + y;
      assert z == (x + y)[|x| - n..];
      assert Last(z, n) == z[|z| - n..];
      assert z[|z| - n..] == (x + y)[|x + y| - n..];
    }
  }

  lemma AppendHead<T>(a: seq<T>, es: seq<T>)
    requires |es| > 0
    ensures a + [es[0]] + es[1..] == a + es
  {
    assert es == [es[0]] + es[1..];
  }

  /** `LogBuffer::new`. */
  function NewBuffer(): (b: LogBuffer)
    ensures b.entries == [] && Bounded(b)
  {
    LogBuffer([])
  }

  /** `push`: a full buffer first drops its oldest entry. */
  function Push(b: LogBuffer, e: LogEntry): (r: LogBuffer)
    ensures |r.entries| > 0 && r.entries[|r.entries| - 1] == e
    ensures Bounded(b) ==> Bounded(r)
    ensures Bounded(b) ==> r.entries == Last(b.entries + [e], MaxLogEntries)
  {
    var kept := if |b.entries| >= MaxLogEntries then b.entries[1..] else b.entries;
    LogBuffer(kept + [e])
  }

  /** A run of pushes, in order. */
  function PushAll(b: LogBuffer, es: seq<LogEntry>): LogBuffer
    decreases |es|
  {
    if |es| == 0 then b else PushAll(Push(b, es[0]), es[1..])
  }

  /** A bounded buffer keeps, after any run of pushes, exactly the last 500
      entries of its old contents followed by the pushed ones, in order. */
  lemma {:induction false} PushAllKeepsLast(b: LogBuffer, es: seq<LogEntry>)
    requires Bounded(b)
    ensures Bounded(PushAll(b, es))
    ensures PushAll(b, es).entries == Last(b.entries + es, MaxLogEntries)
    decreases |es|
  {
    if |es| == 0 {
      assert b.entries + es == b.entries;
    } else {
      var b1 := Push(b, es[0]);
      var x := b.entries + [es[0]];
      assert PushAll(b, es) == PushAll(b1, es[1..]);
      assert Bounded(b1) && b1.entries == Last(x, MaxLogEntries);
      PushAllKeepsLast(b1, es[1..]);
      LastAppend(x, es[1..], MaxLogEntries);
      AppendHead(b.entries, es);
    }
  }

  /** From a new buffer: the last 500 pushes, in the order they came. */
  lemma PushesFromEmpty(es: seq<LogEntry>)
    ensures PushAll(NewBuffer(), es).entries == Last(es, MaxLogEntries)
    ensures |PushAll(NewBuffer(), es).entries| <= MaxLogEntries
  {
    PushAllKeepsLast(NewBuffer(), es);
    assert NewBuffer().entries + es == es;
  }

  /** One entry as `[timestamp] level target - message`. */
  function Format(e: LogEntry): (r: string)
    ensures StartsWith(r, "[" + e.timestamp + "] ")
    ensures EndsWith(r, " - " + e.message)
    ensures |r| == |e.timestamp| + |e.level| + |e.target| + |e.message| + 7
    ensures r[|e.timestamp| + 3..|r| - |e.message| - 3] == e.level + " " + e.target
  {
    var head := "[" + e.timestamp + "] ";
    var mid := e.level + " " + e.target;
    var tail := " - " + e.message;
    var r := head + mid + tail;
    assert r[..|head|] == head;
    assert r[|head|..|head| + |mid|] == mid;
    assert r[|r| - |tail|..] == tail;
    r
  }

  function FormatAll(es: seq<LogEntry>): (r: seq<string>)
    ensures |r| == |es|
    ensures forall k :: 0 <= k < |es| ==> r[k] == Format(es[k])
  {
    seq(|es|, k requires 0 <= k < |es| => Format(es[k]))
  }

  /** Every part is found in the joined text. */
  lemma {:induction false} JoinContainsPart(parts: seq<string>, sep: string, k: nat)
    requires k < |parts|
    ensures Contains(Join(parts, sep), parts[k])
    decreases |parts|
  {
    if |parts| == 1 || k == 0 {
      var j := Join(parts, sep);
      if |parts| == 1 {
        assert j[0..|parts[0]|] == parts[0];
      } else {
        assert j == parts[0] + (sep + Join(parts[1..], sep));
        assert j[0..|parts[0]|] == parts[0];
      }
      ContainsAt(j, parts[k], 0);
    } else {
      JoinContainsPart(parts[1..], sep, k - 1);
      ContainsConcatRight(parts[0] + sep, Join(parts[1..], sep), parts[k]);
    }
  }

  /** No part of the entry holds a line feed. */
  predicate SingleLine(e: LogEntry) {
    '\n' !in e.timestamp && '\n' !in e.level && '\n' !in e.target && '\n' !in e.message
  }

  /** `get_logs`: every kept entry formatted, one per line, oldest first.
      When no entry holds a line feed, splitting the export at line feeds
      gives back the formatted entries in buffer order. */
  function GetLogs(b: LogBuffer): (r: string)
    ensures |b.entries| == 0 ==> r == ""
    ensures forall k :: 0 <= k < |b.entries| ==> Contains(r, Format(b.entries[k]))
    ensures |b.entries| > 0 && (forall k :: 0 <= k < |b.entries| ==> SingleLine(b.entries[k])) ==>
      Split(r, '\n') == FormatAll(b.entries)
  {
    var parts := FormatAll(b.entries);
    var r := Join(parts, "\n");
    assert forall k :: 0 <= k < |b.entries| ==> Contains(r, Format(b.entries[k])) by {
      forall k | 0 <= k < |b.entries| ensures Contains(r, Format(b.entries[k])) {
        JoinContainsPart(parts, "\n", k);
      }
    }
    SplitLogLines(b.entries);
    r
  }

  /** Single-line entries split back from their joined lines. */
  lemma SplitLogLines(es: seq<LogEntry>)
    ensures |es| > 0 && (forall k :: 0 <= k < |es| ==> SingleLine(es[k])) ==>
      Split(Join(FormatAll(es), "\n"), '\n') == FormatAll(es)
  {
    var parts := FormatAll(es);
    if |es| > 0 && (forall k :: 0 <= k < |es| ==> SingleLine(es[k])) {
      forall k | 0 <= k < |parts| ensures '\n' !in parts[k] {
        FormatSingleLine(es[k]);
      }
      SplitJoin(parts, '\n');
    }
  }

  /** A formatted entry is one line when its parts are. */
  lemma FormatSingleLine(e: LogEntry)
    requires SingleLine(e)
    ensures '\n' !in Format(e)
  {
    var r := Format(e);
    assert r == "[" + e.timestamp + "] " + e.level + " " + e.target + " - " + e.message;
  }

  /** `get_recent_logs(count)`: the same for the last `count` entries only. */
  function GetRecentLogs(b: LogBuffer, count: nat): (r: string)
    ensures r == GetLogs(LogBuffer(Last(b.entries, count)))
    ensures count >= |b.entries| ==> r == GetLogs(b)
    ensures count == 0 ==> r == ""
  {
    var start := if |b.entries| > count then |b.entries| - count else 0;
    var kept := b.entries[start..];
    assert kept == Last(b.entries, count);
    assert count >= |b.entries| ==> kept == b.entries;
    Join(FormatAll(kept), "\n")
  }

  /** `clear`. */
  function Clear(b: LogBuffer): (r: LogBuffer)
    ensures r.entries == [] && GetLogs(r) == ""
  {
    LogBuffer([])
  }

  // ---------------------------------------------------------------------------
  // Path anonymisation
  // ---------------------------------------------------------------------------

  const Placeholder := "<USER>"

  /** The patterns that name the user's profile, tried in this order with
      an exact match. */
  function UserPatterns(user: string): (r: seq<string>)
    ensures |r| == 6
  {
    [ "C:\\Users\\" + (user + "\\"), "C:/Users/" + (user + "/"),
      "C:\\Users\\" + user, "C:/Users/" + user,
      "\\Users\\" + (user + "\\AppData"), "/Users/" + (user + "/AppData") ]
  }

  /** The patterns tried ignoring case, with the user name lower-cased. */
  function LowerPatterns(lowerUser: string): (r: seq<string>)
    ensures |r| == 2
  {
    [ "c:\\users\\" + (lowerUser + "\\"), "c:/users/" + (lowerUser + "/") ]
  }

  /** Every occurrence of each pattern, in turn, with the user name inside
      the pattern replaced by the placeholder. */
  function ReplacePatterns(s: string, patterns: seq<string>, user: string): (r: string)
    ensures (forall k :: 0 <= k < |patterns| ==> |patterns[k]| > 0 && !Contains(s, patterns[k])) ==> r == s
    decreases |patterns|
  {
    if |patterns| == 0 then s
    else ReplacePatterns(Replace(s, patterns[0], Replace(patterns[0], user, Placeholder)), patterns[1..], user)
  }

  /** The characters `regex_lite_escape` puts a backslash in front of. */
  predicate IsRegexSpecial(c: char) {
    c in "\\.*+?[](){}|^$"
  }

  /** `regex_lite_escape`: its chain of replacements starts with the
      backslash, so the backslashes it adds are never escaped again and the
      chain amounts to escaping each special character once. */
  function Escape(s: string): (r: string)
    ensures |r| >= |s|
    ensures (forall k :: 0 <= k < |s| ==> !IsRegexSpecial(s[k])) ==> r == s
    decreases |s|
  {
    if |s| == 0 then []
    else (if IsRegexSpecial(s[0]) then ['\\', s[0]] else [s[0]]) + Escape(s[1..])
  }

  /** The case-insensitive pass: the first match, in the lower-cased text,
      of the lower-cased escaped pattern is overwritten, from the match on,
      for as many characters as the unescaped pattern has. */
  function ReplaceFirstIgnoringCase(s: string, pattern: string, lowerUser: string): (r: string)
  {
    match IndexOf(Lower(s), Lower(Escape(pattern)))
    case None => s
    case Some(pos) =>
      if pos + |pattern| <= |s| then s[..pos] + Replace(pattern, lowerUser, Placeholder) + s[pos + |pattern|..]
      else s
  }

  function ReplaceAllIgnoringCase(s: string, patterns: seq<string>, lowerUser: string): (r: string)
    ensures (forall k :: 0 <= k < |patterns| ==> !Contains(Lower(s), Lower(Escape(patterns[k])))) ==> r == s
    decreases |patterns|
  {
    if |patterns| == 0 then s
    else ReplaceAllIgnoringCase(ReplaceFirstIgnoringCase(s, patterns[0], lowerUser), patterns[1..], lowerUser)
  }

  /** The passes that know the user's name. */
  function UserPass(s: string, user: string): string {
    var lowerUser := Lower(user);
    ReplaceAllIgnoringCase(ReplacePatterns(s, UserPatterns(user), user), LowerPatterns(lowerUser), lowerUser)
  }

  /** The text starts with `C:\Users\` or `C:/Users/`, in any case. */
  predicate ProfilePrefix(s: string) {
    StartsWith(Lower(s), "c:\\users\\") || StartsWith(Lower(s), "c:/users/")
  }

  /** The first path separator of either kind. */
  function FirstSeparator(s: string): (r: Option<nat>)
    ensures r.Some? ==> r.value < |s| && (s[r.value] == '\\' || s[r.value] == '/')
    ensures r.Some? ==> forall k :: 0 <= k < r.value ==> s[k] != '\\' && s[k] != '/'
    ensures r.None? ==> forall k :: 0 <= k < |s| ==> s[k] != '\\' && s[k] != '/'
    decreases |s|
  {
    if |s| == 0 then None
    else if s[0] == '\\' || s[0] == '/' then Some(0)
    else match FirstSeparator(s[1..])
      case None => None
      case Some(k) => Some(k + 1)
  }

  /** The separator written after the placeholder: a backslash when the
      character at `probe` is a colon and the ninth character is a
      backslash, else a slash. The program looks at index 2; index 1 is
      where the colon of `C:` is. */
  function SeparatorFor(s: string, probe: nat): char {
    if probe < |s| && s[probe] == ':' && 8 < |s| && s[8] == '\\' then '\\' else '/'
  }

  /** The pass over the text: a profile prefix followed by a name and a
      separator becomes the prefix, the placeholder and one separator; every
      other character is copied. */
  function ProfilePass(s: string, probe: nat): (r: string)
    decreases |s|
  {
    if |s| == 0 then []
    else if ProfilePrefix(s) && FirstSeparator(s[9..]).Some? then
      var e := FirstSeparator(s[9..]).value;
      s[..9] + Placeholder + [SeparatorFor(s, probe)] + ProfilePass(s[9 + e + 1..], probe)
    else [s[0]] + ProfilePass(s[1..], probe)
  }

  /** `anonymize_paths` with the user name the environment gives, if any,
      and the separator chosen by looking at `probe`. The pass over the
      text yields nothing only for empty text, when the program returns the
      text it had. */
  function AnonymizeWith(input: string, user: Option<string>, probe: nat): string {
    var s := if user.Some? then UserPass(input, user.value) else input;
    var a := ProfilePass(s, probe);
    if a != [] then a else s
  }

  /** The program as written. */
  function AnonymizeAsWritten(input: string, user: Option<string>): string {
    AnonymizeWith(input, user, 2)
  }

  /** The anonymiser with the colon looked for where it stands. */
  function Anonymize(input: string, user: Option<string>): string {
    AnonymizeWith(input, user, 1)
  }

  // ---------------------------------------------------------------------------
  // What the anonymiser promises
  // ---------------------------------------------------------------------------

  /** Lower-casing changes letters only. */
  lemma LowerKeepsNonLetter(c: char)
    requires !('a' <= LowerChar(c) <= 'z')
    ensures LowerChar(c) == c
  {
  }

  /** The shape of a profile prefix: a colon second and a separator third
      and ninth, in the text itself and not only once lower-cased. */
  lemma ProfilePrefixShape(s: string)
    requires ProfilePrefix(s)
    ensures |s| >= 9 && s[1] == ':'
    ensures s[2] == '\\' || s[2] == '/'
    ensures s[8] == '\\' || s[8] == '/'
  {
    var l := Lower(s);
    var p := if StartsWith(l, "c:\\users\\") then "c:\\users\\" else "c:/users/";
    assert l[..9] == p;
    assert l[1] == p[1] == ':';
    assert l[2] == p[2] && l[8] == p[8];
    LowerKeepsNonLetter(s[1]);
    LowerKeepsNonLetter(s[2]);
    LowerKeepsNonLetter(s[8]);
  }

  /** As written, the separator test looks at the separator after `C:`,
      never at a colon, so every profile path gets a slash. */
  lemma SeparatorAsWritten(s: string)
    requires ProfilePrefix(s)
    ensures SeparatorFor(s, 2) == '/'
  {
    ProfilePrefixShape(s);
  }

  /** Looking at the colon keeps the separator the path uses. */
  lemma SeparatorKept(s: string)
    requires ProfilePrefix(s)
    ensures SeparatorFor(s, 1) == s[8]
  {
    ProfilePrefixShape(s);
  }

  /** A profile path: the prefix is kept, the name up to the next separator
      becomes the placeholder, and one separator follows. */
  lemma ProfileSegment(p: string, name: string, sep: char, rest: string, probe: nat)
    requires |p| == 9 && ProfilePrefix(p)
    requires forall k :: 0 <= k < |name| ==> name[k] != '\\' && name[k] != '/'
    requires sep == '\\' || sep == '/'
    ensures var s := p + name + [sep] + rest;
      ProfilePass(s, probe) == p + Placeholder + [SeparatorFor(s, probe)] + ProfilePass(rest, probe)
  {
    var s := p + name + [sep] + rest;
    assert Lower(s)[..9] == Lower(p);
    assert ProfilePrefix(s);
    assert s[9..] == name + [sep] + rest;
    var t := s[9..];
    assert t[|name|] == sep;
    assert forall k :: 0 <= k < |name| ==> t[k] == name[k];
    assert FirstSeparator(t) == Some(|name|);
    assert s[..9] == p;
    assert s[9 + |name| + 1..] == rest;
  }

  /** Text with no profile prefix anywhere passes through unchanged. */
  lemma {:induction false} NoProfileUnchanged(s: string, probe: nat)
    requires forall k :: 0 <= k < |s| ==> !ProfilePrefix(s[k..])
    ensures ProfilePass(s, probe) == s
    decreases |s|
  {
    if |s| > 0 {
      assert !ProfilePrefix(s[0..]);
      assert s[0..] == s;
      forall k | 0 <= k < |s| - 1 ensures !ProfilePrefix(s[1..][k..]) {
        assert s[1..][k..] == s[k + 1..];
      }
      NoProfileUnchanged(s[1..], probe);
    }
  }

  /** A profile prefix spells "users" once lower-cased. */
  lemma ProfileMentionsUsers(s: string, k: nat)
    requires k < |s| && ProfilePrefix(s[k..])
    ensures MatchAt(Lower(s), "users", k + 3)
  {
    var t := s[k..];
    var l := Lower(t);
    var p := if StartsWith(l, "c:\\users\\") then "c:\\users\\" else "c:/users/";
    assert l[..9] == p;
    forall j | 0 <= j < 5 ensures Lower(s)[k + 3 + j] == "users"[j] {
      assert l[3 + j] == p[3 + j];
      assert t[3 + j] == s[k + 3 + j];
    }
  }

  /** An occurrence in the text is an occurrence in the lower-cased text. */
  lemma LowerMatch(s: string, p: string, i: int)
    requires MatchAt(s, p, i)
    ensures MatchAt(Lower(s), Lower(p), i)
  {
    forall j | 0 <= j < |p| ensures Lower(s)[i + j] == Lower(p)[j] {
      assert s[i + j] == s[i..i + |p|][j];
    }
  }

  /** Containment is transitive. */
  lemma ContainsTrans(s: string, p: string, q: string)
    requires Contains(s, p) && Contains(p, q)
    ensures Contains(s, q)
  {
    var i, j := IndexOf(s, p).value, IndexOf(p, q).value;
    assert s[i..i + |p|] == p && p[j..j + |q|] == q;
    forall k | 0 <= k < |q| ensures s[i + j + k] == q[k] {
      assert s[i + j + k] == s[i..i + |p|][j + k];
      assert q[k] == p[j..j + |q|][k];
    }
    assert s[i + j..i + j + |q|] == q;
    ContainsAt(s, q, i + j);
  }

  /** A pattern that spells "Users" in any case is absent from text whose
      lower-cased form never spells "users". */
  lemma PatternAbsent(s: string, pattern: string)
    requires Contains(Lower(pattern), "users")
    requires !Contains(Lower(s), "users")
    ensures !Contains(s, pattern)
    ensures !Contains(Lower(s), Lower(pattern))
  {
    if Contains(s, pattern) {
      LowerMatch(s, pattern, IndexOf(s, pattern).value);
      ContainsAt(Lower(s), Lower(pattern), IndexOf(s, pattern).value);
    }
    if Contains(Lower(s), Lower(pattern)) {
      ContainsTrans(Lower(s), Lower(pattern), "users");
    }
  }

  /** A head that spells "Users" at `at`, in any case, does so in every
      pattern built on it. */
  lemma HeadSpellsUsers(head: string, tail: string, at: nat)
    requires at + 5 <= |head| && Lower(head[at..at + 5]) == "users"
    ensures Contains(Lower(head + tail), "users")
  {
    forall j | 0 <= j < 5 ensures Lower(head + tail)[at + j] == "users"[j] {
      assert (head + tail)[at + j] == head[at..at + 5][j];
    }
    ContainsAt(Lower(head + tail), "users", at);
  }

  /** Escaping distributes over concatenation. */
  lemma {:induction false} EscapeAppend(a: string, b: string)
    ensures Escape(a + b) == Escape(a) + Escape(b)
    decreases |a|
  {
    if |a| == 0 {
      assert a + b == b;
    } else {
      assert (a + b)[0] == a[0];
      assert (a + b)[1..] == a[1..] + b;
      EscapeAppend(a[1..], b);
    }
  }

  /** A word without special characters survives escaping. */
  lemma EscapeKeepsWord(s: string, w: string, i: nat)
    requires MatchAt(s, w, i)
    requires forall k :: 0 <= k < |w| ==> !IsRegexSpecial(w[k])
    ensures Contains(Escape(s), w)
  {
    var a, c := s[..i], s[i + |w|..];
    SplitAtMatch(s, w, i);
    EscapeAppend(a, w + c);
    EscapeAppend(w, c);
    assert Escape(w) == w;
    ContainsMiddle(Escape(a), w, Escape(c));
  }

  /** None of the exact patterns occurs in text that never spells "users". */
  lemma UserPatternsAbsent(s: string, user: string)
    requires !Contains(Lower(s), "users")
    ensures forall k :: 0 <= k < 6 ==> |UserPatterns(user)[k]| > 0 && !Contains(s, UserPatterns(user)[k])
  {
    var ps := UserPatterns(user);
    RootAbsent(s, "C:\\Users\\", 3, user + "\\");
    RootAbsent(s, "C:/Users/", 3, user + "/");
    RootAbsent(s, "C:\\Users\\", 3, user);
    RootAbsent(s, "C:/Users/", 3, user);
    RootAbsent(s, "\\Users\\", 1, user + "\\AppData");
    RootAbsent(s, "/Users/", 1, user + "/AppData");
    forall k | 0 <= k < 6 ensures |ps[k]| > 0 && !Contains(s, ps[k]) {
      if k == 0 { assert ps[0] == "C:\\Users\\" + (user + "\\"); }
      else if k == 1 { assert ps[1] == "C:/Users/" + (user + "/"); }
      else if k == 2 { assert ps[2] == "C:\\Users\\" + user; }
      else if k == 3 { assert ps[3] == "C:/Users/" + user; }
      else if k == 4 { assert ps[4] == "\\Users\\" + (user + "\\AppData"); }
      else { assert ps[5] == "/Users/" + (user + "/AppData"); }
    }
  }

  /** A pattern whose head spells "users" at `at`, in any letter case, is
      absent from a text that never spells it. */
  lemma RootAbsent(s: string, root: string, at: nat, tail: string)
    requires !Contains(Lower(s), "users")
    requires at + 5 <= |root| && Lower(root[at..at + 5]) == "users"
    ensures |root + tail| > 0 && !Contains(s, root + tail)
  {
    HeadSpellsUsers(root, tail, at);
    PatternAbsent(s, root + tail);
  }


  /** "users" spelled in a lower-case pattern is still spelled once the
      pattern is escaped and lower-cased. */
  lemma EscapedSpellsUsers(pattern: string)
    requires MatchAt(pattern, "users", 3)
    ensures Contains(Lower(Escape(pattern)), "users")
  {
    forall k | 0 <= k < 5 ensures !IsRegexSpecial("users"[k]) {
    }
    EscapeKeepsWord(pattern, "users", 3);
    var i := IndexOf(Escape(pattern), "users").value;
    LowerMatch(Escape(pattern), "users", i);
    assert Lower("users") == "users";
    ContainsAt(Lower(Escape(pattern)), "users", i);
  }

  /** The escaped case-insensitive patterns are not found either. */
  lemma LowerPatternsAbsent(s: string, lowerUser: string)
    requires !Contains(Lower(s), "users")
    ensures forall k :: 0 <= k < 2 ==> !Contains(Lower(s), Lower(Escape(LowerPatterns(lowerUser)[k])))
  {
    var back, slash := "c:\\users\\", "c:/users/";
    assert back[3..8] == "users" && slash[3..8] == "users";
    assert (back + (lowerUser + "\\"))[3..8] == "users";
    assert (slash + (lowerUser + "/"))[3..8] == "users";
    forall k | 0 <= k < 2 ensures !Contains(Lower(s), Lower(Escape(LowerPatterns(lowerUser)[k]))) {
      EscapedSpellsUsers(LowerPatterns(lowerUser)[k]);
      var e := Lower(Escape(LowerPatterns(lowerUser)[k]));
      if Contains(Lower(s), e) {
        ContainsTrans(Lower(s), e, "users");
      }
    }
  }

  /** Text that never spells "users", in any case, is returned unchanged,
      whatever the user name and whichever separator rule. */
  lemma NoUsersUnchanged(input: string, user: Option<string>, probe: nat)
    requires !Contains(Lower(input), "users")
    ensures AnonymizeWith(input, user, probe) == input
  {
    if user.Some? {
      UserPatternsAbsent(input, user.value);
      assert ReplacePatterns(input, UserPatterns(user.value), user.value) == input;
      LowerPatternsAbsent(input, Lower(user.value));
    }
    forall k | 0 <= k < |input| ensures !ProfilePrefix(input[k..]) {
      if ProfilePrefix(input[k..]) {
        ProfileMentionsUsers(input, k);
        ContainsAt(Lower(input), "users", k + 3);
      }
    }
    NoProfileUnchanged(input, probe);
  }

  /** As written, a profile path always continues with a slash after the
      placeholder, whichever separator the path uses. */
  lemma ProfileSegmentAsWritten(p: string, name: string, sep: char, rest: string)
    requires |p| == 9 && ProfilePrefix(p)
    requires forall k :: 0 <= k < |name| ==> name[k] != '\\' && name[k] != '/'
    requires sep == '\\' || sep == '/'
    ensures ProfilePass(p + name + [sep] + rest, 2) == p + Placeholder + "/" + ProfilePass(rest, 2)
  {
    ProfileSegment(p, name, sep, rest, 2);
    assert Lower(p + name + [sep] + rest)[..9] == Lower(p);
    SeparatorAsWritten(p + name + [sep] + rest);
  }

  /** With the colon looked for where it stands, a profile path keeps the
      separator of its prefix after the placeholder. */
  lemma ProfileSegmentKeepsSeparator(p: string, name: string, sep: char, rest: string)
    requires |p| == 9 && ProfilePrefix(p)
    requires forall k :: 0 <= k < |name| ==> name[k] != '\\' && name[k] != '/'
    requires sep == '\\' || sep == '/'
    ensures ProfilePass(p + name + [sep] + rest, 1) == p + Placeholder + [p[8]] + ProfilePass(rest, 1)
  {
    ProfileSegment(p, name, sep, rest, 1);
    var s := p + name + [sep] + rest;
    assert Lower(s)[..9] == Lower(p);
    SeparatorKept(s);
    assert s[8] == p[8];
  }

  /** A backslash path shows the difference: the program writes a slash
      where the path had a backslash. */
  lemma BackslashPathExample()
    ensures AnonymizeAsWritten("C:\\Users\\" + "Bob" + "\\" + "notes.txt", None) == "C:\\Users\\" + Placeholder + "/" + "notes.txt"
    ensures Anonymize("C:\\Users\\" + "Bob" + "\\" + "notes.txt", None) == "C:\\Users\\" + Placeholder + "\\" + "notes.txt"
  {
    var p, rest := "C:\\Users\\", "notes.txt";
    assert Lower(p) == "c:\\users\\";
    assert ProfilePrefix(p);
    assert "Bob"[0] != '\\' && "Bob"[1] != '\\' && "Bob"[2] != '\\';
    assert "C:\\Users\\" + "Bob" + "\\" + "notes.txt" == p + "Bob" + ['\\'] + rest;
    forall k | 0 <= k < |rest| ensures !ProfilePrefix(rest[k..]) {
      if k == 0 {
        assert Lower(rest)[0] == 'n';
      }
    }
    ProfileSegmentAsWritten(p, "Bob", '\\', rest);
    ProfileSegmentKeepsSeparator(p, "Bob", '\\', rest);
    NoProfileUnchanged(rest, 1);
    NoProfileUnchanged(rest, 2);
  }
}

=== FILE: manager.dfy ===
/** The single-download manager: a state record driven by the lifecycle state
    machine. Every operation is one atomic step from a record to a record and
    a result; the locks, the child-process handle and the kill call are not
    part of the model. */
module Manager {
  import opened Wrappers
  import opened Ints
  import opened State
  import opened Models
  import opened Errors

  /** The job the manager is running. */
  datatype ActiveDownload = ActiveDownload(
    config: DownloadConfig,
    outputPath: Option<string>,
    retryAttempt: u32,
    lastRetryError: Option<string>)

  datatype Manager = Manager(
    state: DownloadState,
    active: Option<ActiveDownload>,
    lastError: Option<string>,
    lastProgress: Option<ProgressEvent>)

  /** `DownloadManager::new`. */
  function NewManager(): (m: Manager)
    ensures m.state == DefaultState()
    ensures m.active.None? && m.lastError.None? && m.lastProgress.None?
  {
    Manager(Idle, None, None, None)
  }

  /** `transition_to` on the manager: only the state can change, and only
      along a legal move. */
  function Transition(m: Manager, target: DownloadState): (r: (Manager, Result<DownloadState, DownloadState>))
    ensures r.1 == TransitionTo(m.state, target)
    ensures r.0 == if r.1.Ok? then m.(state := target) else m
  {
    match TransitionTo(m.state, target)
    case Ok(s) => (m.(state := s), Ok(s))
    case Err(s) => (m, Err(s))
  }

  /** `start_download`: accepted only when idle; the job is stored with retry
      count 0 and the last error and progress are cleared. A refused start
      changes nothing. */
  function StartDownload(m: Manager, config: DownloadConfig): (r: (Manager, Result<(), DownloadError>))
    ensures r.1.Ok? <==> m.state == Idle
    ensures r.1.Ok? ==> r.0 == Manager(Starting, Some(ActiveDownload(config, None, 0, None)), None, None)
    ensures r.1.Err? ==> r.0 == m && r.1.error == AlreadyDownloading
  {
    if IsActive(m.state) then (m, Err(AlreadyDownloading))
    else
      match Transition(m, Starting)
      case (_, Err(_)) => (m, Err(AlreadyDownloading))
      case (m1, Ok(_)) => (m1.(active := Some(ActiveDownload(config, None, 0, None)), lastError := None, lastProgress := None), Ok(()))
  }

  /** `update_progress`: records the event whatever the state. */
  function UpdateProgress(m: Manager, e: ProgressEvent): (r: Manager)
    ensures r.lastProgress == Some(e)
    ensures r.state == m.state && r.active == m.active && r.lastError == m.lastError
  {
    m.(lastProgress := Some(e))
  }

  /** `complete`: accepted only from Downloading or Merging; the path is
      recorded on the stored job (if any) and reported back. */
  function Complete(m: Manager, filePath: string): (r: (Manager, Result<DownloadResult, DownloadError>))
    ensures r.1.Ok? <==> m.state == Downloading || m.state == Merging
    ensures r.1.Ok? ==> r.1.value == DownloadResult(true, Some(filePath), None) && r.0.state == Completed
    ensures r.1.Ok? && m.active.Some? ==> r.0.active == Some(m.active.value.(outputPath := Some(filePath)))
    ensures r.1.Ok? ==> r.0.active.None? == m.active.None?
    ensures r.1.Ok? ==> r.0.lastError == m.lastError && r.0.lastProgress == m.lastProgress
    ensures r.1.Err? ==> r.0 == m && r.1.error == DownloadFailed("Invalid state transition")
  {
    match Transition(m, Completed)
    case (_, Err(_)) => (m, Err(DownloadFailed("Invalid state transition")))
    case (m1, Ok(_)) =>
      var active := if m1.active.Some? then Some(m1.active.value.(outputPath := Some(filePath))) else None;
      (m1.(active := active), Ok(DownloadResult(true, Some(filePath), None)))
  }

  /** `fail`: always records the error's text and reports it; the state
      becomes Failed when that move is legal and is otherwise unchanged. */
  function Fail(m: Manager, error: DownloadError): (r: (Manager, DownloadResult))
    ensures r.1 == DownloadResult(false, None, Some(Display(error)))
    ensures r.0.lastError == Some(Display(error))
    ensures r.0.state == if CanTransition(m.state, Failed) then Failed else m.state
    ensures r.0.active == m.active && r.0.lastProgress == m.lastProgress
  {
    var (m1, _) := Transition(m, Failed);
    (m1.(lastError := Some(Display(error))), DownloadResult(false, None, Some(Display(error))))
  }

  /** `cancel`: succeeds exactly from Downloading or Merging, passing through
      Cancelling to Cancelled. Otherwise nothing changes: idle, finished and
      already-cancelling managers have nothing to cancel, and Analyzing and
      Starting refuse the move to Cancelling. */
  function Cancel(m: Manager): (r: (Manager, Result<(), DownloadError>))
    ensures r.1.Ok? <==> m.state == Downloading || m.state == Merging
    ensures r.1.Ok? ==> r.0 == m.(state := Cancelled)
    ensures r.1.Err? ==> r.0 == m
    ensures r.1.Err? && (!IsActive(m.state) || m.state == Cancelling) ==>
      r.1.error == GenericError("No active download to cancel")
    ensures r.1.Err? && (m.state == Analyzing || m.state == Starting) ==>
      r.1.error == GenericError("Cannot cancel in current state")
  {
    if !IsActive(m.state) || m.state == Cancelling then (m, Err(GenericError("No active download to cancel")))
    else
      match Transition(m, Cancelling)
      case (_, Err(_)) => (m, Err(GenericError("Cannot cancel in current state")))
      case (m1, Ok(_)) =>
        match Transition(m1, Cancelled)
        case (_, Err(_)) => (m1, Err(GenericError("Failed to complete cancellation")))
        case (m2, Ok(_)) => (m2, Ok(()))
  }

  /** `reset`: succeeds exactly from Completed, Cancelled or Failed, ending
      idle with the job, error and progress cleared; otherwise nothing
      changes. */
  function Reset(m: Manager): (r: (Manager, Result<(), DownloadError>))
    ensures r.1.Ok? <==> IsTerminal(m.state)
    ensures r.1.Ok? ==> r.0 == NewManager()
    ensures r.1.Err? ==> r.0 == m
    ensures r.1.Err? && IsActive(m.state) ==> r.1.error == AlreadyDownloading
    ensures r.1.Err? && m.state == Idle ==> r.1.error == GenericError("Cannot reset in current state")
  {
    if IsActive(m.state) then (m, Err(AlreadyDownloading))
    else
      match Transition(m, Idle)
      case (_, Err(_)) => (m, Err(GenericError("Cannot reset in current state")))
      case (m1, Ok(_)) => (m1.(active := None, lastError := None, lastProgress := None), Ok(()))
  }

  /** `get_active_download`. */
  function ActiveConfig(m: Manager): (r: Option<DownloadConfig>)
    ensures r.Some? <==> m.active.Some?
    ensures r.Some? ==> r.value == m.active.value.config
  {
    if m.active.Some? then Some(m.active.value.config) else None
  }

  /** `get_retry_attempt`: 0 when no job is stored. */
  function RetryAttempt(m: Manager): (n: u32)
    ensures m.active.None? ==> n == 0
    ensures m.active.Some? ==> n == m.active.value.retryAttempt
  {
    if m.active.Some? then m.active.value.retryAttempt else 0
  }

  /** `increment_retry`: with a stored job, one more attempt (wrapping at
      2^32 as a release build does) and the error's text kept; without one,
      nothing. */
  function IncrementRetry(m: Manager, error: DownloadError): (r: Manager)
    ensures m.active.None? ==> r == m
    ensures m.active.Some? ==> r.active.Some? && r.active.value.config == m.active.value.config
    ensures m.active.Some? ==> r.active.value.lastRetryError == Some(Display(error))
    ensures m.active.Some? ==> RetryAttempt(r) == WrapU32(RetryAttempt(m) + 1)
    ensures r.state == m.state && r.lastError == m.lastError && r.lastProgress == m.lastProgress
  {
    match m.active
    case None => m
    case Some(a) =>
      m.(active := Some(a.(retryAttempt := WrapU32(a.retryAttempt + 1), lastRetryError := Some(Display(error)))))
  }

  /** `prepare_retry`: a move to Idle when legal, then to Starting. It ends in
      Starting with the progress cleared exactly from Idle, Analyzing and the
      finished states; from the other active states nothing changes. */
  function PrepareRetry(m: Manager): (r: (Manager, Result<(), DownloadError>))
    ensures r.1.Ok? <==> m.state in {Idle, Analyzing, Completed, Cancelled, Failed}
    ensures r.1.Ok? ==> r.0 == m.(state := Starting, lastProgress := None)
    ensures r.1.Err? ==> r.0 == m && r.1.error == GenericError("Cannot prepare for retry")
  {
    var (m1, _) := Transition(m, Idle);
    match Transition(m1, Starting)
    case (_, Err(_)) => (m1, Err(GenericError("Cannot prepare for retry")))
    case (m2, Ok(_)) => (m2.(lastProgress := None), Ok(()))
  }

  /** `start_downloading`: only from Starting. */
  function StartDownloading(m: Manager): (r: (Manager, Result<(), DownloadError>))
    ensures r.1.Ok? <==> m.state == Starting
    ensures r.1.Ok? ==> r.0 == m.(state := Downloading)
    ensures r.1.Err? ==> r.0 == m && r.1.error == GenericError("Invalid state transition")
  {
    match Transition(m, Downloading)
    case (_, Err(_)) => (m, Err(GenericError("Invalid state transition")))
    case (m1, Ok(_)) => (m1, Ok(()))
  }

  /** `start_merging`: only from Downloading. */
  function StartMerging(m: Manager): (r: (Manager, Result<(), DownloadError>))
    ensures r.1.Ok? <==> m.state == Downloading
    ensures r.1.Ok? ==> r.0 == m.(state := Merging)
    ensures r.1.Err? ==> r.0 == m && r.1.error == GenericError("Invalid state transition")
  {
    match Transition(m, Merging)
    case (_, Err(_)) => (m, Err(GenericError("Invalid state transition")))
    case (m1, Ok(_)) => (m1, Ok(()))
  }

  // ---------------------------------------------------------------------------
  // Runs of operations
  // ---------------------------------------------------------------------------

  /** One call on the manager. */
  datatype Op =
    | OpStart(config: DownloadConfig)
    | OpProgress(event: ProgressEvent)
    | OpComplete(path: string)
    | OpFail(error: DownloadError)
    | OpCancel
    | OpReset
    | OpIncrementRetry(error: DownloadError)
    | OpPrepareRetry
    | OpStartDownloading
    | OpStartMerging

  function Apply(m: Manager, op: Op): Manager {
    match op
    case OpStart(c) => StartDownload(m, c).0
    case OpProgress(e) => UpdateProgress(m, e)
    case OpComplete(p) => Complete(m, p).0
    case OpFail(e) => Fail(m, e).0
    case OpCancel => Cancel(m).0
    case OpReset => Reset(m).0
    case OpIncrementRetry(e) => IncrementRetry(m, e)
    case OpPrepareRetry => PrepareRetry(m).0
    case OpStartDownloading => StartDownloading(m).0
    case OpStartMerging => StartMerging(m).0
  }

  /** The states one call passes through, in order, after the one it starts
      from: `cancel` passes through Cancelling and `prepare_retry` through Idle. */
  function Visited(m: Manager, op: Op): seq<DownloadState> {
    var after := Apply(m, op).state;
    if op.OpCancel? && after != m.state then [Cancelling, Cancelled]
    else if op.OpPrepareRetry? && after != m.state && m.state != Idle then [Idle, Starting]
    else if after != m.state then [after]
    else []
  }

  /** Every call moves the state along legal transitions only, and ends
      where the visited states end. */
  lemma StepIsLegal(m: Manager, op: Op)
    ensures IsPath([m.state] + Visited(m, op))
    ensures Last([m.state] + Visited(m, op)) == Apply(m, op).state
  {
    var p := [m.state] + Visited(m, op);
    if |p| == 2 {
      assert CanTransition(p[0], p[1]);
    } else if |p| == 3 {
      assert CanTransition(p[0], p[1]) && CanTransition(p[1], p[2]);
    }
  }

  function Last(p: seq<DownloadState>): DownloadState
    requires |p| > 0
  {
    p[|p| - 1]
  }

  function RunOps(m: Manager, ops: seq<Op>): Manager
    decreases |ops|
  {
    if |ops| == 0 then m else RunOps(Apply(m, ops[0]), ops[1..])
  }

  /** Every state the manager is in during a run, starting with the first. */
  function Trace(m: Manager, ops: seq<Op>): (t: seq<DownloadState>)
    ensures |t| > 0 && t[0] == m.state
    decreases |ops|
  {
    if |ops| == 0 then [m.state] else [m.state] + Visited(m, ops[0]) + Trace(Apply(m, ops[0]), ops[1..])[1..]
  }

  /** Gluing two legal paths that meet end to start gives a legal path. */
  lemma GluePaths(p: seq<DownloadState>, q: seq<DownloadState>)
    requires |p| > 0 && |q| > 0 && IsPath(p) && IsPath(q) && Last(p) == q[0]
    ensures IsPath(p + q[1..]) && Last(p + q[1..]) == Last(q)
  {
    var r := p + q[1..];
    forall i | 0 <= i < |r| - 1 ensures CanTransition(r[i], r[i + 1]) {
      if i < |p| - 1 {
        assert r[i] == p[i] && r[i + 1] == p[i + 1];
      } else {
        assert r[i] == q[i - |p| + 1] && r[i + 1] == q[i - |p| + 2];
      }
    }
  }

  /** A whole run of calls moves along legal transitions only and its trace
      ends in the final state. */
  lemma {:induction false} TraceIsPath(m: Manager, ops: seq<Op>)
    ensures IsPath(Trace(m, ops)) && Last(Trace(m, ops)) == RunOps(m, ops).state
    decreases |ops|
  {
    if |ops| > 0 {
      var m1 := Apply(m, ops[0]);
      StepIsLegal(m, ops[0]);
      TraceIsPath(m1, ops[1..]);
      GluePaths([m.state] + Visited(m, ops[0]), Trace(m1, ops[1..]));
    }
  }

  /** A fresh manager only ever reports Completed after having been through
      Starting and Downloading, whatever calls are made. */
  lemma FreshManagerCompletesAfterDownloading(ops: seq<Op>)
    requires RunOps(NewManager(), ops).state == Completed
    ensures Starting in Trace(NewManager(), ops) && Downloading in Trace(NewManager(), ops)
  {
    var t := Trace(NewManager(), ops);
    TraceIsPath(NewManager(), ops);
    CompletedNeedsDownload(t, |t| - 1);
    assert t[..|t| - 1] <= t;
  }

  /** Starting a job and then counting `k` retries leaves the counter at `k`. */
  lemma {:induction false} RetriesCounted(m: Manager, c: DownloadConfig, errors: seq<DownloadError>)
    requires m.state == Idle && |errors| < U32_LIMIT
    ensures var m1 := StartDownload(m, c).0;
      RetryAttempt(RunOps(m1, Retries(errors))) == |errors|
  {
    var m1 := StartDownload(m, c).0;
    CountRetries(m1, errors);
  }

  function Retries(errors: seq<DownloadError>): (ops: seq<Op>)
    ensures |ops| == |errors|
    ensures forall i :: 0 <= i < |ops| ==> ops[i] == OpIncrementRetry(errors[i])
  {
    seq(|errors|, i requires 0 <= i < |errors| => OpIncrementRetry(errors[i]))
  }

  lemma {:induction false} CountRetries(m: Manager, errors: seq<DownloadError>)
    requires m.active.Some? && m.active.value.retryAttempt as int + |errors| < U32_LIMIT
    ensures RunOps(m, Retries(errors)).active.Some?
    ensures RetryAttempt(RunOps(m, Retries(errors))) == RetryAttempt(m) + |errors|
    decreases |errors|
  {
    if |errors| > 0 {
      var m1 := IncrementRetry(m, errors[0]);
      assert Retries(errors)[1..] == Retries(errors[1..]);
      CountRetries(m1, errors[1..]);
    }
  }
}

=== FILE: media_info.dfy ===
/** Fetching a video's metadata: the empty-URL check, the fields read from
    yt-dlp's JSON description (an abstract record here), and the command's
    own classifier of yt-dlp's error output. */
module MediaInfoFetch {
  import opened Wrappers
  import opened Ints
  import opened Text
  import opened Errors
  import opened Models

  // ---------------------------------------------------------------------------
  // The JSON description
  // ---------------------------------------------------------------------------

  /** The size fields of one entry of `formats`, each present only when it
      is an unsigned 64-bit number. */
  datatype FormatJson = FormatJson(filesize: Option<u64>, filesizeApprox: Option<u64>)

  /** What the JSON parser yields: an error, or the fields the command reads,
      each absent when missing or of another JSON type. */
  datatype MediaJson =
    | Malformed(reason: string)
    | Document(
        title: Option<string>,
        thumbnail: Option<string>,
        duration: Option<real>,
        uploader: Option<string>,
        channel: Option<string>,
        filesizeApprox: Option<u64>,
        filesize: Option<u64>,
        formats: Option<seq<FormatJson>>)

  /** The size a format reports: its exact size, else its estimate. */
  function FormatSize(f: FormatJson): Option<u64> {
    f.filesize.OrElse(f.filesizeApprox)
  }

  /** `Iterator::max` over unsigned numbers. */
  function MaxOf(xs: seq<u64>): (r: Option<u64>)
    ensures r.None? <==> |xs| == 0
    ensures r.Some? ==> r.value in xs
    ensures r.Some? ==> forall k :: 0 <= k < |xs| ==> xs[k] <= r.value
    decreases |xs|
  {
    if |xs| == 0 then None
    else
      match MaxOf(xs[1..])
      case None => Some(xs[0])
      case Some(m) => Some(if xs[0] >= m then xs[0] else m)
  }

  /** The size estimate: the top-level estimate, else the top-level size,
      else the largest size among the formats that report one. */
  function SizeEstimate(j: MediaJson): (r: Option<u64>)
    requires j.Document?
  {
    j.filesizeApprox.OrElse(j.filesize).OrElse(
      if j.formats.Some? then MaxOf(FilterMap(FormatSize, j.formats.value)) else None)
  }

  /** With no top-level size, the estimate exists exactly when some format
      reports a size, and it is the largest such size. */
  lemma SizeFromFormats(j: MediaJson)
    requires j.Document? && j.filesizeApprox.None? && j.filesize.None? && j.formats.Some?
    ensures var fs := j.formats.value;
      (SizeEstimate(j).Some? <==> exists k :: 0 <= k < |fs| && FormatSize(fs[k]).Some?) &&
      (SizeEstimate(j).Some? ==>
         (exists k :: 0 <= k < |fs| && FormatSize(fs[k]) == SizeEstimate(j)) &&
         (forall k :: 0 <= k < |fs| && FormatSize(fs[k]).Some? ==> FormatSize(fs[k]).value <= SizeEstimate(j).value))
  {
    var fs := j.formats.value;
    var sizes := FilterMap(FormatSize, fs);
    assert SizeEstimate(j) == MaxOf(sizes);
    forall k | 0 <= k < |fs| && FormatSize(fs[k]).Some?
      ensures FormatSize(fs[k]).value in sizes
    {
      FilterMapKeeps(FormatSize, fs, k);
    }
    if |sizes| > 0 {
      var m := MaxOf(sizes).value;
      var i :| 0 <= i < |sizes| && sizes[i] == m;
      FilterMapSource(FormatSize, fs, i);
    }
  }

  /** `parse_media_info_json`. */
  function ParseMediaInfoJson(j: MediaJson): (r: Result<MediaInfo, string>)
    ensures r.Err? <==> j.Malformed?
    ensures j.Malformed? ==> r == Err("Failed to parse media info: " + j.reason)
    ensures r.Ok? ==> r.value.title == j.title.GetOr("Unknown Title")
    ensures r.Ok? ==> r.value.thumbnail == j.thumbnail && r.value.duration == j.duration
    ensures r.Ok? ==> r.value.uploader == (if j.uploader.Some? then j.uploader else j.channel)
    ensures r.Ok? && j.filesizeApprox.Some? ==> r.value.filesizeApprox == j.filesizeApprox
    ensures r.Ok? && j.filesizeApprox.None? ==>
      (j.filesize.Some? ==> r.value.filesizeApprox == j.filesize) &&
      (j.filesize.None? && j.formats.None? ==> r.value.filesizeApprox == None)
  {
    match j
    case Malformed(reason) => Err("Failed to parse media info: " + reason)
    case Document(_, _, _, _, _, _, _, _) =>
      Ok(MediaInfo(j.title.GetOr("Unknown Title"), j.thumbnail, j.duration,
                   j.uploader.OrElse(j.channel), SizeEstimate(j)))
  }

  // ---------------------------------------------------------------------------
  // The command's error classifier
  // ---------------------------------------------------------------------------

  /** The command's keyword chain on lower-cased stderr: the download error
      model's chain without its rate-limit, sign-in, unsupported-URL and
      time-out steps, and with a shorter network test. */
  function MediaVariant(l: string): (v: Variant)
    ensures v in {VPrivateVideo, VAgeRestricted, VRegionLocked, VNotFound, VNetworkError, VGenericError}
  {
    if Contains(l, "private video") || Contains(l, "video is private") then VPrivateVideo
    else if Contains(l, "age") && (Contains(l, "restricted") || Contains(l, "verify") || Contains(l, "confirm"))
    then VAgeRestricted
    else if Contains(l, "not available") && Contains(l, "country") then VRegionLocked
    else if Contains(l, "video unavailable") || Contains(l, "does not exist") then VNotFound
    else if Contains(l, "unable to download") || Contains(l, "connection") then VNetworkError
    else VGenericError
  }

  /** `parse_ytdlp_error` of the command: the message shown for a failed
      run. */
  function MediaErrorText(stderr: string): (r: string)
    ensures MediaVariant(Lower(stderr)) == VGenericError ==>
      r in Lines(stderr) || (Lines(stderr) == [] && r == "Unknown error")
    ensures MediaVariant(Lower(stderr)) == VGenericError && SomeLineWith(Lines(stderr), "ERROR") ==>
      IsFirstWith(Lines(stderr), "ERROR", r)
    ensures MediaVariant(Lower(stderr)) == VGenericError && !SomeLineWith(Lines(stderr), "ERROR") ==>
      r == FirstLine(stderr, "Unknown error")
    ensures MediaVariant(Lower(stderr)) == VNetworkError ==>
      r == Display(NetworkError(FirstLine(stderr, "Network error")))
    ensures MediaVariant(Lower(stderr)) == VPrivateVideo ==> r == Display(PrivateVideo)
    ensures MediaVariant(Lower(stderr)) == VAgeRestricted ==> r == Display(AgeRestricted)
    ensures MediaVariant(Lower(stderr)) == VRegionLocked ==> r == Display(RegionLocked)
    ensures MediaVariant(Lower(stderr)) == VNotFound ==> r == Display(NotFound)
  {
    MediaText(MediaVariant(Lower(stderr)), stderr)
  }

  /** The message the command shows for a failure of kind `v`. */
  function MediaText(v: Variant, stderr: string): string {
    match v
    case VPrivateVideo => Display(PrivateVideo)
    case VAgeRestricted => Display(AgeRestricted)
    case VRegionLocked => Display(RegionLocked)
    case VNotFound => Display(NotFound)
    case VNetworkError => Display(NetworkError(FirstLine(stderr, "Network error")))
    case _ => ErrorLineOrFirst(stderr)
  }

  /** For each kind the command can report, its message is the display of
      the download error of that kind. */
  lemma MediaTextIsDisplay(v: Variant, stderr: string)
    requires v in {VPrivateVideo, VAgeRestricted, VRegionLocked, VNotFound, VNetworkError, VGenericError}
    ensures MediaText(v, stderr) == Display(WithPayload(v, stderr))
  {
    if v == VNetworkError {
      NetworkTextIsDisplay(stderr);
    } else if v == VGenericError {
      GenericTextIsDisplay(stderr);
    } else {
      FixedTextIsDisplay(v, stderr);
    }
  }

  lemma FixedTextIsDisplay(v: Variant, stderr: string)
    requires v in {VPrivateVideo, VAgeRestricted, VRegionLocked, VNotFound}
    ensures MediaText(v, stderr) == Display(WithPayload(v, stderr))
  {
  }

  lemma NetworkTextIsDisplay(stderr: string)
    ensures MediaText(VNetworkError, stderr) == Display(WithPayload(VNetworkError, stderr))
  {
    var m := FirstLine(stderr, "Network error");
    assert WithPayload(VNetworkError, stderr) == NetworkError(m);
  }

  lemma GenericTextIsDisplay(stderr: string)
    ensures MediaText(VGenericError, stderr) == Display(WithPayload(VGenericError, stderr))
  {
    GenericPayload(stderr);
    GenericDisplay(ErrorLineOrFirst(stderr));
  }

  /** Both sides of the catch-all case carry the same line. */
  lemma GenericPayload(stderr: string)
    ensures WithPayload(VGenericError, stderr) == GenericError(ErrorLineOrFirst(stderr))
    ensures MediaText(VGenericError, stderr) == ErrorLineOrFirst(stderr)
  {
  }

  /** A catch-all error displays as its bare message. */
  lemma GenericDisplay(m: string)
    ensures Display(GenericError(m)) == m
  {
    assert Prefix(GenericError(m)) == "";
    assert "" + m == m;
  }

  /** Where the classifiers agree on the kind, the command shows the same
      text as the download error's display. */
  lemma SameTextWhereAgreed(stderr: string)
    requires MediaVariant(Lower(stderr)) == YtdlpVariant(Lower(stderr))
    ensures MediaErrorText(stderr) == Display(ParseYtdlpError(stderr))
  {
    var v := MediaVariant(Lower(stderr));
    assert ParseYtdlpError(stderr) == WithPayload(v, stderr);
    MediaTextIsDisplay(v, stderr);
  }

  // ---------------------------------------------------------------------------
  // The command
  // ---------------------------------------------------------------------------

  /** How the yt-dlp run went: the program was missing, could not be
      started, or exited with a status, its stderr and its parsed stdout. */
  datatype MediaRun =
    | ProgramMissing
    | SpawnFailed(message: string)
    | Exited(success: bool, stderr: string, json: MediaJson)

  /** `fetch_media_info`: a blank URL is refused before anything runs. */
  function FetchMediaInfo(url: string, run: MediaRun): (r: Result<MediaInfo, string>)
    ensures Trim(url) == "" ==> r == Err("Invalid URL: " + "URL cannot be empty")
    ensures Trim(url) != "" && run.ProgramMissing? ==> r == Err(Display(ExecutableNotFound("yt-dlp")))
    ensures Trim(url) != "" && run.SpawnFailed? ==> r == Err(Display(ProcessSpawnError(run.message)))
    ensures Trim(url) != "" && run.Exited? && !run.success ==> r == Err(MediaErrorText(run.stderr))
    ensures Trim(url) != "" && run.Exited? && run.success ==> r == ParseMediaInfoJson(run.json)
  {
    if Trim(url) == "" then Err(Display(InvalidUrl("URL cannot be empty")))
    else
      match run
      case ProgramMissing => Err(Display(ExecutableNotFound("yt-dlp")))
      case SpawnFailed(m) => Err(Display(ProcessSpawnError(m)))
      case Exited(ok, stderr, json) =>
        if !ok then Err(MediaErrorText(stderr)) else ParseMediaInfoJson(json)
  }
}

=== FILE: models.dfy ===
/** The plain records passed between the download components: the
    configuration the front end sends, the progress updates the parser
    produces, fetched media metadata and the result of a download. */
module Models {
  import opened Wrappers
  import opened Ints

  /** One download request. */
  datatype DownloadConfig = DownloadConfig(
    url: string,
    format: string,              // "video-mp4", "audio-mp3", "audio-best", ...
    quality: string,             // "best", "1080p", "720p"
    outputFolder: string,
    embedSubtitles: bool,
    cookiesFromBrowser: Option<string>,
    filenameTemplate: Option<string>,
    proxyUrl: Option<string>,
    cookiesFilePath: Option<string>)

  /** A progress update. The percentage is a real in place of an `f64`. */
  datatype ProgressEvent = ProgressEvent(
    percentage: real,
    downloadedBytes: u64,
    totalBytes: Option<u64>,
    speed: string,
    etaSeconds: Option<u64>,
    status: string)              // "downloading" or "merging"

  /** Metadata of a single video. */
  datatype MediaInfo = MediaInfo(
    title: string,
    thumbnail: Option<string>,
    duration: Option<real>,
    uploader: Option<string>,
    filesizeApprox: Option<u64>)

  /** The outcome the manager reports for a finished download. */
  datatype DownloadResult = DownloadResult(
    success: bool,
    filePath: Option<string>,
    error: Option<string>)
}

=== FILE: parser.dfy ===
/** Parsing of yt-dlp's output lines: progress updates (yt-dlp's own
    `[download]` format and the pipe-delimited template), the merge marker,
    and `ERROR:` lines with their user-facing categories. */
module Parser {
  import opened Wrappers
  import opened Ints
  import opened Text
  import opened Keywords
  import opened Models
  import Errors

  datatype ParsedLine =
    | Progress(event: ProgressEvent)
    | Merging
    | Unknown

  // ---------------------------------------------------------------------------
  // Field parsers
  // ---------------------------------------------------------------------------

  /** The placeholder words yt-dlp prints for a missing percentage. */
  predicate IsMissingPercentage(t: string) {
    EqIgnoreCase(t, "na") || EqIgnoreCase(t, "n/a") || EqIgnoreCase(t, "unknown")
  }

  /** `parse_percentage`: a number with an optional trailing `%`, clamped into
      [0, 100]; placeholders and anything unparseable give 0. */
  function ParsePercentage(s: string): (p: real)
    ensures 0.0 <= p <= 100.0
    ensures IsMissingPercentage(Trim(s)) ==> p == 0.0
  {
    var t := Trim(s);
    if IsMissingPercentage(t) then 0.0
    else
      match ParseDecimal(Trim(TrimEndMatches(t, '%')))
      case Some(x) => Clamp(x, 0.0, 100.0)
      case None => 0.0
  }

  /** The placeholder words yt-dlp prints for a missing byte count. */
  predicate IsMissingBytes(t: string) {
    EqIgnoreCase(t, "n/a") || EqIgnoreCase(t, "na") || EqIgnoreCase(t, "unknown")
    || EqIgnoreCase(t, "none") || t == []
  }

  /** The multiplier of a size unit (already lower-cased); an unknown unit
      counts as bytes. */
  function UnitMultiplier(unit: string): (m: nat)
    ensures m in {1, 1024, 1024 * 1024, 1024 * 1024 * 1024, 1024 * 1024 * 1024 * 1024}
  {
    if unit in {"b", ""} then 1
    else if unit in {"kib", "kb", "k"} then 1024
    else if unit in {"mib", "mb", "m"} then 1024 * 1024
    else if unit in {"gib", "gb", "g"} then 1024 * 1024 * 1024
    else if unit in {"tib", "tb", "t"} then 1024 * 1024 * 1024 * 1024
    else 1
  }

  predicate IsNumberChar(c: char) {
    IsDigit(c) || c == '.' || c == '-'
  }

  /** The length of the longest prefix made of digits, `.` and `-`. */
  function NumberPrefixLength(s: string): (n: nat)
    ensures n <= |s|
    ensures forall i :: 0 <= i < n ==> IsNumberChar(s[i])
    ensures n < |s| ==> !IsNumberChar(s[n])
    decreases |s|
  {
    if |s| == 0 || !IsNumberChar(s[0]) then 0 else 1 + NumberPrefixLength(s[1..])
  }

  /** `extract_number_and_unit`: the numeric prefix and the rest. */
  function SplitNumberUnit(s: string): (r: (string, string))
    ensures r.0 + r.1 == Trim(s)
    ensures forall i :: 0 <= i < |r.0| ==> IsNumberChar(r.0[i])
    ensures |r.1| > 0 ==> !IsNumberChar(r.1[0])
  {
    SplitAtNumberEnd(Trim(s))
  }

  /** `t` cut where its numeric prefix ends. */
  function SplitAtNumberEnd(t: string): (r: (string, string))
    ensures r.0 + r.1 == t
    ensures forall i :: 0 <= i < |r.0| ==> IsNumberChar(r.0[i])
    ensures |r.1| > 0 ==> !IsNumberChar(r.1[0])
  {
    var n := NumberPrefixLength(t);
    var (a, b) := (t[..n], t[n..]);
    assert a + b == t;
    assert forall i :: 0 <= i < |a| ==> a[i] == t[i];
    assert |b| > 0 ==> b[0] == t[n];
    (a, b)
  }

  /** `parse_bytes_raw_or_formatted_optional`: placeholders give `None`; a
      plain integer is taken as is; a decimal is truncated; otherwise a number
      followed by a unit is scaled by the unit's power of 1024. */
  function ParseBytes(s: string): (r: Option<u64>)
    ensures IsMissingBytes(Trim(s)) ==> r.None?
  {
    var t := Trim(s);
    if IsMissingBytes(t) then None
    else if ParseU64(t).Some? then ParseU64(t)
    else if ParseDecimal(t).Some? then Some(AsU64(ParseDecimal(t).value))
    else WithUnit(t)
  }

  /** A size with a unit: the leading number scaled by the unit. */
  function WithUnit(t: string): (r: Option<u64>)
    ensures r.Some? <==> ParseDecimal(SplitNumberUnit(t).0).Some?
  {
    var parts := SplitNumberUnit(t);
    match ParseDecimal(parts.0)
    case None => None
    case Some(x) => Some(ScaleBytes(x, UnitMultiplier(Lower(parts.1))))
  }

  /** `(num * multiplier as f64) as u64`. */
  function ScaleBytes(x: real, m: nat): u64 {
    AsU64(x * m as real)
  }

  /** `clean_speed_string`: trimmed, with placeholders shown as "--". */
  function CleanSpeed(s: string): (r: string)
    ensures r == "--" || r == Trim(s)
    ensures r == Trim(s) <== !(EqIgnoreCase(Trim(s), "unknown") || EqIgnoreCase(Trim(s), "n/a")
                               || EqIgnoreCase(Trim(s), "na"))
  {
    var t := Trim(s);
    if EqIgnoreCase(t, "unknown") || EqIgnoreCase(t, "n/a") || EqIgnoreCase(t, "na") then "--" else t
  }

  /** `parse_eta`: "S", "M:S" or "H:M:S" in seconds (64-bit arithmetic, as
      a release build wraps it); placeholders, empty text, unparseable fields
      and four or more fields give `None`. */
  function ParseEta(s: string): (r: Option<u64>)
    ensures EqIgnoreCase(Trim(s), "n/a") || EqIgnoreCase(Trim(s), "unknown") || Trim(s) == [] ==> r.None?
    ensures |Split(Trim(s), ':')| > 3 ==> r.None?
  {
    var t := Trim(s);
    if EqIgnoreCase(t, "n/a") || EqIgnoreCase(t, "unknown") || t == [] then None
    else EtaFromFields(Split(t, ':'))
  }

  /** The seconds denoted by one to three colon-separated fields. */
  function EtaFromFields(parts: seq<string>): (r: Option<u64>)
    ensures |parts| == 0 || |parts| > 3 ==> r.None?
    ensures r.Some? ==> forall k :: 0 <= k < |parts| ==> ParseU64(parts[k]).Some?
  {
    if |parts| == 1 then ParseU64(parts[0])
    else if |parts| == 2 then
      if ParseU64(parts[0]).Some? && ParseU64(parts[1]).Some? then
        Some(WrapU64(ParseU64(parts[0]).value * 60 + ParseU64(parts[1]).value))
      else None
    else if |parts| == 3 then
      if ParseU64(parts[0]).Some? && ParseU64(parts[1]).Some? && ParseU64(parts[2]).Some? then
        Some(WrapU64(ParseU64(parts[0]).value * 3600 + ParseU64(parts[1]).value * 60 + ParseU64(parts[2]).value))
      else None
    else None
  }

  // ---------------------------------------------------------------------------
  // Progress lines
  // ---------------------------------------------------------------------------

  predicate IsMergeLine(l: string) {
    Contains(l, "[Merger]") || Contains(l, "Merging") || Contains(l, "[ffmpeg]")
  }

  /** `parse_progress_line`: the dispatch on the trimmed line. */
  function ParseProgressLine(line: string): (r: ParsedLine)
    ensures IsMergeLine(Trim(line)) ==> r == Merging
    ensures r.Merging? ==> IsMergeLine(Trim(line))
    ensures r.Progress? ==> 0.0 <= r.event.percentage <= 100.0 && r.event.status == "downloading"
  {
    var l := Trim(line);
    if IsMergeLine(l) then Merging
    else if StartsWith(l, "[download]") && Contains(l, "%") then ParseDownloadLine(l)
    else if Contains(l, "|") && !StartsWith(l, "[") then ParsePipeLine(l)
    else if StartsWith(l, "download:") && Contains(l[9..], "|") then ParsePipeLine(l[9..])
    else Unknown
  }

  /** `parse_default_download_line`: yt-dlp's own
      `[download]  45.2% of 52.3MiB at 2.5MiB/s ETA 00:12` format. */
  function ParseDownloadLine(line: string): (r: ParsedLine)
    ensures r.Progress? ==> 0.0 <= r.event.percentage <= 100.0 && r.event.status == "downloading"
    ensures r.Progress? && r.event.totalBytes.Some? ==> r.event.downloadedBytes <= r.event.totalBytes.value
    ensures r.Progress? && r.event.totalBytes.None? ==> r.event.downloadedBytes == 0
    ensures !r.Merging?
  {
    var content := Trim(TrimStartMatches(line, "[download]"));
    if StartsWith(content, "Destination:") || StartsWith(content, "Resuming")
       || Contains(content, "has already been downloaded")
    then Unknown
    else
      match IndexOf(content, "%")
      case None => Unknown
      case Some(pe) => Progress(DownloadLineEvent(content, ParsePercentage(Trim(content[..pe]))))
  }

  /** The progress event of a `[download]` line whose percentage is `pct`. */
  function DownloadLineEvent(content: string, pct: real): (e: ProgressEvent)
    requires 0.0 <= pct <= 100.0
    ensures e.percentage == pct && e.status == "downloading"
    ensures e.totalBytes == DownloadLineTotal(content) && e.speed == DownloadLineSpeed(content)
    ensures e.totalBytes.Some? ==> e.downloadedBytes == DownloadedFromPercentage(pct, e.totalBytes.value)
    ensures e.totalBytes.None? ==> e.downloadedBytes == 0
  {
    var total := DownloadLineTotal(content);
    var downloaded := if total.Some? then DownloadedFromPercentage(pct, total.value) else 0;
    ProgressEvent(pct, downloaded, total, DownloadLineSpeed(content), DownloadLineEta(content), "downloading")
  }

  /** The first word after "ETA ", as an ETA. */
  function DownloadLineEta(content: string): (eta: Option<u64>)
    ensures !Contains(content, "ETA ") ==> eta.None?
  {
    match IndexOf(content, "ETA ")
    case Some(i) => ParseEta(FirstWord(content[i + 4..]))
    case None => None
  }

  /** The speed text after " at ", up to " ETA", else up to the next space,
      else to the end; "--" without " at ". */
  function DownloadLineSpeed(content: string): (speed: string)
    ensures !Contains(content, " at ") ==> speed == "--"
  {
    match IndexOf(content, " at ")
    case None => "--"
    case Some(a) =>
      var after := content[a + 4..];
      match IndexOf(after, " ETA")
      case Some(e) => Trim(after[..e])
      case None =>
        match IndexOf(after, " ")
        case Some(sp) => Trim(after[..sp])
        case None => Trim(after)
  }

  /** The total size after " of ", up to " at " or else the first word. */
  function DownloadLineTotal(content: string): (total: Option<u64>)
    ensures !Contains(content, " of ") ==> total.None?
  {
    match IndexOf(content, " of ")
    case None => None
    case Some(o) =>
      var after := content[o + 4..];
      var size :=
        match IndexOf(after, " at ")
        case Some(a) => after[..a]
        case None => FirstWord(after);
      ParseBytes(size)
  }

  /** `((percentage / 100.0) * total as f64) as u64`. */
  function DownloadedFromPercentage(pct: real, total: u64): (d: u64)
    requires 0.0 <= pct <= 100.0
    ensures d <= total
    ensures pct == 100.0 ==> d == total
  {
    var x := (pct / 100.0) * total as real;
    assert x <= total as real;
    AsU64Monotone(x, total as real);
    AsU64OfNat(total);
    AsU64(x)
  }

  /** `parse_pipe_delimited_line`: percentage|downloaded|total|speed|eta. When
      the percentage is 0 but both byte counts are known and positive, it is
      recomputed from them, capped at 100. */
  function ParsePipeLine(data: string): (r: ParsedLine)
    ensures r.Unknown? <==> |Split(data, '|')| < 5
    ensures r.Progress? ==> 0.0 <= r.event.percentage <= 100.0 && r.event.status == "downloading"
    ensures r.Progress? ==> r.event.speed == "--" || r.event.speed == Trim(Split(data, '|')[3])
  {
    var parts := Split(data, '|');
    if |parts| < 5 then Unknown
    else
      var pct := ParsePercentage(parts[0]);
      var downloaded := ParseBytes(parts[1]).GetOr(0);
      var total := ParseBytes(parts[2]);
      var finalPct := PercentageFromBytes(pct, downloaded, total);
      Progress(ProgressEvent(finalPct, downloaded, total, CleanSpeed(parts[3]), ParseEta(parts[4]), "downloading"))
  }

  /** The pipe parser's fallback percentage. */
  function PercentageFromBytes(pct: real, downloaded: u64, total: Option<u64>): (p: real)
    requires 0.0 <= pct <= 100.0
    ensures 0.0 <= p <= 100.0
    ensures pct != 0.0 ==> p == pct
    ensures pct == 0.0 && downloaded > 0 && total.Some? && total.value > 0
      ==> p == MinReal(downloaded as real / total.value as real * 100.0, 100.0)
    ensures !(downloaded > 0 && total.Some? && total.value > 0) ==> p == pct
  {
    if pct == 0.0 && downloaded > 0 && total.Some? && total.value > 0 then
      MinReal(downloaded as real / total.value as real * 100.0, 100.0)
    else pct
  }

  // ---------------------------------------------------------------------------
  // Error lines
  // ---------------------------------------------------------------------------

  datatype ErrorCategory = PrivateVideo | AgeRestricted | RegionLocked | NetworkError | NotFound | GenericError

  datatype ParsedError = ParsedError(category: ErrorCategory, message: string)

  /** `parse_error_line`: the trimmed text after the first "ERROR:" (to the end
      when the line starts with it, else up to a second "ERROR:"),
      categorised; `None` when the trimmed line has no "ERROR:". */
  function ParseErrorLine(line: string): (r: Option<ParsedError>)
    ensures r.Some? <==> Contains(Trim(line), "ERROR:")
    ensures r.Some? ==> Contains(line, "ERROR:")
    ensures r.Some? ==> r.value == MakeParsedError(ErrorText(Trim(line)))
  {
    var l := Trim(line);
    if Contains(l, "ERROR:") then
      TrimContains(line, "ERROR:");
      Some(MakeParsedError(ErrorText(l)))
    else None
  }

  /** The error text of a trimmed line containing "ERROR:": after a leading
      "ERROR:" the whole remainder, otherwise the text after the first
      "ERROR:" up to the next one or the end, trimmed either way. */
  function ErrorText(l: string): (msg: string)
    requires Contains(l, "ERROR:")
    ensures StartsWith(l, "ERROR:") ==> msg == Trim(l[6..])
    ensures !StartsWith(l, "ERROR:") ==> !Contains(msg, "ERROR:")
    ensures !StartsWith(l, "ERROR:") ==> var rest := l[IndexOf(l, "ERROR:").value + 6..];
      exists n :: 0 <= n <= |rest| && msg == Trim(rest[..n]) && !Contains(rest[..n], "ERROR:") &&
        (n == |rest| || StartsWith(rest[n..], "ERROR:"))
  {
    if StartsWith(l, "ERROR:") then Trim(l[6..])
    else
      var m := SecondField(l, "ERROR:").value;
      TrimKeepsAbsence(m, "ERROR:");
      var rest := l[IndexOf(l, "ERROR:").value + 6..];
      assert rest[..|m|] == m;
      Trim(m)
  }

  /** Trimming never creates an occurrence. */
  lemma TrimKeepsAbsence(m: string, p: string)
    requires !Contains(m, p)
    ensures !Contains(Trim(m), p)
  {
    TrimStartKeepsAbsence(m, p);
    TrimEndKeepsAbsence(TrimStart(m), p);
    assert Trim(m) == TrimEnd(TrimStart(m));
  }

  lemma TrimStartKeepsAbsence(m: string, p: string)
    requires !Contains(m, p)
    ensures !Contains(TrimStart(m), p)
  {
    SliceKeepsAbsence(m, |m| - |TrimStart(m)|, |m|, p, TrimStart(m));
  }

  lemma TrimEndKeepsAbsence(m: string, p: string)
    requires !Contains(m, p)
    ensures !Contains(TrimEnd(m), p)
  {
    SliceKeepsAbsence(m, 0, |TrimEnd(m)|, p, TrimEnd(m));
  }

  lemma SliceKeepsAbsence(s: string, a: nat, b: nat, p: string, r: string)
    requires a <= b <= |s| && !Contains(s, p) && r == s[a..b]
    ensures !Contains(r, p)
  {
    NoMatchInSlice(s, a, b, p);
  }

  lemma NoMatchInSlice(s: string, a: nat, b: nat, p: string)
    requires a <= b <= |s| && !Contains(s, p)
    ensures !Contains(s[a..b], p)
  {
    if Contains(s[a..b], p) {
      ContainsInSlice(s, a, b, p);
    }
  }

  function MakeParsedError(msg: string): (e: ParsedError)
    ensures e.category == CategorizeError(msg)
  {
    var c := CategorizeError(msg);
    ParsedError(c, UserMessage(msg, c))
  }

  const PrivatePatterns: seq<string> := ["private video", "video is private", "this video is private"]
  const AgePatterns: seq<string> :=
    ["age-restricted", "age restricted", "sign in to confirm your age", "login required", "sign in"]
  const RegionPatterns: seq<string> :=
    ["not available in your country", "geo-restricted", "geo restricted", "blocked in your country", "region"]
  const NetworkPatterns: seq<string> :=
    ["network", "connection", "timeout", "timed out", "unable to download", "http error",
     "urlopen error", "ssl", "certificate"]
  const NotFoundPatterns: seq<string> :=
    ["video unavailable", "not found", "does not exist", "has been removed", "deleted",
     "no video formats found", "unsupported url"]

  /** `categorize_error`: the first pattern group with a match in the
      lower-cased message. */
  function CategorizeError(msg: string): ErrorCategory {
    var l := Lower(msg);
    if AnyIn(l, PrivatePatterns) then PrivateVideo
    else if AnyIn(l, AgePatterns) then AgeRestricted
    else if AnyIn(l, RegionPatterns) then RegionLocked
    else if AnyIn(l, NetworkPatterns) then NetworkError
    else if AnyIn(l, NotFoundPatterns) then NotFound
    else GenericError
  }

  /** `truncate_message`: at most `max` characters, ending in "..." when cut. */
  function TruncateMessage(msg: string, max: nat): (r: string)
    requires max >= 3
    ensures |r| <= max
    ensures |msg| <= max ==> r == msg
    ensures |msg| > max ==> |r| == max && r == msg[..max - 3] + "..."
  {
    if |msg| <= max then msg else msg[..max - 3] + "..."
  }

  /** The fixed messages of `create_user_friendly_message`. */
  const PrivateMessage: string := "This video is private. You may need to sign in with browser cookies to access it."
  const AgeMessage: string := "This content is age-restricted. Try enabling browser cookie import in settings."
  const RegionMessage: string := "This content is not available in your region."
  const NotFoundMessage: string := "Video not found. The URL may be invalid or the content may have been removed."

  /** `create_user_friendly_message`. */
  function UserMessage(msg: string, c: ErrorCategory): (r: string)
    ensures c.GenericError? ==> r == TruncateMessage(msg, 200)
    ensures c.NetworkError? ==> StartsWith(r, "Network error: ")
  {
    match c
    case PrivateVideo => PrivateMessage
    case AgeRestricted => AgeMessage
    case RegionLocked => RegionMessage
    case NetworkError =>
      var tail := TruncateMessage(msg, 100) + ". Please check your internet connection and try again.";
      StartsWithConcat("Network error: ", tail);
      "Network error: " + tail
    case NotFound => NotFoundMessage
    case GenericError => TruncateMessage(msg, 200)
  }

  /** `From<ParsedError> for DownloadError`. */
  function ToDownloadError(p: ParsedError): (e: Errors.DownloadError)
    ensures p.category.NetworkError? ==> e == Errors.NetworkError(p.message)
    ensures p.category.GenericError? ==> e == Errors.GenericError(p.message)
  {
    match p.category
    case PrivateVideo => Errors.PrivateVideo
    case AgeRestricted => Errors.AgeRestricted
    case RegionLocked => Errors.RegionLocked
    case NetworkError => Errors.NetworkError(p.message)
    case NotFound => Errors.NotFound
    case GenericError => Errors.GenericError(p.message)
  }
}

module ParserLemmas {
  import opened Wrappers
  import opened Ints
  import opened Text
  import opened Models
  import opened Parser

  // ---------------------------------------------------------------------------
  // Helpers about trimming and placeholders
  // ---------------------------------------------------------------------------

  /** A string that starts with a visible character keeps it under `trim`. */
  lemma TrimKeepsFirst(s: string)
    requires |s| > 0 && !IsWhitespace(s[0])
    ensures |Trim(s)| > 0 && Trim(s)[0] == s[0]
  {
    assert TrimStart(s) == s;
  }

  /** A digit string is no placeholder word. */
  lemma DigitsAreNotWord(s: string, w: string)
    requires |s| > 0 && IsDigit(s[0]) && |w| > 0 && 'a' <= w[0] <= 'z'
    ensures !EqIgnoreCase(s, w)
  {
    assert Lower(s)[0] != Lower(w)[0];
  }

  /** A lower-case letter is no placeholder word starting with another letter. */
  lemma LetterIsNotWord(s: string, w: string)
    requires |s| > 0 && |w| > 0 && LowerChar(s[0]) != LowerChar(w[0])
    ensures !EqIgnoreCase(s, w)
  {
    assert Lower(s)[0] != Lower(w)[0];
  }

  /** Text starting with a letter is not a decimal number. */
  lemma LetterIsNotDecimal(u: string)
    requires |u| > 0 && 'a' <= u[0] <= 'z'
    ensures ParseDecimal(u) == None
  {
    assert !AllDigits(u) by { assert !IsDigit(u[0]); }
    match IndexOf(u, ".")
    case None =>
    case Some(i) =>
      assert i > 0 by { assert !MatchAt(u, ".", 0); }
      assert !AllDigits(u[..i]) by { assert u[..i][0] == u[0]; }
  }

  /** The first piece of a split is a prefix of the text. */
  lemma SplitFirstIsPrefix(s: string, c: char)
    ensures var p := Split(s, c)[0]; |p| <= |s| && s[..|p|] == p
    ensures var p := Split(s, c)[0]; |p| < |s| ==> s[|p|] == c
  {
    var parts := Split(s, c);
    if |parts| > 1 {
      assert Join(parts, [c]) == parts[0] + [c] + Join(parts[1..], [c]);
    }
  }

  // ---------------------------------------------------------------------------
  // Field parsers against their renderings
  // ---------------------------------------------------------------------------

  /** A rendered digit string is its own trim. */
  lemma NatToStringTrimmed(n: nat)
    ensures Trim(NatToString(n)) == NatToString(n)
  {
    var s := NatToString(n);
    assert IsDigit(s[0]) && IsDigit(s[|s| - 1]);
    TrimNoop(s);
  }

  lemma NatToStringNoChar(n: nat, c: char)
    requires !IsDigit(c)
    ensures c !in NatToString(n)
  {
    var s := NatToString(n);
    forall k | 0 <= k < |s| ensures s[k] != c {
      assert IsDigit(s[k]);
    }
  }

  /** "N%" parses as N for every N up to 100. */
  lemma PercentageRoundTrip(n: nat)
    requires n <= 100
    ensures ParsePercentage(NatToString(n) + "%") == n as real
  {
    var a := NatToString(n);
    var s := a + "%";
    assert s[0] == a[0] && IsDigit(s[0]) && s[|s| - 1] == '%';
    TrimNoop(s);
    DigitsAreNotWord(s, "na");
    DigitsAreNotWord(s, "n/a");
    DigitsAreNotWord(s, "unknown");
    var r := TrimEndMatches(s, '%');
    assert s[|a| - 1] == a[|a| - 1] && s[|a| - 1] != '%';
    assert |r| >= |a|;
    assert |r| != |s| by { assert s[..|s|] == s; }
    assert r == a by { assert r == s[..|a|]; assert s[..|a|] == a; }
    NatToStringTrimmed(n);
    ParseDecimalOfNatToString(n);
  }

  /** A bare number of seconds parses as itself. */
  lemma EtaSecondsRoundTrip(sec: nat)
    requires sec < U64_LIMIT
    ensures ParseEta(NatToString(sec)) == Some(sec)
  {
    var a := NatToString(sec);
    NatToStringTrimmed(sec);
    DigitsAreNotWord(a, "n/a");
    DigitsAreNotWord(a, "unknown");
    NatToStringNoChar(sec, ':');
    SplitNoSeparator(a, ':');
    ParseU64OfNatToString(sec);
  }

  lemma SplitTwo(a: string, b: string, c: char)
    requires c !in a && c !in b
    ensures Split(a + [c] + b, c) == [a, b]
  {
    SplitAtFirst(a, c, b);
    SplitNoSeparator(b, c);
  }

  lemma SplitThree(a: string, b: string, c: string, ch: char)
    requires ch !in a && ch !in b && ch !in c
    ensures Split(a + [ch] + b + [ch] + c, ch) == [a, b, c]
  {
    var rest := b + [ch] + c;
    assert a + [ch] + b + [ch] + c == a + [ch] + rest;
    SplitAtFirst(a, ch, rest);
    SplitTwo(b, c, ch);
    assert Split(rest, ch) == [b, c];
    assert [a] + [b, c] == [a, b, c];
  }

  /** A rendered non-placeholder number text goes straight to its fields. */
  lemma EtaOfDigits(s: string)
    requires |s| > 0 && IsDigit(s[0]) && IsDigit(s[|s| - 1])
    ensures ParseEta(s) == EtaFromFields(Split(s, ':'))
  {
    TrimNoop(s);
    DigitsAreNotWord(s, "n/a");
    DigitsAreNotWord(s, "unknown");
  }

  lemma EtaFieldsTwo(a: string, b: string, m: nat, sec: nat)
    requires ParseU64(a) == Some(m) && ParseU64(b) == Some(sec)
    ensures EtaFromFields([a, b]) == Some(WrapU64(m * 60 + sec))
  {
    assert [a, b][0] == a && [a, b][1] == b;
  }

  lemma EtaFieldsThree(a: string, b: string, c: string, h: nat, m: nat, sec: nat)
    requires ParseU64(a) == Some(h) && ParseU64(b) == Some(m) && ParseU64(c) == Some(sec)
    ensures EtaFromFields([a, b, c]) == Some(WrapU64(h * 3600 + m * 60 + sec))
  {
    assert [a, b, c][0] == a && [a, b, c][1] == b && [a, b, c][2] == c;
  }

  lemma DigitsHaveNoColon(a: string)
    requires AllDigits(a)
    ensures ':' !in a
  {
    forall k | 0 <= k < |a| ensures a[k] != ':' {
      assert IsDigit(a[k]);
    }
  }

  /** Two digit fields joined by ':' reach the field evaluation unchanged. */
  lemma EtaOfTwoFields(a: string, b: string)
    requires |a| > 0 && |b| > 0 && AllDigits(a) && AllDigits(b)
    ensures ParseEta(a + ":" + b) == EtaFromFields([a, b])
  {
    var s := a + ":" + b;
    assert s[0] == a[0] && s[|s| - 1] == b[|b| - 1];
    EtaOfDigits(s);
    DigitsHaveNoColon(a);
    DigitsHaveNoColon(b);
    assert s == a + [':'] + b;
    SplitTwo(a, b, ':');
  }

  /** Three digit fields joined by ':' reach the field evaluation unchanged. */
  lemma EtaOfThreeFields(a: string, b: string, c: string)
    requires |a| > 0 && |b| > 0 && |c| > 0 && AllDigits(a) && AllDigits(b) && AllDigits(c)
    ensures ParseEta(a + ":" + b + ":" + c) == EtaFromFields([a, b, c])
  {
    var s := a + ":" + b + ":" + c;
    assert s[0] == a[0] && s[|s| - 1] == c[|c| - 1];
    EtaOfDigits(s);
    DigitsHaveNoColon(a);
    DigitsHaveNoColon(b);
    DigitsHaveNoColon(c);
    assert s == a + [':'] + b + [':'] + c;
    SplitThree(a, b, c, ':');
  }

  /** "M:S" parses as 60 M + S. */
  lemma EtaMinutesRoundTrip(m: nat, sec: nat)
    requires m < U64_LIMIT && sec < U64_LIMIT
    ensures ParseEta(NatToString(m) + ":" + NatToString(sec)) == Some(WrapU64(m * 60 + sec))
  {
    EtaOfTwoFields(NatToString(m), NatToString(sec));
    ParseU64OfNatToString(m);
    ParseU64OfNatToString(sec);
    EtaFieldsTwo(NatToString(m), NatToString(sec), m, sec);
  }

  /** "H:M:S" parses as 3600 H + 60 M + S. */
  lemma EtaHoursRoundTrip(h: nat, m: nat, sec: nat)
    requires h < U64_LIMIT && m < U64_LIMIT && sec < U64_LIMIT
    ensures ParseEta(NatToString(h) + ":" + NatToString(m) + ":" + NatToString(sec))
         == Some(WrapU64(h * 3600 + m * 60 + sec))
  {
    EtaOfThreeFields(NatToString(h), NatToString(m), NatToString(sec));
    ParseU64OfNatToString(h);
    ParseU64OfNatToString(m);
    ParseU64OfNatToString(sec);
    EtaFieldsThree(NatToString(h), NatToString(m), NatToString(sec), h, m, sec);
  }

  /** A plain byte count parses as itself. */
  lemma BytesRoundTrip(n: nat)
    requires n < U64_LIMIT
    ensures ParseBytes(NatToString(n)) == Some(n)
  {
    var a := NatToString(n);
    NatToStringTrimmed(n);
    DigitsAreNotWord(a, "n/a");
    DigitsAreNotWord(a, "na");
    DigitsAreNotWord(a, "unknown");
    DigitsAreNotWord(a, "none");
    ParseU64OfNatToString(n);
  }

  predicate IsAsciiLetters(u: string) {
    forall i :: 0 <= i < |u| ==> ('a' <= u[i] <= 'z' || 'A' <= u[i] <= 'Z')
  }

  /** A count followed by a unit word is scaled by that unit's multiplier. */
  lemma BytesWithUnit(n: nat, unit: string)
    requires n < U64_LIMIT && |unit| > 0 && IsAsciiLetters(unit)
    ensures ParseBytes(NatToString(n) + unit) == Some(ScaleBytes(n as real, UnitMultiplier(Lower(unit))))
  {
    var a := NatToString(n);
    var s := a + unit;
    NumberThenUnit(a, unit);
    ParseDecimalOfNatToString(n);
    assert Trim(s) == s && !IsMissingBytes(s);
    assert ParseU64(s).None? && ParseDecimal(s).None?;
    assert SplitNumberUnit(s) == (a, unit);
    assert ParseBytes(s) == WithUnit(s);
    assert ParseBytes(s) == Some(ScaleBytes(n as real, UnitMultiplier(Lower(unit))));
  }

  /** The text analysis behind `BytesWithUnit`: a digit string followed by
      letters is trimmed, no placeholder, no plain number, and splits into
      the two. */
  lemma NumberThenUnit(a: string, unit: string)
    requires |a| > 0 && AllDigits(a) && |unit| > 0 && IsAsciiLetters(unit)
    ensures var s := a + unit; Trim(s) == s && !IsMissingBytes(s)
    ensures ParseU64(a + unit) == None && ParseDecimal(a + unit) == None
    ensures SplitNumberUnit(a + unit) == (a, unit)
  {
    var s := a + unit;
    NumberUnitEnds(a, unit);
    TrimNoop(s);
    DigitsAreNotWord(s, "n/a");
    DigitsAreNotWord(s, "na");
    DigitsAreNotWord(s, "unknown");
    DigitsAreNotWord(s, "none");
    NumberUnitChars(a, unit);
    NotPlainNumber(s, |a|);
    NumberUnitSplit(a, unit);
  }

  /** The first and last characters of a count followed by a unit. */
  lemma NumberUnitEnds(a: string, unit: string)
    requires |a| > 0 && AllDigits(a) && |unit| > 0 && IsAsciiLetters(unit)
    ensures IsDigit((a + unit)[0])
    ensures !IsWhitespace((a + unit)[|a + unit| - 1])
  {
    assert (a + unit)[0] == a[0];
    assert (a + unit)[|a + unit| - 1] == unit[|unit| - 1];
  }

  /** A count followed by a unit holds only digits and letters, with a
      letter where the unit starts. */
  lemma NumberUnitChars(a: string, unit: string)
    requires |a| > 0 && AllDigits(a) && |unit| > 0 && IsAsciiLetters(unit)
    ensures var s := a + unit; 'a' <= s[|a|] <= 'z' || 'A' <= s[|a|] <= 'Z'
    ensures var s := a + unit;
      forall i :: 0 <= i < |s| ==> IsDigit(s[i]) || 'a' <= s[i] <= 'z' || 'A' <= s[i] <= 'Z'
  {
    var s := a + unit;
    assert s[|a|] == unit[0];
    forall i | 0 <= i < |s| ensures IsDigit(s[i]) || 'a' <= s[i] <= 'z' || 'A' <= s[i] <= 'Z' {
      if i < |a| { assert s[i] == a[i]; } else { assert s[i] == unit[i - |a|]; }
    }
  }

  /** The numeric prefix of a count followed by a unit is the count. */
  lemma NumberUnitSplit(a: string, unit: string)
    requires |a| > 0 && AllDigits(a) && |unit| > 0 && IsAsciiLetters(unit)
    requires Trim(a + unit) == a + unit
    ensures SplitNumberUnit(a + unit) == (a, unit)
  {
    var s := a + unit;
    forall i | 0 <= i < |a| ensures IsNumberChar(s[i]) {
      assert s[i] == a[i];
    }
    assert s[|a|] == unit[0];
    PrefixLengthIs(s, |a|);
    assert s[..|a|] == a && s[|a|..] == unit;
  }

  /** A prefix of number characters ended by another character is the
      numeric prefix. */
  lemma PrefixLengthIs(s: string, n: nat)
    requires n <= |s| && forall i :: 0 <= i < n ==> IsNumberChar(s[i])
    requires n < |s| ==> !IsNumberChar(s[n])
    ensures NumberPrefixLength(s) == n
  {
  }

  /** Text with a letter at `j` and no '.' at all is neither an integer nor a
      decimal. */
  lemma NotPlainNumber(s: string, j: nat)
    requires j < |s| && ('a' <= s[j] <= 'z' || 'A' <= s[j] <= 'Z')
    requires forall i :: 0 <= i < |s| ==> IsDigit(s[i]) || 'a' <= s[i] <= 'z' || 'A' <= s[i] <= 'Z'
    ensures ParseU64(s) == None && ParseDecimal(s) == None
  {
    assert !AllDigits(s) by { assert !IsDigit(s[j]); }
    assert s[0] != '+' && s[0] != '-';
    assert '.' !in s by {
      forall k | 0 <= k < |s| ensures s[k] != '.' {
        assert IsDigit(s[k]) || 'a' <= s[k] <= 'z' || 'A' <= s[k] <= 'Z';
      }
    }
    NotContainsChar(s, ".");
  }

  /** The multipliers of the unit spellings yt-dlp prints. */
  lemma KnownUnits()
    ensures UnitMultiplier("b") == 1 && UnitMultiplier("kib") == 1024 && UnitMultiplier("k") == 1024
    ensures UnitMultiplier("mib") == 1048576 && UnitMultiplier("mb") == 1048576
    ensures UnitMultiplier("gib") == 1073741824 && UnitMultiplier("tib") == 1099511627776
    ensures UnitMultiplier("xb") == 1
  {
  }

  /** Scaling a whole count is exact below the 64-bit limit. */
  lemma ScaleBytesExact(n: nat, m: nat)
    requires n * m < U64_LIMIT
    ensures ScaleBytes(n as real, m) == n * m
  {
    assert n as real * m as real == (n * m) as real;
    AsU64OfNat(n * m);
  }

  lemma LowerMiB()
    ensures Lower("MiB") == "mib"
  {
    var l := Lower("MiB");
    assert l[0] == 'm' && l[1] == 'i' && l[2] == 'b';
  }

  lemma MebibyteText(n: nat)
    requires n < U64_LIMIT
    ensures ParseBytes(NatToString(n) + "MiB") == Some(ScaleBytes(n as real, UnitMultiplier(Lower("MiB"))))
  {
    assert IsAsciiLetters("MiB");
    BytesWithUnit(n, "MiB");
  }

  lemma MebibyteScale(n: nat)
    requires n * 1048576 < U64_LIMIT
    ensures ScaleBytes(n as real, UnitMultiplier(Lower("MiB"))) == n * 1048576
  {
    LowerMiB();
    assert UnitMultiplier("mib") == 1048576;
    ScaleBytesExact(n, 1048576);
  }

  /** A mebibyte count below the 64-bit limit is exact. */
  lemma BytesInMebibytes(n: nat)
    requires n * 1048576 < U64_LIMIT
    ensures ParseBytes(NatToString(n) + "MiB") == Some(n * 1048576)
  {
    MebibyteText(n);
    MebibyteScale(n);
  }


  /** The fields of a pipe line rendered from known values. */
  lemma PipeFields(p: nat, d: nat, t: nat, speed: string, e: nat)
    requires '|' !in speed
    ensures var fields := [NatToString(p) + "%", NatToString(d), NatToString(t), speed, NatToString(e)];
      Split(Join(fields, "|"), '|') == fields
  {
    var f0 := NatToString(p) + "%";
    var fields := [f0, NatToString(d), NatToString(t), speed, NatToString(e)];
    NatToStringNoChar(p, '|');
    NatToStringNoChar(d, '|');
    NatToStringNoChar(t, '|');
    NatToStringNoChar(e, '|');
    assert '|' !in f0;
    SplitFiveFields(f0, NatToString(d), NatToString(t), speed, NatToString(e));
  }

  lemma SplitFiveFields(a: string, b: string, c: string, d: string, e: string)
    requires '|' !in a && '|' !in b && '|' !in c && '|' !in d && '|' !in e
    ensures Split(Join([a, b, c, d, e], "|"), '|') == [a, b, c, d, e]
  {
    var f := [a, b, c, d, e];
    assert forall k :: 0 <= k < |f| ==> '|' !in f[k];
    SplitJoin(f, '|');
  }

  /** A pipe line whose five fields read as a positive percentage, two byte
      counts and an ETA carries exactly those. */
  lemma PipeOfFields(data: string, f0: string, f1: string, f2: string, f3: string, f4: string,
                     pct: real, d: u64, t: u64, e: u64)
    requires Split(data, '|') == [f0, f1, f2, f3, f4]
    requires ParsePercentage(f0) == pct && pct > 0.0
    requires ParseBytes(f1) == Some(d) && ParseBytes(f2) == Some(t)
    requires ParseEta(f4) == Some(e)
    ensures ParsePipeLine(data) == Progress(ProgressEvent(pct, d, Some(t), CleanSpeed(f3), Some(e), "downloading"))
  {
  }


  /** A pipe line rendered from a positive percentage, two byte counts, a
      speed and an ETA in seconds parses back to exactly those values. */
  lemma PipeRoundTrip(p: nat, d: nat, t: nat, speed: string, e: nat)
    requires 0 < p <= 100 && d < U64_LIMIT && t < U64_LIMIT && e < U64_LIMIT && '|' !in speed
    ensures ParsePipeLine(Join([NatToString(p) + "%", NatToString(d), NatToString(t), speed, NatToString(e)], "|"))
         == Progress(ProgressEvent(p as real, d, Some(t), CleanSpeed(speed), Some(e), "downloading"))
  {
    var f0, f1, f2, f4 := NatToString(p) + "%", NatToString(d), NatToString(t), NatToString(e);
    var data := Join([f0, f1, f2, speed, f4], "|");
    PipeFields(p, d, t, speed, e);
    PercentageRoundTrip(p);
    BytesRoundTrip(d);
    BytesRoundTrip(t);
    EtaSecondsRoundTrip(e);
    PipeOfFields(data, f0, f1, f2, speed, f4, p as real, d, t, e);
  }

  // ---------------------------------------------------------------------------
  // Error lines
  // ---------------------------------------------------------------------------

  /** `categorize_error` as a rule table: one single-group rule per category,
      tried in order. */
  const CategoryRules: seq<Keywords.Rule> :=
    [[PrivatePatterns], [AgePatterns], [RegionPatterns], [NetworkPatterns], [NotFoundPatterns]]

  const RuleCategories: seq<ErrorCategory> := [PrivateVideo, AgeRestricted, RegionLocked, NetworkError, NotFound]

  function TableCategory(l: string): ErrorCategory {
    match Keywords.FirstHolding(CategoryRules, l)
    case Some(i) => RuleCategories[i]
    case None => GenericError
  }

  lemma SingleGroupRule(l: string, g: seq<string>)
    ensures Keywords.Holds(l, [g]) <==> Keywords.AnyIn(l, g)
  {
    assert [g][0] == g;
  }

  /** The category is that of the first pattern group that matches the
      lower-cased message, in the order private, age, region, network,
      not-found; GenericError when none does. */
  lemma CategorizeFollowsTable(msg: string)
    ensures CategorizeError(msg) == TableCategory(Lower(msg))
  {
    var l := Lower(msg);
    var rs := CategoryRules;
    SingleGroupRule(l, PrivatePatterns);
    SingleGroupRule(l, AgePatterns);
    SingleGroupRule(l, RegionPatterns);
    SingleGroupRule(l, NetworkPatterns);
    SingleGroupRule(l, NotFoundPatterns);
    assert rs[0] == [PrivatePatterns] && rs[1] == [AgePatterns] && rs[2] == [RegionPatterns];
    assert rs[3] == [NetworkPatterns] && rs[4] == [NotFoundPatterns];
    assert Keywords.FirstHolding(rs, l, 5) == None;
    assert Keywords.FirstHolding(rs, l, 4) == if Keywords.Holds(l, rs[4]) then Some(4) else None;
    assert Keywords.FirstHolding(rs, l, 3) == if Keywords.Holds(l, rs[3]) then Some(3) else Keywords.FirstHolding(rs, l, 4);
    assert Keywords.FirstHolding(rs, l, 2) == if Keywords.Holds(l, rs[2]) then Some(2) else Keywords.FirstHolding(rs, l, 3);
    assert Keywords.FirstHolding(rs, l, 1) == if Keywords.Holds(l, rs[1]) then Some(1) else Keywords.FirstHolding(rs, l, 2);
    assert Keywords.FirstHolding(rs, l) == if Keywords.Holds(l, rs[0]) then Some(0) else Keywords.FirstHolding(rs, l, 1);
  }

  /** Two of the listed patterns can never decide anything: each contains an
      earlier pattern of the same group. */
  lemma RedundantPatterns(msg: string)
    ensures Contains(msg, "this video is private") ==> Contains(msg, "video is private")
    ensures Contains(msg, "sign in to confirm your age") ==> Contains(msg, "sign in")
  {
    if Contains(msg, "this video is private") {
      PrivateTail();
      ContainsTail(msg, "this video is private", 5);
    }
    if Contains(msg, "sign in to confirm your age") {
      SignInHead();
      ContainsHead(msg, "sign in to confirm your age", 7);
    }
  }

  /** The two patterns as parts of the longer ones. */
  lemma PrivateTail()
    ensures "this video is private"[5..] == "video is private"
  {
  }

  lemma SignInHead()
    ensures "sign in to confirm your age"[..7] == "sign in"
  {
  }

  /** Text containing `p` contains every tail of `p`. */
  lemma ContainsTail(msg: string, p: string, k: nat)
    requires Contains(msg, p) && k <= |p|
    ensures Contains(msg, p[k..])
  {
    var i := IndexOf(msg, p).value;
    assert msg[i + k..i + |p|] == msg[i..i + |p|][k..];
    ContainsAt(msg, p[k..], i + k);
  }

  /** Text containing `p` contains every head of `p`. */
  lemma ContainsHead(msg: string, p: string, k: nat)
    requires Contains(msg, p) && k <= |p|
    ensures Contains(msg, p[..k])
  {
    var i := IndexOf(msg, p).value;
    assert msg[i..i + k] == msg[i..i + |p|][..k];
    ContainsAt(msg, p[..k], i);
  }

  /** A visible character keeps a string unchanged under `trim` only if both
      ends are visible; with a leading space, trimming drops exactly that. */
  lemma TrimLeadingSpace(m: string)
    requires |m| > 0 && !IsWhitespace(m[0]) && !IsWhitespace(m[|m| - 1])
    ensures Trim(" " + m) == m
  {
    var x := " " + m;
    assert x[1..] == m;
    assert TrimStart(x) == TrimStart(m);
    assert TrimStart(m) == m;
    assert TrimEnd(m) == m;
  }

  /** "ERROR: msg" is recognised, and categorised by `msg` itself. */
  lemma ErrorLineOfMessage(m: string)
    requires |m| > 0 && Trim(m) == m
    ensures ParseErrorLine("ERROR: " + m) == Some(ParsedError(CategorizeError(m), UserMessage(m, CategorizeError(m))))
  {
    var l := "ERROR: " + m;
    ErrorLineTrimmed(m);
    ErrorLineText(m);
    assert ParseErrorLine(l) == Some(MakeParsedError(m));
  }

  /** "ERROR: m" is its own trimmed text and begins with the marker. */
  lemma ErrorLineTrimmed(m: string)
    requires |m| > 0 && Trim(m) == m
    ensures Trim("ERROR: " + m) == "ERROR: " + m
    ensures StartsWith("ERROR: " + m, "ERROR:") && Contains("ERROR: " + m, "ERROR:")
  {
    var l := "ERROR: " + m;
    TrimmedEnds(m);
    assert l[0] == 'E' && l[|l| - 1] == m[|m| - 1];
    TrimNoop(l);
    assert l[..6] == "ERROR:";
    ContainsAt(l, "ERROR:", 0);
  }

  /** The error text of "ERROR: m" is `m`. */
  lemma ErrorLineText(m: string)
    requires |m| > 0 && Trim(m) == m
    requires StartsWith("ERROR: " + m, "ERROR:") && Contains("ERROR: " + m, "ERROR:")
    ensures ErrorText("ERROR: " + m) == m
  {
    AfterMarker(m);
    TrimmedEnds(m);
    TrimLeadingSpace(m);
  }

  /** What follows the six-character marker of "ERROR: m". */
  lemma AfterMarker(m: string)
    ensures ("ERROR: " + m)[6..] == " " + m
  {
  }

  /** A non-empty trimmed text starts and ends with a non-space. */
  lemma TrimmedEnds(m: string)
    requires |m| > 0 && Trim(m) == m
    ensures !IsWhitespace(m[0]) && !IsWhitespace(m[|m| - 1])
  {
  }

  /** A line without "ERROR:" is not an error line. */
  lemma NonErrorLine(line: string)
    requires !Contains(line, "ERROR:")
    ensures ParseErrorLine(line) == None
  {
  }

  /** The category a `DownloadError` built from a parsed line shows. */
  function CategoryOf(e: Errors.DownloadError): Option<ErrorCategory> {
    match e
    case PrivateVideo => Some(PrivateVideo)
    case AgeRestricted => Some(AgeRestricted)
    case RegionLocked => Some(RegionLocked)
    case NetworkError(_) => Some(NetworkError)
    case NotFound => Some(NotFound)
    case GenericError(_) => Some(GenericError)
    case _ => None
  }

  /** The conversion to `DownloadError` loses no category: reading the
      category back gives the one parsed. */
  lemma ToDownloadErrorKeepsCategory(p: ParsedError)
    ensures CategoryOf(ToDownloadError(p)) == Some(p.category)
  {
  }

  // ---------------------------------------------------------------------------
  // Dispatch
  // ---------------------------------------------------------------------------

  /** A pipe-delimited line that does not start with '[' is parsed whole. */
  lemma PipeLinesParsedWhole(line: string)
    requires var l := Trim(line); !IsMergeLine(l) && Contains(l, "|") && !StartsWith(l, "[")
    ensures ParseProgressLine(line) == ParsePipeLine(Trim(line))
  {
    NoDownloadTag(Trim(line));
  }

  /** A line not starting with `[` has no `[download]` tag. */
  lemma NoDownloadTag(l: string)
    requires !StartsWith(l, "[")
    ensures !StartsWith(l, "[download]")
  {
    if |l| >= 10 {
      assert l[..10][0] == l[0] && l[..1] == [l[0]];
    }
  }

  /** A field starting with a letter other than the placeholders' initials
      reads as 0 percent. */
  lemma WordPercentageIsZero(p: string)
    requires |p| > 0 && 'a' <= p[0] <= 'z' && p[0] != 'n' && p[0] != 'u'
    ensures ParsePercentage(p) == 0.0
  {
    TrimKeepsFirst(p);
    var t := Trim(p);
    LetterIsNotWord(t, "na");
    LetterIsNotWord(t, "n/a");
    LetterIsNotWord(t, "unknown");
    var r := TrimEndMatches(t, '%');
    assert t[0] != '%';
    assert |r| > 0;
    assert r[0] == p[0];
    TrimKeepsFirst(r);
    LetterIsNotDecimal(Trim(r));
  }

  /** A pipe line whose first field starts with "download:" takes its
      percentage from the byte counts alone. */
  lemma PrefixedPipeLine(l: string)
    requires StartsWith(l, "download:")
    ensures var r := ParsePipeLine(l);
      r.Progress? && !(r.event.downloadedBytes > 0 && r.event.totalBytes.Some? && r.event.totalBytes.value > 0)
      ==> r.event.percentage == 0.0
  {
    var parts := Split(l, '|');
    if |parts| >= 5 {
      assert l[0] == 'd' by { assert l[..9][0] == l[0]; }
      SplitFirstIsPrefix(l, '|');
      assert parts[0][0] == 'd';
      WordPercentageIsZero(parts[0]);
    }
  }

  /** The `download:` branch is never reached: such lines are pipe-parsed
      whole, so their first field "download:…" is not a number and the
      percentage is 0 unless it is recovered from the byte counts. */
  lemma DownloadPrefixNotStripped(line: string)
    requires var l := Trim(line); !IsMergeLine(l) && StartsWith(l, "download:") && Contains(l, "|")
    ensures var l := Trim(line); ParseProgressLine(line) == ParsePipeLine(l)
    ensures var r := ParseProgressLine(line);
      r.Progress? && !(r.event.downloadedBytes > 0 && r.event.totalBytes.Some? && r.event.totalBytes.value > 0)
      ==> r.event.percentage == 0.0
  {
    var l := Trim(line);
    assert !StartsWith(l, "[") by { assert l[..9][0] == l[0] && l[..1] == [l[0]]; }
    PipeLinesParsedWhole(line);
    PrefixedPipeLine(l);
  }
}

=== FILE: playlist.dfy ===
/** Playlists: recognising a playlist URL, the yt-dlp options for listing
    one, and the playlist record read from yt-dlp's flat JSON listing (an
    abstract record here). */
module Playlist {
  import opened Wrappers
  import opened Ints
  import opened Text
  import opened Seqs
  import Errors

  // ---------------------------------------------------------------------------
  // Cookie preferences and options
  // ---------------------------------------------------------------------------

  /** The two cookie settings as stored, before empty values are dropped. */
  datatype StoredPreferences = StoredPreferences(cookiesFilePath: Option<string>, cookiesFromBrowser: Option<string>)

  /** `filter(|s| !s.is_empty())`. */
  function NonEmpty(o: Option<string>): (r: Option<string>)
    ensures r.Some? <==> o.Some? && o.value != ""
    ensures r.Some? ==> r == o
  {
    if o.Some? && o.value != "" then o else None
  }

  /** `get_cookies_from_preferences`: an unreadable store or a missing
      preferences entry gives neither setting. */
  function CookiesFromPreferences(store: Option<StoredPreferences>): (r: (Option<string>, Option<string>))
    ensures store.None? ==> r == (None, None)
    ensures store.Some? ==> r == (NonEmpty(store.value.cookiesFilePath), NonEmpty(store.value.cookiesFromBrowser))
  {
    match store
    case None => (None, None)
    case Some(p) => (NonEmpty(p.cookiesFilePath), NonEmpty(p.cookiesFromBrowser))
  }

  /** The options of a flat listing: a cookie file takes precedence over a
      browser, and the URL comes last. */
  function ListingArgs(cookiesFile: Option<string>, cookiesBrowser: Option<string>, url: string): (r: seq<string>)
    ensures |r| >= 4 && r[..3] == ["--flat-playlist", "-J", "--no-download"]
    ensures r[|r| - 1] == url
    ensures cookiesFile.Some? ==> |r| == 6 && r[3] == "--cookies" && r[4] == cookiesFile.value
    ensures cookiesFile.None? && cookiesBrowser.Some? ==>
      |r| == 6 && r[3] == "--cookies-from-browser" && r[4] == cookiesBrowser.value
    ensures cookiesFile.None? && cookiesBrowser.None? ==> |r| == 4
  {
    var base := ["--flat-playlist", "-J", "--no-download"];
    var cookies :=
      if cookiesFile.Some? then ["--cookies", cookiesFile.value]
      else if cookiesBrowser.Some? then ["--cookies-from-browser", cookiesBrowser.value]
      else [];
    base + cookies + [url]
  }

  /** With a cookie file set, the browser option is never passed, unless a
      value the user typed is itself that option word. */
  lemma CookieFileWins(cookiesFile: Option<string>, cookiesBrowser: Option<string>, url: string)
    requires cookiesFile.Some?
    requires cookiesFile.value != "--cookies-from-browser" && url != "--cookies-from-browser"
    ensures "--cookies-from-browser" !in ListingArgs(cookiesFile, cookiesBrowser, url)
    ensures "--cookies" in ListingArgs(cookiesFile, cookiesBrowser, url)
  {
    var r := ListingArgs(cookiesFile, cookiesBrowser, url);
    assert r == ["--flat-playlist", "-J", "--no-download", "--cookies", cookiesFile.value, url];
  }

  // ---------------------------------------------------------------------------
  // Is it a playlist?
  // ---------------------------------------------------------------------------

  /** A YouTube URL that names a list, in any case. */
  predicate LooksLikeYouTubePlaylist(url: string) {
    var l := Lower(url);
    (Contains(l, "youtube.com") || Contains(l, "youtu.be")) && (Contains(l, "list=") || Contains(l, "/playlist"))
  }

  /** What the JSON of a listing says about its kind. */
  datatype KindJson = Unparsable | Kind(kind: Option<string>)

  /** How a listing run went: it could not be started, or it exited with a
      status, its stderr and its parsed stdout. */
  datatype Run<J> =
    | SpawnFailed(message: string)
    | Exited(success: bool, stderr: string, json: J)

  /** `check_is_playlist`: a blank URL is not a playlist; a YouTube list URL
      is one without running anything; otherwise a listing decides, and a
      failed listing means no. */
  function CheckIsPlaylist(url: string, run: Run<KindJson>): (r: Result<bool, string>)
    ensures Trim(url) == "" ==> r == Ok(false)
    ensures Trim(url) != "" && LooksLikeYouTubePlaylist(url) ==> r == Ok(true)
    ensures r.Err? ==> Trim(url) != "" && !LooksLikeYouTubePlaylist(url)
    ensures Trim(url) != "" && !LooksLikeYouTubePlaylist(url) ==>
      (run.SpawnFailed? ==> r == Err("Failed to check URL: " + run.message)) &&
      (run.Exited? && !run.success ==> r == Ok(false)) &&
      (run.Exited? && run.success && run.json.Unparsable? ==> r == Err("Failed to parse response")) &&
      (run.Exited? && run.success && run.json.Kind? ==> r == Ok(run.json.kind == Some("playlist")))
  {
    if Trim(url) == "" then Ok(false)
    else if LooksLikeYouTubePlaylist(url) then Ok(true)
    else
      match run
      case SpawnFailed(m) => Err("Failed to check URL: " + m)
      case Exited(ok, _, json) =>
        if !ok then Ok(false)
        else match json
          case Unparsable => Err("Failed to parse response")
          case Kind(k) => Ok(k == Some("playlist"))
  }

  // ---------------------------------------------------------------------------
  // The playlist record
  // ---------------------------------------------------------------------------

  /** The fields read from one entry of the listing. */
  datatype EntryJson = EntryJson(
    id: Option<string>,
    title: Option<string>,
    url: Option<string>,
    thumbnail: Option<string>,
    duration: Option<real>,
    uploader: Option<string>,
    channel: Option<string>)

  /** The fields read from the listing. */
  datatype PlaylistJson =
    | Malformed(reason: string)
    | Document(
        kind: Option<string>,
        id: Option<string>,
        title: Option<string>,
        webpageUrl: Option<string>,
        url: Option<string>,
        thumbnail: Option<string>,
        uploader: Option<string>,
        channel: Option<string>,
        entries: Option<seq<EntryJson>>)

  datatype PlaylistEntry = PlaylistEntry(
    id: string,
    title: string,
    url: string,
    thumbnail: Option<string>,
    duration: Option<real>,
    playlistIndex: u32,
    uploader: Option<string>)

  datatype PlaylistInfo = PlaylistInfo(
    id: string,
    title: string,
    url: string,
    thumbnail: Option<string>,
    uploader: Option<string>,
    videoCount: u32,
    entries: seq<PlaylistEntry>)

  /** The titles yt-dlp gives entries that cannot be watched. */
  predicate Unavailable(e: EntryJson) {
    e.title == Some("[Deleted video]") || e.title == Some("[Private video]")
  }

  /** The entries kept: watchable ones that have an id. */
  predicate Listed(e: EntryJson) {
    !Unavailable(e) && e.id.Some?
  }

  /** One entry at 0-based position `idx` of the listing, if it is kept. Its
      index counts every entry before it, kept or not, from 1, cut to 32
      bits as `as u32` does. */
  function ParseEntry(idx: nat, e: EntryJson): (r: Option<PlaylistEntry>)
    ensures r.Some? <==> Listed(e)
    ensures r.Some? ==> r.value.id == e.id.value && r.value.playlistIndex == WrapU32(idx + 1)
    ensures r.Some? ==> r.value.title == e.title.GetOr("Unknown")
    ensures r.Some? ==> r.value.url == e.url.GetOr("https://www.youtube.com/watch?v=" + e.id.value)
    ensures r.Some? ==> r.value.uploader == (if e.uploader.Some? then e.uploader else e.channel)
  {
    if Unavailable(e) then None
    else match e.id
      case None => None
      case Some(id) =>
        Some(PlaylistEntry(id, e.title.GetOr("Unknown"),
                           e.url.GetOr("https://www.youtube.com/watch?v=" + id),
                           e.thumbnail, e.duration, WrapU32(idx + 1),
                           e.uploader.OrElse(e.channel)))
  }

  /** The entry at position `idx` as a sequence of zero or one kept
      entries. */
  function KeptAt(idx: nat, e: EntryJson): (r: seq<PlaylistEntry>)
    ensures |r| == if Listed(e) then 1 else 0
  {
    match ParseEntry(idx, e)
    case None => []
    case Some(x) => [x]
  }

  /** The kept entries of `es`, whose first element stands at position
      `from` of the listing. */
  function Entries(es: seq<EntryJson>, from: nat): (r: seq<PlaylistEntry>)
    ensures |r| <= |es|
    decreases |es|
  {
    if |es| == 0 then [] else KeptAt(from, es[0]) + Entries(es[1..], from + 1)
  }

  /** `video_count` counts exactly the listed entries. */
  lemma {:induction false} EntriesCount(es: seq<EntryJson>, from: nat)
    ensures |Entries(es, from)| == |Filter(Listed, es)|
    decreases |es|
  {
    if |es| > 0 {
      EntriesCount(es[1..], from + 1);
      assert es == [es[0]] + es[1..];
      FilterAppend(Listed, [es[0]], es[1..]);
      assert Filter(Listed, [es[0]]) == if Listed(es[0]) then [es[0]] else [];
    }
  }

  /** Without wrap-around the indexes stay within the positions and grow
      strictly: the kept entries are in playlist order. */
  lemma {:induction false} EntriesOrdered(es: seq<EntryJson>, from: nat)
    requires from + |es| < U32_LIMIT
    ensures forall k :: 0 <= k < |Entries(es, from)| ==>
      from < Entries(es, from)[k].playlistIndex <= from + |es|
    ensures forall a, b :: 0 <= a < b < |Entries(es, from)| ==>
      Entries(es, from)[a].playlistIndex < Entries(es, from)[b].playlistIndex
    decreases |es|
  {
    if |es| > 0 {
      EntriesOrdered(es[1..], from + 1);
      var h, t := KeptAt(from, es[0]), Entries(es[1..], from + 1);
      var r := Entries(es, from);
      assert r == h + t;
      assert forall k :: 0 <= k < |h| ==> h[k].playlistIndex == from + 1;
      assert forall k :: 0 <= k < |t| ==> from + 1 < t[k].playlistIndex <= from + |es|;
      forall k | 0 <= k < |r| ensures from < r[k].playlistIndex <= from + |es| {
        if k >= |h| {
          assert r[k] == t[k - |h|];
        }
      }
      forall a, b | 0 <= a < b < |r| ensures r[a].playlistIndex < r[b].playlistIndex {
        assert r[b] == t[b - |h|];
        if a >= |h| {
          assert r[a] == t[a - |h|];
        }
      }
    }
  }

  /** Every kept entry comes from a listed entry at its position. */
  lemma {:induction false} EntrySource(es: seq<EntryJson>, from: nat, k: nat)
    requires k < |Entries(es, from)|
    ensures exists j :: 0 <= j < |es| && Listed(es[j]) && ParseEntry(from + j, es[j]) == Some(Entries(es, from)[k])
    decreases |es|
  {
    var h, rest := KeptAt(from, es[0]), Entries(es[1..], from + 1);
    assert Entries(es, from) == h + rest;
    if k < |h| {
      assert Entries(es, from)[k] == ParseEntry(from, es[0]).value;
      assert ParseEntry(from + 0, es[0]) == Some(Entries(es, from)[k]);
    } else {
      assert Entries(es, from)[k] == rest[k - |h|];
      EntrySource(es[1..], from + 1, k - |h|);
      var j :| 0 <= j < |es[1..]| && Listed(es[1..][j]) && ParseEntry(from + 1 + j, es[1..][j]) == Some(rest[k - |h|]);
      assert es[1..][j] == es[j + 1];
    }
  }

  /** Every listed entry is kept. */
  lemma {:induction false} EntryKept(es: seq<EntryJson>, from: nat, j: nat)
    requires j < |es| && Listed(es[j])
    ensures ParseEntry(from + j, es[j]).value in Entries(es, from)
    decreases |es|
  {
    var h, rest := KeptAt(from, es[0]), Entries(es[1..], from + 1);
    assert Entries(es, from) == h + rest;
    if j > 0 {
      EntryKept(es[1..], from + 1, j - 1);
      assert es[1..][j - 1] == es[j];
    } else {
      assert h == [ParseEntry(from, es[0]).value];
    }
  }

  /** `parse_playlist_json`. */
  function ParsePlaylistJson(j: PlaylistJson): (r: Result<PlaylistInfo, string>)
    ensures j.Malformed? ==> r == Err("Failed to parse playlist info: " + j.reason)
    ensures j.Document? ==> (r.Err? <==> j.kind != Some("playlist"))
    ensures j.Document? && r.Err? ==> r.error == "URL is not a playlist"
    ensures r.Ok? ==> r.value.videoCount == WrapU32(|r.value.entries|)
    ensures r.Ok? ==> r.value.entries == Entries(j.entries.GetOr([]), 0)
    ensures r.Ok? ==> |r.value.entries| == |Filter(Listed, j.entries.GetOr([]))|
    ensures r.Ok? && |j.entries.GetOr([])| < U32_LIMIT ==> r.value.videoCount == |Filter(Listed, j.entries.GetOr([]))|
    ensures r.Ok? ==> r.value.id == j.id.GetOr("") && r.value.title == j.title.GetOr("Unknown Playlist")
    ensures r.Ok? ==> r.value.url == j.webpageUrl.OrElse(j.url).GetOr("")
    ensures r.Ok? ==> r.value.uploader == (if j.uploader.Some? then j.uploader else j.channel)
  {
    match j
    case Malformed(reason) => Err("Failed to parse playlist info: " + reason)
    case Document(_, _, _, _, _, _, _, _, _) =>
      if j.kind.GetOr("") != "playlist" then Err("URL is not a playlist")
      else
        var entries := Entries(j.entries.GetOr([]), 0);
        EntriesCount(j.entries.GetOr([]), 0);
        Ok(PlaylistInfo(j.id.GetOr(""), j.title.GetOr("Unknown Playlist"),
                        j.webpageUrl.OrElse(j.url).GetOr(""), j.thumbnail,
                        j.uploader.OrElse(j.channel), WrapU32(|entries|), entries))
  }

  /** `fetch_playlist_info`: a blank URL is refused; a failed listing
      reports the first line of its stderr. */
  function FetchPlaylistInfo(url: string, run: Run<PlaylistJson>): (r: Result<PlaylistInfo, string>)
    ensures Trim(url) == "" ==> r == Err("URL cannot be empty")
    ensures Trim(url) != "" && run.SpawnFailed? ==> r == Err("Failed to fetch playlist: " + run.message)
    ensures Trim(url) != "" && run.Exited? && !run.success ==>
      r == Err("Failed to fetch playlist: " + Errors.FirstLine(run.stderr, "Unknown error"))
    ensures Trim(url) != "" && run.Exited? && run.success ==> r == ParsePlaylistJson(run.json)
  {
    if Trim(url) == "" then Err("URL cannot be empty")
    else
      match run
      case SpawnFailed(m) => Err("Failed to fetch playlist: " + m)
      case Exited(ok, stderr, json) =>
        if !ok then Err("Failed to fetch playlist: " + Errors.FirstLine(stderr, "Unknown error"))
        else ParsePlaylistJson(json)
  }
}

=== FILE: process.dfy ===
/** What the download process reports while yt-dlp runs: stdout is cut into
    lines at every line feed or carriage return, stderr is read line by line,
    both are routed through the progress and error parsers, and the exit
    status becomes one final event. Paths follow Unix rules. */
module Process {
  import opened Wrappers
  import opened Ints
  import opened Text
  import opened Utf8
  import opened Models
  import opened Seqs
  import Parser
  import Errors
  import ParserLemmas

  /** The events sent on the output channel. */
  datatype ProcessOutput =
    | Progress(event: ProgressEvent)
    | Merging
    | Error(error: Errors.DownloadError)
    | FilePath(path: string)
    | Completed(path: string)
    | ExitError(code: i32)
    | Terminated

  /** The events only the exit of the process produces. */
  predicate IsExitEvent(o: ProcessOutput) {
    o.Completed? || o.ExitError? || o.Terminated? || (o.Error? && o.error.ProcessSpawnError?)
  }

  // ---------------------------------------------------------------------------
  // File paths (Unix `Path` rules)
  // ---------------------------------------------------------------------------

  /** The media extensions a final file path may have. */
  const MediaExtensions: seq<string> :=
    ["mp4", "mkv", "webm", "avi", "mov", "flv", "mp3", "m4a", "opus", "ogg", "wav", "flac", "aac"]

  /** `e` is one of `list`, tested front to back as a `matches!` does. */
  predicate Listed(e: string, list: seq<string>)
    decreases |list|
  {
    |list| > 0 && (list[0] == e || Listed(e, list[1..]))
  }

  lemma {:induction false} ListedIsIn(e: string, list: seq<string>)
    ensures Listed(e, list) <==> e in list
    decreases |list|
  {
    if |list| > 0 {
      ListedIsIn(e, list[1..]);
      assert list == [list[0]] + list[1..];
    }
  }

  /** `Path::is_absolute` on Unix. */
  predicate IsAbsolute(p: string) {
    |p| > 0 && p[0] == '/'
  }

  /** The path components that name something: empty pieces (from repeated
      or trailing slashes) and "." are not components. */
  function Components(parts: seq<string>): (r: seq<string>)
    ensures forall k :: 0 <= k < |r| ==> r[k] != "" && r[k] != "." && r[k] in parts
  {
    if |parts| == 0 then []
    else
      var rest := Components(parts[1..]);
      if parts[0] == "" || parts[0] == "." then rest else [parts[0]] + rest
  }

  /** `Path::file_name`: the last component, unless it is "..". */
  function FileName(p: string): (r: Option<string>)
    ensures r.Some? ==> '/' !in r.value && r.value != "" && r.value != "." && r.value != ".."
  {
    var parts := Split(p, '/');
    var cs := Components(parts);
    if |cs| == 0 || cs[|cs| - 1] == ".." then None
    else
      Some(cs[|cs| - 1])
  }

  /** The position of the last `c` in `s`. */
  function LastIndexOf(s: string, c: char): (r: Option<nat>)
    ensures r.Some? ==> r.value < |s| && s[r.value] == c && c !in s[r.value + 1..]
    ensures r.None? ==> c !in s
  {
    if |s| == 0 then None
    else if s[|s| - 1] == c then Some(|s| - 1)
    else
      match LastIndexOf(s[..|s| - 1], c)
      case None => None
      case Some(i) =>
        assert s[i + 1..] == s[..|s| - 1][i + 1..] + [s[|s| - 1]];
        Some(i)
  }

  /** The extension of a file name: the text after its last '.', unless
      the only dot starts the name (a hidden file has no extension). */
  function NameExtension(name: string): (r: Option<string>)
    ensures r.Some? ==> '.' !in r.value
  {
    match LastIndexOf(name, '.')
    case None => None
    case Some(i) => if i == 0 then None else Some(name[i + 1..])
  }

  /** `Path::extension`. */
  function Extension(p: string): (r: Option<string>)
    ensures r.Some? ==> '.' !in r.value
  {
    match FileName(p)
    case None => None
    case Some(name) => NameExtension(name)
  }

  /** `is_valid_filepath`: the line the `after_move:filepath` print produces,
      told apart from every other stdout line. */
  predicate IsValidFilepath(line: string) {
    IsAbsolute(line)
    && Extension(line).Some?
    && '[' !in line && ']' !in line && !Contains(line, "download:")
    && Listed(Lower(Extension(line).value), MediaExtensions)
  }

  lemma {:induction false} ComponentsLast(parts: seq<string>)
    requires |parts| > 0 && parts[|parts| - 1] != "" && parts[|parts| - 1] != "."
    ensures |Components(parts)| > 0
    ensures Components(parts)[|Components(parts)| - 1] == parts[|parts| - 1]
    decreases |parts|
  {
    if |parts| > 1 {
      ComponentsLast(parts[1..]);
    }
  }

  /** The last '.' of a name whose extension has none is the one before it. */
  lemma {:induction false} LastDot(stem: string, ext: string)
    requires '.' !in ext
    ensures LastIndexOf(stem + "." + ext, '.') == Some(|stem|)
    decreases |ext|
  {
    var name := stem + "." + ext;
    if |ext| == 0 {
      assert name[|name| - 1] == '.';
    } else {
      assert name[|name| - 1] == ext[|ext| - 1];
      assert name[..|name| - 1] == stem + "." + ext[..|ext| - 1];
      LastDot(stem, ext[..|ext| - 1]);
    }
  }

  lemma RootedJoin(rest: seq<string>)
    requires |rest| >= 1
    ensures Join([""] + rest, "/") == "/" + Join(rest, "/")
  {
    assert ([""] + rest)[1..] == rest;
  }

  lemma PiecesOfPath(dirs: seq<string>, name: string)
    requires forall k :: 0 <= k < |dirs| ==> '/' !in dirs[k]
    requires '/' !in name
    ensures Split(Join([""] + dirs + [name], "/"), '/') == [""] + dirs + [name]
  {
    var parts := [""] + dirs + [name];
    forall k | 0 <= k < |parts| ensures '/' !in parts[k] {
      if 0 < k < |parts| - 1 { assert parts[k] == dirs[k - 1]; }
    }
    SplitJoin(parts, '/');
  }

  lemma RootedIsAbsolute(dirs: seq<string>, name: string)
    ensures IsAbsolute(Join([""] + dirs + [name], "/"))
  {
    assert [""] + dirs + [name] == [""] + (dirs + [name]);
    RootedJoin(dirs + [name]);
  }

  lemma FileNameOfPieces(path: string, parts: seq<string>, name: string)
    requires Split(path, '/') == parts && |parts| > 0 && parts[|parts| - 1] == name
    requires name != "" && name != "." && name != ".."
    ensures FileName(path) == Some(name)
  {
    ComponentsLast(parts);
  }

  /** A path joined from a root, directories and a file name is absolute
      and has that file name. */
  lemma FileNameOfParts(dirs: seq<string>, name: string)
    requires forall k :: 0 <= k < |dirs| ==> '/' !in dirs[k]
    requires '/' !in name && name != "" && name != "." && name != ".."
    ensures IsAbsolute(Join([""] + dirs + [name], "/"))
    ensures FileName(Join([""] + dirs + [name], "/")) == Some(name)
  {
    var parts := [""] + dirs + [name];
    RootedIsAbsolute(dirs, name);
    PiecesOfPath(dirs, name);
    FileNameOfPieces(Join(parts, "/"), parts, name);
  }

  lemma ValidFilepathCore(path: string, stem: string, ext: string)
    requires IsAbsolute(path) && Extension(path) == (if |stem| > 0 then Some(ext) else None)
    requires '[' !in path && ']' !in path && !Contains(path, "download:")
    ensures IsValidFilepath(path) <==> |stem| > 0 && Listed(Lower(ext), MediaExtensions)
  {
  }

  /** The file-path test: an absolute path with no output markers whose file
      name is `stem.ext` (the extension without dots) is accepted exactly
      when the stem is non-empty and the extension, in any letter case, is a
      media extension. */
  lemma ValidFilepathOfName(path: string, stem: string, ext: string)
    requires IsAbsolute(path) && FileName(path) == Some(stem + "." + ext) && '.' !in ext
    requires '[' !in path && ']' !in path && !Contains(path, "download:")
    ensures IsValidFilepath(path) <==> |stem| > 0 && Listed(Lower(ext), MediaExtensions)
  {
    var name := stem + "." + ext;
    LastDot(stem, ext);
    assert name[|stem| + 1..] == ext;
    assert NameExtension(name) == if |stem| > 0 then Some(ext) else None;
    ValidFilepathCore(path, stem, ext);
  }

  /** `extract_output_path`: the destination named by a download or merger
      line. The merger path is cut at its first "into", as `split` does. */
  function ExtractOutputPath(line: string): (r: Option<string>)
    ensures r.Some? <==> Contains(line, DestinationMarker) || Contains(line, MergerMarker)
  {
    if Contains(line, DestinationMarker) then
      DestinationMarkerHasField(line);
      Some(Trim(SecondField(line, "Destination:").value))
    else if Contains(line, MergerMarker) then
      MergerMarkerHasInto(line);
      Some(TrimMatches(Trim(SecondField(line, "into").value), '"'))
    else None
  }

  const DestinationMarker: string := "[download] Destination:"
  const MergerMarker: string := "[Merger] Merging formats into"

  lemma DestinationMarkerSplit()
    ensures IndexOf(DestinationMarker, "Destination:") == Some(11)
  {
    var a, b := "[download] ", "Destination:";
    assert DestinationMarker == a + b;
    NoMatchInHead(a, b, b);
    IndexOfStart(b, b);
    IndexOfShift(a, b, b);
  }

  /** The only "i" before "into" starts "ing". */
  lemma MergerMarkerSplit()
    ensures IndexOf(MergerMarker, "into") == Some(25)
  {
    var a1 := "[Merger] Merg";
    var b1 := "i" + ("ng formats " + "into");
    IntoAfterIng();
    assert MergerMarker == a1 + b1;
    NoMatchInHead(a1, b1, "into");
    IndexOfShift(a1, b1, "into");
  }

  lemma IntoAfterIng()
    ensures IndexOf("i" + ("ng formats " + "into"), "into") == Some(12)
  {
    var p := "into";
    var b2 := "ng formats " + p;
    var b1 := "i" + b2;
    NoMatchInHead("ng formats ", p, p);
    IndexOfStart(p, p);
    IndexOfShift("ng formats ", p, p);
    assert b1[2] == 'g';
    NoMatchAtDiff(b1, p, 0, 2);
    IndexOfShift("i", b2, p);
  }



  /** A line with the download marker has "Destination:" in it. */
  lemma DestinationMarkerHasField(line: string)
    requires Contains(line, DestinationMarker)
    ensures Contains(line, "Destination:")
  {
    var i := IndexOf(line, DestinationMarker).value;
    assert line[i + 11..i + 23] == DestinationMarker[11..];
    ContainsAt(line, "Destination:", i + 11);
  }

  /** A line with the merger marker has "into" in it. */
  lemma MergerMarkerHasInto(line: string)
    requires Contains(line, MergerMarker)
    ensures Contains(line, "into")
  {
    var i := IndexOf(line, MergerMarker).value;
    assert line[i + 25..i + 29] == MergerMarker[25..];
    ContainsAt(line, "into", i + 25);
  }

  /** A download line gives back the destination it names. */
  lemma DestinationRoundTrip(p: string)
    requires |p| > 0 && Trim(p) == p && !Contains(p, "Destination:")
    ensures ExtractOutputPath(DestinationMarker + " " + p) == Some(p)
  {
    var line := DestinationMarker + " " + p;
    DestinationMarkerSplit();
    IndexOfExtend(DestinationMarker, " " + p, "Destination:");
    assert line == DestinationMarker + (" " + p);
    ContainsAt(line, DestinationMarker, 0);
    assert line[23..] == " " + p;
    FramedContains(" ", p, "", "Destination:");
    assert " " + p + "" == " " + p;
    assert SecondField(line, "Destination:") == Some(" " + p);
    assert !IsWhitespace(p[0]) && !IsWhitespace(p[|p| - 1]);
    ParserLemmas.TrimLeadingSpace(p);
  }

  lemma MergerLineField(p: string)
    requires !Contains(p, "into")
    ensures SecondField(MergerMarker + " \"" + p + "\"", "into") == Some(" \"" + p + "\"")
  {
    var tail := " \"" + p + "\"";
    var line := MergerMarker + tail;
    MergerMarkerSplit();
    IndexOfExtend(MergerMarker, tail, "into");
    assert MergerMarker + " \"" + p + "\"" == line;
    assert line[29..] == tail;
    FramedContains(" \"", p, "\"", "into");
  }

  lemma MergerLineNotDestination(p: string)
    requires !Contains(p, "Destination:")
    ensures !Contains(MergerMarker + " \"" + p + "\"", DestinationMarker)
  {
    var x := MergerMarker + " \"";
    assert forall k :: 0 <= k < |x| ==> x[k] != 'D';
    FramedContains(x, p, "\"", "Destination:");
    if Contains(x + p + "\"", DestinationMarker) {
      DestinationMarkerHasField(x + p + "\"");
    }
  }

  lemma QuotedTrimmed(p: string)
    ensures Trim(" \"" + p + "\"") == "\"" + p + "\""
  {
    var tail := " \"" + p + "\"";
    var q := "\"" + p + "\"";
    assert tail[1..] == q;
    assert TrimStart(tail) == q;
    assert TrimEnd(q) == q;
  }

  lemma QuotesStripped(p: string)
    requires |p| > 0 ==> p[0] != '"' && p[|p| - 1] != '"'
    ensures TrimMatches("\"" + p + "\"", '"') == p
  {
    var q := "\"" + p + "\"";
    assert q[1..] == p + "\"";
    if |p| > 0 {
      assert TrimStartMatchesChar(p + "\"", '"') == p + "\"";
      assert TrimStartMatchesChar(q, '"') == p + "\"";
      assert (p + "\"")[..|p|] == p;
      assert TrimEndMatches(p + "\"", '"') == p;
    } else {
      assert q == "\"\"" && q[1..] == "\"";
      assert TrimStartMatchesChar("\"", '"') == "";
      assert TrimStartMatchesChar(q, '"') == "";
    }
  }

  /** A merger line gives back the quoted path it names, provided the path
      has no "into" or "Destination:" of its own and no quote at either end. */
  lemma MergerRoundTrip(p: string)
    requires !Contains(p, "into") && !Contains(p, "Destination:")
    requires |p| > 0 ==> p[0] != '"' && p[|p| - 1] != '"'
    ensures ExtractOutputPath(MergerMarker + " \"" + p + "\"") == Some(p)
  {
    var line := MergerMarker + " \"" + p + "\"";
    MergerLineNotDestination(p);
    assert line == MergerMarker + (" \"" + p + "\"");
    ContainsAt(line, MergerMarker, 0);
    MergerLineField(p);
    QuotedTrimmed(p);
    QuotesStripped(p);
  }

  /** The merger path is cut at its first "into": whatever a merger line
      yields never contains that word, so a path containing it is never
      returned intact. */
  lemma MergerPathHasNoInto(line: string)
    requires !Contains(line, DestinationMarker) && Contains(line, MergerMarker)
    ensures ExtractOutputPath(line).Some?
    ensures !Contains(ExtractOutputPath(line).value, "into")
  {
    MergerMarkerHasInto(line);
    var f := SecondField(line, "into").value;
    Parser.TrimKeepsAbsence(f, "into");
    QuotesKeepAbsence(Trim(f), "into");
    assert ExtractOutputPath(line) == Some(TrimMatches(Trim(f), '"'));
  }

  /** Trimming quotes never creates an occurrence. */
  lemma QuotesKeepAbsence(t: string, w: string)
    requires !Contains(t, w)
    ensures !Contains(TrimMatches(t, '"'), w)
  {
    var u := TrimStartMatchesChar(t, '"');
    assert !Contains(u, w) by {
      Parser.SliceKeepsAbsence(t, |t| - |u|, |t|, w, u);
    }
    var r := TrimEndMatches(u, '"');
    assert !Contains(r, w) by {
      Parser.SliceKeepsAbsence(u, 0, |r|, w, r);
    }
  }

  // ---------------------------------------------------------------------------
  // Routing of one line
  // ---------------------------------------------------------------------------

  /** What a trimmed, non-empty stdout line becomes. */
  function StdoutEvent(line: string): (r: Option<ProcessOutput>)
    ensures r.Some? ==> r.value.Progress? || r.value.Merging? || r.value.FilePath?
    ensures r.Some? && r.value.FilePath? ==> r.value.path == line && IsValidFilepath(line)
    ensures Parser.ParseProgressLine(line).Unknown? && IsValidFilepath(line) ==> r == Some(FilePath(line))
  {
    match Parser.ParseProgressLine(line)
    case Progress(e) => Some(Progress(e))
    case Merging => Some(Merging)
    case Unknown => if IsValidFilepath(line) then Some(FilePath(line)) else None
  }

  /** What a stderr line becomes: progress first, then an error report. */
  function StderrEvent(line: string): (r: Option<ProcessOutput>)
    ensures r.Some? ==> r.value.Progress? || r.value.Merging? || r.value.Error?
    ensures r.Some? && r.value.Error? ==> Parser.ParseProgressLine(line).Unknown? && Contains(line, "ERROR:")
    ensures Parser.ParseProgressLine(line).Unknown? ==> (r.Some? <==> Parser.ParseErrorLine(line).Some?)
  {
    match Parser.ParseProgressLine(line)
    case Progress(e) => Some(Progress(e))
    case Merging => Some(Merging)
    case Unknown =>
      match Parser.ParseErrorLine(line)
      case None => None
      case Some(p) => Some(Error(Parser.ToDownloadError(p)))
  }

  /** A stderr error event carries one of the parser's categories, never a
      spawn failure, so it cannot be mistaken for the exit event. */
  lemma StderrErrorNotSpawn(line: string)
    ensures StderrEvent(line).Some? ==> !IsExitEvent(StderrEvent(line).value)
  {
    if StderrEvent(line).Some? && StderrEvent(line).value.Error? {
      var p := Parser.ParseErrorLine(line).value;
      ParserLemmas.ToDownloadErrorKeepsCategory(p);
    }
  }

  // ---------------------------------------------------------------------------
  // Stdout: byte by byte
  // ---------------------------------------------------------------------------

  predicate IsLineEnd(b: byte) {
    b == 10 || b == 13
  }

  predicate NoLineEnd(bs: seq<byte>) {
    forall k :: 0 <= k < |bs| ==> !IsLineEnd(bs[k])
  }

  /** The chunks the stdout reader flushes, from the current position with
      `buf` collected so far: every line end flushes a non-empty buffer, and
      the bytes after the last line end are dropped at end of stream. */
  function ChunksFrom(bs: seq<byte>, buf: seq<byte>): (r: seq<seq<byte>>)
    requires NoLineEnd(buf)
    ensures forall k :: 0 <= k < |r| ==> |r[k]| > 0 && NoLineEnd(r[k])
    decreases |bs|
  {
    if |bs| == 0 then []
    else if IsLineEnd(bs[0]) then
      (if |buf| > 0 then [buf] else []) + ChunksFrom(bs[1..], [])
    else ChunksFrom(bs[1..], buf + [bs[0]])
  }

  function StdoutChunks(bs: seq<byte>): (r: seq<seq<byte>>)
    ensures forall k :: 0 <= k < |r| ==> |r[k]| > 0 && NoLineEnd(r[k])
  {
    ChunksFrom(bs, [])
  }

  /** The line a flushed chunk holds: it must be UTF-8 and non-empty once
      trimmed. */
  function ChunkLine(chunk: seq<byte>): (r: Option<string>)
    ensures r.Some? ==> |r.value| > 0 && !IsWhitespace(r.value[0]) && !IsWhitespace(r.value[|r.value| - 1])
  {
    match Decode(chunk)
    case None => None
    case Some(text) => var line := Trim(text); if |line| == 0 then None else Some(line)
  }

  /** The lines the stdout reader hands to the parser. */
  function StdoutLines(bs: seq<byte>): seq<string> {
    FilterMap(ChunkLine, StdoutChunks(bs))
  }

  lemma StdoutStep(bs: seq<byte>, buf: seq<byte>)
    requires |bs| > 0 && NoLineEnd(buf)
    ensures ChunksFrom(bs, buf) ==
      if IsLineEnd(bs[0]) then (if |buf| > 0 then [buf] else []) + ChunksFrom(bs[1..], [])
      else ChunksFrom(bs[1..], buf + [bs[0]])
  {
  }

  /** The reader's loop: one byte at a time, flushing the buffer at each line
      end. It flushes exactly the chunks `StdoutChunks` describes. */
  method ReadStdoutChunks(bs: seq<byte>) returns (chunks: seq<seq<byte>>)
    ensures chunks == StdoutChunks(bs)
  {
    var buffer: seq<byte> := [];
    chunks := [];
    var i := 0;
    while i < |bs|
      invariant 0 <= i <= |bs| && NoLineEnd(buffer)
      invariant chunks + ChunksFrom(bs[i..], buffer) == StdoutChunks(bs)
    {
      StdoutStep(bs[i..], buffer);
      assert bs[i..][0] == bs[i] && bs[i..][1..] == bs[i + 1..];
      if IsLineEnd(bs[i]) {
        if |buffer| > 0 {
          chunks := chunks + [buffer];
        }
        buffer := [];
      } else {
        buffer := buffer + [bs[i]];
      }
      i := i + 1;
    }
    assert bs[i..] == [];
  }

  /** Everything the stdout reader sends for the whole stream. */
  function StdoutOutputs(bs: seq<byte>): (r: seq<ProcessOutput>)
    ensures forall e :: e in r ==> e.Progress? || e.Merging? || e.FilePath?
    ensures forall e :: e in r && e.FilePath? ==> IsValidFilepath(e.path)
  {
    var lines := StdoutLines(bs);
    var r := FilterMap(StdoutEvent, lines);
    assert forall e :: e in r ==> (e.Progress? || e.Merging? || e.FilePath?) && (e.FilePath? ==> IsValidFilepath(e.path)) by {
      forall e | e in r ensures (e.Progress? || e.Merging? || e.FilePath?) && (e.FilePath? ==> IsValidFilepath(e.path)) {
        var k :| 0 <= k < |r| && r[k] == e;
        FilterMapSource(StdoutEvent, lines, k);
        var j :| 0 <= j < |lines| && StdoutEvent(lines[j]) == Some(r[k]);
      }
    }
    r
  }

  /** Bytes with no line end in them are collected, never flushed. */
  lemma {:induction false} CollectChunk(chunk: seq<byte>, buf: seq<byte>, rest: seq<byte>)
    requires NoLineEnd(chunk) && NoLineEnd(buf)
    ensures ChunksFrom(chunk + rest, buf) == ChunksFrom(rest, buf + chunk)
    decreases |chunk|
  {
    if |chunk| > 0 {
      assert (chunk + rest)[1..] == chunk[1..] + rest;
      CollectChunk(chunk[1..], buf + [chunk[0]], rest);
      assert buf + [chunk[0]] + chunk[1..] == buf + chunk;
    } else {
      assert chunk + rest == rest && buf + chunk == buf;
    }
  }

  /** One line of stdout: a chunk closed by a line end is flushed whole (if
      non-empty), then the reader starts afresh. */
  lemma StdoutLine(chunk: seq<byte>, end: byte, rest: seq<byte>)
    requires NoLineEnd(chunk) && IsLineEnd(end)
    ensures StdoutChunks(chunk + [end] + rest) == (if |chunk| > 0 then [chunk] else []) + StdoutChunks(rest)
  {
    CollectChunk(chunk, [], [end] + rest);
    assert chunk + [end] + rest == chunk + ([end] + rest);
    assert [] + chunk == chunk;
    assert ([end] + rest)[1..] == rest;
  }

  /** The unterminated tail of stdout is lost: it is never flushed. */
  lemma StdoutTailDropped(tail: seq<byte>)
    requires NoLineEnd(tail)
    ensures StdoutChunks(tail) == []
  {
    CollectChunk(tail, [], []);
    assert tail + [] == tail;
  }

  /** A stdout line written as text and closed by a line feed or carriage
      return reaches the parser trimmed. */
  lemma StdoutLineRoundTrip(line: string, end: byte, rest: seq<byte>)
    requires '\n' !in line && '\r' !in line && |line| > 0
    requires !IsWhitespace(line[0]) && !IsWhitespace(line[|line| - 1])
    requires IsLineEnd(end)
    ensures StdoutLines(Encode(line) + [end] + rest) == [line] + StdoutLines(rest)
  {
    var e := Encode(line);
    EncodeNoLineEnd(line);
    StdoutLine(e, end, rest);
    DecodeEncode(line);
    TrimNoop(line);
    assert ChunkLine(e) == Some(line);
    FilterMapAppend(ChunkLine, [e], StdoutChunks(rest));
    FilterMapOne(ChunkLine, e);
  }

  /** A stdout line that prints a media file's absolute path is reported as
      that file path. */
  lemma FilePathLineReported(line: string, rest: seq<byte>)
    requires '\n' !in line && '\r' !in line && |line| > 0
    requires !IsWhitespace(line[0]) && !IsWhitespace(line[|line| - 1])
    requires Parser.ParseProgressLine(line).Unknown? && IsValidFilepath(line)
    ensures StdoutOutputs(Encode(line) + [10 as byte] + rest) == [FilePath(line)] + StdoutOutputs(rest)
  {
    StdoutLineRoundTrip(line, 10, rest);
    FilterMapAppend(StdoutEvent, [line], StdoutLines(rest));
    assert StdoutEvent(line) == Some(FilePath(line));
    FilterMapOne(StdoutEvent, line);
  }

  // ---------------------------------------------------------------------------
  // Stderr: `lines()`
  // ---------------------------------------------------------------------------

  function IndexOfByte(bs: seq<byte>, b: byte): (r: Option<nat>)
    ensures r.Some? ==> r.value < |bs| && bs[r.value] == b && b !in bs[..r.value]
    ensures r.None? ==> b !in bs
  {
    if |bs| == 0 then None
    else if bs[0] == b then Some(0)
    else
      match IndexOfByte(bs[1..], b)
      case None => None
      case Some(i) =>
        assert bs[..i + 1] == [bs[0]] + bs[1..][..i];
        Some(i + 1)
  }

  /** One trailing carriage return is not part of the line. */
  function DropCR(bs: seq<byte>): (r: seq<byte>)
    ensures |bs| - 1 <= |r| <= |bs| && r == bs[..|r|]
    ensures |r| < |bs| <==> |bs| > 0 && bs[|bs| - 1] == 13
  {
    if |bs| > 0 && bs[|bs| - 1] == 13 then bs[..|bs| - 1] else bs
  }

  /** The text before the first line feed and the bytes after it (all of
      `bs` and nothing when there is none). */
  function FirstLine(bs: seq<byte>): (r: (seq<byte>, seq<byte>))
    ensures 10 !in r.0 && |r.1| < |bs| + (if |bs| == 0 then 1 else 0)
    ensures 10 in bs ==> bs == r.0 + [10 as byte] + r.1
    ensures 10 !in bs ==> r == (bs, [])
  {
    match IndexOfByte(bs, 10)
    case None => (bs, [])
    case Some(i) =>
      assert bs == bs[..i] + [bs[i]] + bs[i + 1..];
      (bs[..i], bs[i + 1..])
  }

  /** The stderr reader's lines: split at line feeds, the last one even when
      unterminated; reading stops at the first line that is not UTF-8. */
  function StderrLines(bs: seq<byte>): (r: seq<string>)
    ensures |r| <= |bs|
    decreases |bs|
  {
    if |bs| == 0 then []
    else
      var (piece, rest) := FirstLine(bs);
      match Decode(DropCR(piece))
      case None => []
      case Some(line) => [line] + StderrLines(rest)
  }

  /** Everything the stderr reader sends: progress, merging and error
      reports, never a file path and never an exit event. */
  function StderrOutputs(bs: seq<byte>): (r: seq<ProcessOutput>)
    ensures forall e :: e in r ==> !e.FilePath? && !IsExitEvent(e)
  {
    var lines := StderrLines(bs);
    StderrEventsOfLines(lines);
    FilterMap(StderrEvent, lines)
  }

  lemma StderrEventsOfLines(lines: seq<string>)
    ensures forall e :: e in FilterMap(StderrEvent, lines) ==> !e.FilePath? && !IsExitEvent(e)
  {
    var r := FilterMap(StderrEvent, lines);
    forall e | e in r ensures !e.FilePath? && !IsExitEvent(e) {
      var k :| 0 <= k < |r| && r[k] == e;
      FilterMapSource(StderrEvent, lines, k);
      var j :| 0 <= j < |lines| && StderrEvent(lines[j]) == Some(r[k]);
      StderrErrorNotSpawn(lines[j]);
    }
  }

  /** A progress report has a percentage in [0, 100] and status
      "downloading". */
  predicate InRange(o: ProcessOutput) {
    o.Progress? ==> 0.0 <= o.event.percentage <= 100.0 && o.event.status == "downloading"
  }

  /** Every progress report either reader sends, whichever line format it
      came from, is in range. */
  lemma ProgressBounded(out: seq<byte>, err: seq<byte>)
    ensures forall e :: e in StdoutOutputs(out) ==> InRange(e)
    ensures forall e :: e in StderrOutputs(err) ==> InRange(e)
  {
    StdoutInRange(out);
    StderrInRange(err);
  }

  lemma StdoutInRange(out: seq<byte>)
    ensures forall e :: e in StdoutOutputs(out) ==> InRange(e)
  {
    var lo := StdoutLines(out);
    var ro := FilterMap(StdoutEvent, lo);
    assert StdoutOutputs(out) == ro;
    forall e | e in ro ensures InRange(e) {
      var k :| 0 <= k < |ro| && ro[k] == e;
      FilterMapSource(StdoutEvent, lo, k);
      var j :| 0 <= j < |lo| && StdoutEvent(lo[j]) == Some(ro[k]);
      StdoutEventInRange(lo[j]);
    }
  }

  lemma StderrInRange(err: seq<byte>)
    ensures forall e :: e in StderrOutputs(err) ==> InRange(e)
  {
    var le := StderrLines(err);
    var re := FilterMap(StderrEvent, le);
    assert StderrOutputs(err) == re;
    forall e | e in re ensures InRange(e) {
      var k :| 0 <= k < |re| && re[k] == e;
      FilterMapSource(StderrEvent, le, k);
      var j :| 0 <= j < |le| && StderrEvent(le[j]) == Some(re[k]);
      StderrEventInRange(le[j]);
    }
  }

  /** Progress on either stream comes from the progress parser. */
  lemma StdoutEventInRange(line: string)
    ensures StdoutEvent(line).Some? ==> InRange(StdoutEvent(line).value)
  {
  }

  lemma StderrEventInRange(line: string)
    ensures StderrEvent(line).Some? ==> InRange(StderrEvent(line).value)
  {
  }

  /** The encoding of a character other than a line feed or carriage return
      holds neither byte: every byte of a multi-byte sequence is at least 0x80. */
  lemma EncodeCharNoLineEnd(c: char)
    requires c != '\n' && c != '\r'
    ensures forall k :: 0 <= k < |EncodeChar(c)| ==> !IsLineEnd(EncodeChar(c)[k])
  {
  }

  lemma {:induction false} EncodeNoLineEnd(s: string)
    requires '\n' !in s && '\r' !in s
    ensures NoLineEnd(Encode(s))
    decreases |s|
  {
    if |s| > 0 {
      EncodeCharNoLineEnd(s[0]);
      EncodeNoLineEnd(s[1..]);
    }
  }

  /** One stderr line written as text and a line feed is read back as that
      line (with a CRLF ending too). */
  lemma StderrLineRoundTrip(line: string, crlf: bool, rest: seq<byte>)
    requires '\n' !in line && '\r' !in line
    ensures StderrLines(Encode(line) + (if crlf then [13 as byte] else []) + [10 as byte] + rest)
         == [line] + StderrLines(rest)
  {
    var e := Encode(line);
    var cr: seq<byte> := if crlf then [13 as byte] else [];
    var bs := e + cr + [10 as byte] + rest;
    EncodeNoLineEnd(line);
    var n := |e| + |cr|;
    assert bs == (e + cr) + [10 as byte] + rest;
    assert 10 !in e + cr by {
      forall k | 0 <= k < n ensures (e + cr)[k] != 10 {
        if k < |e| { assert (e + cr)[k] == e[k]; }
      }
    }
    assert DropCR(e + cr) == e by {
      if !crlf {
        if |e| > 0 { assert !IsLineEnd(e[|e| - 1]); }
      } else {
        assert (e + cr)[..|e + cr| - 1] == e;
      }
    }
    DecodeEncode(line);
    StderrLinesStep(e + cr, rest, line);
  }

  /** A first line that decodes is the first line read, and reading goes on
      after its line feed. */
  lemma StderrLinesStep(piece: seq<byte>, rest: seq<byte>, line: string)
    requires 10 !in piece && Decode(DropCR(piece)) == Some(line)
    ensures StderrLines(piece + [10 as byte] + rest) == [line] + StderrLines(rest)
  {
    var bs := piece + [10 as byte] + rest;
    assert bs[|piece|] == 10;
    assert FirstLine(bs) == (piece, rest) by {
      assert bs[..|piece|] == piece && bs[|piece| + 1..] == rest;
      assert IndexOfByte(bs, 10) == Some(|piece|);
    }
  }

  /** An invalid UTF-8 line ends the stderr reader: nothing after it is read. */
  lemma StderrStopsAtInvalid(bad: seq<byte>, rest: seq<byte>)
    requires 10 !in bad && Decode(DropCR(bad)).None?
    ensures StderrLines(bad + [10 as byte] + rest) == []
  {
    var bs := bad + [10 as byte] + rest;
    assert bs[|bad|] == 10;
    assert bs[..|bad|] == bad;
    assert 10 !in bs[..|bad|];
    assert IndexOfByte(bs, 10) == Some(|bad|);
  }

  // ---------------------------------------------------------------------------
  // Exit status
  // ---------------------------------------------------------------------------

  /** What waiting for the process gives: its exit code (absent when a signal
      ended it) or an error. */
  datatype WaitResult = Exited(code: Option<i32>) | WaitFailed(msg: string)

  /** The final event for the process's exit. */
  function ExitEvent(w: WaitResult): (r: ProcessOutput)
    ensures IsExitEvent(r)
    ensures r.Completed? <==> w == Exited(Some(0))
    ensures r.Completed? ==> r.path == ""
    ensures r.Terminated? <==> w.Exited? && w.code.GetOr(-1) in {-1, 137, 9}
    ensures r.ExitError? <==> w.Exited? && w.code.Some? && w.code.value !in {0, -1, 137, 9}
    ensures r.ExitError? ==> r.code == w.code.value
    ensures r.Error? <==> w.WaitFailed?
    ensures r.Error? ==> r.error == Errors.ProcessSpawnError(w.msg)
  {
    match w
    case WaitFailed(m) => Error(Errors.ProcessSpawnError(m))
    case Exited(c) =>
      if c == Some(0) then Completed("")
      else
        var code := c.GetOr(-1);
        if code == -1 || code == 137 || code == 9 then Terminated else ExitError(code)
  }

  // ---------------------------------------------------------------------------
  // The whole stream
  // ---------------------------------------------------------------------------

  /** Two event streams merged in the order a schedule picks (`true` takes
      from the first); once the schedule runs out the rest follow in order. */
  function Interleave(a: seq<ProcessOutput>, b: seq<ProcessOutput>, sched: seq<bool>): (r: seq<ProcessOutput>)
    ensures multiset(r) == multiset(a) + multiset(b)
    ensures |r| == |a| + |b|
    ensures forall e :: e in r <==> e in a || e in b
    ensures IsSubseq(a, r) && IsSubseq(b, r)
    decreases |sched|
  {
    if |sched| == 0 then
      PrefixSubseq(a, b);
      SuffixSubseq(a, b);
      a + b
    else if sched[0] && |a| > 0 then
      var rest := Interleave(a[1..], b, sched[1..]);
      assert a == [a[0]] + a[1..];
      ConsBothSubseq(a[0], a[1..], rest);
      ConsRightSubseq(a[0], b, rest);
      [a[0]] + rest
    else if !sched[0] && |b| > 0 then
      var rest := Interleave(a, b[1..], sched[1..]);
      assert b == [b[0]] + b[1..];
      ConsRightSubseq(b[0], a, rest);
      ConsBothSubseq(b[0], b[1..], rest);
      [b[0]] + rest
    else Interleave(a, b, sched[1..])
  }

  /** A reported output file. */
  predicate IsPath(e: ProcessOutput) {
    e.FilePath?
  }

  /** A stream with no file path keeps no file path. */
  lemma NoPaths(b: seq<ProcessOutput>)
    requires forall e :: e in b ==> !e.FilePath?
    ensures Filter(IsPath, b) == []
  {
  }

  /** When the second stream reports no file, the merged stream reports
      exactly the first stream's files, in its order, whatever the
      schedule. */
  lemma {:induction false} InterleavePaths(a: seq<ProcessOutput>, b: seq<ProcessOutput>, sched: seq<bool>)
    requires forall e :: e in b ==> !e.FilePath?
    ensures Filter(IsPath, Interleave(a, b, sched)) == Filter(IsPath, a)
    decreases |sched|
  {
    if |sched| == 0 {
      FilterAppend(IsPath, a, b);
      NoPaths(b);
    } else if sched[0] && |a| > 0 {
      var rest := Interleave(a[1..], b, sched[1..]);
      InterleavePaths(a[1..], b, sched[1..]);
      assert Interleave(a, b, sched) == [a[0]] + rest;
      assert ([a[0]] + rest)[1..] == rest;
      FilterFirst(IsPath, [a[0]] + rest);
      FilterFirst(IsPath, a);
    } else if !sched[0] && |b| > 0 {
      var rest := Interleave(a, b[1..], sched[1..]);
      assert b[0] in b;
      InterleavePaths(a, b[1..], sched[1..]);
      assert Interleave(a, b, sched) == [b[0]] + rest;
      assert ([b[0]] + rest)[1..] == rest;
      FilterFirst(IsPath, [b[0]] + rest);
    } else {
      InterleavePaths(a, b, sched[1..]);
    }
  }

  /** The file paths on the channel are exactly those stdout reported, in
      stdout's order, whichever way the readers interleave: stderr never
      reports a file and the exit event is none. */
  lemma StreamPaths(out: seq<byte>, err: seq<byte>, sched: seq<bool>, w: WaitResult)
    ensures Filter(IsPath, StreamOutputs(out, err, sched, w)) == Filter(IsPath, StdoutOutputs(out))
  {
    var m := Interleave(StdoutOutputs(out), StderrOutputs(err), sched);
    InterleavePaths(StdoutOutputs(out), StderrOutputs(err), sched);
    FilterAppend(IsPath, m, [ExitEvent(w)]);
    NoPaths([ExitEvent(w)]);
  }

  /** The channel's contents: both readers' events interleaved, then (after
      both readers have finished) the single exit event. */
  function StreamOutputs(out: seq<byte>, err: seq<byte>, sched: seq<bool>, w: WaitResult): (r: seq<ProcessOutput>)
    ensures |r| >= 1 && r[|r| - 1] == ExitEvent(w)
    ensures forall k :: 0 <= k < |r| - 1 ==> !IsExitEvent(r[k])
    ensures forall e :: e in r && e.FilePath? ==> IsValidFilepath(e.path)
  {
    var m := Interleave(StdoutOutputs(out), StderrOutputs(err), sched);
    assert forall k :: 0 <= k < |m| ==> !IsExitEvent(m[k]) by {
      forall k | 0 <= k < |m| ensures !IsExitEvent(m[k]) {
        assert m[k] in m;
      }
    }
    m + [ExitEvent(w)]
  }
}

=== FILE: queue.dfy ===
/** The download queue: every item ever added (finished ones included until
    they are removed), the ids waiting to start, front first, and the ids
    being downloaded. Each operation is one atomic step from a queue to a
    queue, the events it emits and its result; the locks, the semaphore and
    the event channel are not part of the model. */
module Queue {
  import opened Wrappers
  import opened Ints
  import opened Models
  import opened Seqs
  import Errors

  type ItemId = u64

  datatype ItemStatus = Pending | Downloading | Merging | Completed | Failed | Cancelled

  /** The statuses `remove` and `clear_completed` treat as finished. */
  predicate IsTerminal(s: ItemStatus) {
    s == Completed || s == Failed || s == Cancelled
  }

  /** Kept by `clear_completed`. */
  predicate Unfinished(it: QueueItem) {
    !IsTerminal(it.status)
  }

  datatype QueueItem = QueueItem(
    id: ItemId,
    config: DownloadConfig,
    status: ItemStatus,
    progress: real,               // 0 to 100, an `f64` in the source
    speed: string,
    etaSeconds: Option<u64>,
    error: Option<string>,
    filePath: Option<string>,
    title: Option<string>,
    thumbnail: Option<string>)

  /** `QueueItem::new`: a fresh item waits with no progress, no error and no
      path. */
  function NewItem(id: ItemId, config: DownloadConfig): (it: QueueItem)
    ensures it.id == id && it.config == config && it.status == Pending
    ensures it.progress == 0.0 && it.speed == "" && it.etaSeconds.None?
    ensures it.error.None? && it.filePath.None? && it.title.None? && it.thumbnail.None?
  {
    QueueItem(id, config, Pending, 0.0, "", None, None, None, None, None)
  }

  datatype QueueEvent =
    | ItemAdded(item: QueueItem)
    | ItemUpdated(item: QueueItem)
    | ItemRemoved(id: ItemId)
    | QueueCleared

  datatype DownloadQueue = DownloadQueue(
    items: seq<QueueItem>,
    pending: seq<ItemId>,
    active: seq<ItemId>,
    nextId: u64)

  /** The outcome of one operation: the new queue, the events sent on the
      channel in order, and the value returned to the caller. */
  datatype Step<T> = Step(queue: DownloadQueue, events: seq<QueueEvent>, value: T)

  /** `DownloadQueue::new`: empty, with the id counter at 1. */
  function NewQueue(): (q: DownloadQueue)
    ensures q.items == [] && q.pending == [] && q.active == [] && q.nextId == 1
  {
    DownloadQueue([], [], [], 1)
  }

  /** The ids of the items, position by position. */
  function Ids(items: seq<QueueItem>): (r: seq<ItemId>)
    ensures |r| == |items|
    ensures forall k :: 0 <= k < |items| ==> r[k] == items[k].id
  {
    seq(|items|, k requires 0 <= k < |items| => items[k].id)
  }

  lemma IdsAppend(a: seq<QueueItem>, b: seq<QueueItem>)
    ensures Ids(a + b) == Ids(a) + Ids(b)
  {
  }

  /** `get`: the first item with the id (under `Inv`, the only one). */
  function Get(items: seq<QueueItem>, id: ItemId): (r: Option<QueueItem>)
    ensures r.Some? ==> r.value in items && r.value.id == id
    ensures r.None? <==> forall it :: it in items ==> it.id != id
  {
    match Position(Ids(items), id)
    case None => None
    case Some(k) => Some(items[k])
  }

  /** The in-place changes the queue makes to a single item. */
  datatype Edit =
    | SetStatus(status: ItemStatus)
    | SetProgress(event: ProgressEvent)
    | MarkCompleted(path: string)
    | MarkFailed(message: string)
    | SetMediaInfo(title: string, thumbnail: Option<string>)

  function ApplyEdit(e: Edit, it: QueueItem): (r: QueueItem)
    ensures r.id == it.id && r.config == it.config
  {
    match e
    case SetStatus(s) => it.(status := s)
    case SetProgress(ev) =>
      it.(progress := ev.percentage, speed := ev.speed, etaSeconds := ev.etaSeconds,
          status := if ev.status == "merging" then Merging else it.status)
    case MarkCompleted(p) =>
      it.(status := Completed, progress := 100.0, filePath := Some(p), speed := "", etaSeconds := None)
    case MarkFailed(m) =>
      it.(status := Failed, error := Some(m), speed := "", etaSeconds := None)
    case SetMediaInfo(t, th) => it.(title := Some(t), thumbnail := th)
  }

  /** `items.iter_mut().find(..)` followed by an edit and an ItemUpdated
      event: the first item with the id is changed and reported; every other
      id still finds what it found before, and with no such item nothing
      happens at all. */
  function Touch(q: DownloadQueue, id: ItemId, e: Edit): (r: Step<Option<QueueItem>>)
    ensures r.queue.pending == q.pending && r.queue.active == q.active && r.queue.nextId == q.nextId
    ensures Ids(r.queue.items) == Ids(q.items)
    ensures Get(q.items, id).None? ==> r.queue == q && r.events == [] && r.value.None?
    ensures Get(q.items, id).Some? ==>
      r.value == Some(ApplyEdit(e, Get(q.items, id).value)) && Get(r.queue.items, id) == r.value &&
      r.events == [ItemUpdated(r.value.value)]
    ensures forall other :: other != id ==> Get(r.queue.items, other) == Get(q.items, other)
  {
    match Position(Ids(q.items), id)
    case None => Step(q, [], None)
    case Some(k) =>
      var it := ApplyEdit(e, q.items[k]);
      var items := q.items[k := it];
      assert Ids(items) == Ids(q.items);
      Step(q.(items := items), [ItemUpdated(it)], Some(it))
  }

  /** `add`: the item takes the counter's value as its id (the counter
      wraps like `AtomicU64::fetch_add`), waits at the back of the pending
      list and is announced. */
  function Add(q: DownloadQueue, config: DownloadConfig): (r: Step<QueueItem>)
    ensures r.value == NewItem(q.nextId, config)
    ensures r.queue.items == q.items + [r.value]
    ensures r.queue.pending == q.pending + [q.nextId]
    ensures r.queue.active == q.active
    ensures q.nextId < U64_MAX ==> r.queue.nextId == q.nextId + 1
    ensures q.nextId == U64_MAX ==> r.queue.nextId == 0
    ensures r.events == [ItemAdded(r.value)]
  {
    var it := NewItem(q.nextId, config);
    Step(DownloadQueue(q.items + [it], q.pending + [q.nextId], q.active, WrapU64(q.nextId + 1)),
         [ItemAdded(it)], it)
  }

  /** `update_status`. */
  function UpdateStatus(q: DownloadQueue, id: ItemId, status: ItemStatus): (r: Step<()>)
    ensures r.queue.pending == q.pending && r.queue.active == q.active
    ensures Get(q.items, id).Some? ==>
      Get(r.queue.items, id) == Some(Get(q.items, id).value.(status := status)) && |r.events| == 1
    ensures Get(q.items, id).None? ==> r.queue == q && r.events == []
    ensures forall other :: other != id ==> Get(r.queue.items, other) == Get(q.items, other)
  {
    var t := Touch(q, id, SetStatus(status));
    Step(t.queue, t.events, ())
  }

  /** `update_progress`: percentage, speed and ETA are copied from the event,
      and a "merging" event also moves the item to Merging. */
  function UpdateProgress(q: DownloadQueue, id: ItemId, event: ProgressEvent): (r: Step<()>)
    ensures r.queue.pending == q.pending && r.queue.active == q.active
    ensures Get(q.items, id).Some? ==> Get(r.queue.items, id).Some? && |r.events| == 1
    ensures Get(q.items, id).Some? ==>
      var before, after := Get(q.items, id).value, Get(r.queue.items, id).value;
      after.progress == event.percentage && after.speed == event.speed &&
      after.etaSeconds == event.etaSeconds &&
      after.status == (if event.status == "merging" then Merging else before.status) &&
      after.error == before.error && after.filePath == before.filePath &&
      after.title == before.title && after.thumbnail == before.thumbnail
    ensures Get(q.items, id).None? ==> r.queue == q && r.events == []
    ensures forall other :: other != id ==> Get(r.queue.items, other) == Get(q.items, other)
  {
    var t := Touch(q, id, SetProgress(event));
    Step(t.queue, t.events, ())
  }

  /** `complete`: the id leaves the active list and the item is Completed at
      100% with its path, speed and ETA cleared; its error is kept. */
  function Complete(q: DownloadQueue, id: ItemId, filePath: string): (r: Step<()>)
    ensures r.queue.pending == q.pending
    ensures forall x :: x in r.queue.active <==> x in q.active && x != id
    ensures Get(q.items, id).Some? ==> Get(r.queue.items, id).Some? && |r.events| == 1
    ensures Get(q.items, id).Some? ==>
      var before, after := Get(q.items, id).value, Get(r.queue.items, id).value;
      after.status == Completed && after.progress == 100.0 && after.filePath == Some(filePath) &&
      after.speed == "" && after.etaSeconds.None? && after.error == before.error &&
      after.title == before.title && after.config == before.config
    ensures Get(q.items, id).None? ==> r.queue.items == q.items && r.events == []
    ensures forall other :: other != id ==> Get(r.queue.items, other) == Get(q.items, other)
  {
    var t := Touch(q.(active := Without(q.active, id)), id, MarkCompleted(filePath));
    Step(t.queue, t.events, ())
  }

  /** `fail`: the id leaves the active list and the item is Failed with the
      error's display text; progress and path are kept. */
  function Fail(q: DownloadQueue, id: ItemId, error: Errors.DownloadError): (r: Step<()>)
    ensures r.queue.pending == q.pending
    ensures forall x :: x in r.queue.active <==> x in q.active && x != id
    ensures Get(q.items, id).Some? ==> Get(r.queue.items, id).Some? && |r.events| == 1
    ensures Get(q.items, id).Some? ==>
      var before, after := Get(q.items, id).value, Get(r.queue.items, id).value;
      after.status == Failed && after.error == Some(Errors.Display(error)) &&
      after.progress == before.progress && after.filePath == before.filePath &&
      after.speed == "" && after.etaSeconds.None?
    ensures Get(q.items, id).None? ==> r.queue.items == q.items && r.events == []
    ensures forall other :: other != id ==> Get(r.queue.items, other) == Get(q.items, other)
  {
    var t := Touch(q.(active := Without(q.active, id)), id, MarkFailed(Errors.Display(error)));
    Step(t.queue, t.events, ())
  }

  /** `cancel`: always succeeds. The id leaves the pending list and the item,
      whatever its status (even Completed or Failed), becomes Cancelled; the
      active list is left to the process killer. */
  function Cancel(q: DownloadQueue, id: ItemId): (r: Step<Result<(), Errors.DownloadError>>)
    ensures r.value.Ok?
    ensures forall x :: x in r.queue.pending <==> x in q.pending && x != id
    ensures r.queue.active == q.active
    ensures Get(q.items, id).Some? ==> Get(r.queue.items, id) == Some(Get(q.items, id).value.(status := Cancelled))
    ensures Get(q.items, id).None? ==> r.queue.items == q.items && r.events == []
    ensures forall other :: other != id ==> Get(r.queue.items, other) == Get(q.items, other)
    ensures IsSubseq(r.queue.pending, q.pending)
  {
    var t := Touch(q.(pending := Without(q.pending, id)), id, SetStatus(Cancelled));
    Step(t.queue, t.events, Ok(()))
  }

  /** `set_media_info`. */
  function SetMediaInfoOf(q: DownloadQueue, id: ItemId, title: string, thumbnail: Option<string>): (r: Step<()>)
    ensures r.queue.pending == q.pending && r.queue.active == q.active
    ensures Get(q.items, id).Some? ==>
      Get(r.queue.items, id) == Some(Get(q.items, id).value.(title := Some(title), thumbnail := thumbnail))
    ensures Get(q.items, id).None? ==> r.queue == q && r.events == []
    ensures forall other :: other != id ==> Get(r.queue.items, other) == Get(q.items, other)
  {
    var t := Touch(q, id, SetMediaInfo(title, thumbnail));
    Step(t.queue, t.events, ())
  }

  /** Deleting index `k` shifts the first position of any other value. */
  lemma PositionSkip(xs: seq<ItemId>, k: nat, x: ItemId)
    requires k < |xs| && xs[k] != x
    ensures Position(xs[..k] + xs[k + 1..], x) ==
      match Position(xs, x)
      case None => None
      case Some(m) => Some(if m < k then m else m - 1)
  {
    var ys := xs[..k] + xs[k + 1..];
    assert forall j :: 0 <= j < k ==> ys[j] == xs[j];
    assert forall j :: k <= j < |ys| ==> ys[j] == xs[j + 1];
    PositionDropped(xs, ys, k, x);
  }

  /** `remove`: succeeds exactly for an existing finished item, which is
      deleted and announced; anything else is refused and changes nothing. */
  function Remove(q: DownloadQueue, id: ItemId): (r: Step<Result<(), Errors.DownloadError>>)
    ensures r.value.Ok? <==> Get(q.items, id).Some? && IsTerminal(Get(q.items, id).value.status)
    ensures r.value.Ok? ==>
      r.events == [ItemRemoved(id)] && |r.queue.items| == |q.items| - 1 &&
      multiset(r.queue.items) + multiset{Get(q.items, id).value} == multiset(q.items)
    ensures r.value.Ok? ==> forall other :: other != id ==> Get(r.queue.items, other) == Get(q.items, other)
    ensures r.value.Ok? ==> IsSubseq(r.queue.items, q.items)
    ensures r.value.Err? ==>
      r.queue == q && r.events == [] && r.value.error == Errors.GenericError("Cannot remove active item")
    ensures r.queue.pending == q.pending && r.queue.active == q.active && r.queue.nextId == q.nextId
  {
    match Position(Ids(q.items), id)
    case Some(k) =>
      if IsTerminal(q.items[k].status) then
        var items := q.items[..k] + q.items[k + 1..];
        RemoveAt(q.items, id, k);
        CutIsSubseq(q.items, k);
        Step(q.(items := items), [ItemRemoved(id)], Ok(()))
      else Step(q, [], Err(Errors.GenericError("Cannot remove active item")))
    case None => Step(q, [], Err(Errors.GenericError("Cannot remove active item")))
  }

  /** Cutting out the item found for `id` takes one copy of it and leaves
      every other id's item where lookup finds it. */
  lemma RemoveAt(items: seq<QueueItem>, id: ItemId, k: nat)
    requires Position(Ids(items), id) == Some(k)
    ensures var rest := items[..k] + items[k + 1..];
      |rest| == |items| - 1 && Get(items, id) == Some(items[k]) &&
      multiset(rest) + multiset{items[k]} == multiset(items) &&
      forall other :: other != id ==> Get(rest, other) == Get(items, other)
  {
    RemoveAtMultiset(items, k);
    CutKeepsLookups(items, id, k);
  }

  /** Lookups of the other ids are unaffected by the cut. */
  lemma CutKeepsLookups(items: seq<QueueItem>, id: ItemId, k: nat)
    requires Position(Ids(items), id) == Some(k)
    ensures forall other :: other != id ==> Get(items[..k] + items[k + 1..], other) == Get(items, other)
  {
    forall other | other != id
      ensures Get(items[..k] + items[k + 1..], other) == Get(items, other)
    {
      CutKeepsLookup(items, id, k, other);
    }
  }

  lemma CutKeepsLookup(items: seq<QueueItem>, id: ItemId, k: nat, other: ItemId)
    requires Position(Ids(items), id) == Some(k) && other != id
    ensures Get(items[..k] + items[k + 1..], other) == Get(items, other)
  {
    var xs := Ids(items);
    IdsCut(items, k);
    PositionSkip(xs, k, other);
    match Position(xs, other)
    case None =>
    case Some(m) => CutIndex(items, k, m);
  }

  lemma IdsCut(items: seq<QueueItem>, k: nat)
    requires k < |items|
    ensures Ids(items[..k] + items[k + 1..]) == Ids(items)[..k] + Ids(items)[k + 1..]
  {
  }

  /** After the cut, index `m` of the original sits one place earlier when
      it was past `k`. */
  lemma CutIndex(items: seq<QueueItem>, k: nat, m: nat)
    requires k < |items| && m < |items| && m != k
    ensures (items[..k] + items[k + 1..])[if m < k then m else m - 1] == items[m]
  {
  }

  /** `clear_completed`: exactly the unfinished items stay, in their order;
      the pending and active lists are untouched and QueueCleared is always
      sent. */
  function ClearCompleted(q: DownloadQueue): (r: Step<()>)
    ensures forall it :: it in r.queue.items <==> it in q.items && !IsTerminal(it.status)
    ensures IsSubseq(r.queue.items, q.items)
    ensures |r.queue.items| <= |q.items|
    ensures r.events == [QueueCleared]
    ensures r.queue.pending == q.pending && r.queue.active == q.active && r.queue.nextId == q.nextId
  {
    FilterIsSubseq(Unfinished, q.items);
    Step(q.(items := Filter(Unfinished, q.items)), [QueueCleared], ())
  }

  /** `pop_next`: the front pending id moves to the back of the active list
      and its item becomes Downloading and is returned. An empty pending
      list changes nothing; a front id with no item is still moved, and the
      call returns None. */
  function PopNext(q: DownloadQueue): (r: Step<Option<QueueItem>>)
    ensures q.pending == [] ==> r.queue == q && r.events == [] && r.value.None?
    ensures q.pending != [] ==>
      r.queue.pending == q.pending[1..] && r.queue.active == q.active + [q.pending[0]]
    ensures q.pending != [] ==> (r.value.Some? <==> Get(q.items, q.pending[0]).Some?)
    ensures r.value.Some? ==>
      r.value.value.id == q.pending[0] && r.value.value.status == Downloading &&
      Get(r.queue.items, q.pending[0]) == r.value &&
      r.value.value == Get(q.items, q.pending[0]).value.(status := Downloading)
    ensures forall other :: q.pending != [] && other != q.pending[0] ==> Get(r.queue.items, other) == Get(q.items, other)
  {
    if q.pending == [] then Step(q, [], None)
    else
      var id := q.pending[0];
      Touch(q.(pending := q.pending[1..], active := q.active + [id]), id, SetStatus(Downloading))
  }

  /** `move_up`: the first occurrence of the id swaps with its predecessor;
      at the front, or when the id is not pending, nothing changes. */
  function MoveUp(q: DownloadQueue, id: ItemId): (r: DownloadQueue)
    ensures r.items == q.items && r.active == q.active && r.nextId == q.nextId
    ensures multiset(r.pending) == multiset(q.pending) && |r.pending| == |q.pending|
    ensures match Position(q.pending, id)
      case Some(k) =>
        if k > 0 then
          r.pending[k - 1] == id && r.pending[k] == q.pending[k - 1] &&
          forall j :: 0 <= j < |q.pending| && j != k && j != k - 1 ==> r.pending[j] == q.pending[j]
        else r == q
      case None => r == q
  {
    match Position(q.pending, id)
    case Some(k) => if k > 0 then q.(pending := Swap(q.pending, k, k - 1)) else q
    case None => q
  }

  /** `move_down`: the first occurrence of the id swaps with its successor;
      at the back, or when the id is not pending, nothing changes. */
  function MoveDown(q: DownloadQueue, id: ItemId): (r: DownloadQueue)
    ensures r.items == q.items && r.active == q.active && r.nextId == q.nextId
    ensures multiset(r.pending) == multiset(q.pending) && |r.pending| == |q.pending|
    ensures match Position(q.pending, id)
      case Some(k) =>
        if k < |q.pending| - 1 then
          r.pending[k + 1] == id && r.pending[k] == q.pending[k + 1] &&
          forall j :: 0 <= j < |q.pending| && j != k && j != k + 1 ==> r.pending[j] == q.pending[j]
        else r == q
      case None => r == q
  {
    match Position(q.pending, id)
    case Some(k) => if k < |q.pending| - 1 then q.(pending := Swap(q.pending, k, k + 1)) else q
    case None => q
  }

  /** The requested ids that are pending, in the requested order, repeats
      included. */
  function ReorderFront(pending: seq<ItemId>, ids: seq<ItemId>): (r: seq<ItemId>)
    ensures forall x :: x in r <==> x in ids && x in pending
    ensures forall x :: multiset(r)[x] == if x in pending then multiset(ids)[x] else 0
    ensures IsSubseq(r, ids)
  {
    var valid := x => x in pending;
    FilterCount(valid, ids);
    FilterIsSubseq(valid, ids);
    Filter(valid, ids)
  }

  /** The pending ids not requested, in their pending order. */
  function ReorderRest(pending: seq<ItemId>, front: seq<ItemId>): (r: seq<ItemId>)
    ensures forall x :: x in r <==> x in pending && x !in front
    ensures forall x :: multiset(r)[x] == if x in front then 0 else multiset(pending)[x]
    ensures IsSubseq(r, pending)
  {
    var remaining := x => x !in front;
    FilterCount(remaining, pending);
    FilterIsSubseq(remaining, pending);
    Filter(remaining, pending)
  }

  /** `reorder`: the requested pending ids first, then the others. */
  function Reorder(q: DownloadQueue, ids: seq<ItemId>): (r: DownloadQueue)
    ensures r.items == q.items && r.active == q.active && r.nextId == q.nextId
    ensures forall x :: x in r.pending <==> x in q.pending
    ensures r.pending == ReorderFront(q.pending, ids) + ReorderRest(q.pending, ReorderFront(q.pending, ids))
    ensures var n := |ReorderFront(q.pending, ids)|;
      n <= |r.pending| && IsSubseq(r.pending[..n], ids) && IsSubseq(r.pending[n..], q.pending)
  {
    var front := ReorderFront(q.pending, ids);
    q.(pending := front + ReorderRest(q.pending, front))
  }

  /** Events of `pause_all`: one ItemUpdated per id that still has an item,
      reporting the item unchanged, in the order of the drained ids. */
  function PauseEvents(items: seq<QueueItem>, ids: seq<ItemId>): (r: seq<QueueEvent>)
    ensures |r| <= |ids|
    ensures (forall x :: x in ids ==> Get(items, x).Some?) ==> |r| == |ids|
    ensures forall e :: e in r ==> e.ItemUpdated? && e.item in items
    ensures forall x :: x in ids && Get(items, x).Some? ==> ItemUpdated(Get(items, x).value) in r
    decreases |ids|
  {
    if |ids| == 0 then [] else ItemEvent(items, ids[0]) + PauseEvents(items, ids[1..])
  }

  /** The event `pause_all` sends for one drained id. */
  function ItemEvent(items: seq<QueueItem>, id: ItemId): seq<QueueEvent> {
    match Get(items, id)
    case Some(it) => [ItemUpdated(it)]
    case None => []
  }

  /** The events of two drained runs are the events of the first, then of
      the second. */
  lemma {:induction false} PauseEventsAppend(items: seq<QueueItem>, a: seq<ItemId>, b: seq<ItemId>)
    ensures PauseEvents(items, a + b) == PauseEvents(items, a) + PauseEvents(items, b)
    decreases |a|
  {
    if |a| > 0 {
      var h := ItemEvent(items, a[0]);
      assert (a + b)[0] == a[0];
      assert (a + b)[1..] == a[1..] + b;
      assert PauseEvents(items, a + b) == h + PauseEvents(items, a[1..] + b);
      PauseEventsAppend(items, a[1..], b);
      assert h + (PauseEvents(items, a[1..]) + PauseEvents(items, b))
          == (h + PauseEvents(items, a[1..])) + PauseEvents(items, b);
    } else {
      assert a + b == b;
    }
  }

  /** A single drained id gives its item's event, or nothing without an item. */
  lemma PauseEventsOne(items: seq<QueueItem>, id: ItemId)
    ensures PauseEvents(items, [id]) == if Get(items, id).Some? then [ItemUpdated(Get(items, id).value)] else []
  {
    assert [id][1..] == [];
  }

  /** `pause_all`: empties the pending list; no status changes, so the
      items still read as Pending. */
  function PauseAll(q: DownloadQueue): (r: Step<()>)
    ensures r.queue.pending == []
    ensures r.queue.items == q.items && r.queue.active == q.active && r.queue.nextId == q.nextId
    ensures |r.events| <= |q.pending|
    ensures (forall x :: x in q.pending ==> Get(q.items, x).Some?) ==> |r.events| == |q.pending|
    ensures forall e :: e in r.events ==> e.ItemUpdated? && e.item in q.items
    ensures forall x :: x in q.pending && Get(q.items, x).Some? ==> ItemUpdated(Get(q.items, x).value) in r.events
  {
    Step(q.(pending := []), PauseEvents(q.items, q.pending), ())
  }

  /** The ids of the Pending items, in item order. */
  function PendingIds(items: seq<QueueItem>): (r: seq<ItemId>)
    ensures forall x :: x in r ==> x in Ids(items)
    decreases |items|
  {
    if |items| == 0 then []
    else
      (if items[0].status == Pending then [items[0].id] else []) + PendingIds(items[1..])
  }

  /** The loop of `resume_all` over `items`: each Pending item's id is
      appended unless it is already there. */
  function ResumeFrom(items: seq<QueueItem>, pending: seq<ItemId>): (r: seq<ItemId>)
    ensures |pending| <= |r| && r[..|pending|] == pending
    ensures forall x :: x in r <==> x in pending || x in PendingIds(items)
    ensures NoDup(pending) ==> NoDup(r)
    decreases |items|
  {
    if |items| == 0 then pending
    else
      var it := items[0];
      var next := if it.status == Pending && it.id !in pending then pending + [it.id] else pending;
      assert next[..|pending|] == pending;
      assert NoDup(pending) ==> NoDup(next) by {
        if it.status == Pending && it.id !in pending {
          assert multiset(next) == multiset(pending) + multiset{it.id};
        }
      }
      ResumeFrom(items[1..], next)
  }

  /** `resume_all`: every Pending item not already waiting is appended, in
      item order, and no id is added twice. */
  function ResumeAll(q: DownloadQueue): (r: Step<()>)
    ensures r.queue.items == q.items && r.queue.active == q.active && r.queue.nextId == q.nextId
    ensures |q.pending| <= |r.queue.pending| && r.queue.pending[..|q.pending|] == q.pending
    ensures forall x :: x in r.queue.pending <==> x in q.pending || x in PendingIds(q.items)
    ensures NoDup(q.pending) ==> NoDup(r.queue.pending)
    ensures r.events == []
  {
    Step(q.(pending := ResumeFrom(q.items, q.pending)), [], ())
  }
}

=== FILE: queue_lemmas.dfy ===
/** Properties of the download queue across operations: the invariant every
    operation keeps, fresh and sequential ids, first-in first-out popping,
    and the inverse and permutation laws of the reordering operations. */
module QueueLemmas {
  import opened Wrappers
  import opened Ints
  import opened Models
  import opened Seqs
  import opened Queue
  import Errors

  /** Ids are unique among items, none is waiting twice, and the counter
      is above every id handed out so far. */
  ghost predicate Inv(q: DownloadQueue) {
    NoDup(Ids(q.items)) && NoDup(q.pending) && 1 <= q.nextId &&
    (forall x :: x in Ids(q.items) ==> 1 <= x < q.nextId) &&
    (forall x :: x in q.pending ==> x < q.nextId)
  }

  lemma NewQueueInv()
    ensures Inv(NewQueue())
  {
    assert Ids([]) == [];
  }

  /** One call of any public queue operation. */
  datatype Op =
    | AddOp(config: DownloadConfig)
    | UpdateStatusOp(id: ItemId, status: ItemStatus)
    | UpdateProgressOp(id: ItemId, event: ProgressEvent)
    | CompleteOp(id: ItemId, path: string)
    | FailOp(id: ItemId, error: Errors.DownloadError)
    | CancelOp(id: ItemId)
    | RemoveOp(id: ItemId)
    | ClearCompletedOp
    | PopNextOp
    | SetMediaInfoOp(id: ItemId, title: string, thumbnail: Option<string>)
    | MoveUpOp(id: ItemId)
    | MoveDownOp(id: ItemId)
    | ReorderOp(ids: seq<ItemId>)
    | PauseAllOp
    | ResumeAllOp

  function Run(q: DownloadQueue, op: Op): DownloadQueue {
    match op
    case AddOp(c) => Add(q, c).queue
    case UpdateStatusOp(id, s) => UpdateStatus(q, id, s).queue
    case UpdateProgressOp(id, e) => UpdateProgress(q, id, e).queue
    case CompleteOp(id, p) => Complete(q, id, p).queue
    case FailOp(id, e) => Fail(q, id, e).queue
    case CancelOp(id) => Cancel(q, id).queue
    case RemoveOp(id) => Remove(q, id).queue
    case ClearCompletedOp => ClearCompleted(q).queue
    case PopNextOp => PopNext(q).queue
    case SetMediaInfoOp(id, t, th) => SetMediaInfoOf(q, id, t, th).queue
    case MoveUpOp(id) => MoveUp(q, id)
    case MoveDownOp(id) => MoveDown(q, id)
    case ReorderOp(ids) => Reorder(q, ids)
    case PauseAllOp => PauseAll(q).queue
    case ResumeAllOp => ResumeAll(q).queue
  }

  /** The two calls that can break the invariant: the 2^64-th `add`, whose
      counter wraps, and a `reorder` naming an id twice. */
  ghost predicate Allowed(q: DownloadQueue, op: Op) {
    match op
    case AddOp(_) => q.nextId < U64_MAX
    case ReorderOp(ids) => NoDup(ids)
    case _ => true
  }

  /** The id `add` hands out is new: no item has it and it is not waiting. */
  lemma AddIdFresh(q: DownloadQueue, c: DownloadConfig)
    requires Inv(q)
    ensures Add(q, c).value.id !in Ids(q.items) && Add(q, c).value.id !in q.pending
  {
  }

  lemma AddKeepsInv(q: DownloadQueue, c: DownloadConfig)
    requires Inv(q) && q.nextId < U64_MAX
    ensures Inv(Add(q, c).queue)
  {
    var r := Add(q, c).queue;
    IdsAppend(q.items, [NewItem(q.nextId, c)]);
    assert Ids(r.items) == Ids(q.items) + [q.nextId];
    NoDupSnoc(Ids(q.items), q.nextId);
    NoDupSnoc(q.pending, q.nextId);
  }

  /** An operation that keeps the counter and only drops ids, from the items
      or from the pending list, keeps the invariant. */
  lemma ShrinkKeepsInv(q: DownloadQueue, r: DownloadQueue)
    requires Inv(q) && r.nextId == q.nextId
    requires multiset(Ids(r.items)) <= multiset(Ids(q.items))
    requires multiset(r.pending) <= multiset(q.pending)
    ensures Inv(r)
  {
    NoDupSub(Ids(r.items), Ids(q.items));
    NoDupSub(r.pending, q.pending);
    forall x | x in Ids(r.items)
      ensures x in Ids(q.items)
    {
      assert multiset(Ids(r.items))[x] > 0;
    }
    forall x | x in r.pending
      ensures x in q.pending
    {
      assert multiset(r.pending)[x] > 0;
    }
  }

  /** Dropping items never duplicates an id. */
  lemma IdsFilterCount(p: QueueItem -> bool, items: seq<QueueItem>)
    ensures forall x :: multiset(Ids(Filter(p, items)))[x] <= multiset(Ids(items))[x]
    ensures forall x :: x in Ids(Filter(p, items)) ==> x in Ids(items)
  {
    var kept := Ids(Filter(p, items));
    IdsFilterSub(p, items);
    forall x | x in kept ensures x in Ids(items) {
      assert multiset(kept)[x] > 0;
    }
  }

  lemma {:induction false} IdsFilterSub(p: QueueItem -> bool, items: seq<QueueItem>)
    ensures multiset(Ids(Filter(p, items))) <= multiset(Ids(items))
    decreases |items|
  {
    if |items| > 0 {
      var rest := items[1..];
      IdsFilterSub(p, rest);
      var h := if p(items[0]) then [items[0]] else [];
      FilterFirst(p, items);
      IdsAppend(h, Filter(p, rest));
      assert items == [items[0]] + rest;
      IdsAppend([items[0]], rest);
      assert multiset(Ids(h)) <= multiset(Ids([items[0]]));
    }
  }


  lemma ClearCompletedKeepsInv(q: DownloadQueue)
    requires Inv(q)
    ensures Inv(ClearCompleted(q).queue)
  {
    IdsFilterCount(Unfinished, q.items);
    ShrinkKeepsInv(q, ClearCompleted(q).queue);
  }

  /** A successful `remove` drops exactly one copy of the id. */
  lemma RemoveIds(q: DownloadQueue, id: ItemId)
    requires Remove(q, id).value.Ok?
    ensures multiset(Ids(Remove(q, id).queue.items)) + multiset{id} == multiset(Ids(q.items))
  {
    var xs := Ids(q.items);
    var k := Position(xs, id).value;
    var r := Remove(q, id).queue.items;
    assert r == q.items[..k] + q.items[k + 1..];
    assert Ids(r) == xs[..k] + xs[k + 1..] by {
      IdsAppend(q.items[..k], q.items[k + 1..]);
      assert Ids(q.items[..k]) == xs[..k];
      assert Ids(q.items[k + 1..]) == xs[k + 1..];
    }
    RemoveAtMultiset(xs, k);
  }

  lemma RemoveKeepsInv(q: DownloadQueue, id: ItemId)
    requires Inv(q)
    ensures Inv(Remove(q, id).queue)
  {
    if Remove(q, id).value.Ok? {
      RemoveIds(q, id);
    }
    ShrinkKeepsInv(q, Remove(q, id).queue);
  }

  lemma PopNextKeepsInv(q: DownloadQueue)
    requires Inv(q)
    ensures Inv(PopNext(q).queue)
  {
    if q.pending != [] {
      assert q.pending == [q.pending[0]] + q.pending[1..];
      assert multiset(q.pending) == multiset{q.pending[0]} + multiset(q.pending[1..]);
    }
    ShrinkKeepsInv(q, PopNext(q).queue);
  }

  /** Every pending id `reorder` lists once moves to the front: with no
      repeated ids on either side the pending list is permuted. */
  lemma ReorderPermutes(q: DownloadQueue, ids: seq<ItemId>)
    requires NoDup(q.pending) && NoDup(ids)
    ensures multiset(Reorder(q, ids).pending) == multiset(q.pending)
  {
    var front := ReorderFront(q.pending, ids);
    var rest := ReorderRest(q.pending, front);
    forall x
      ensures multiset(front + rest)[x] == multiset(q.pending)[x]
    {
      assert multiset(front + rest)[x] == multiset(front)[x] + multiset(rest)[x];
      if x in q.pending && x in ids {
        assert multiset(ids)[x] == 1 && multiset(q.pending)[x] == 1;
      }
    }
  }

  /** The front is the only order-keeping selection of the request with
      exactly the pending ids' multiplicities: its ids come in the order
      the request lists them. */
  lemma ReorderFrontDetermined(pending: seq<ItemId>, ids: seq<ItemId>, r: seq<ItemId>)
    requires IsSubseq(r, ids)
    requires forall x :: multiset(r)[x] == if x in pending then multiset(ids)[x] else 0
    ensures r == ReorderFront(pending, ids)
  {
    var valid := x => x in pending;
    FilterUnique(valid, ids, r);
    FilterUnique(valid, ids, ReorderFront(pending, ids));
  }

  /** Likewise the rest is the only order-keeping selection of the pending
      list without the front's ids: they keep their queue order. */
  lemma ReorderRestDetermined(pending: seq<ItemId>, front: seq<ItemId>, r: seq<ItemId>)
    requires IsSubseq(r, pending)
    requires forall x :: multiset(r)[x] == if x in front then 0 else multiset(pending)[x]
    ensures r == ReorderRest(pending, front)
  {
    var remaining := x => x !in front;
    FilterUnique(remaining, pending, r);
    FilterUnique(remaining, pending, ReorderRest(pending, front));
  }

  /** A repeated id in the request is copied into the pending list: from
      pending [1, 2], `reorder([2, 2])` leaves [2, 2, 1]. */
  lemma ReorderCopiesRepeats()
    ensures Reorder(DownloadQueue([], [1, 2], [], 3), [2, 2]).pending == [2, 2, 1]
  {
    SubseqRefl([2, 2]);
    ReorderFrontDetermined([1, 2], [2, 2], [2, 2]);
    CutIsSubseq([1, 2], 1);
    assert [1, 2][..1] + [1, 2][2..] == [1];
    ReorderRestDetermined([1, 2], [2, 2], [1]);
  }

  lemma ReorderKeepsInv(q: DownloadQueue, ids: seq<ItemId>)
    requires Inv(q) && NoDup(ids)
    ensures Inv(Reorder(q, ids))
  {
    ReorderPermutes(q, ids);
  }

  lemma ResumeAllKeepsInv(q: DownloadQueue)
    requires Inv(q)
    ensures Inv(ResumeAll(q).queue)
  {
    var r := ResumeAll(q).queue;
    forall x | x in r.pending
      ensures x < q.nextId
    {
      if x !in q.pending {
        assert x in Ids(q.items);
      }
    }
  }

  /** Every operation the source offers keeps the invariant. */
  lemma RunKeepsInv(q: DownloadQueue, op: Op)
    requires Inv(q) && Allowed(q, op)
    ensures Inv(Run(q, op))
  {
    match op
    case AddOp(c) => AddKeepsInv(q, c);
    case RemoveOp(id) => RemoveKeepsInv(q, id);
    case ClearCompletedOp => ClearCompletedKeepsInv(q);
    case PopNextOp => PopNextKeepsInv(q);
    case ReorderOp(ids) => ReorderKeepsInv(q, ids);
    case ResumeAllOp => ResumeAllKeepsInv(q);
    case UpdateStatusOp(id, s) => ShrinkKeepsInv(q, Run(q, op));
    case UpdateProgressOp(id, e) => ShrinkKeepsInv(q, Run(q, op));
    case SetMediaInfoOp(id, t, th) => ShrinkKeepsInv(q, Run(q, op));
    case CompleteOp(id, p) => ShrinkKeepsInv(q, Run(q, op));
    case FailOp(id, e) => ShrinkKeepsInv(q, Run(q, op));
    case CancelOp(id) => ShrinkKeepsInv(q, Run(q, op));
    case MoveUpOp(id) => ShrinkKeepsInv(q, Run(q, op));
    case MoveDownOp(id) => ShrinkKeepsInv(q, Run(q, op));
    case PauseAllOp => ShrinkKeepsInv(q, Run(q, op));
  }

  function RunAll(q: DownloadQueue, ops: seq<Op>): DownloadQueue
    decreases |ops|
  {
    if |ops| == 0 then q else RunAll(Run(q, ops[0]), ops[1..])
  }

  ghost predicate AllowedAll(q: DownloadQueue, ops: seq<Op>)
    decreases |ops|
  {
    |ops| == 0 || (Allowed(q, ops[0]) && AllowedAll(Run(q, ops[0]), ops[1..]))
  }

  /** Any sequence of allowed operations from a fresh queue keeps the
      invariant, so ids stay unique and are never handed out twice. */
  lemma {:induction false} RunAllKeepsInv(q: DownloadQueue, ops: seq<Op>)
    requires Inv(q) && AllowedAll(q, ops)
    ensures Inv(RunAll(q, ops))
    decreases |ops|
  {
    if |ops| > 0 {
      RunKeepsInv(q, ops[0]);
      RunAllKeepsInv(Run(q, ops[0]), ops[1..]);
    }
  }

  /** `add` called once per configuration. */
  function AddAll(q: DownloadQueue, configs: seq<DownloadConfig>): DownloadQueue
    decreases |configs|
  {
    if |configs| == 0 then q
    else Add(AddAll(q, configs[..|configs| - 1]), configs[|configs| - 1]).queue
  }

  /** 1, 2, ..., n. */
  function Count(n: nat): (r: seq<ItemId>)
    requires n < U64_LIMIT
    ensures |r| == n
  {
    if n == 0 then [] else Count(n - 1) + [n]
  }

  /** Ids are handed out as 1, 2, 3, ... in order of addition, and every new
      item waits in that order. */
  lemma {:induction false} AddAllNumbers(configs: seq<DownloadConfig>)
    requires |configs| < U64_MAX
    ensures var q := AddAll(NewQueue(), configs);
      Ids(q.items) == Count(|configs|) && q.pending == Count(|configs|) &&
      q.nextId == |configs| + 1
    decreases |configs|
  {
    if |configs| > 0 {
      var n := |configs|;
      AddAllNumbers(configs[..n - 1]);
      var q := AddAll(NewQueue(), configs[..n - 1]);
      IdsAppend(q.items, [NewItem(n, configs[n - 1])]);
    }
  }

  /** Adding never jumps the queue: the item `pop_next` would return is the
      same after an `add`, and on an empty pending list the new item is the
      next one. */
  lemma AddThenPopNext(q: DownloadQueue, c: DownloadConfig)
    requires Inv(q)
    ensures q.pending != [] ==> PopNext(Add(q, c).queue).value.Some? == PopNext(q).value.Some?
    ensures q.pending != [] && PopNext(q).value.Some? ==>
      PopNext(Add(q, c).queue).value == PopNext(q).value
    ensures q.pending == [] ==>
      PopNext(Add(q, c).queue).value == Some(NewItem(q.nextId, c).(status := Downloading))
  {
    var r := Add(q, c).queue;
    var it := NewItem(q.nextId, c);
    IdsAppend(q.items, [it]);
    assert Ids([it]) == [q.nextId];
    if q.pending != [] {
      var id := q.pending[0];
      assert id in q.pending;
      PositionAppend(Ids(q.items), [q.nextId], id);
      assert Position([q.nextId], id).None?;
    } else {
      PositionAppend(Ids(q.items), [q.nextId], q.nextId);
      assert q.nextId !in Ids(q.items);
      assert Position([q.nextId], q.nextId) == Some(0);
    }
  }

  /** `move_down` undoes `move_up` of an id that could move. */
  lemma MoveDownUndoesMoveUp(q: DownloadQueue, id: ItemId)
    requires Position(q.pending, id).Some? && Position(q.pending, id).value > 0
    ensures MoveDown(MoveUp(q, id), id) == q
  {
    var k := Position(q.pending, id).value;
    var up := MoveUp(q, id);
    assert up == q.(pending := Swap(q.pending, k, k - 1));
    SwappedBack(q.pending, id, k);
    assert MoveDown(up, id) == up.(pending := Swap(up.pending, k - 1, k));
    SwapTwice(q.pending, k, k - 1);
  }

  /** After moving up, the id is first found one place earlier. */
  lemma SwappedBack(xs: seq<ItemId>, id: ItemId, k: nat)
    requires 0 < k < |xs| && Position(xs, id) == Some(k)
    ensures Position(Swap(xs, k, k - 1), id) == Some(k - 1)
  {
    var ys := Swap(xs, k, k - 1);
    assert forall j :: 0 <= j < k - 1 ==> ys[j] == xs[j];
    PositionIs(ys, id, k - 1);
  }

  /** `move_up` undoes `move_down` of an id that could move, when no id
      waits twice. */
  lemma MoveUpUndoesMoveDown(q: DownloadQueue, id: ItemId)
    requires NoDup(q.pending)
    requires Position(q.pending, id).Some? && Position(q.pending, id).value < |q.pending| - 1
    ensures MoveUp(MoveDown(q, id), id) == q
  {
    var k := Position(q.pending, id).value;
    var down := MoveDown(q, id);
    assert down == q.(pending := Swap(q.pending, k, k + 1));
    NoDupSub(down.pending, q.pending);
    PositionOfIndex(down.pending, k + 1);
    assert MoveUp(down, id) == down.(pending := Swap(down.pending, k + 1, k));
    SwapTwice(q.pending, k, k + 1);
  }

  /** Clearing twice clears no more than once. */
  lemma ClearCompletedIdempotent(q: DownloadQueue)
    ensures ClearCompleted(ClearCompleted(q).queue).queue == ClearCompleted(q).queue
  {
    var once := ClearCompleted(q).queue;
    FilterAll(Unfinished, once.items);
  }

  /** Clearing keeps the item each unfinished id finds. */
  lemma ClearCompletedKeepsUnfinished(q: DownloadQueue, id: ItemId)
    requires NoDup(Ids(q.items))
    requires Get(q.items, id).Some? && !IsTerminal(Get(q.items, id).value.status)
    ensures Get(ClearCompleted(q).queue.items, id) == Get(q.items, id)
  {
    var r := ClearCompleted(q).queue.items;
    IdsFilterCount(Unfinished, q.items);
    var it := Get(q.items, id).value;
    assert it in r;
    var found := Get(r, id).value;
    assert found in q.items;
    var i :| 0 <= i < |q.items| && q.items[i] == found;
    var j :| 0 <= j < |q.items| && q.items[j] == it;
    if i != j {
      var lo, hi := if i < j then i else j, if i < j then j else i;
      DistinctIndices(Ids(q.items), lo, hi);
    }
  }

  /** Once removed, an id finds nothing, and the other items stay. */
  lemma RemoveDeletes(q: DownloadQueue, id: ItemId)
    requires NoDup(Ids(q.items)) && Remove(q, id).value.Ok?
    ensures Get(Remove(q, id).queue.items, id).None?
    ensures |Remove(q, id).queue.items| == |q.items| - 1
  {
    var r := Remove(q, id).queue.items;
    RemoveIds(q, id);
    assert multiset(Ids(q.items))[id] <= 1;
    assert id !in Ids(r);
    assert Position(Ids(r), id).None?;
  }

  /** `cancel` makes any existing item removable. */
  lemma CancelThenRemove(q: DownloadQueue, id: ItemId)
    requires Get(q.items, id).Some?
    ensures Remove(Cancel(q, id).queue, id).value.Ok?
  {
  }

  /** A completed or failed item is removable. */
  lemma FinishThenRemove(q: DownloadQueue, id: ItemId, path: string, e: Errors.DownloadError)
    requires Get(q.items, id).Some?
    ensures Remove(Complete(q, id, path).queue, id).value.Ok?
    ensures Remove(Fail(q, id, e).queue, id).value.Ok?
  {
  }

  /** Regrouping a concatenation, as a lemma so that the resume proof below
      gets the fact without searching for it. */
  lemma AppendAssoc(a: seq<ItemId>, b: seq<ItemId>, c: seq<ItemId>)
    ensures (a + b) + c == a + (b + c)
  {
  }

  /** What the resume loop appends for one item. */
  function ResumeHead(it: QueueItem): seq<ItemId> {
    if it.status == Pending then [it.id] else []
  }

  lemma ResumeFromUnfold(items: seq<QueueItem>, pending: seq<ItemId>)
    requires |items| > 0 && (items[0].status == Pending ==> items[0].id !in pending)
    ensures ResumeFrom(items, pending) == ResumeFrom(items[1..], pending + ResumeHead(items[0]))
    ensures PendingIds(items) == ResumeHead(items[0]) + PendingIds(items[1..])
  {
    if items[0].status != Pending {
      assert pending + ResumeHead(items[0]) == pending;
    }
  }

  /** The tail of a list with unique ids has unique ids, none of them the
      head's. */
  lemma TailIds(items: seq<QueueItem>)
    requires |items| > 0 && NoDup(Ids(items))
    ensures NoDup(Ids(items[1..])) && items[0].id !in Ids(items[1..])
  {
    assert Ids(items) == [items[0].id] + Ids(items[1..]);
    NoDupCons(items[0].id, Ids(items[1..]));
  }

  /** The side conditions of `ResumeFromAppends` carry over to the tail. */
  lemma ResumeTail(items: seq<QueueItem>, pending: seq<ItemId>)
    requires |items| > 0 && items[0].id !in Ids(items[1..])
    requires forall x :: x in PendingIds(items) ==> x !in pending
    ensures items[0].status == Pending ==> items[0].id !in pending
    ensures forall x :: x in PendingIds(items[1..]) ==> x !in pending + ResumeHead(items[0])
  {
    assert PendingIds(items) == ResumeHead(items[0]) + PendingIds(items[1..]);
  }

  /** With unique ids, the resume loop from a list holding none of the
      Pending items' ids appends exactly those ids in item order. */
  lemma {:induction false} ResumeFromAppends(items: seq<QueueItem>, pending: seq<ItemId>)
    requires NoDup(Ids(items))
    requires forall x :: x in PendingIds(items) ==> x !in pending
    ensures ResumeFrom(items, pending) == pending + PendingIds(items)
    decreases |items|
  {
    if |items| > 0 {
      var h, rest := ResumeHead(items[0]), PendingIds(items[1..]);
      var next := pending + h;
      assert ResumeFrom(items, pending) == ResumeFrom(items[1..], next) && PendingIds(items) == h + rest by {
        TailIds(items);
        ResumeTail(items, pending);
        ResumeFromUnfold(items, pending);
      }
      assert ResumeFrom(items[1..], next) == next + rest by {
        TailIds(items);
        ResumeTail(items, pending);
        ResumeFromAppends(items[1..], next);
      }
      AppendAssoc(pending, h, rest);
    }
  }

  /** `pause_all` followed by `resume_all` leaves exactly the Pending items
      waiting, in item order, each once; the statuses are untouched. */
  lemma PauseThenResume(q: DownloadQueue)
    requires NoDup(Ids(q.items))
    ensures ResumeAll(PauseAll(q).queue).queue.pending == PendingIds(q.items)
    ensures NoDup(ResumeAll(PauseAll(q).queue).queue.pending)
    ensures ResumeAll(PauseAll(q).queue).queue.items == q.items
  {
    ResumeFromAppends(q.items, []);
    assert [] + PendingIds(q.items) == PendingIds(q.items);
  }
}

=== FILE: retry_lemmas.dfy ===
// Closed forms of the retry delay in terms of `Pow`, the exponent's sign
// decided by the u32-to-i32 reinterpretation of the attempt number.
module RetryLemmas {
  import opened Wrappers
  import opened Ints
  import opened Errors

  /** The delay for attempt `a` below 2^31 is `initial * multiplier^a` cast
      to an unsigned integer (`Scaled` of the power) and capped at the
      maximum. */
  lemma DelayValue(c: RetryConfig, a: u32)
    requires a < 0x8000_0000
    ensures DelayForAttempt(c, a) ==
      Min(Scaled(c.initialDelayMs, Some(Pow(c.backoffMultiplier, a as nat))), c.maxDelayMs)
  {
    PowIOfAttempt(c.backoffMultiplier, a);
  }

  /** From attempt 2^31 the exponent is `a - 2^32`, so the delay divides by
      `multiplier^(2^32 - a)`; a zero multiplier gives infinity, which casts
      to the largest u64 (or to 0 from an initial delay of 0) and so yields
      the cap. */
  lemma DelayValueWrapped(c: RetryConfig, a: u32)
    requires a >= 0x8000_0000
    ensures c.backoffMultiplier != 0.0 ==>
      DelayForAttempt(c, a) ==
        Min(Scaled(c.initialDelayMs, Some(1.0 / Pow(c.backoffMultiplier, U32_LIMIT - a))), c.maxDelayMs)
    ensures c.backoffMultiplier == 0.0 ==>
      DelayForAttempt(c, a) == if c.initialDelayMs == 0 then 0 else c.maxDelayMs
  {
    if c.backoffMultiplier != 0.0 {
      PowIOfWrappedAttempt(c.backoffMultiplier, a);
    }
  }

  lemma PowIOfAttempt(m: real, a: u32)
    requires a < 0x8000_0000
    ensures PowI(m, U32AsI32(a)) == Some(Pow(m, a as nat))
  {
  }

  lemma PowIOfWrappedAttempt(m: real, a: u32)
    requires a >= 0x8000_0000 && m != 0.0
    ensures PowI(m, U32AsI32(a)) == Some(1.0 / Pow(m, U32_LIMIT - a))
  {
  }
}

=== FILE: seqs.dfy ===
/** Sequence helpers shared by the queue and history models: Rust's
    `retain`/`filter`, duplicate freedom, first position and element swap. */
module Seqs {
  import opened Wrappers

  /** No element occurs twice. */
  ghost predicate NoDup<T(!new)>(xs: seq<T>) {
    forall x :: multiset(xs)[x] <= 1
  }

  /** `r` is `xs` with some elements left out: the rest keep their order. */
  predicate IsSubseq<T(==)>(r: seq<T>, xs: seq<T>)
    decreases |xs|
  {
    |r| == 0 ||
    (|xs| > 0 && ((r[0] == xs[0] && IsSubseq(r[1..], xs[1..])) || IsSubseq(r, xs[1..])))
  }

  /** `retain`/`filter`: the elements satisfying `p`, in their original
      order, each as often as it occurs in `xs`. */
  function Filter<T(!new)>(p: T -> bool, xs: seq<T>): (r: seq<T>)
    ensures |r| <= |xs|
    ensures forall x :: x in r <==> x in xs && p(x)
    decreases |xs|
  {
    if |xs| == 0 then []
    else
      assert xs == [xs[0]] + xs[1..];
      var rest := Filter(p, xs[1..]);
      if p(xs[0]) then [xs[0]] + rest else rest
  }

  /** Filtering keeps the order of the kept elements. */
  lemma {:induction false} FilterIsSubseq<T(!new)>(p: T -> bool, xs: seq<T>)
    ensures IsSubseq(Filter(p, xs), xs)
    decreases |xs|
  {
    if |xs| > 0 {
      var rest := Filter(p, xs[1..]);
      FilterIsSubseq(p, xs[1..]);
      if p(xs[0]) {
        assert ([xs[0]] + rest)[1..] == rest;
      }
    }
  }

  /** An order-keeping selection never holds more copies than the sequence. */
  lemma {:induction false} SubseqMultiset<T>(r: seq<T>, xs: seq<T>)
    requires IsSubseq(r, xs)
    ensures multiset(r) <= multiset(xs)
    decreases |xs|
  {
    if |r| > 0 {
      assert xs == [xs[0]] + xs[1..];
      if r[0] == xs[0] && IsSubseq(r[1..], xs[1..]) {
        SubseqMultiset(r[1..], xs[1..]);
        assert r == [r[0]] + r[1..];
      } else {
        SubseqMultiset(r, xs[1..]);
      }
    }
  }

  /** `Filter` is the only order-keeping selection that keeps every passing
      element as often as it occurs and nothing else. */
  lemma {:induction false} FilterUnique<T(!new)>(p: T -> bool, xs: seq<T>, r: seq<T>)
    requires IsSubseq(r, xs)
    requires forall x :: multiset(r)[x] == if p(x) then multiset(xs)[x] else 0
    ensures r == Filter(p, xs)
    decreases |xs|
  {
    if |xs| == 0 {
      assert |r| == 0;
    } else {
      var h, t := xs[0], xs[1..];
      assert xs == [h] + t;
      assert multiset(xs) == multiset{h} + multiset(t);
      FilterCount(p, t);
      if |r| > 0 && r[0] == h && IsSubseq(r[1..], t) {
        assert r == [h] + r[1..];
        assert multiset(r) == multiset{h} + multiset(r[1..]);
        assert p(h) by {
          assert multiset(r)[h] > 0;
        }
        FilterUnique(p, t, r[1..]);
      } else {
        assert IsSubseq(r, t);
        SubseqMultiset(r, t);
        assert !p(h);
        FilterUnique(p, t, r);
      }
    }
  }

  /** Filtering keeps each passing element as often as it occurs and drops
      every other. */
  lemma {:induction false} FilterCount<T(!new)>(p: T -> bool, xs: seq<T>)
    ensures forall x :: multiset(Filter(p, xs))[x] == if p(x) then multiset(xs)[x] else 0
    decreases |xs|
  {
    if |xs| > 0 {
      FilterCount(p, xs[1..]);
      assert xs == [xs[0]] + xs[1..];
      assert multiset(xs) == multiset{xs[0]} + multiset(xs[1..]);
    }
  }

  /** Filtering distributes over concatenation, which fixes the order of
      the kept elements. */
  lemma {:induction false} FilterAppend<T(!new)>(p: T -> bool, a: seq<T>, b: seq<T>)
    ensures Filter(p, a + b) == Filter(p, a) + Filter(p, b)
    decreases |a|
  {
    if |a| == 0 {
      assert a + b == b;
    } else {
      var h := if p(a[0]) then [a[0]] else [];
      assert Filter(p, a + b) == h + Filter(p, a[1..] + b) by {
        assert (a + b)[1..] == a[1..] + b;
        assert (a + b)[0] == a[0];
        FilterFirst(p, a + b);
      }
      assert Filter(p, a) == h + Filter(p, a[1..]) by {
        FilterFirst(p, a);
      }
      FilterAppend(p, a[1..], b);
      Associate(h, Filter(p, a[1..]), Filter(p, b));
    }
  }

  lemma Associate<T>(a: seq<T>, b: seq<T>, c: seq<T>)
    ensures a + (b + c) == (a + b) + c
  {
  }

  /** Filtering decides the first element and goes on with the rest. */
  lemma FilterFirst<T(!new)>(p: T -> bool, xs: seq<T>)
    requires |xs| > 0
    ensures Filter(p, xs) == (if p(xs[0]) then [xs[0]] else []) + Filter(p, xs[1..])
  {
  }

  /** Filtering keeps a sequence whose elements all pass. */
  lemma {:induction false} FilterAll<T(!new)>(p: T -> bool, xs: seq<T>)
    requires forall x :: x in xs ==> p(x)
    ensures Filter(p, xs) == xs
    decreases |xs|
  {
    if |xs| > 0 {
      assert forall x :: x in xs[1..] ==> x in xs;
      FilterAll(p, xs[1..]);
      assert xs == [xs[0]] + xs[1..];
    }
  }

  /** `retain(|&i| i != x)`: every occurrence of `x` dropped, order kept. */
  function Without<T(==,!new)>(xs: seq<T>, x: T): (r: seq<T>)
    ensures forall y :: y in r <==> y in xs && y != x
    ensures x !in r
    ensures multiset(r) <= multiset(xs)
    ensures NoDup(xs) ==> NoDup(r)
    ensures x !in xs ==> r == xs
    ensures IsSubseq(r, xs)
  {
    var keep := y => y != x;
    FilterCount(keep, xs);
    FilterIsSubseq(keep, xs);
    if x !in xs then FilterAll(keep, xs); Filter(keep, xs)
    else Filter(keep, xs)
  }

  /** Every sequence is a subsequence of itself. */
  lemma {:induction false} SubseqRefl<T>(xs: seq<T>)
    ensures IsSubseq(xs, xs)
    decreases |xs|
  {
    if |xs| > 0 {
      SubseqRefl(xs[1..]);
    }
  }

  /** Putting the same element in front of both sides keeps a subsequence. */
  lemma ConsBothSubseq<T>(x: T, r: seq<T>, xs: seq<T>)
    requires IsSubseq(r, xs)
    ensures IsSubseq([x] + r, [x] + xs)
  {
    assert ([x] + r)[1..] == r && ([x] + xs)[1..] == xs;
  }

  /** An element in front of the longer side only is skipped. */
  lemma ConsRightSubseq<T>(x: T, r: seq<T>, xs: seq<T>)
    requires IsSubseq(r, xs)
    ensures IsSubseq(r, [x] + xs)
  {
    assert ([x] + xs)[1..] == xs;
  }

  /** The first part of a concatenation is a subsequence of it. */
  lemma {:induction false} PrefixSubseq<T>(a: seq<T>, b: seq<T>)
    ensures IsSubseq(a, a + b)
    decreases |a|
  {
    if |a| > 0 {
      PrefixSubseq(a[1..], b);
      assert a == [a[0]] + a[1..] && a + b == [a[0]] + (a[1..] + b);
      ConsBothSubseq(a[0], a[1..], a[1..] + b);
    }
  }

  /** So is the second part. */
  lemma {:induction false} SuffixSubseq<T>(a: seq<T>, b: seq<T>)
    ensures IsSubseq(b, a + b)
    decreases |a|
  {
    if |a| == 0 {
      assert a + b == b;
      SubseqRefl(b);
    } else {
      SuffixSubseq(a[1..], b);
      assert a + b == [a[0]] + (a[1..] + b);
      ConsRightSubseq(a[0], b, a[1..] + b);
    }
  }

  /** `Vec::remove(k)` keeps the order of the other elements. */
  lemma {:induction false} CutIsSubseq<T>(xs: seq<T>, k: nat)
    requires k < |xs|
    ensures IsSubseq(xs[..k] + xs[k + 1..], xs)
    decreases k
  {
    var r := xs[..k] + xs[k + 1..];
    if k == 0 {
      assert r == xs[1..];
      SubseqRefl(xs[1..]);
    } else {
      CutIsSubseq(xs[1..], k - 1);
      assert r[0] == xs[0];
      assert r[1..] == xs[1..][..k - 1] + xs[1..][k..];
    }
  }

  /** `iter().position(|&i| i == x)`: the first index holding `x`. */
  function Position<T(==)>(xs: seq<T>, x: T, k: nat := 0): (r: Option<nat>)
    requires k <= |xs|
    ensures r.Some? ==> k <= r.value < |xs| && xs[r.value] == x
    ensures r.Some? ==> forall j :: k <= j < r.value ==> xs[j] != x
    ensures r.None? <==> forall j :: k <= j < |xs| ==> xs[j] != x
    decreases |xs| - k
  {
    if k == |xs| then None
    else if xs[k] == x then Some(k)
    else Position(xs, x, k + 1)
  }

  /** In a duplicate-free sequence distinct indices hold distinct values. */
  lemma DistinctIndices<T(!new)>(xs: seq<T>, j: nat, i: nat)
    requires NoDup(xs) && j < i < |xs|
    ensures xs[j] != xs[i]
  {
    var a, b := xs[..j + 1], xs[j + 1..];
    assert xs == a + b;
    assert multiset(xs) == multiset(a) + multiset(b);
    assert a[j] == xs[j] && b[i - j - 1] == xs[i];
    assert multiset(a)[xs[j]] >= 1 && multiset(b)[xs[i]] >= 1;
    assert multiset(xs)[xs[j]] == multiset(a)[xs[j]] + multiset(b)[xs[j]];
    assert multiset(xs)[xs[j]] <= 1;
  }

  /** In a duplicate-free sequence the first index is the only one. */
  lemma PositionOfIndex<T(!new)>(xs: seq<T>, i: nat)
    requires NoDup(xs) && i < |xs|
    ensures Position(xs, xs[i]) == Some(i)
  {
    forall j | 0 <= j < i
      ensures xs[j] != xs[i]
    {
      DistinctIndices(xs, j, i);
    }
  }

  /** A sequence with a head is duplicate-free exactly when the head is not
      repeated in the tail and the tail is duplicate-free. */
  lemma NoDupCons<T(!new)>(x: T, xs: seq<T>)
    ensures NoDup([x] + xs) <==> x !in xs && NoDup(xs)
  {
    assert multiset([x] + xs) == multiset{x} + multiset(xs);
    if x in xs {
      assert multiset([x] + xs)[x] >= 2;
    }
    if NoDup([x] + xs) {
      forall y
        ensures multiset(xs)[y] <= 1
      {
        assert multiset([x] + xs)[y] >= multiset(xs)[y];
      }
    }
  }

  /** Appending a new element keeps a sequence duplicate-free. */
  lemma NoDupSnoc<T(!new)>(xs: seq<T>, x: T)
    requires NoDup(xs) && x !in xs
    ensures NoDup(xs + [x])
  {
    assert multiset(xs + [x]) == multiset(xs) + multiset{x};
    assert multiset(xs)[x] == 0;
  }

  /** Fewer copies of each element keep duplicate freedom. */
  lemma NoDupSub<T(!new)>(a: seq<T>, b: seq<T>)
    requires NoDup(b) && multiset(a) <= multiset(b)
    ensures NoDup(a)
  {
    forall y
      ensures multiset(a)[y] <= 1
    {
      assert multiset(a)[y] <= multiset(b)[y];
    }
  }

  /** The first position in a concatenation is found in the left part when
      it holds the element and otherwise in the right part, shifted. */
  lemma PositionAppend<T(!new)>(xs: seq<T>, ys: seq<T>, x: T)
    ensures Position(xs + ys, x) ==
      match Position(xs, x)
      case Some(k) => Some(k)
      case None =>
        match Position(ys, x)
        case Some(k) => Some(|xs| + k)
        case None => None
  {
    var zs := xs + ys;
    assert forall j :: 0 <= j < |xs| ==> zs[j] == xs[j];
    assert forall j :: |xs| <= j < |zs| ==> zs[j] == ys[j - |xs|];
    var r := Position(zs, x);
    match Position(xs, x)
    case Some(k) =>
      assert zs[k] == x;
    case None =>
      match Position(ys, x)
      case Some(k) =>
        assert zs[|xs| + k] == x;
        assert r.value >= |xs|;
        assert r.value - |xs| >= k;
      case None =>
  }

  /** `swap(i, j)`. */
  function Swap<T>(xs: seq<T>, i: nat, j: nat): (r: seq<T>)
    requires i < |xs| && j < |xs|
    ensures |r| == |xs| && r[i] == xs[j] && r[j] == xs[i]
    ensures forall k :: 0 <= k < |xs| && k != i && k != j ==> r[k] == xs[k]
    ensures multiset(r) == multiset(xs)
  {
    var r := xs[i := xs[j]][j := xs[i]];
    assert multiset(xs[i := xs[j]]) == multiset(xs) - multiset{xs[i]} + multiset{xs[j]};
    r
  }

  /** Swapping the same two places again restores the sequence. */
  lemma SwapTwice<T>(xs: seq<T>, i: nat, j: nat)
    requires i < |xs| && j < |xs|
    ensures Swap(Swap(xs, i, j), j, i) == xs
  {
    var r := Swap(Swap(xs, i, j), j, i);
    assert forall k :: 0 <= k < |xs| ==> r[k] == xs[k];
  }

  /** Cutting out one element takes exactly one copy of it. */
  lemma RemoveAtMultiset<T>(xs: seq<T>, k: nat)
    requires k < |xs|
    ensures multiset(xs[..k] + xs[k + 1..]) + multiset{xs[k]} == multiset(xs)
  {
    assert xs == xs[..k] + [xs[k]] + xs[k + 1..];
  }

  /** The first result `f` gives along `xs`: `Iterator::find_map`. */
  function FirstSome<T, U(==)>(f: T -> Option<U>, xs: seq<T>): (r: Option<U>)
    ensures r.None? <==> forall k :: 0 <= k < |xs| ==> f(xs[k]).None?
    ensures r.Some? ==>
      exists k :: 0 <= k < |xs| && f(xs[k]) == r && (forall j :: 0 <= j < k ==> f(xs[j]).None?)
    decreases |xs|
  {
    if |xs| == 0 then None
    else
      match f(xs[0])
      case Some(v) => Some(v)
      case None =>
        var r := FirstSome(f, xs[1..]);
        assert forall k :: 0 <= k < |xs| - 1 ==> xs[1..][k] == xs[k + 1];
        if r.Some? then
          var k :| 0 <= k < |xs[1..]| && f(xs[1..][k]) == r &&
            (forall j :: 0 <= j < k ==> f(xs[1..][j]).None?);
          assert f(xs[k + 1]) == r;
          r
        else r
  }

  /** An index holding `x` with no `x` before it is the first position. */
  lemma PositionIs<T>(xs: seq<T>, x: T, m: nat)
    requires m < |xs| && xs[m] == x
    requires forall j :: 0 <= j < m ==> xs[j] != x
    ensures Position(xs, x) == Some(m)
  {
    var r := Position(xs, x);
    assert r.Some?;
    assert !(r.value < m);
    assert !(r.value > m);
  }

  /** Dropping the element at `k`, which is not `x`, moves the first `x`
      after `k` one place forward and leaves one before `k` where it is. */
  lemma PositionDropped<T>(xs: seq<T>, ys: seq<T>, k: nat, x: T)
    requires k < |xs| && xs[k] != x && |ys| == |xs| - 1
    requires forall j :: 0 <= j < k ==> ys[j] == xs[j]
    requires forall j :: k <= j < |ys| ==> ys[j] == xs[j + 1]
    ensures Position(ys, x) ==
      match Position(xs, x)
      case None => None
      case Some(m) => Some(if m < k then m else m - 1)
  {
    match Position(xs, x)
    case None =>
      forall j | 0 <= j < |ys| ensures ys[j] != x {
        if j >= k { assert ys[j] == xs[j + 1]; }
      }
    case Some(m) =>
      if m < k {
        PositionIs(ys, x, m);
      } else {
        assert ys[m - 1] == xs[m];
        forall j | 0 <= j < m - 1 ensures ys[j] != x {
          if j >= k { assert ys[j] == xs[j + 1]; }
        }
        PositionIs(ys, x, m - 1);
      }
  }
}

=== FILE: sorting.dfy ===
/** Rust's `Ord` on strings and the stable `sort_by` used on lists keyed by
    a string: the result is ordered by the key and holds the same elements. */
module Sorting {

  /** Lexicographic order on strings, which for UTF-8 text is the order of
      the code points. */
  predicate StrLe(a: string, b: string)
    decreases |a|
  {
    |a| == 0 || (|b| > 0 && (a[0] < b[0] || (a[0] == b[0] && StrLe(a[1..], b[1..]))))
  }

  /** Any two strings are comparable. */
  lemma {:induction false} StrLeTotal(a: string, b: string)
    ensures StrLe(a, b) || StrLe(b, a)
    decreases |a|
  {
    if |a| > 0 && |b| > 0 && a[0] == b[0] {
      StrLeTotal(a[1..], b[1..]);
    }
  }

  /** The order is transitive. */
  lemma {:induction false} StrLeTrans(a: string, b: string, c: string)
    requires StrLe(a, b) && StrLe(b, c)
    ensures StrLe(a, c)
    decreases |a|
  {
    if |a| > 0 && a[0] == b[0] && b[0] == c[0] {
      StrLeTrans(a[1..], b[1..], c[1..]);
    }
  }

  /** Neighbours are in key order. */
  predicate SortedBy<T>(key: T -> string, xs: seq<T>) {
    forall i :: 0 <= i < |xs| - 1 ==> StrLe(key(xs[i]), key(xs[i + 1]))
  }

  /** Any two elements are in key order, not only neighbours. */
  lemma {:induction false} SortedByAll<T>(key: T -> string, xs: seq<T>, i: nat, j: nat)
    requires SortedBy(key, xs) && i <= j < |xs|
    ensures StrLe(key(xs[i]), key(xs[j]))
    decreases j - i
  {
    if i == j {
      StrLeRefl(key(xs[i]));
    } else {
      SortedByAll(key, xs, i + 1, j);
      StrLeTrans(key(xs[i]), key(xs[i + 1]), key(xs[j]));
    }
  }

  lemma {:induction false} StrLeRefl(a: string)
    ensures StrLe(a, a)
    decreases |a|
  {
    if |a| > 0 {
      StrLeRefl(a[1..]);
    }
  }

  /** Insert `x` after every element whose key is not greater, so equal
      keys keep their arrival order. */
  function InsertBy<T>(key: T -> string, x: T, s: seq<T>): (r: seq<T>)
    ensures |r| == |s| + 1
    ensures r[0] == x || (|s| > 0 && r[0] == s[0])
    ensures multiset(r) == multiset(s) + multiset{x}
    ensures SortedBy(key, s) ==> SortedBy(key, r)
    decreases |s|
  {
    if |s| == 0 then [x]
    else if !StrLe(key(s[0]), key(x)) then
      StrLeTotal(key(s[0]), key(x));
      [x] + s
    else
      var rest := InsertBy(key, x, s[1..]);
      assert s == [s[0]] + s[1..];
      assert SortedBy(key, s) ==> SortedBy(key, s[1..]) by {
        if SortedBy(key, s) {
          forall i | 0 <= i < |s[1..]| - 1 ensures StrLe(key(s[1..][i]), key(s[1..][i + 1])) {
            assert s[1..][i] == s[i + 1] && s[1..][i + 1] == s[i + 2];
          }
        }
      }
      [s[0]] + rest
  }

  /** `sort_by(|a, b| key(a).cmp(key(b)))`: a stable insertion sort. */
  function SortBy<T>(key: T -> string, xs: seq<T>): (r: seq<T>)
    ensures SortedBy(key, r)
    ensures multiset(r) == multiset(xs)
    ensures |r| == |xs|
    decreases |xs|
  {
    if |xs| == 0 then []
    else
      assert xs == xs[..|xs| - 1] + [xs[|xs| - 1]];
      InsertBy(key, xs[|xs| - 1], SortBy(key, xs[..|xs| - 1]))
  }
}

=== FILE: state.dfy ===
/** The download lifecycle state machine: nine states and the allow-list of
    moves between them. */
module State {
  import opened Wrappers

  datatype DownloadState =
    | Idle         // no active download
    | Analyzing    // fetching media info
    | Starting     // starting the download process
    | Downloading
    | Merging      // merging video and audio streams
    | Completed
    | Cancelled
    | Cancelling   // cancellation in progress
    | Failed

  /** The state a fresh manager starts in (`Default`). */
  function DefaultState(): (s: DownloadState)
    ensures !IsActive(s) && !IsTerminal(s)
    ensures forall t :: CanTransition(t, s) ==> IsTerminal(t) || t == Analyzing
  {
    Idle
  }

  /** The legal moves, listed pair by pair. */
  predicate CanTransition(from: DownloadState, to: DownloadState) {
    match (from, to)
    case (Idle, Analyzing) => true
    case (Idle, Starting) => true
    case (Analyzing, Idle) => true
    case (Analyzing, Starting) => true
    case (Analyzing, Failed) => true
    case (Starting, Downloading) => true
    case (Starting, Failed) => true
    case (Downloading, Merging) => true
    case (Downloading, Completed) => true
    case (Downloading, Cancelling) => true
    case (Downloading, Failed) => true
    case (Merging, Completed) => true
    case (Merging, Cancelling) => true
    case (Merging, Failed) => true
    case (Cancelling, Cancelled) => true
    case (Completed, Idle) => true
    case (Cancelled, Idle) => true
    case (Failed, Idle) => true
    case _ => false
  }

  /** `transition_to`: the target when the move is legal, otherwise the
      unchanged source state as the error. */
  function TransitionTo(from: DownloadState, to: DownloadState): (r: Result<DownloadState, DownloadState>)
    ensures r.Ok? <==> CanTransition(from, to)
    ensures r.Ok? ==> r.value == to
    ensures r.Err? ==> r.error == from
  {
    if CanTransition(from, to) then Ok(to) else Err(from)
  }

  /** A download is in flight: neither idle nor finished. */
  predicate IsActive(s: DownloadState) {
    s.Analyzing? || s.Starting? || s.Downloading? || s.Merging? || s.Cancelling?
  }

  predicate IsTerminal(s: DownloadState) {
    s.Completed? || s.Cancelled? || s.Failed?
  }

  /** The allow-list as data, independent of the `match` above. */
  const AllowedPairs: set<(DownloadState, DownloadState)> := {
    (Idle, Analyzing), (Idle, Starting),
    (Analyzing, Idle), (Analyzing, Starting), (Analyzing, Failed),
    (Starting, Downloading), (Starting, Failed),
    (Downloading, Merging), (Downloading, Completed), (Downloading, Cancelling), (Downloading, Failed),
    (Merging, Completed), (Merging, Cancelling), (Merging, Failed),
    (Cancelling, Cancelled),
    (Completed, Idle), (Cancelled, Idle), (Failed, Idle)
  }

  /** `CanTransition` holds for exactly the listed pairs. */
  lemma CanTransitionMatchesList(a: DownloadState, b: DownloadState)
    ensures CanTransition(a, b) <==> (a, b) in AllowedPairs
  {
  }

  /** Active and terminal states and Idle partition the nine states. */
  lemma ActivePartition(s: DownloadState)
    ensures IsActive(s) <==> !IsTerminal(s) && s != Idle
  {
  }

  /** No state moves to itself. */
  lemma NoSelfLoop(s: DownloadState)
    ensures !CanTransition(s, s)
  {
  }

  /** Finished states can only be reset, and Cancelling can only finish as Cancelled. */
  lemma OnlySuccessors(s: DownloadState, t: DownloadState)
    ensures IsTerminal(s) ==> (CanTransition(s, t) <==> t == Idle)
    ensures s == Cancelling ==> (CanTransition(s, t) <==> t == Cancelled)
  {
  }

  /** A run of `transition_to` calls; stops at the first rejected move. */
  function Run(s: DownloadState, targets: seq<DownloadState>): (r: Result<DownloadState, DownloadState>)
    decreases |targets|
  {
    if |targets| == 0 then Ok(s)
    else
      match TransitionTo(s, targets[0])
      case Ok(next) => Run(next, targets[1..])
      case Err(e) => Err(e)
  }

  /** A path every consecutive pair of which is a legal move. */
  predicate IsPath(p: seq<DownloadState>) {
    forall i :: 0 <= i < |p| - 1 ==> CanTransition(p[i], p[i + 1])
  }

  /** A run succeeds exactly when the visited states form a legal path, and it
      then ends at the last target. */
  lemma {:induction false} RunSucceedsIffPath(s: DownloadState, targets: seq<DownloadState>)
    ensures Run(s, targets).Ok? <==> IsPath([s] + targets)
    ensures Run(s, targets).Ok? ==> Run(s, targets).value == if |targets| == 0 then s else targets[|targets| - 1]
    decreases |targets|
  {
    if |targets| > 0 {
      RunSucceedsIffPath(targets[0], targets[1..]);
      assert [s] + targets == [s] + ([targets[0]] + targets[1..]);
      assert [targets[0]] + targets[1..] == targets;
      var p := [s] + targets;
      assert IsPath(p) <==> CanTransition(s, targets[0]) && IsPath(targets) by {
        if CanTransition(s, targets[0]) && IsPath(targets) {
          forall i | 0 <= i < |p| - 1 ensures CanTransition(p[i], p[i + 1]) {
            if i > 0 {
              assert p[i] == targets[i - 1] && p[i + 1] == targets[i];
            } else {
              assert p[0] == s && p[1] == targets[0];
            }
          }
        }
        if IsPath(p) {
          assert p[0] == s && p[1] == targets[0];
          assert CanTransition(p[0], p[1]);
          forall i | 0 <= i < |targets| - 1 ensures CanTransition(targets[i], targets[i + 1]) {
            assert p[i + 1] == targets[i] && p[i + 2] == targets[i + 1];
          }
        }
      }
    }
  }

  /** The flows the manager relies on are legal, and a backwards move from
      Downloading is refused with the state unchanged. */
  lemma TypicalFlows()
    ensures Run(Idle, [Starting, Downloading, Merging, Completed, Idle]) == Ok(Idle)
    ensures Run(Downloading, [Cancelling, Cancelled, Idle]) == Ok(Idle)
    ensures TransitionTo(Downloading, Starting) == Err(Downloading)
  {
  }

  /** A legal path that starts at Idle and reaches Completed has passed
      through Starting and Downloading: nothing completes without having
      been downloaded. */
  lemma CompletedNeedsDownload(p: seq<DownloadState>, j: nat)
    requires IsPath(p) && j < |p| && p[0] == Idle && p[j] == Completed
    ensures Starting in p[..j] && Downloading in p[..j]
  {
    // Completed is entered from Downloading or Merging, Merging only from
    // Downloading, and Downloading only from Starting.
    assert CanTransition(p[j - 1], p[j]);
    var d := if p[j - 1] == Downloading then j - 1 else j - 2;
    assert CanTransition(p[d], p[d + 1]);
    assert p[d] == Downloading;
    assert CanTransition(p[d - 1], p[d]);
    assert p[d - 1] == Starting;
    assert p[..j][d] == Downloading && p[..j][d - 1] == Starting;
  }

  /** Cancelled is only ever entered from Cancelling. */
  lemma CancelledOnlyViaCancelling(p: seq<DownloadState>, j: nat)
    requires IsPath(p) && 0 < j < |p| && p[j] == Cancelled
    ensures p[j - 1] == Cancelling
  {
    assert CanTransition(p[j - 1], p[j]);
  }
}

=== FILE: subtitles.dfy ===
/** Subtitles: the yt-dlp options for downloading and embedding them, the
    language names shown for track codes, and the track lists read from
    yt-dlp's JSON description of a video. The JSON is an abstract record. */
module Subtitles {
  import opened Wrappers
  import opened Text
  import opened Seqs
  import opened Sorting

  // ---------------------------------------------------------------------------
  // Download options
  // ---------------------------------------------------------------------------

  /** What the user asked for. `languages` empty means all of them. */
  datatype SubtitleOptions = SubtitleOptions(
    downloadSubtitles: bool,
    embedSubtitles: bool,
    languages: seq<string>,
    format: string,              // "srt", "vtt", "ass" or "best"
    includeAuto: bool)

  /** Nothing requested, SRT when something is. */
  function DefaultOptions(): (o: SubtitleOptions)
    ensures !o.downloadSubtitles && !o.embedSubtitles && o.languages == [] && !o.includeAuto
    ensures o.format == "srt"
  {
    SubtitleOptions(false, false, [], "srt", false)
  }

  /** The value of "--sub-langs": the chosen codes joined by commas, or
      "all" when none is chosen. */
  function LangValue(o: SubtitleOptions): (r: string)
    ensures o.languages == [] ==> r == "all"
    ensures o.languages != [] ==> r == Join(o.languages, ",")
  {
    if |o.languages| > 0 then Join(o.languages, ",") else "all"
  }

  /** The value of "--sub-format": SRT, VTT and ASS are asked for by name,
      anything else as SRT, each falling back to the best available. */
  function SubFormat(format: string): (r: string)
    ensures r in ["srt/best", "vtt/best", "ass/best"]
    ensures format in ["srt", "vtt", "ass"] ==> r == format + "/best"
    ensures format !in ["srt", "vtt", "ass"] ==> r == "srt/best"
  {
    match format
    case "srt" => "srt/best"
    case "vtt" => "vtt/best"
    case "ass" => "ass/best"
    case _ => "srt/best"
  }

  /** The file-writing options. */
  function WriteArgs(o: SubtitleOptions): (r: seq<string>)
    ensures !o.downloadSubtitles ==> r == []
    ensures o.downloadSubtitles && !o.includeAuto ==> r == ["--write-subs"]
    ensures o.downloadSubtitles && o.includeAuto ==> r == ["--write-subs", "--write-auto-subs"]
  {
    if !o.downloadSubtitles then []
    else if o.includeAuto then ["--write-subs", "--write-auto-subs"]
    else ["--write-subs"]
  }

  /** The conversion options, only when writing files. */
  function FormatArgs(o: SubtitleOptions): (r: seq<string>)
    ensures !o.downloadSubtitles ==> r == []
    ensures o.downloadSubtitles ==> r == ["--sub-format", SubFormat(o.format), "--convert-subs", o.format]
  {
    if o.downloadSubtitles then ["--sub-format", SubFormat(o.format), "--convert-subs", o.format] else []
  }

  /** `build_subtitle_args`: nothing when subtitles are neither downloaded
      nor embedded; otherwise the writing options, the embedding option,
      the language selection and, when writing files, the format. */
  function SubtitleArgs(o: SubtitleOptions): (r: seq<string>)
    ensures r == [] <==> !o.downloadSubtitles && !o.embedSubtitles
    ensures r != [] ==>
      var k := |WriteArgs(o)| + (if o.embedSubtitles then 1 else 0);
      k + 1 < |r| && r[k] == "--sub-langs" && r[k + 1] == LangValue(o)
    ensures o.downloadSubtitles ==>
      |r| >= 4 && r[|r| - 4..] == ["--sub-format", SubFormat(o.format), "--convert-subs", o.format]
  {
    if !o.downloadSubtitles && !o.embedSubtitles then []
    else
      var w := WriteArgs(o);
      var e := if o.embedSubtitles then ["--embed-subs"] else [];
      var r := w + e + ["--sub-langs", LangValue(o)] + FormatArgs(o);
      assert r[|w| + |e|] == "--sub-langs";
      r
  }

  /** `w` is neither the language list nor the format the user gave. */
  predicate NotUserValue(o: SubtitleOptions, w: string) {
    w != LangValue(o) && w != o.format && w !in ["--sub-langs", "--sub-format", "--convert-subs", "srt/best", "vtt/best", "ass/best"]
  }

  /** Where a word can occur in the subtitle options. */
  lemma SubtitleWords(o: SubtitleOptions, w: string)
    requires NotUserValue(o, w)
    ensures w in SubtitleArgs(o) <==>
      (o.downloadSubtitles && w == "--write-subs") ||
      (o.downloadSubtitles && o.includeAuto && w == "--write-auto-subs") ||
      (o.embedSubtitles && w == "--embed-subs")
  {
    if o.downloadSubtitles || o.embedSubtitles {
      var e := if o.embedSubtitles then ["--embed-subs"] else [];
      assert SubtitleArgs(o) == WriteArgs(o) + e + ["--sub-langs", LangValue(o)] + FormatArgs(o);
      assert w !in FormatArgs(o);
    }
  }

  /** Files are written exactly when downloading is asked for. */
  lemma WriteSubsIff(o: SubtitleOptions)
    requires NotUserValue(o, "--write-subs")
    ensures "--write-subs" in SubtitleArgs(o) <==> o.downloadSubtitles
  {
    SubtitleWords(o, "--write-subs");
  }

  /** Automatic captions are written exactly when downloading them is
      asked for as well. */
  lemma WriteAutoSubsIff(o: SubtitleOptions)
    requires NotUserValue(o, "--write-auto-subs")
    ensures "--write-auto-subs" in SubtitleArgs(o) <==> o.downloadSubtitles && o.includeAuto
  {
    SubtitleWords(o, "--write-auto-subs");
  }

  /** Subtitles are embedded exactly when asked for. */
  lemma EmbedSubsIff(o: SubtitleOptions)
    requires NotUserValue(o, "--embed-subs")
    ensures "--embed-subs" in SubtitleArgs(o) <==> o.embedSubtitles
  {
    SubtitleWords(o, "--embed-subs");
  }

  // ---------------------------------------------------------------------------
  // Language names
  // ---------------------------------------------------------------------------

  /** The fixed names of the 37 known base codes. */
  const LanguageTable: seq<(string, string)> := [
    ("en", "English"), ("tr", "Türkçe"), ("de", "Deutsch"), ("fr", "Français"),
    ("es", "Español"), ("it", "Italiano"), ("pt", "Português"), ("ru", "Русский"),
    ("ja", "日本語"), ("ko", "한국어"), ("zh", "中文"), ("ar", "العربية"),
    ("hi", "हिन्दी"), ("nl", "Nederlands"), ("pl", "Polski"), ("sv", "Svenska"),
    ("no", "Norsk"), ("da", "Dansk"), ("fi", "Suomi"), ("cs", "Čeština"),
    ("el", "Ελληνικά"), ("he", "עברית"), ("th", "ไทย"), ("vi", "Tiếng Việt"),
    ("id", "Bahasa Indonesia"), ("ms", "Bahasa Melayu"), ("uk", "Українська"), ("ro", "Română"),
    ("hu", "Magyar"), ("bg", "Български"), ("hr", "Hrvatski"), ("sk", "Slovenčina"),
    ("sl", "Slovenščina"), ("sr", "Српски"), ("lt", "Lietuvių"), ("lv", "Latviešu"),
    ("et", "Eesti")]

  /** The value stored under `key`, the first one if the key repeats. */
  function Lookup(table: seq<(string, string)>, key: string): (r: Option<string>)
    ensures r.Some? ==> exists k :: 0 <= k < |table| && table[k] == (key, r.value)
    ensures r.None? <==> forall k :: 0 <= k < |table| ==> table[k].0 != key
    decreases |table|
  {
    if |table| == 0 then None
    else if table[0].0 == key then Some(table[0].1)
    else
      var r := Lookup(table[1..], key);
      assert forall k :: 0 <= k < |table[1..]| ==> table[1..][k] == table[k + 1];
      r
  }

  /** The part of a code before its first `-`. */
  function BaseCode(code: string): (r: string)
    ensures '-' !in r
  {
    Split(code, '-')[0]
  }

  /** `get_language_name`: the table's name for the base code, else the
      whole code in upper case. */
  function LanguageName(code: string): (r: string)
    ensures Lookup(LanguageTable, BaseCode(code)).Some? ==> r == Lookup(LanguageTable, BaseCode(code)).value
    ensures Lookup(LanguageTable, BaseCode(code)).None? ==> r == Upper(code)
  {
    match Lookup(LanguageTable, BaseCode(code))
    case Some(name) => name
    case None => Upper(code)
  }

  /** A regional code is named after its base language when the table
      knows it. */
  lemma RegionalCode(base: string, region: string)
    requires '-' !in base
    ensures BaseCode(base + "-" + region) == base
    ensures Lookup(LanguageTable, base).Some? ==>
      LanguageName(base + "-" + region) == LanguageName(base)
  {
    SplitAtFirst(base, '-', region);
    SplitNoSeparator(base, '-');
  }

  /** A known code is named from the table, with or without a region. */
  lemma KnownCodeExamples()
    ensures LanguageName("en") == "English"
    ensures LanguageName("en-US") == "English"
  {
    SplitNoSeparator("en", '-');
    RegionalCode("en", "US");
    assert "en-US" == "en" + "-" + "US";
  }

  /** Only the part before the first `-` is looked up, so an unknown code
      is shown in upper case. */
  lemma UnknownCodeExample()
    ensures LanguageName("unknown") == "UNKNOWN"
  {
    SplitNoSeparator("unknown", '-');
    assert Lookup(LanguageTable, "unknown").None? by {
      assert forall k :: 0 <= k < |LanguageTable| ==> |LanguageTable[k].0| == 2;
    }
    UpperUnknown();
  }

  lemma UpperUnknown()
    ensures Upper("unknown") == "UNKNOWN"
  {
    var s := "unknown";
    var u := Upper(s);
    assert s[0] == 'u' && s[1] == 'n' && s[2] == 'k' && s[3] == 'n';
    assert s[4] == 'o' && s[5] == 'w' && s[6] == 'n';
    assert UpperChar('u') == 'U' && UpperChar('n') == 'N' && UpperChar('k') == 'K';
    assert UpperChar('o') == 'O' && UpperChar('w') == 'W';
  }

  // ---------------------------------------------------------------------------
  // Track lists
  // ---------------------------------------------------------------------------

  /** One element of a language's format array: its "ext" and "name" when
      they are strings. */
  datatype FormatEntry = FormatEntry(ext: Option<string>, name: Option<string>)

  /** One key of the "subtitles" or "automatic_captions" object; `formats`
      is None when the value is not an array. */
  datatype LangEntry = LangEntry(code: string, formats: Option<seq<FormatEntry>>)

  /** yt-dlp's JSON as far as it is read: each object is None when it is
      missing or not an object. */
  datatype SubtitleJson =
    | Malformed(reason: string)
    | Document(subtitles: Option<seq<LangEntry>>, automaticCaptions: Option<seq<LangEntry>>)

  datatype SubtitleTrack = SubtitleTrack(langCode: string, langName: string, isAutomatic: bool, formats: seq<string>)

  datatype SubtitleInfo = SubtitleInfo(
    subtitles: seq<SubtitleTrack>,
    automaticCaptions: seq<SubtitleTrack>,
    hasSubtitles: bool)

  /** Each value kept once, at its first occurrence: the kept values come in
      the order in which they first appear in `xs`. */
  function Dedup(xs: seq<string>): (r: seq<string>)
    ensures forall x :: x in r <==> x in xs
    ensures NoDup(r)
    ensures |r| <= |xs|
    ensures FirstSeenOrder(r, xs)
    decreases |xs|
  {
    if |xs| == 0 then []
    else
      var init := xs[..|xs| - 1];
      var r := Dedup(init);
      var x := xs[|xs| - 1];
      assert xs == init + [x];
      forall y | y in init ensures Position(xs, y) == Position(init, y) {
        PositionAppend(init, [x], y);
      }
      if x in r then r
      else
        NoDupSnoc(r, x);
        PositionAppend(init, [x], x);
        assert Position(xs, x) == Some(|init|);
        var r' := r + [x];
        assert forall i :: 0 <= i < |r| ==> r'[i] == r[i] && r[i] in init;
        r'
  }

  /** Every two values of `r` come in the order of their first occurrences
      in `xs`. */
  predicate FirstSeenOrder(r: seq<string>, xs: seq<string>) {
    forall i, j :: 0 <= i < j < |r| && r[i] in xs && r[j] in xs ==>
      Position(xs, r[i]).value < Position(xs, r[j]).value
  }

  function Ext(f: FormatEntry): Option<string> {
    f.ext
  }

  /** `parse_subtitle_track`: the distinct extensions in order of first
      appearance, and the first entry's name or else the code's name. */
  function ParseTrack(code: string, formats: seq<FormatEntry>, automatic: bool): (t: SubtitleTrack)
    ensures t.langCode == code && t.isAutomatic == automatic
    ensures NoDup(t.formats)
    ensures forall x :: x in t.formats <==> exists k :: 0 <= k < |formats| && formats[k].ext == Some(x)
    ensures FirstSeenOrder(t.formats, FilterMap(Ext, formats))
    ensures |formats| > 0 && formats[0].name.Some? ==> t.langName == formats[0].name.value
    ensures (|formats| == 0 || formats[0].name.None?) ==> t.langName == LanguageName(code)
  {
    var exts := FilterMap(Ext, formats);
    forall x | x in exts ensures exists k :: 0 <= k < |formats| && formats[k].ext == Some(x) {
      var i :| 0 <= i < |exts| && exts[i] == x;
      FilterMapSource(Ext, formats, i);
    }
    forall x | exists k :: 0 <= k < |formats| && formats[k].ext == Some(x) ensures x in exts {
      var k :| 0 <= k < |formats| && formats[k].ext == Some(x);
      FilterMapKeeps(Ext, formats, k);
    }
    var name := if |formats| > 0 && formats[0].name.Some? then formats[0].name.value else LanguageName(code);
    SubtitleTrack(code, name, automatic, Dedup(exts))
  }

  /** A language whose value is an array and which yields some format. */
  function Kept(automatic: bool, e: LangEntry): (r: Option<SubtitleTrack>)
    ensures r.Some? <==> e.formats.Some? && ParseTrack(e.code, e.formats.value, automatic).formats != []
    ensures r.Some? ==> r.value == ParseTrack(e.code, e.formats.value, automatic)
  {
    if e.formats.Some? then
      var t := ParseTrack(e.code, e.formats.value, automatic);
      if t.formats != [] then Some(t) else None
    else None
  }

  function LangCode(t: SubtitleTrack): string {
    t.langCode
  }

  /** The tracks of one object: the kept languages, sorted by code. */
  function Tracks(entries: Option<seq<LangEntry>>, automatic: bool): (r: seq<SubtitleTrack>)
    ensures SortedBy(LangCode, r)
    ensures entries.None? ==> r == []
    ensures entries.Some? ==> multiset(r) == multiset(FilterMap(e => Kept(automatic, e), entries.value))
  {
    if entries.None? then []
    else SortBy(LangCode, FilterMap(e => Kept(automatic, e), entries.value))
  }

  /** `parse_subtitle_json`: malformed JSON is an error; otherwise both
      lists, each sorted by code, and whether either has a track. */
  function ParseSubtitleJson(j: SubtitleJson): (r: Result<SubtitleInfo, string>)
    ensures r.Err? <==> j.Malformed?
    ensures j.Malformed? ==> r == Err("Failed to parse subtitle info: " + j.reason)
    ensures r.Ok? ==>
      r.value.subtitles == Tracks(j.subtitles, false) &&
      r.value.automaticCaptions == Tracks(j.automaticCaptions, true) &&
      (r.value.hasSubtitles <==> r.value.subtitles != [] || r.value.automaticCaptions != [])
  {
    match j
    case Malformed(e) => Err("Failed to parse subtitle info: " + e)
    case Document(subs, auto) =>
      var s := Tracks(subs, false);
      var a := Tracks(auto, true);
      Ok(SubtitleInfo(s, a, s != [] || a != []))
  }

  /** Every listed track has a format and comes from its own list. */
  lemma TracksAreKept(entries: seq<LangEntry>, automatic: bool, t: SubtitleTrack)
    requires t in Tracks(Some(entries), automatic)
    ensures t.formats != [] && t.isAutomatic == automatic
    ensures exists k :: 0 <= k < |entries| && entries[k].code == t.langCode && entries[k].formats.Some?
  {
    var kept := FilterMap(e => Kept(automatic, e), entries);
    assert t in multiset(kept);
    var i :| 0 <= i < |kept| && kept[i] == t;
    FilterMapSource(e => Kept(automatic, e), entries, i);
  }

  /** Every language with some format is listed. */
  lemma KeptAreTracks(entries: seq<LangEntry>, automatic: bool, k: nat)
    requires k < |entries| && Kept(automatic, entries[k]).Some?
    ensures Kept(automatic, entries[k]).value in Tracks(Some(entries), automatic)
  {
    FilterMapKeeps(e => Kept(automatic, e), entries, k);
    var kept := FilterMap(e => Kept(automatic, e), entries);
    assert Kept(automatic, entries[k]).value in multiset(kept);
  }

  // ---------------------------------------------------------------------------
  // Fetching
  // ---------------------------------------------------------------------------

  /** The arguments of the listing run. */
  function FetchArgs(url: string): (r: seq<string>)
    ensures |r| == 5 && r[4] == url
  {
    ["--list-subs", "-J", "--no-download", "--no-playlist", url]
  }

  /** What the listing run gave: it could not be started, or it exited with
      its stderr and the JSON its stdout holds. */
  datatype ListingRun =
    | NotStarted(message: string)
    | Exited(success: bool, stderr: string, json: SubtitleJson)

  /** `fetch_subtitles`: an empty URL is refused before anything runs; a
      failed run reports the first line of its stderr. */
  function FetchSubtitles(url: string, run: ListingRun): (r: Result<SubtitleInfo, string>)
    ensures Trim(url) == "" ==> r == Err("URL cannot be empty")
    ensures Trim(url) != "" && run.NotStarted? ==> r == Err("Failed to fetch subtitles: " + run.message)
    ensures Trim(url) != "" && run.Exited? && !run.success ==>
      r == Err("Failed to fetch subtitles: " + (if Lines(run.stderr) == [] then "Unknown error" else Lines(run.stderr)[0]))
    ensures Trim(url) != "" && run.Exited? && run.success ==> r == ParseSubtitleJson(run.json)
  {
    if Trim(url) == "" then Err("URL cannot be empty")
    else
      match run
      case NotStarted(m) => Err("Failed to fetch subtitles: " + m)
      case Exited(ok, stderr, json) =>
        if !ok then
          var ls := Lines(stderr);
          Err("Failed to fetch subtitles: " + (if ls == [] then "Unknown error" else ls[0]))
        else ParseSubtitleJson(json)
  }
}

=== FILE: text.dfy ===
/** The Rust `str` operations the source relies on, over `string = seq<char>`.
    Indices are character indices; the model assumes ASCII wherever the source
    mixes byte and character positions. Case folding is ASCII-only, which is
    exactly what `eq_ignore_ascii_case` does and what `to_lowercase` does on
    ASCII text. */
module Text {
  import opened Wrappers
  import opened Ints

  // ---------------------------------------------------------------------------
  // Characters
  // ---------------------------------------------------------------------------

  /** `char::is_whitespace`: the Unicode White_Space property. */
  predicate IsWhitespace(c: char) {
    || ('\U{9}' <= c <= '\U{D}') || c == ' ' || c == '\U{85}' || c == '\U{A0}'
    || c == '\U{1680}' || ('\U{2000}' <= c <= '\U{200A}') || c == '\U{2028}'
    || c == '\U{2029}' || c == '\U{202F}' || c == '\U{205F}' || c == '\U{3000}'
  }

  predicate IsDigit(c: char) {
    '0' <= c <= '9'
  }

  predicate AllDigits(s: string) {
    forall i :: 0 <= i < |s| ==> IsDigit(s[i])
  }

  function LowerChar(c: char): char {
    if 'A' <= c <= 'Z' then (c as int + 32) as char else c
  }

  function UpperChar(c: char): char {
    if 'a' <= c <= 'z' then (c as int - 32) as char else c
  }

  /** ASCII lower-casing of a whole string. */
  function Lower(s: string): (r: string)
    ensures |r| == |s|
    ensures forall i :: 0 <= i < |s| ==> r[i] == LowerChar(s[i])
  {
    seq(|s|, i requires 0 <= i < |s| => LowerChar(s[i]))
  }

  function Upper(s: string): (r: string)
    ensures |r| == |s|
    ensures forall i :: 0 <= i < |s| ==> r[i] == UpperChar(s[i])
  {
    seq(|s|, i requires 0 <= i < |s| => UpperChar(s[i]))
  }

  /** `eq_ignore_ascii_case`. */
  predicate EqIgnoreCase(a: string, b: string) {
    Lower(a) == Lower(b)
  }

  // ---------------------------------------------------------------------------
  // Prefixes, suffixes and substrings
  // ---------------------------------------------------------------------------

  predicate StartsWith(s: string, p: string) {
    |p| <= |s| && s[..|p|] == p
  }

  predicate EndsWith(s: string, p: string) {
    |p| <= |s| && s[|s| - |p|..] == p
  }

  lemma StartsWithConcat(a: string, b: string)
    ensures StartsWith(a + b, a)
  {
    assert (a + b)[..|a|] == a;
  }

  lemma EndsWithConcat(a: string, b: string)
    ensures EndsWith(a + b, b)
  {
    assert (a + b)[|a + b| - |b|..] == b;
  }

  /** `p` occurs in `s` starting at index `i`. */
  predicate MatchAt(s: string, p: string, i: int) {
    0 <= i && i + |p| <= |s| && s[i..i + |p|] == p
  }

  /** `str::find`: the first index at which `p` occurs in `s`. */
  function IndexOf(s: string, p: string): (r: Option<nat>)
    ensures r.Some? ==> MatchAt(s, p, r.value)
    ensures r.Some? ==> forall j :: 0 <= j < r.value ==> !MatchAt(s, p, j)
    ensures r.None? ==> forall j :: 0 <= j <= |s| ==> !MatchAt(s, p, j)
  {
    IndexFrom(s, p, 0)
  }

  /** The first index at or after `k` at which `p` occurs in `s`. */
  function IndexFrom(s: string, p: string, k: nat): (r: Option<nat>)
    requires k <= |s|
    ensures r.Some? ==> k <= r.value && MatchAt(s, p, r.value)
    ensures r.Some? ==> forall j :: k <= j < r.value ==> !MatchAt(s, p, j)
    ensures r.None? ==> forall j :: k <= j <= |s| ==> !MatchAt(s, p, j)
    decreases |s| - k
  {
    if MatchAt(s, p, k) then Some(k)
    else if k == |s| then None
    else IndexFrom(s, p, k + 1)
  }

  /** `str::contains`. */
  predicate Contains(s: string, p: string) {
    IndexOf(s, p).Some?
  }

  lemma ContainsAt(s: string, p: string, i: int)
    requires MatchAt(s, p, i)
    ensures Contains(s, p)
  {
  }

  lemma ContainsConcatLeft(a: string, b: string, p: string)
    requires Contains(a, p)
    ensures Contains(a + b, p)
  {
    var i := IndexOf(a, p).value;
    assert (a + b)[i..i + |p|] == a[i..i + |p|];
    ContainsAt(a + b, p, i);
  }

  lemma ContainsConcatRight(a: string, b: string, p: string)
    requires Contains(b, p)
    ensures Contains(a + b, p)
  {
    var i := IndexOf(b, p).value;
    assert (a + b)[|a| + i..|a| + i + |p|] == b[i..i + |p|];
    ContainsAt(a + b, p, |a| + i);
  }

  /** A string with no occurrence of a character that `p` starts with cannot contain `p`. */
  lemma NotContainsChar(s: string, p: string)
    requires |p| > 0 && p[0] !in s
    ensures !Contains(s, p)
  {
    forall j | 0 <= j <= |s| ensures !MatchAt(s, p, j) {
      if j < |s| {
        assert s[j] != p[0];
      }
    }
  }

  // ---------------------------------------------------------------------------
  // Trimming
  // ---------------------------------------------------------------------------

  /** `str::trim_start`. */
  function TrimStart(s: string): (r: string)
    ensures |r| <= |s| && r == s[|s| - |r|..]
    ensures |r| > 0 ==> !IsWhitespace(r[0])
    ensures forall i :: 0 <= i < |s| - |r| ==> IsWhitespace(s[i])
    decreases |s|
  {
    if |s| > 0 && IsWhitespace(s[0]) then TrimStart(s[1..]) else s
  }

  /** `str::trim_end`. */
  function TrimEnd(s: string): (r: string)
    ensures |r| <= |s| && r == s[..|r|]
    ensures |r| > 0 ==> !IsWhitespace(r[|r| - 1])
    ensures forall i :: |r| <= i < |s| ==> IsWhitespace(s[i])
    decreases |s|
  {
    if |s| > 0 && IsWhitespace(s[|s| - 1]) then TrimEnd(s[..|s| - 1]) else s
  }

  /** `str::trim`: drop leading and trailing whitespace. */
  function Trim(s: string): (r: string)
    ensures |r| <= |s|
    ensures |r| > 0 ==> !IsWhitespace(r[0]) && !IsWhitespace(r[|r| - 1])
    ensures r == [] <==> forall i :: 0 <= i < |s| ==> IsWhitespace(s[i])
  {
    var t := TrimStart(s);
    var r := TrimEnd(t);
    assert r == [] ==> t == [];
    assert r != [] ==> exists i :: 0 <= i < |s| && !IsWhitespace(s[i]) by {
      if r != [] {
        assert r[0] == s[|s| - |t|];
      }
    }
    r
  }

  /** The trimmed text is a contiguous slice of the original. */
  lemma TrimIsSlice(s: string)
    ensures |s| - |TrimStart(s)| + |Trim(s)| <= |s|
    ensures Trim(s) == s[|s| - |TrimStart(s)|..|s| - |TrimStart(s)| + |Trim(s)|]
  {
  }

  /** Anything found in a slice is found in the whole. */
  lemma ContainsInSlice(s: string, a: nat, b: nat, p: string)
    requires a <= b <= |s| && Contains(s[a..b], p)
    ensures Contains(s, p)
  {
    var t := s[a..b];
    var i := IndexOf(t, p).value;
    assert t[i..i + |p|] == p;
    forall k | 0 <= k < |p|
      ensures s[a + i + k] == p[k]
    {
      assert t[i + k] == p[k];
    }
    assert s[a + i..a + i + |p|] == p;
    ContainsAt(s, p, a + i);
  }

  /** A match in `b` is a match in `a + b`, shifted by `|a|`. */
  lemma MatchShift(a: string, b: string, p: string, j: nat)
    ensures MatchAt(a + b, p, |a| + j) <==> MatchAt(b, p, j)
  {
    if j + |p| <= |b| {
      assert (a + b)[|a| + j..|a| + j + |p|] == b[j..j + |p|];
    }
  }

  /** A text that matches at 0 is found there first. */
  lemma IndexOfStart(s: string, p: string)
    requires MatchAt(s, p, 0)
    ensures IndexOf(s, p) == Some(0)
  {
  }

  /** When no match starts inside `a`, the first match in `a + b` is the
      first one in `b`, shifted by `|a|`. */
  lemma IndexOfShift(a: string, b: string, p: string)
    requires forall j :: 0 <= j < |a| ==> !MatchAt(a + b, p, j)
    requires Contains(b, p)
    ensures IndexOf(a + b, p) == Some(|a| + IndexOf(b, p).value)
  {
    var i := IndexOf(b, p).value;
    MatchShift(a, b, p, i);
    forall j | |a| <= j < |a| + i ensures !MatchAt(a + b, p, j) {
      MatchShift(a, b, p, j - |a|);
    }
    var r := IndexOf(a + b, p);
    assert r.Some?;
    assert !(r.value < |a| + i);
    assert !(r.value > |a| + i);
  }

  /** One differing character rules out a match. */
  lemma NoMatchAtDiff(s: string, p: string, j: nat, k: nat)
    requires k < |p| && j + k < |s| && s[j + k] != p[k]
    ensures !MatchAt(s, p, j)
  {
    if j + |p| <= |s| {
      assert s[j..j + |p|][k] == s[j + k];
    }
  }

  /** No match starts inside text without the pattern's first character. */
  lemma NoMatchInHead(a: string, b: string, p: string)
    requires |p| > 0 && p[0] !in a
    ensures forall j :: 0 <= j < |a| ==> !MatchAt(a + b, p, j)
  {
    forall j | 0 <= j < |a| ensures !MatchAt(a + b, p, j) {
      assert (a + b)[j] == a[j] != p[0];
      if j + |p| <= |a + b| {
        assert (a + b)[j..j + |p|][0] == (a + b)[j];
      }
    }
  }

  /** The text before the first match holds no match. */
  lemma PrefixBeforeFirst(s: string, p: string, j: nat)
    requires |p| > 0 && IndexOf(s, p) == Some(j)
    ensures !Contains(s[..j], p)
  {
    forall k | 0 <= k <= j ensures !MatchAt(s[..j], p, k) {
      if k + |p| <= j {
        assert k < j && !MatchAt(s, p, k);
        assert s[..j][k..k + |p|] == s[k..k + |p|];
      }
    }
  }

  /** A match splits the text around it. */
  lemma SplitAtMatch(s: string, w: string, i: nat)
    requires MatchAt(s, w, i)
    ensures s == s[..i] + (w + s[i + |w|..])
  {
  }

  /** Text placed between two others is found there. */
  lemma ContainsMiddle(a: string, w: string, c: string)
    ensures MatchAt(a + (w + c), w, |a|)
    ensures Contains(a + (w + c), w)
  {
    assert (a + (w + c))[|a|..|a| + |w|] == w;
    ContainsAt(a + (w + c), w, |a|);
  }

  /** Anything found in the trimmed text is found in the original. */
  lemma TrimContains(s: string, p: string)
    requires Contains(Trim(s), p)
    ensures Contains(s, p)
  {
    var t := TrimStart(s);
    var r := TrimEnd(t);
    assert Trim(s) == r;
    assert t[0..|r|] == r;
    ContainsInSlice(t, 0, |r|, p);
    assert s[|s| - |t|..|s|] == t;
    ContainsInSlice(s, |s| - |t|, |s|, p);
  }

  /** A string without surrounding whitespace is its own trim. */
  lemma TrimNoop(s: string)
    requires |s| > 0 ==> !IsWhitespace(s[0]) && !IsWhitespace(s[|s| - 1])
    ensures Trim(s) == s
  {
  }

  /** `str::trim_end_matches(c)`: drop every trailing `c`. */
  function TrimEndMatches(s: string, c: char): (r: string)
    ensures |r| <= |s| && r == s[..|r|]
    ensures |r| > 0 ==> r[|r| - 1] != c
    ensures forall i :: |r| <= i < |s| ==> s[i] == c
    decreases |s|
  {
    if |s| > 0 && s[|s| - 1] == c then TrimEndMatches(s[..|s| - 1], c) else s
  }

  /** `str::trim_start_matches(c)`: drop every leading `c`. */
  function TrimStartMatchesChar(s: string, c: char): (r: string)
    ensures |r| <= |s| && r == s[|s| - |r|..]
    ensures |r| > 0 ==> r[0] != c
    ensures forall i :: 0 <= i < |s| - |r| ==> s[i] == c
    decreases |s|
  {
    if |s| > 0 && s[0] == c then TrimStartMatchesChar(s[1..], c) else s
  }

  /** `str::trim_matches(c)`. */
  function TrimMatches(s: string, c: char): (r: string)
    ensures |r| <= |s|
    ensures |r| > 0 ==> r[0] != c && r[|r| - 1] != c
  {
    TrimEndMatches(TrimStartMatchesChar(s, c), c)
  }

  /** `str::trim_start_matches(p)` for a string pattern: drop `p` as often as it
      is a prefix. */
  function TrimStartMatches(s: string, p: string): (r: string)
    ensures |r| <= |s| && r == s[|s| - |r|..]
    ensures |p| > 0 ==> !StartsWith(r, p)
    decreases |s|
  {
    if |p| > 0 && StartsWith(s, p) then TrimStartMatches(s[|p|..], p) else s
  }

  /** `split_whitespace().next().unwrap_or("")`: the first whitespace-free word. */
  function FirstWord(s: string): (r: string)
    ensures forall i :: 0 <= i < |r| ==> !IsWhitespace(r[i])
    ensures |r| <= |s|
  {
    var t := TrimStart(s);
    TakeNonWhitespace(t)
  }

  function TakeNonWhitespace(s: string): (r: string)
    ensures |r| <= |s| && r == s[..|r|]
    ensures forall i :: 0 <= i < |r| ==> !IsWhitespace(r[i])
    ensures |r| < |s| ==> IsWhitespace(s[|r|])
    decreases |s|
  {
    if |s| == 0 || IsWhitespace(s[0]) then [] else [s[0]] + TakeNonWhitespace(s[1..])
  }

  // ---------------------------------------------------------------------------
  // Splitting and joining
  // ---------------------------------------------------------------------------

  /** `parts.join(sep)`. */
  function Join(parts: seq<string>, sep: string): string
    decreases |parts|
  {
    if |parts| == 0 then []
    else if |parts| == 1 then parts[0]
    else parts[0] + sep + Join(parts[1..], sep)
  }

  /** `str::split(c)` on a character: every maximal run between separators,
      always at least one piece. */
  function Split(s: string, c: char): (parts: seq<string>)
    ensures |parts| >= 1
    ensures forall k :: 0 <= k < |parts| ==> c !in parts[k]
    ensures Join(parts, [c]) == s
    decreases |s|
  {
    var i := IndexOf(s, [c]);
    if i.None? then
      assert c !in s by {
        forall k | 0 <= k < |s| ensures s[k] != c {
          assert !MatchAt(s, [c], k);
        }
      }
      [s]
    else
      var k := i.value;
      assert c !in s[..k] by {
        forall j | 0 <= j < k ensures s[j] != c {
          assert !MatchAt(s, [c], j);
        }
      }
      var rest := Split(s[k + 1..], c);
      assert s == s[..k] + [c] + s[k + 1..];
      [s[..k]] + rest
  }

  /** Without the separator there is a single piece, the whole string. */
  lemma SplitNoSeparator(s: string, c: char)
    requires c !in s
    ensures Split(s, c) == [s]
  {
    assert forall j :: 0 <= j <= |s| ==> !MatchAt(s, [c], j) by {
      forall j | 0 <= j <= |s| ensures !MatchAt(s, [c], j) {
        if j < |s| {
          assert s[j] != c;
          assert s[j..j + 1] != [c] by {
            assert s[j..j + 1][0] == s[j];
          }
        }
      }
    }
  }

  /** Splitting `a + [c] + b` with `c` not in `a` yields `a` and then the pieces of `b`. */
  lemma SplitAtFirst(a: string, c: char, b: string)
    requires c !in a
    ensures Split(a + [c] + b, c) == [a] + Split(b, c)
  {
    var s := a + [c] + b;
    assert MatchAt(s, [c], |a|) by {
      assert s[|a|..|a| + 1] == [c];
    }
    forall j | 0 <= j < |a| ensures !MatchAt(s, [c], j) {
      assert s[j] == a[j];
      assert s[j..j + 1][0] == s[j];
    }
    var i := IndexOf(s, [c]);
    assert i == Some(|a|);
    assert s[..|a|] == a;
    assert s[|a| + 1..] == b;
  }

  /** Splitting undoes joining when no piece holds the separator. */
  lemma {:induction false} SplitJoin(parts: seq<string>, c: char)
    requires |parts| >= 1
    requires forall k :: 0 <= k < |parts| ==> c !in parts[k]
    ensures Split(Join(parts, [c]), c) == parts
    decreases |parts|
  {
    if |parts| == 1 {
      SplitNoSeparator(parts[0], c);
    } else {
      var rest := parts[1..];
      SplitJoin(rest, c);
      assert Join(parts, [c]) == parts[0] + [c] + Join(rest, [c]);
      SplitAtFirst(parts[0], c, Join(rest, [c]));
      assert [parts[0]] + rest == parts;
    }
  }

  /** The first occurrence in a prefix stays the first in any extension. */
  lemma IndexOfExtend(a: string, b: string, p: string)
    requires IndexOf(a, p).Some?
    ensures IndexOf(a + b, p) == IndexOf(a, p)
  {
    var i := IndexOf(a, p).value;
    assert MatchAt(a, p, i);
    assert (a + b)[i..i + |p|] == a[i..i + |p|];
    assert MatchAt(a + b, p, i);
    forall j | 0 <= j < i ensures !MatchAt(a + b, p, j) {
      assert !MatchAt(a, p, j);
      assert (a + b)[j..j + |p|] == a[j..j + |p|];
    }
  }

  /** Text framed by a prefix without the first character of `p` and a
      suffix without its last contains `p` only if the framed text does. */
  lemma FramedContains(x: string, m: string, y: string, p: string)
    requires |p| > 0
    requires forall k :: 0 <= k < |x| ==> x[k] != p[0]
    requires forall k :: 0 <= k < |y| ==> y[k] != p[|p| - 1]
    requires !Contains(m, p)
    ensures !Contains(x + m + y, p)
  {
    var s := x + m + y;
    forall j | 0 <= j <= |s| ensures !MatchAt(s, p, j) {
      if j + |p| <= |s| {
        if j < |x| {
          assert s[j..j + |p|][0] == x[j];
        } else if j + |p| > |x| + |m| {
          assert s[j..j + |p|][|p| - 1] == y[j + |p| - 1 - |x| - |m|];
        } else {
          assert !MatchAt(m, p, j - |x|);
          assert s[j..j + |p|] == m[j - |x|..j - |x| + |p|];
        }
      }
    }
  }

  /** `s.split(sep).nth(1)` for a non-empty string separator: the text between
      the first and second occurrences of `sep` (to the end if there is no
      second one), or `None` when `sep` does not occur. */
  function SecondField(s: string, sep: string): (r: Option<string>)
    requires |sep| > 0
    ensures r.Some? <==> Contains(s, sep)
    ensures r.Some? ==> !Contains(r.value, sep)
    ensures r.Some? ==> StartsWith(s[IndexOf(s, sep).value + |sep|..], r.value)
    ensures r.Some? ==> var rest := s[IndexOf(s, sep).value + |sep|..];
      |r.value| == |rest| || StartsWith(rest[|r.value|..], sep)
  {
    match IndexOf(s, sep)
    case None => None
    case Some(i) =>
      var rest := s[i + |sep|..];
      match IndexOf(rest, sep)
      case None => Some(rest)
      case Some(j) =>
        PrefixBeforeFirst(rest, sep, j);
        assert rest[j..][..|sep|] == rest[j..j + |sep|];
        Some(rest[..j])
  }

  /** `str::lines`: split at `\n`, dropping one `\r` before each `\n`; a
      trailing line ending produces no empty final line. */
  function Lines(s: string): (r: seq<string>)
    ensures s == [] <==> r == []
    ensures forall k :: 0 <= k < |r| ==> '\n' !in r[k]
    decreases |s|
  {
    if |s| == 0 then []
    else
      match IndexOf(s, "\n")
      case None =>
        assert '\n' !in s by {
          forall k | 0 <= k < |s| ensures s[k] != '\n' {
            assert !MatchAt(s, "\n", k);
          }
        }
        [s]
      case Some(i) =>
        assert '\n' !in s[..i] by {
          forall j | 0 <= j < i ensures s[j] != '\n' {
            assert !MatchAt(s, "\n", j);
          }
        }
        [DropCarriageReturn(s[..i])] + Lines(s[i + 1..])
  }

  function DropCarriageReturn(s: string): (r: string)
    ensures r == s || (EndsWith(s, "\r") && r == s[..|s| - 1])
  {
    if EndsWith(s, "\r") then s[..|s| - 1] else s
  }

  /** `str::replace(from, to)`: every non-overlapping occurrence, scanning left
      to right. An empty `from` matches before every character and at the end,
      as in Rust. */
  function Replace(s: string, from: string, to: string): (r: string)
    ensures !Contains(s, from) && |from| > 0 ==> r == s
    decreases |s|
  {
    if |from| == 0 then
      if |s| == 0 then to else to + [s[0]] + Replace(s[1..], from, to)
    else if StartsWith(s, from) then
      to + Replace(s[|from|..], from, to)
    else if |s| == 0 then []
    else
      assert !Contains(s, from) ==> !Contains(s[1..], from) by {
        if Contains(s[1..], from) {
          var k := IndexOf(s[1..], from).value;
          assert s[1 + k..1 + k + |from|] == s[1..][k..k + |from|];
          ContainsAt(s, from, 1 + k);
        }
      }
      [s[0]] + Replace(s[1..], from, to)
  }

  // ---------------------------------------------------------------------------
  // Numbers
  // ---------------------------------------------------------------------------

  function DigitValue(c: char): nat
    requires IsDigit(c)
  {
    c as int - '0' as int
  }

  /** The value of a string of decimal digits, most significant first. */
  function DigitsValue(s: string): nat
    requires AllDigits(s)
    decreases |s|
  {
    if |s| == 0 then 0 else DigitsValue(s[..|s| - 1]) * 10 + DigitValue(s[|s| - 1])
  }

  function DigitChar(d: nat): char
    requires d < 10
  {
    ('0' as int + d) as char
  }

  /** Rust's `Display` for a non-negative integer: decimal, no leading zeros. */
  function NatToString(n: nat): (r: string)
    ensures |r| >= 1 && AllDigits(r)
    ensures |r| > 1 ==> r[0] != '0'
    decreases n
  {
    if n < 10 then [DigitChar(n)] else NatToString(n / 10) + [DigitChar(n % 10)]
  }

  /** Rust's `Display` for a signed integer. */
  function IntToString(i: int): (r: string)
    ensures |r| >= 1
    ensures (r[0] == '-') <==> i < 0
  {
    if i < 0 then "-" + NatToString(-i) else NatToString(i)
  }

  lemma {:induction false} DigitsValueOfNatToString(n: nat)
    ensures DigitsValue(NatToString(n)) == n
    decreases n
  {
    var s := NatToString(n);
    if n >= 10 {
      DigitsValueOfNatToString(n / 10);
      assert s[..|s| - 1] == NatToString(n / 10);
    }
  }

  /** `str::parse::<u64>()`: an optional `+`, then one or more ASCII digits,
      whose value must fit in 64 bits. */
  function ParseU64(s: string): (r: Option<u64>)
    ensures r.Some? ==> |s| > 0 && (IsDigit(s[0]) || s[0] == '+')
  {
    var body := if |s| > 0 && s[0] == '+' then s[1..] else s;
    if |body| > 0 && AllDigits(body) && DigitsValue(body) < U64_LIMIT then Some(DigitsValue(body))
    else None
  }

  /** The decimal rendering of any 64-bit value parses back to that value. */
  lemma ParseU64OfNatToString(n: nat)
    requires n < U64_LIMIT
    ensures ParseU64(NatToString(n)) == Some(n)
  {
    DigitsValueOfNatToString(n);
  }

  function Pow10(k: nat): (r: nat)
    ensures r >= 1
  {
    if k == 0 then 1 else 10 * Pow10(k - 1)
  }

  /** `str::parse::<f64>()` restricted to plain decimal notation: an optional
      sign, digits, and at most one `.`, with at least one digit overall. */
  function ParseDecimal(s: string): (r: Option<real>)
    ensures r.Some? ==> |s| > 0
    ensures r.Some? && (|s| == 0 || s[0] != '-') ==> r.value >= 0.0
  {
    var negative := |s| > 0 && s[0] == '-';
    var body := if |s| > 0 && (s[0] == '+' || s[0] == '-') then s[1..] else s;
    var magnitude := UnsignedDecimal(body);
    if magnitude.None? then None
    else if negative then Some(-magnitude.value)
    else magnitude
  }

  function UnsignedDecimal(s: string): (r: Option<real>)
    ensures r.Some? ==> r.value >= 0.0 && |s| > 0
  {
    match IndexOf(s, ".")
    case None =>
      if |s| > 0 && AllDigits(s) then Some(DigitsValue(s) as real) else None
    case Some(i) =>
      var whole := s[..i];
      var frac := s[i + 1..];
      if AllDigits(whole) && AllDigits(frac) && |whole| + |frac| > 0 then
        var fraction := DigitsValue(frac) as real / Pow10(|frac|) as real;
        assert fraction >= 0.0;
        Some(DigitsValue(whole) as real + fraction)
      else None
  }

  /** A plain integer rendering parses as that integer. */
  lemma ParseDecimalOfNatToString(n: nat)
    ensures ParseDecimal(NatToString(n)) == Some(n as real)
  {
    var s := NatToString(n);
    DigitsValueOfNatToString(n);
    assert '.' !in s by {
      forall k | 0 <= k < |s| ensures s[k] != '.' {
        assert IsDigit(s[k]);
      }
    }
    NotContainsChar(s, ".");
  }
}

=== FILE: update.dfy ===
/** The yt-dlp self-update commands: reading the installed version, finding a
    YYYY.MM.DD version in the tool's output, deciding whether an update is
    available, and summing up an update run. The runs of the tool are
    parameters. */
module Update {
  import opened Wrappers
  import opened Text
  import opened Seqs
  import Utf8

  // ---------------------------------------------------------------------------
  // Date versions
  // ---------------------------------------------------------------------------

  /** The YYYY.MM.DD shape position by position: a year of four digits
      starting "20", a dot, two month digits, a dot, two day digits. */
  predicate DatePattern(s: string) {
    |s| >= 10 && s[0] == '2' && s[1] == '0' && IsDigit(s[2]) && IsDigit(s[3]) && s[4] == '.' &&
    IsDigit(s[5]) && IsDigit(s[6]) && s[7] == '.' && IsDigit(s[8]) && IsDigit(s[9])
  }

  /** `is_date_version`: at least three dot-separated parts, the first of
      four digits starting "20", the second of two digits, the third of at
      least two characters the first two of which are digits. */
  predicate IsDateVersion(s: string) {
    var parts := Split(s, '.');
    |parts| >= 3 &&
    |parts[0]| == 4 && StartsWith(parts[0], "20") && AllDigits(parts[0]) &&
    |parts[1]| == 2 && AllDigits(parts[1]) &&
    |parts[2]| >= 2 && AllDigits(parts[2][..2])
  }

  /** A join starts with its first piece. */
  lemma JoinStartsWithHead(parts: seq<string>, sep: string)
    requires |parts| >= 1
    ensures |Join(parts, sep)| >= |parts[0]|
    ensures forall k :: 0 <= k < |parts[0]| ==> Join(parts, sep)[k] == parts[0][k]
  {
    if |parts| > 1 {
      assert Join(parts, sep) == parts[0] + sep + Join(parts[1..], sep);
    }
  }

  /** The first piece of a split is where the text starts, and unless it is
      all of the text the separator follows it. */
  lemma SplitHead(t: string, c: char)
    ensures var h := Split(t, c)[0];
      |h| <= |t| && (forall k :: 0 <= k < |h| ==> t[k] == h[k]) && (|h| < |t| ==> t[|h|] == c)
  {
    var parts := Split(t, c);
    JoinStartsWithHead(parts, [c]);
    if |parts| > 1 {
      assert t == parts[0] + [c] + Join(parts[1..], [c]);
    }
  }

  /** Splitting at a first separator at index `k`. */
  lemma SplitAtIndex(s: string, c: char, k: nat)
    requires k < |s| && s[k] == c && forall j :: 0 <= j < k ==> s[j] != c
    ensures Split(s, c) == [s[..k]] + Split(s[k + 1..], c)
  {
    assert s == s[..k] + [c] + s[k + 1..];
    SplitAtFirst(s[..k], c, s[k + 1..]);
  }

  /** Whatever `is_date_version` accepts begins with the YYYY.MM.DD shape. */
  lemma DateVersionHasPattern(s: string)
    requires IsDateVersion(s)
    ensures DatePattern(s)
  {
    var parts := Split(s, '.');
    var p0, p1, p2 := parts[0], parts[1], parts[2];
    var r1 := Join(parts[1..], ".");
    var r2 := Join(parts[2..], ".");
    assert s == p0 + "." + r1;
    assert parts[1..][1..] == parts[2..];
    assert r1 == p1 + "." + r2;
    JoinStartsWithHead(parts[2..], ".");
    assert |r2| >= |p2| && r2[0] == p2[0] && r2[1] == p2[1];
    assert p2[..2][0] == p2[0] && p2[..2][1] == p2[1];
    assert p0[..2][0] == p0[0] && p0[..2][1] == p0[1];
    assert s[0] == p0[0] && s[1] == p0[1] && s[2] == p0[2] && s[3] == p0[3] && s[4] == '.';
    assert s[5] == p1[0] && s[6] == p1[1] && s[7] == '.';
    assert s[8] == p2[0] && s[9] == p2[1];
  }

  /** A text of the date shape splits into the year, the month and the
      pieces of what follows the second dot. */
  lemma SplitDate(s: string)
    requires DatePattern(s)
    ensures Split(s, '.') == [s[..4], s[5..7]] + Split(s[8..], '.')
  {
    var t := s[5..];
    assert Split(s, '.') == [s[..4]] + Split(t, '.') by {
      SplitAtIndex(s, '.', 4);
    }
    assert Split(t, '.') == [s[5..7]] + Split(s[8..], '.') by {
      assert t[0] == s[5] && t[1] == s[6] && t[2] == '.';
      SplitAtIndex(t, '.', 2);
      assert t[..2] == s[5..7] && t[3..] == s[8..];
    }
    assert [s[..4]] + ([s[5..7]] + Split(s[8..], '.')) == [s[..4], s[5..7]] + Split(s[8..], '.');
  }

  /** A text starting with two digits has a first piece of at least two
      digits. */
  lemma DayPiece(c: string)
    requires |c| >= 2 && IsDigit(c[0]) && IsDigit(c[1])
    ensures var h := Split(c, '.')[0]; |h| >= 2 && AllDigits(h[..2])
  {
    SplitHead(c, '.');
    var h := Split(c, '.')[0];
    assert h[..2][0] == h[0] == c[0] && h[..2][1] == h[1] == c[1];
  }

  /** Whatever begins with the YYYY.MM.DD shape is accepted. */
  lemma PatternIsDateVersion(s: string)
    requires DatePattern(s)
    ensures IsDateVersion(s)
  {
    var a, b, c := s[..4], s[5..7], s[8..];
    SplitDate(s);
    assert c[0] == s[8] && c[1] == s[9];
    DayPiece(c);
    assert |a| == 4 && StartsWith(a, "20") && AllDigits(a) by {
      assert a[..2] == "20";
    }
    assert |b| == 2 && AllDigits(b);
  }

  /** `is_date_version` accepts exactly the strings that begin with the
      YYYY.MM.DD shape. */
  lemma IsDateVersionIff(s: string)
    ensures IsDateVersion(s) <==> DatePattern(s)
  {
    if IsDateVersion(s) {
      DateVersionHasPattern(s);
    }
    if DatePattern(s) {
      PatternIsDateVersion(s);
    }
  }

  /** Every accepted window starts with "20". */
  lemma DateVersionStartsWithTwo(s: string)
    requires IsDateVersion(s)
    ensures |s| >= 10 && s[0] == '2'
  {
    IsDateVersionIff(s);
  }

  /** The ten characters from `j`. */
  function Window(text: string, j: nat): (w: string)
    requires j + 10 <= |text|
    ensures |w| == 10 && forall k :: 0 <= k < 10 ==> w[k] == text[j + k]
  {
    text[j..j + 10]
  }

  predicate DigitOrDot(c: char) {
    IsDigit(c) || c == '.'
  }

  /** The first position from `i` on where a ten-character window passes
      `accept`. */
  function FirstWindow(accept: string -> bool, text: string, i: nat): (r: Option<nat>)
    ensures r.Some? ==> i <= r.value && r.value + 10 <= |text| && accept(Window(text, r.value))
    ensures r.Some? ==> forall j :: i <= j < r.value ==> !accept(Window(text, j))
    ensures r.None? ==> forall j :: i <= j && j + 10 <= |text| ==> !accept(Window(text, j))
    decreases |text| - i
  {
    if i + 10 > |text| then None
    else if accept(Window(text, i)) then Some(i)
    else FirstWindow(accept, text, i + 1)
  }

  /** Where the run of digits and dots starting at `e` ends. */
  function DigitsDotsEnd(text: string, e: nat): (r: nat)
    requires e <= |text|
    ensures e <= r <= |text|
    ensures forall k :: e <= k < r ==> DigitOrDot(text[k])
    ensures r < |text| ==> !DigitOrDot(text[r])
    decreases |text| - e
  {
    if e < |text| && DigitOrDot(text[e]) then DigitsDotsEnd(text, e + 1) else e
  }

  /** The version found at a window that passed: the window extended
      through the digits and dots that follow it, without trailing dots. */
  function VersionAt(text: string, i: nat): string
    requires i + 10 <= |text|
  {
    TrimEndMatches(text[i..DigitsDotsEnd(text, i + 10)], '.')
  }

  /** The scan of `extract_date_version` with the window test as a
      parameter. */
  function ExtractWith(accept: string -> bool, text: string): (r: Option<string>)
    ensures r.None? <==> forall j :: 0 <= j && j + 10 <= |text| ==> !accept(Window(text, j))
  {
    match FirstWindow(accept, text, 0)
    case None => None
    case Some(i) => Some(VersionAt(text, i))
  }

  /** `extract_date_version`: windows are ten characters long and tested
      with `is_date_version`. */
  function ExtractDateVersion(text: string): Option<string> {
    ExtractWith(IsDateVersion, text)
  }

  /** A window test that accepts exactly the date shape. */
  ghost predicate AcceptsDates(accept: string -> bool) {
    forall w :: |w| == 10 ==> (accept(w) <==> DatePattern(w))
  }

  lemma IsDateVersionAcceptsDates()
    ensures AcceptsDates(IsDateVersion)
  {
    forall w | |w| == 10
      ensures IsDateVersion(w) <==> DatePattern(w)
    {
      IsDateVersionIff(w);
    }
  }

  /** The scan stops at the first window of the date shape. */
  lemma FirstDateWindow(accept: string -> bool, text: string, i: nat)
    requires AcceptsDates(accept)
    requires i + 10 <= |text| && DatePattern(Window(text, i))
    requires forall j :: 0 <= j < i ==> !DatePattern(Window(text, j))
    ensures FirstWindow(accept, text, 0) == Some(i)
  {
    assert accept(Window(text, i));
    assert forall j :: 0 <= j < i ==> !accept(Window(text, j));
  }

  /** The version at a window of the date shape: digits and dots from the
      window on, at least a full date, ending in a digit, and followed in
      the text only by dots until the run of digits and dots ends. */
  lemma VersionAtShape(text: string, i: nat)
    requires i + 10 <= |text| && DatePattern(Window(text, i))
    ensures var v := VersionAt(text, i);
      10 <= |v| && i + |v| <= |text| && v == text[i..i + |v|] &&
      DatePattern(v) &&
      (forall k :: 0 <= k < |v| ==> DigitOrDot(v[k])) &&
      IsDigit(v[|v| - 1]) &&
      (forall k :: i + |v| <= k < DigitsDotsEnd(text, i + |v|) ==> text[k] == '.')
  {
    var d := DigitsDotsEnd(text, i + 10);
    var s := text[i..d];
    var v := TrimEndMatches(s, '.');
    VersionChars(text, i);
    RunEndFrom(text, i + |v|, d);
    assert forall k :: i + |v| <= k < d ==> text[k] == s[k - i];
  }

  /** The version starts with the window's date and is made of digits and
      dots. */
  lemma VersionChars(text: string, i: nat)
    requires i + 10 <= |text| && DatePattern(Window(text, i))
    ensures var v := VersionAt(text, i);
      |v| >= 10 && (forall k :: 0 <= k < 10 ==> v[k] == Window(text, i)[k]) &&
      forall k :: 0 <= k < |v| ==> DigitOrDot(v[k])
  {
    var d := DigitsDotsEnd(text, i + 10);
    var s := text[i..d];
    var v := TrimEndMatches(s, '.');
    var win := Window(text, i);
    assert |v| >= 10 && forall k :: 0 <= k < 10 ==> v[k] == win[k] by {
      assert s[9] == win[9];
    }
    forall k | 0 <= k < |v|
      ensures DigitOrDot(v[k])
    {
      if k >= 10 {
        assert v[k] == text[i + k];
      }
    }
  }

  /** The scan with a test that accepts exactly the date shape returns,
      when a date begins at `i` and at no earlier position, the digits and
      dots from `i`: at least a full date, ending in a digit, and followed in
      the text only by dots until the run of digits and dots ends. */
  lemma ExtractWithSpec(accept: string -> bool, text: string, i: nat)
    requires AcceptsDates(accept)
    requires i + 10 <= |text| && DatePattern(Window(text, i))
    requires forall j :: 0 <= j < i ==> !DatePattern(Window(text, j))
    ensures ExtractWith(accept, text).Some?
    ensures var v := ExtractWith(accept, text).value;
      10 <= |v| && i + |v| <= |text| && v == text[i..i + |v|] &&
      DatePattern(v) &&
      (forall k :: 0 <= k < |v| ==> DigitOrDot(v[k])) &&
      IsDigit(v[|v| - 1]) &&
      (forall k :: i + |v| <= k < DigitsDotsEnd(text, i + |v|) ==> text[k] == '.')
  {
    FirstDateWindow(accept, text, i);
    VersionAtShape(text, i);
  }

  /** What `extract_date_version` returns when a date begins at `i` and at
      no earlier position. */
  lemma ExtractDateVersionSpec(text: string, i: nat)
    requires i + 10 <= |text| && DatePattern(Window(text, i))
    requires forall j :: 0 <= j < i ==> !DatePattern(Window(text, j))
    ensures ExtractDateVersion(text).Some?
    ensures var v := ExtractDateVersion(text).value;
      10 <= |v| && i + |v| <= |text| && v == text[i..i + |v|] &&
      DatePattern(v) &&
      (forall k :: 0 <= k < |v| ==> DigitOrDot(v[k])) &&
      IsDigit(v[|v| - 1]) &&
      (forall k :: i + |v| <= k < DigitsDotsEnd(text, i + |v|) ==> text[k] == '.')
  {
    IsDateVersionAcceptsDates();
    ExtractWithSpec(IsDateVersion, text, i);
  }

  /** `extract_date_version` finds nothing exactly when no ten characters
      of the text have the date shape. */
  lemma ExtractDateVersionNone(text: string)
    ensures ExtractDateVersion(text).None? <==>
      forall j :: 0 <= j && j + 10 <= |text| ==> !DatePattern(Window(text, j))
  {
    IsDateVersionAcceptsDates();
  }

  /** After a prefix without the digit 2 the first date window is right
      after the prefix. */
  lemma DateAfterPrefix(p: string, d: string)
    requires '2' !in p && DatePattern(d)
    ensures |p| + 10 <= |p + d| && DatePattern(Window(p + d, |p|))
    ensures forall j :: 0 <= j < |p| ==> !DatePattern(Window(p + d, j))
  {
    var t := p + d;
    assert forall k :: 0 <= k < 10 ==> Window(t, |p|)[k] == d[k];
    forall j | 0 <= j < |p|
      ensures !DatePattern(Window(t, j))
    {
      assert Window(t, j)[0] == p[j];
    }
  }

  /** The run of digits and dots from `e` ends at the first position that
      holds neither. */
  lemma {:induction false} RunEndFrom(text: string, e: nat, d: nat)
    requires e <= d <= |text|
    requires forall k :: e <= k < d ==> DigitOrDot(text[k])
    requires d == |text| || !DigitOrDot(text[d])
    ensures DigitsDotsEnd(text, e) == d
    decreases d - e
  {
    if e < d {
      RunEndFrom(text, e + 1, d);
    }
  }

  /** A run of digits and dots that reaches the end of the text and ends in
      a digit is all taken by a version starting where it does. */
  lemma WholeRun(t: string, i: nat, v: string)
    requires i + |v| <= |t| && v == t[i..i + |v|]
    requires forall k :: i <= k < |t| ==> DigitOrDot(t[k])
    requires i < |t| && IsDigit(t[|t| - 1])
    requires forall k :: i + |v| <= k < DigitsDotsEnd(t, i + |v|) ==> t[k] == '.'
    ensures v == t[i..]
  {
    RunEndFrom(t, i + |v|, |t|);
  }

  /** After a prefix without the digit 2, a version made of digits and dots
      and ending in a digit is found whole by a scan that accepts exactly
      the date shape. */
  lemma ExtractWithAfterPrefix(accept: string -> bool, p: string, d: string)
    requires AcceptsDates(accept)
    requires '2' !in p
    requires DatePattern(d) && (forall k :: 0 <= k < |d| ==> DigitOrDot(d[k])) && d[|d| - 1] != '.'
    ensures ExtractWith(accept, p + d) == Some(d)
  {
    var t := p + d;
    var i := |p|;
    assert forall k :: i <= k < |t| ==> DigitOrDot(t[k]) by {
      forall k | i <= k < |t| ensures DigitOrDot(t[k]) {
        assert t[k] == d[k - i];
      }
    }
    assert IsDigit(t[|t| - 1]) by {
      assert t[|t| - 1] == d[|d| - 1];
    }
    assert t[i..] == d;
    DateAfterPrefix(p, d);
    FoundWhole(accept, t, i);
  }

  /** When the first date begins at `i` and digits and dots run from there
      to the end of the text, ending in a digit, the scan returns that whole
      run. */
  lemma FoundWhole(accept: string -> bool, t: string, i: nat)
    requires AcceptsDates(accept)
    requires i + 10 <= |t| && DatePattern(Window(t, i))
    requires forall j :: 0 <= j < i ==> !DatePattern(Window(t, j))
    requires forall k :: i <= k < |t| ==> DigitOrDot(t[k])
    requires IsDigit(t[|t| - 1])
    ensures ExtractWith(accept, t) == Some(t[i..])
  {
    ExtractWithSpec(accept, t, i);
    WholeRun(t, i, ExtractWith(accept, t).value);
  }

  /** After a prefix without the digit 2, a version made of digits and dots
      and ending in a digit is found whole. */
  lemma ExtractAfterPrefix(p: string, d: string)
    requires '2' !in p
    requires DatePattern(d) && (forall k :: 0 <= k < |d| ==> DigitOrDot(d[k])) && d[|d| - 1] != '.'
    ensures ExtractDateVersion(p + d) == Some(d)
  {
    IsDateVersionAcceptsDates();
    ExtractWithAfterPrefix(IsDateVersion, p, d);
  }

  /** Without the digit 2 there is no version. */
  lemma NoTwoNoVersion(text: string)
    requires '2' !in text
    ensures ExtractDateVersion(text) == None
  {
    ExtractDateVersionNone(text);
    forall j | 0 <= j && j + 10 <= |text|
      ensures !DatePattern(Window(text, j))
    {
      assert Window(text, j)[0] == text[j];
    }
  }

  /** The extraction after a word without the digit 2, such as "yt-dlp "
      or "version ", finds "2024.01.15" whole and keeps the fourth part of
      "2024.01.15.1". */
  lemma ExtractDateVersionExamples(p: string, d: string)
    requires '2' !in p
    requires d == "2024.01.15" || d == "2024.01.15.1"
    ensures ExtractDateVersion(p + d) == Some(d)
  {
    if d == "2024.01.15" {
      assert DatePattern(d);
      assert forall k :: 0 <= k < |d| ==> DigitOrDot(d[k]);
    } else {
      assert DatePattern(d);
      assert forall k :: 0 <= k < |d| ==> DigitOrDot(d[k]);
    }
    ExtractAfterPrefix(p, d);
  }

  /** A line without a date has no version. */
  lemma ExtractDateVersionNoDate()
    ensures ExtractDateVersion("no version here") == None
  {
    NoTwoNoVersion("no version here");
  }

  /** The version of the first line that has one. */
  function FirstVersion(lines: seq<string>): (r: Option<string>)
    ensures r.None? <==> forall k :: 0 <= k < |lines| ==> ExtractDateVersion(lines[k]).None?
    ensures r.Some? ==>
      exists k :: 0 <= k < |lines| && ExtractDateVersion(lines[k]) == r &&
        (forall j :: 0 <= j < k ==> ExtractDateVersion(lines[j]).None?)
  {
    FirstSome(ExtractDateVersion, lines)
  }


  /** `extract_version_from_output`: the version of the first line of the
      output that has one. */
  function ExtractVersionFromOutput(output: string): (r: Option<string>)
    ensures r == FirstVersion(Lines(output))
    ensures output == "" ==> r == None
  {
    FirstVersion(Lines(output))
  }

  // ---------------------------------------------------------------------------
  // Checking and updating
  // ---------------------------------------------------------------------------

  /** One run of the tool: it could not be started, or it exited with a
      status and its output. */
  datatype Run =
    | SpawnFailed(message: string)
    | Ran(success: bool, stdout: string, stderr: string)

  /** `get_ytdlp_version`: the trimmed output of `--version`, or an error. */
  function GetVersion(run: Run): (r: Result<string, string>)
    ensures run.SpawnFailed? ==> r == Err("Failed to execute yt-dlp: " + run.message)
    ensures run.Ran? && run.success ==> r == Ok(Trim(run.stdout))
    ensures run.Ran? && !run.success ==> r == Err("Failed to get yt-dlp version: " + run.stderr)
  {
    match run
    case SpawnFailed(m) => Err("Failed to execute yt-dlp: " + m)
    case Ran(ok, out, err) =>
      if ok then Ok(Trim(out)) else Err("Failed to get yt-dlp version: " + err)
  }

  datatype UpdateCheckResult = UpdateCheckResult(
    currentVersion: string,
    updateAvailable: bool,
    latestVersion: Option<string>,
    error: Option<string>)

  /** The phrases that announce a newer release. */
  predicate AnnouncesUpdate(output: string) {
    Contains(output, "Updating to") || Contains(output, "A new version") || Contains(output, "available")
  }

  /** `check_ytdlp_update`: the installed version must be readable; then
      the check's standard output and error, joined by a line break, decide
      whether an update is available, and the latest version is the one the
      output names, or the installed one when none is announced. A check
      that cannot start is reported in the result, not as an error. */
  function CheckUpdate(versionRun: Run, checkRun: Run): (r: Result<UpdateCheckResult, string>)
    ensures r.Err? <==> GetVersion(versionRun).Err?
    ensures r.Err? ==> r.error == GetVersion(versionRun).error
    ensures r.Ok? ==> r.value.currentVersion == GetVersion(versionRun).value
    ensures r.Ok? ==> (r.value.error.Some? <==> checkRun.SpawnFailed?)
    ensures r.Ok? && checkRun.SpawnFailed? ==>
      !r.value.updateAvailable && r.value.latestVersion == None &&
      r.value.error == Some("Failed to check for updates: " + checkRun.message)
    ensures r.Ok? && checkRun.Ran? ==>
      var combined := checkRun.stdout + "\n" + checkRun.stderr;
      (r.value.updateAvailable <==> AnnouncesUpdate(combined)) &&
      (r.value.updateAvailable ==> r.value.latestVersion == ExtractVersionFromOutput(combined)) &&
      (!r.value.updateAvailable ==> r.value.latestVersion == Some(r.value.currentVersion))
  {
    match GetVersion(versionRun)
    case Err(e) => Err(e)
    case Ok(current) =>
      match checkRun
      case SpawnFailed(m) =>
        Ok(UpdateCheckResult(current, false, None, Some("Failed to check for updates: " + m)))
      case Ran(_, out, err) =>
        var combined := out + "\n" + err;
        var available := AnnouncesUpdate(combined);
        Ok(UpdateCheckResult(current, available,
                             if available then ExtractVersionFromOutput(combined) else Some(current),
                             None))
  }

  /** Whatever the check prints, a result without an announcement never
      claims a version other than the installed one, and an announcement
      without a readable version leaves the latest version unknown. */
  lemma CheckUpdateLatest(versionRun: Run, out: string, err: string, success: bool)
    requires GetVersion(versionRun).Ok?
    ensures var r := CheckUpdate(versionRun, Ran(success, out, err)).value;
      var combined := out + "\n" + err;
      (r.latestVersion.Some? && r.latestVersion != Some(r.currentVersion) ==>
         r.updateAvailable && FirstVersion(Lines(combined)).Some?) &&
      (r.updateAvailable && (forall k :: 0 <= k < |Lines(combined)| ==> ExtractDateVersion(Lines(combined)[k]).None?) ==>
         r.latestVersion == None)
  {
  }

  /** How the update run ended. */
  datatype UpdateRun =
    | UpdateSpawnFailed(message: string)
    | WaitFailed(message: string)
    | Finished(success: bool, lines: seq<string>)

  datatype UpdateResult = UpdateResult(success: bool, message: string, updated: bool, version: Option<string>)

  const UpToDatePhrase := "is up to date"

  /** The output reports that nothing needed updating. */
  predicate UpToDate(text: string) {
    Contains(text, "yt-dlp " + UpToDatePhrase) || Contains(text, UpToDatePhrase)
  }

  /** `update_ytdlp`: `before` and `after` are the version reads around the
      update, `run` the update itself, whose lines are its standard output
      followed by its standard error. */
  function UpdateYtdlp(before: Run, run: UpdateRun, after: Run): (r: Result<UpdateResult, string>)
    ensures run.UpdateSpawnFailed? ==> r == Err("Failed to spawn yt-dlp update process: " + run.message)
    ensures run.WaitFailed? ==> r == Err("Failed to wait for yt-dlp update: " + run.message)
    ensures r.Ok? <==> run.Finished?
    ensures r.Ok? ==> (r.value.success <==> run.success)
    ensures r.Ok? ==> (r.value.updated <==> run.success && !Contains(Join(run.lines, "\n"), UpToDatePhrase))
    ensures r.Ok? && !run.success ==> r.value.version == GetVersion(before).ToOption()
    ensures r.Ok? && !run.success && Join(run.lines, "\n") == "" ==>
      r.value.message == "Update failed with unknown error"
    ensures r.Ok? && r.value.updated ==>
      r.value.version == GetVersion(after).ToOption().OrElse(ExtractVersionFromOutput(Join(run.lines, "\n")))
    ensures r.Ok? && run.success && !r.value.updated ==> r.value.version == GetVersion(after).ToOption()
    ensures r.Ok? && !run.success && Join(run.lines, "\n") != "" ==>
      var ls := Lines(Join(run.lines, "\n"));
      |ls| > 0 && r.value.message == "Update failed: " + ls[|ls| - 1]
    ensures r.Ok? && run.success && !r.value.updated ==>
      r.value.message == "yt-dlp is already up to date (" + r.value.version.GetOr("unknown") + ")"
    ensures r.Ok? && r.value.updated && r.value.version.Some? ==>
      r.value.message == "Successfully updated yt-dlp to version " + r.value.version.value
    ensures r.Ok? && r.value.updated && r.value.version.None? ==>
      r.value.message == "Successfully updated yt-dlp"
  {
    match run
    case UpdateSpawnFailed(m) => Err("Failed to spawn yt-dlp update process: " + m)
    case WaitFailed(m) => Err("Failed to wait for yt-dlp update: " + m)
    case Finished(ok, lines) =>
      var text := Join(lines, "\n");
      if ok then
        UpToDateIsContains(text);
        var newVersion := GetVersion(after).ToOption();
        if UpToDate(text) then
          Ok(UpdateResult(true, "yt-dlp is already up to date (" + newVersion.GetOr("unknown") + ")", false, newVersion))
        else
          var info := newVersion.OrElse(ExtractVersionFromOutput(text));
          var msg := if info.Some? then "Successfully updated yt-dlp to version " + info.value
                     else "Successfully updated yt-dlp";
          Ok(UpdateResult(true, msg, true, info))
      else
        var ls := Lines(text);
        var msg := if text == "" then "Update failed with unknown error"
                   else "Update failed: " + ls[|ls| - 1];
        Ok(UpdateResult(false, msg, false, GetVersion(before).ToOption()))
  }

  /** A match of `a + b` contains a match of `b` right after `a`. */
  lemma MatchSuffix(s: string, a: string, b: string, i: int)
    requires MatchAt(s, a + b, i)
    ensures MatchAt(s, b, i + |a|)
  {
    assert s[i + |a|..i + |a| + |b|] == s[i..i + |a + b|][|a|..];
    assert (a + b)[|a|..] == b;
  }

  /** The first phrase of the up-to-date test is redundant: it contains the
      second. */
  lemma UpToDateIsContains(text: string)
    ensures UpToDate(text) <==> Contains(text, UpToDatePhrase)
  {
    if Contains(text, "yt-dlp " + UpToDatePhrase) {
      var i := IndexOf(text, "yt-dlp " + UpToDatePhrase).value;
      MatchSuffix(text, "yt-dlp ", UpToDatePhrase, i);
      ContainsAt(text, UpToDatePhrase, i + |"yt-dlp "|);
    }
  }

  // ---------------------------------------------------------------------------
  // The extraction as written, on bytes
  // ---------------------------------------------------------------------------

  /** `str::is_char_boundary` on the UTF-8 bytes of a string. */
  predicate IsCharBoundary(b: seq<Utf8.byte>, k: nat) {
    k == |b| || (k < |b| && !Utf8.IsCont(b[k]))
  }

  /** `&text[i..j]` with byte positions: None where Rust panics. Between
      boundaries of an encoded string the bytes always decode. */
  function ByteSlice(b: seq<Utf8.byte>, i: nat, j: nat): (r: Option<string>)
    ensures r.Some? ==> i <= j <= |b| && IsCharBoundary(b, i) && IsCharBoundary(b, j)
    ensures !IsCharBoundary(b, j) ==> r.None?
  {
    if i <= j && IsCharBoundary(b, i) && IsCharBoundary(b, j) then Utf8.Decode(b[i..j]) else None
  }

  /** `is_date_version` as written: lengths are byte counts and the day
      digits are a byte slice, which panics (None) when it cuts a
      character. */
  function IsDateVersionAsWritten(w: string): (r: Option<bool>)
    ensures r == Some(true) ==> |Split(w, '.')| >= 3
  {
    var parts := Split(w, '.');
    if |parts| < 3 then Some(false)
    else if |Utf8.Encode(parts[0])| != 4 || !StartsWith(parts[0], "20") || !AllDigits(parts[0]) then Some(false)
    else if |Utf8.Encode(parts[1])| != 2 || !AllDigits(parts[1]) then Some(false)
    else if |Utf8.Encode(parts[2])| < 2 then Some(false)
    else
      match ByteSlice(Utf8.Encode(parts[2]), 0, 2)
      case None => None
      case Some(day) => Some(AllDigits(day))
  }

  /** What the scan as written ends with. */
  datatype Scan = Panicked | Returned(version: Option<string>)

  /** `extract_date_version` as written: the window start `i` and the end of
      the extension count characters, but the slices taken with them count
      bytes. */
  function ScanAsWritten(text: string, i: nat): (r: Scan)
    ensures i + 10 > |text| ==> r == Returned(None)
    ensures i + 10 <= |text| && !IsCharBoundary(Utf8.Encode(text), i + 10) ==> r == Panicked
    decreases |text| - i
  {
    if i + 10 > |text| then Returned(None)
    else
      var b := Utf8.Encode(text);
      match ByteSlice(b, i, i + 10)
      case None => Panicked
      case Some(w) =>
        match IsDateVersionAsWritten(w)
        case None => Panicked
        case Some(false) => ScanAsWritten(text, i + 1)
        case Some(true) =>
          var end := DigitsDotsEnd(text, i + 10);
          match ByteSlice(b, i, end)
          case None => Panicked
          case Some(v) => Returned(Some(TrimEndMatches(v, '.')))
  }

  /** Encoding distributes over concatenation. */
  lemma {:induction false} EncodeAppend(a: string, b: string)
    ensures Utf8.Encode(a + b) == Utf8.Encode(a) + Utf8.Encode(b)
    decreases |a|
  {
    if |a| > 0 {
      assert (a + b)[0] == a[0];
      assert (a + b)[1..] == a[1..] + b;
      assert Utf8.Encode(a + b) == Utf8.EncodeChar(a[0]) + Utf8.Encode(a[1..] + b);
      assert Utf8.Encode(a) == Utf8.EncodeChar(a[0]) + Utf8.Encode(a[1..]);
      EncodeAppend(a[1..], b);
      assert Utf8.EncodeChar(a[0]) + (Utf8.Encode(a[1..]) + Utf8.Encode(b))
          == (Utf8.EncodeChar(a[0]) + Utf8.Encode(a[1..])) + Utf8.Encode(b);
    } else {
      assert a + b == b;
    }
  }

  /** ASCII text takes one byte per character. */
  lemma {:induction false} EncodeAsciiLength(s: string)
    requires forall k :: 0 <= k < |s| ==> s[k] < '\U{80}'
    ensures |Utf8.Encode(s)| == |s|
    decreases |s|
  {
    if |s| > 0 {
      EncodeAsciiLength(s[1..]);
    }
  }

  /** The arrow takes three bytes, the last a continuation byte. */
  lemma ArrowBytes()
    ensures Utf8.Encode("→") == [0xE2, 0x86, 0x92]
  {
    assert "→"[1..] == [];
    assert Utf8.EncodeChar('→') == [0xE2, 0x86, 0x92];
  }

  /** The bytes of `p + arrow + d` with an ASCII `p` put the arrow's bytes
      right after `p`'s. */
  lemma ArrowAfterAscii(p: string, d: string)
    requires forall k :: 0 <= k < |p| ==> p[k] < '\U{80}'
    ensures |Utf8.Encode(p + "→" + d)| >= |p| + 3
    ensures Utf8.Encode(p + "→" + d)[|p| + 2] == 0x92
  {
    EncodeAppend(p + "→", d);
    EncodeAppend(p, "→");
    EncodeAsciiLength(p);
    ArrowBytes();
  }

  /** A line whose ninth character is an arrow makes the scan as written
      slice the arrow's bytes at its very first window. */
  lemma ArrowLinePanics()
    ensures ScanAsWritten("Updated " + "→" + " 2024.01.15", 0) == Panicked
  {
    var p, d := "Updated ", " 2024.01.15";
    assert forall k :: 0 <= k < |p| ==> p[k] < '\U{80}';
    ArrowAfterAscii(p, d);
    assert !IsCharBoundary(Utf8.Encode(p + "→" + d), 10);
  }

  /** On the same line the scan over characters finds the date. */
  lemma ArrowLineDate()
    ensures ExtractDateVersion("Updated → " + "2024.01.15") == Some("2024.01.15")
  {
    var p, v := "Updated → ", "2024.01.15";
    assert DatePattern(v);
    assert forall k :: 0 <= k < |v| ==> DigitOrDot(v[k]);
    assert forall k :: 0 <= k < |p| ==> p[k] != '2';
    ExtractAfterPrefix(p, v);
  }
}

=== FILE: utf8.dfy ===
/** UTF-8 as Rust's `String::from_utf8` / `str::from_utf8` accept it: the
    well-formed byte sequences of Table 3-7 in chapter 3 of the Unicode
    Standard (no overlong forms, no surrogates, nothing above U+10FFFF). */
module Utf8 {
  import opened Wrappers

  newtype byte = x: int | 0 <= x < 256

  predicate IsCont(b: byte) {
    0x80 <= b <= 0xBF
  }

  /** Length of the well-formed code-unit sequence at the front of `s`, or 0
      when the front of `s` is ill-formed (or `s` is empty). */
  function LeadLength(s: seq<byte>): (n: nat)
    ensures n <= |s| && n <= 4
  {
    if |s| == 0 then 0
    else
      var b0 := s[0];
      if b0 <= 0x7F then 1
      else if 0xC2 <= b0 <= 0xDF then
        if |s| >= 2 && IsCont(s[1]) then 2 else 0
      else if 0xE0 <= b0 <= 0xEF then
        if |s| >= 3 && IsCont(s[2]) &&
           (if b0 == 0xE0 then 0xA0 <= s[1] <= 0xBF
            else if b0 == 0xED then 0x80 <= s[1] <= 0x9F
            else IsCont(s[1]))
        then 3 else 0
      else if 0xF0 <= b0 <= 0xF4 then
        if |s| >= 4 && IsCont(s[2]) && IsCont(s[3]) &&
           (if b0 == 0xF0 then 0x90 <= s[1] <= 0xBF
            else if b0 == 0xF4 then 0x80 <= s[1] <= 0x8F
            else IsCont(s[1]))
        then 4 else 0
      else 0
  }

  predicate IsScalar(cp: int) {
    (0 <= cp < 0xD800) || (0xE000 <= cp < 0x11_0000)
  }

  /** The code point a well-formed sequence of `LeadLength(s)` bytes stands for. */
  function CodePoint(s: seq<byte>): (cp: int)
    requires LeadLength(s) > 0
    ensures IsScalar(cp)
  {
    var n := LeadLength(s);
    if n == 1 then s[0] as int
    else if n == 2 then (s[0] as int - 0xC0) * 64 + (s[1] as int - 0x80)
    else if n == 3 then
      (s[0] as int - 0xE0) * 4096 + (s[1] as int - 0x80) * 64 + (s[2] as int - 0x80)
    else
      (s[0] as int - 0xF0) * 262144 + (s[1] as int - 0x80) * 4096
        + (s[2] as int - 0x80) * 64 + (s[3] as int - 0x80)
  }

  /** `str::from_utf8`: the decoded text, or `None` if any part is ill-formed. */
  function Decode(s: seq<byte>): (r: Option<string>)
    ensures r.Some? ==> |r.value| <= |s|
    decreases |s|
  {
    if |s| == 0 then Some([])
    else
      var n := LeadLength(s);
      if n == 0 then None
      else
        match Decode(s[n..])
        case None => None
        case Some(rest) => Some([CodePoint(s) as char] + rest)
  }

  /** The UTF-8 encoding of one character: the code point cut into 6-bit
      groups, most significant first, behind the lead byte's length marker. */
  function EncodeChar(c: char): (r: seq<byte>)
    ensures 1 <= |r| <= 4
  {
    var cp := c as int;
    var g0, q1 := cp % 64, cp / 64;
    var g1, q2 := q1 % 64, q1 / 64;
    var g2, q3 := q2 % 64, q2 / 64;
    if cp < 0x80 then [cp as byte]
    else if cp < 0x800 then [(0xC0 + q1) as byte, (0x80 + g0) as byte]
    else if cp < 0x1_0000 then [(0xE0 + q2) as byte, (0x80 + g1) as byte, (0x80 + g0) as byte]
    else [(0xF0 + q3) as byte, (0x80 + g2) as byte, (0x80 + g1) as byte, (0x80 + g0) as byte]
  }

  /** The UTF-8 encoding of a string (Rust `str::as_bytes`). */
  function Encode(s: string): (r: seq<byte>)
    ensures |r| >= |s|
    decreases |s|
  {
    if |s| == 0 then [] else EncodeChar(s[0]) + Encode(s[1..])
  }

  /** The encoding of a character is one well-formed sequence that decodes back
      to the character, whatever follows it. */
  lemma EncodeCharDecodes(c: char, rest: seq<byte>)
    ensures LeadLength(EncodeChar(c) + rest) == |EncodeChar(c)|
    ensures CodePoint(EncodeChar(c) + rest) == c as int
  {
    var cp := c as int;
    var g0, q1 := cp % 64, cp / 64;
    var g1, q2 := q1 % 64, q1 / 64;
    var g2, q3 := q2 % 64, q2 / 64;
    assert cp == q1 * 64 + g0 && q1 == q2 * 64 + g1 && q2 == q3 * 64 + g2;
    if cp < 0x80 {
      EncodeOne(cp, rest);
    } else if cp < 0x800 {
      EncodeTwo(q1, g0, rest);
    } else if cp < 0x1_0000 {
      EncodeThree(q2, g1, g0, rest);
    } else {
      EncodeFour(q3, g2, g1, g0, rest);
    }
  }

  lemma EncodeOne(cp: int, rest: seq<byte>)
    requires 0 <= cp < 0x80
    ensures var s := [cp as byte] + rest; LeadLength(s) == 1 && CodePoint(s) == cp
  {
  }

  lemma EncodeTwo(q1: int, g0: int, rest: seq<byte>)
    requires 0 <= g0 < 64 && 2 <= q1 < 32
    ensures var s := [(0xC0 + q1) as byte, (0x80 + g0) as byte] + rest;
      LeadLength(s) == 2 && CodePoint(s) == q1 * 64 + g0
  {
  }

  lemma EncodeThree(q2: int, g1: int, g0: int, rest: seq<byte>)
    requires 0 <= g0 < 64 && 0 <= g1 < 64 && 0 <= q2 < 16
    requires 0x800 <= (q2 * 64 + g1) * 64 + g0 && IsScalar((q2 * 64 + g1) * 64 + g0)
    ensures var s := [(0xE0 + q2) as byte, (0x80 + g1) as byte, (0x80 + g0) as byte] + rest;
      LeadLength(s) == 3 && CodePoint(s) == (q2 * 64 + g1) * 64 + g0
  {
  }

  lemma EncodeFour(q3: int, g2: int, g1: int, g0: int, rest: seq<byte>)
    requires 0 <= g0 < 64 && 0 <= g1 < 64 && 0 <= g2 < 64 && 0 <= q3 < 5
    requires 0x1_0000 <= ((q3 * 64 + g2) * 64 + g1) * 64 + g0 < 0x11_0000
    ensures var s := [(0xF0 + q3) as byte, (0x80 + g2) as byte, (0x80 + g1) as byte,
                      (0x80 + g0) as byte] + rest;
      LeadLength(s) == 4 && CodePoint(s) == ((q3 * 64 + g2) * 64 + g1) * 64 + g0
  {
  }

  /** Round trip: decoding the encoding of any string gives the string back. */
  lemma {:induction false} DecodeEncode(s: string)
    ensures Decode(Encode(s)) == Some(s)
    decreases |s|
  {
    if |s| > 0 {
      var e := EncodeChar(s[0]);
      var tail := Encode(s[1..]);
      EncodeCharDecodes(s[0], tail);
      assert (e + tail)[|e|..] == tail;
      DecodeEncode(s[1..]);
      assert Encode(s) == e + tail;
      assert (CodePoint(e + tail) as char) == s[0];
      assert s == [s[0]] + s[1..];
    }
  }

  predicate IsAsciiBytes(s: seq<byte>) {
    forall i :: 0 <= i < |s| ==> s[i] <= 0x7F
  }

  /** ASCII bytes always decode, one character per byte. */
  lemma {:induction false} DecodeAscii(s: seq<byte>)
    requires IsAsciiBytes(s)
    ensures Decode(s).Some?
    ensures |Decode(s).value| == |s|
    ensures forall i :: 0 <= i < |s| ==> Decode(s).value[i] as int == s[i] as int
    decreases |s|
  {
    if |s| > 0 {
      assert LeadLength(s) == 1;
      DecodeAscii(s[1..]);
      assert Decode(s).value == [s[0] as char] + Decode(s[1..]).value;
    }
  }
}

=== FILE: worker.dfy ===
/** The queue worker's handling of one popped item: the outputs of its
    process are applied to the queue one by one until one of them ends the
    handling, and the fallback that picks the newest media file of the
    output folder when the process named no file. */
module Worker {
  import opened Wrappers
  import opened Ints
  import opened Text
  import opened Models
  import opened Queue
  import Process
  import Errors
  import QueueLemmas
  import History

  /** How the handling of an item ended. */
  datatype Outcome =
    | Finished(path: string)                   // `complete` called, history entry "completed"
    | FailedWith(error: Errors.DownloadError)  // `fail` called, history entry "failed"
    | Stopped                                  // cancelled, killed or stream closed: nothing recorded

  /** Whether the executables were found and the process started. */
  datatype Launch =
    | Spawned
    | ResolveFailed(error: Errors.DownloadError)
    | SpawnFailed(error: Errors.DownloadError)

  /** The worker's state between two outputs: the queue and the last file
      path the process reported. */
  datatype Handling = Handling(queue: DownloadQueue, detected: Option<string>)

  /** The failure a non-zero exit is reported as. */
  function ExitFailure(code: i32): Errors.DownloadError {
    Errors.DownloadFailed("Process exited with code " + IntToString(code))
  }

  /** The item has been cancelled from outside. */
  predicate IsCancelled(q: DownloadQueue, id: ItemId) {
    Get(q.items, id).Some? && Get(q.items, id).value.status == Cancelled
  }

  /** The path `complete` is given: the reported path, else the fallback
      file, else the empty string. */
  function CompletionPath(detected: Option<string>, fallback: Option<string>): (p: string)
    ensures detected.Some? ==> p == detected.value
    ensures detected.None? && fallback.Some? ==> p == fallback.value
    ensures detected.None? && fallback.None? ==> p == ""
  {
    detected.GetOr(fallback.GetOr(""))
  }

  /** One arm of the output `match`: the new state, and the outcome when
      this output ends the handling. */
  function HandleOutput(h: Handling, id: ItemId, out: Process.ProcessOutput, fallback: Option<string>): (r: (Handling, Option<Outcome>))
    ensures r.1.None? <==> out.Progress? || out.Merging? || out.FilePath?
    ensures out.FilePath? ==> r.0 == h.(detected := Some(out.path))
    ensures out.Terminated? ==> r == (h, Some(Stopped))
    ensures r.0.queue.pending == h.queue.pending
  {
    match out
    case Progress(ev) => (h.(queue := UpdateProgress(h.queue, id, ev).queue), None)
    case Merging => (h.(queue := UpdateStatus(h.queue, id, Merging).queue), None)
    case FilePath(p) => (h.(detected := Some(p)), None)
    case Error(e) => (h.(queue := Fail(h.queue, id, e).queue), Some(FailedWith(e)))
    case Completed(_) =>
      var path := CompletionPath(h.detected, fallback);
      (h.(queue := Complete(h.queue, id, path).queue), Some(Finished(path)))
    case ExitError(c) =>
      var e := ExitFailure(c);
      (h.(queue := Fail(h.queue, id, e).queue), Some(FailedWith(e)))
    case Terminated => (h, Some(Stopped))
  }

  /** The `while let Some(output) = rx.recv()` loop. Before each output the
      item's status is read, and a cancelled item ends the handling. The
      loop ends at the first output that finishes, fails or stops it, or
      when the stream closes. Only the item being handled is touched; a
      finished or failed item is Completed or Failed and no longer active,
      and an item that is merely stopped never reaches either status unless
      it had it before. */
  function HandleOutputs(h: Handling, id: ItemId, outs: seq<Process.ProcessOutput>, fallback: Option<string>): (r: (DownloadQueue, Outcome))
    ensures r.0.pending == h.queue.pending
    ensures forall other :: other != id ==> Get(r.0.items, other) == Get(h.queue.items, other)
    ensures Get(r.0.items, id).Some? <==> Get(h.queue.items, id).Some?
    ensures r.1.Finished? && Get(h.queue.items, id).Some? ==>
      Get(r.0.items, id).value.status == Completed && Get(r.0.items, id).value.filePath == Some(r.1.path)
    ensures r.1.FailedWith? && Get(h.queue.items, id).Some? ==>
      Get(r.0.items, id).value.status == Failed &&
      Get(r.0.items, id).value.error == Some(Errors.Display(r.1.error))
    ensures !r.1.Stopped? ==> forall x :: x in r.0.active <==> x in h.queue.active && x != id
    ensures r.1.Stopped? ==> r.0.active == h.queue.active
    ensures r.1.Stopped? && Get(h.queue.items, id).Some? ==>
      Get(r.0.items, id).value.status in {Get(h.queue.items, id).value.status, Merging}
    decreases |outs|
  {
    if |outs| == 0 || IsCancelled(h.queue, id) then (h.queue, Stopped)
    else
      match HandleOutput(h, id, outs[0], fallback)
      case (h1, Some(o)) => (h1.queue, o)
      case (h1, None) =>
        var r := HandleOutputs(h1, id, outs[1..], fallback);
        assert r.1.Stopped? && Get(h.queue.items, id).Some? ==>
          Get(r.0.items, id).value.status in {Get(h.queue.items, id).value.status, Merging} by {
          if r.1.Stopped? && Get(h.queue.items, id).Some? && outs[0].Progress? {
            var before := Get(h.queue.items, id).value.status;
            assert Get(h1.queue.items, id).value.status in {before, Merging};
          }
        }
        r
  }

  /** `process_queue_item`: when the executables cannot be resolved or the
      process cannot be started the item fails at once and no output is
      read; otherwise the outputs are handled from an empty path. */
  function ProcessQueueItem(q: DownloadQueue, id: ItemId, launch: Launch, outs: seq<Process.ProcessOutput>, fallback: Option<string>): (r: (DownloadQueue, Outcome))
    ensures !launch.Spawned? ==> r == (Fail(q, id, launch.error).queue, FailedWith(launch.error))
    ensures launch.Spawned? ==> r == HandleOutputs(Handling(q, None), id, outs, fallback)
  {
    match launch
    case ResolveFailed(e) => (Fail(q, id, e).queue, FailedWith(e))
    case SpawnFailed(e) => (Fail(q, id, e).queue, FailedWith(e))
    case Spawned => HandleOutputs(Handling(q, None), id, outs, fallback)
  }

  /** An output that ends the handling: anything but progress, merging and
      a file path. */
  predicate Ends(out: Process.ProcessOutput) {
    !(out.Progress? || out.Merging? || out.FilePath?)
  }

  /** Outputs after one that ends the handling are never read. */
  lemma {:induction false} IgnoresAfterEnd(h: Handling, id: ItemId, outs: seq<Process.ProcessOutput>, more: seq<Process.ProcessOutput>, fallback: Option<string>)
    requires |outs| > 0 && Ends(outs[|outs| - 1])
    ensures HandleOutputs(h, id, outs + more, fallback) == HandleOutputs(h, id, outs, fallback)
    decreases |outs|
  {
    var all := outs + more;
    assert all[0] == outs[0];
    if !IsCancelled(h.queue, id) {
      var (h1, o) := HandleOutput(h, id, outs[0], fallback);
      if o.None? {
        assert |outs| > 1;
        assert all[1..] == outs[1..] + more;
        IgnoresAfterEnd(h1, id, outs[1..], more, fallback);
      }
    }
  }

  /** The file paths `ps` reported one after another. */
  function Paths(ps: seq<string>): (r: seq<Process.ProcessOutput>)
    ensures |r| == |ps|
    ensures forall k :: 0 <= k < |ps| ==> r[k] == Process.FilePath(ps[k])
  {
    seq(|ps|, k requires 0 <= k < |ps| => Process.FilePath(ps[k]))
  }

  /** When the process reports file paths and then completes, the item is
      completed with the last path reported; with none reported it falls
      back to the newest file of the folder, and then to the empty path. */
  lemma {:induction false} LastPathWins(h: Handling, id: ItemId, ps: seq<string>, done: string, fallback: Option<string>)
    requires !IsCancelled(h.queue, id)
    ensures var path := if |ps| > 0 then ps[|ps| - 1] else CompletionPath(h.detected, fallback);
      HandleOutputs(h, id, Paths(ps) + [Process.Completed(done)], fallback) ==
        (Complete(h.queue, id, path).queue, Finished(path))
    decreases |ps|
  {
    var outs := Paths(ps) + [Process.Completed(done)];
    if |ps| > 0 {
      var h1 := h.(detected := Some(ps[0]));
      assert outs[0] == Process.FilePath(ps[0]);
      assert HandleOutput(h, id, outs[0], fallback) == (h1, None);
      assert outs[1..] == Paths(ps[1..]) + [Process.Completed(done)];
      assert HandleOutputs(h, id, outs, fallback) == HandleOutputs(h1, id, outs[1..], fallback);
      LastPathWins(h1, id, ps[1..], done, fallback);
    } else {
      assert outs == [Process.Completed(done)];
      CompletesAtOnce(h, id, done, fallback);
    }
  }

  /** A completion read first completes the item with the path known so far
      or the fallback. */
  lemma CompletesAtOnce(h: Handling, id: ItemId, done: string, fallback: Option<string>)
    requires !IsCancelled(h.queue, id)
    ensures var path := CompletionPath(h.detected, fallback);
      HandleOutputs(h, id, [Process.Completed(done)], fallback) ==
        (Complete(h.queue, id, path).queue, Finished(path))
  {
    var path := CompletionPath(h.detected, fallback);
    assert HandleOutput(h, id, Process.Completed(done), fallback).1 == Some(Finished(path));
  }

  /** A non-zero exit fails the item with the message
      "Download failed: Process exited with code <code>". */
  lemma ExitErrorMessage(h: Handling, id: ItemId, code: i32, more: seq<Process.ProcessOutput>, fallback: Option<string>)
    requires Get(h.queue.items, id).Some? && !IsCancelled(h.queue, id)
    ensures var r := HandleOutputs(h, id, [Process.ExitError(code)] + more, fallback);
      r.1 == FailedWith(ExitFailure(code)) &&
      Get(r.0.items, id).value.status == Failed &&
      Get(r.0.items, id).value.error == Some("Download failed: " + ("Process exited with code " + IntToString(code)))
  {
    var outs := [Process.ExitError(code)] + more;
    var e := ExitFailure(code);
    assert outs[0] == Process.ExitError(code);
    assert HandleOutput(h, id, outs[0], fallback).1 == Some(FailedWith(e));
    assert HandleOutputs(h, id, outs, fallback) == (Fail(h.queue, id, e).queue, FailedWith(e));
    assert Errors.HasPayload(e);
  }

  /** Handling a process never breaks the queue's invariant. */
  lemma {:induction false} HandleKeepsInv(h: Handling, id: ItemId, outs: seq<Process.ProcessOutput>, fallback: Option<string>)
    requires QueueLemmas.Inv(h.queue)
    ensures QueueLemmas.Inv(HandleOutputs(h, id, outs, fallback).0)
    decreases |outs|
  {
    if |outs| > 0 && !IsCancelled(h.queue, id) {
      var (h1, o) := HandleOutput(h, id, outs[0], fallback);
      HandleOutputKeepsInv(h, id, outs[0], fallback);
      if o.None? {
        HandleKeepsInv(h1, id, outs[1..], fallback);
      }
    }
  }

  /** One output keeps the invariant. */
  lemma HandleOutputKeepsInv(h: Handling, id: ItemId, out: Process.ProcessOutput, fallback: Option<string>)
    requires QueueLemmas.Inv(h.queue)
    ensures QueueLemmas.Inv(HandleOutput(h, id, out, fallback).0.queue)
  {
    match out
    case Progress(ev) =>
      QueueLemmas.RunKeepsInv(h.queue, QueueLemmas.UpdateProgressOp(id, ev));
    case Merging =>
      QueueLemmas.RunKeepsInv(h.queue, QueueLemmas.UpdateStatusOp(id, Merging));
    case FilePath(p) =>
    case Error(e) =>
      QueueLemmas.RunKeepsInv(h.queue, QueueLemmas.FailOp(id, e));
    case Completed(_) =>
      QueueLemmas.RunKeepsInv(h.queue, QueueLemmas.CompleteOp(id, CompletionPath(h.detected, fallback)));
    case ExitError(c) =>
      QueueLemmas.RunKeepsInv(h.queue, QueueLemmas.FailOp(id, ExitFailure(c)));
    case Terminated =>
  }


  /** What the history entry takes from outside the queue: the clock, the
      `Debug` names of the format and quality, and the size of the file on
      disk. */
  datatype EntryContext = EntryContext(
    millis: int, seconds: int, formatName: string, qualityName: string, fileSize: Option<u64>)

  /** `add_to_history_internal`: a finished download is recorded as
      "completed" with its path, a failed one as "failed" with the error's
      text, and a stopped one is not recorded. */
  function HistoryEntry(item: QueueItem, o: Outcome, ctx: EntryContext): (r: Option<History.HistoryItem>)
    ensures r.Some? <==> !o.Stopped?
    ensures o.Finished? ==>
      History.Completed(r.value) && r.value.filePath == Some(o.path) && r.value.error.None?
    ensures o.FailedWith? ==>
      !History.Completed(r.value) && r.value.filePath.None? && r.value.fileSize.None? &&
      r.value.error == Some(Errors.Display(o.error))
    ensures r.Some? ==>
      r.value.url == item.config.url && r.value.title == item.title.GetOr("Unknown") &&
      r.value.thumbnail == item.thumbnail && r.value.duration.None?
  {
    var id := IntToString(ctx.millis) + "-" + IntToString(item.id);
    var title := item.title.GetOr("Unknown");
    match o
    case Finished(path) =>
      Some(History.HistoryItem(id, item.config.url, title, item.thumbnail, ctx.formatName, ctx.qualityName,
        Some(path), ctx.fileSize, None, ctx.seconds, "completed", None))
    case FailedWith(e) =>
      Some(History.HistoryItem(id, item.config.url, title, item.thumbnail, ctx.formatName, ctx.qualityName,
        None, None, None, ctx.seconds, "failed", Some(Errors.Display(e))))
    case Stopped => None
  }

  /** The totals count a worker's finished download as successful and a
      failed one as failed, never both. */
  lemma RecordOutcome(stats: History.DownloadStats, item: QueueItem, o: Outcome, ctx: EntryContext)
    requires !o.Stopped?
    ensures var r := History.Record(stats, HistoryEntry(item, o, ctx).value);
      r.totalDownloads == (stats.totalDownloads + 1) % U64_LIMIT &&
      (o.Finished? ==> r.successfulDownloads == (stats.successfulDownloads + 1) % U64_LIMIT &&
                       r.failedDownloads == stats.failedDownloads) &&
      (o.FailedWith? ==> r.failedDownloads == (stats.failedDownloads + 1) % U64_LIMIT &&
                         r.successfulDownloads == stats.successfulDownloads)
  {
  }

  // ---------------------------------------------------------------------------
  // The newest media file of the output folder
  // ---------------------------------------------------------------------------

  /** The suffixes `find_latest_file_sync` accepts. */
  const FallbackExtensions: seq<string> :=
    [".mp4", ".mkv", ".webm", ".avi", ".mov", ".flv",
     ".mp3", ".m4a", ".aac", ".opus", ".flac", ".wav", ".ogg"]

  /** What `metadata()` reports; `modified` is None when the platform cannot
      give a modification time. */
  datatype Metadata = Metadata(isFile: bool, modified: Option<int>)

  /** A directory entry whose own read succeeded; `metadata` is None when
      reading its metadata fails. */
  datatype DirEntry = DirEntry(path: string, metadata: Option<Metadata>)

  /** The output folder as the function sees it. */
  datatype Folder =
    | NotADirectory
    | Unreadable
    | Listing(entries: seq<DirEntry>)

  /** A media file name: lower-cased, not a partial download, and ending in
      one of the accepted suffixes. */
  predicate IsMediaPath(path: string) {
    var lower := Lower(path);
    !EndsWith(lower, ".part") && !EndsWith(lower, ".ytdl") &&
    exists i :: 0 <= i < |FallbackExtensions| && EndsWith(lower, FallbackExtensions[i])
  }

  /** A regular file that `media` accepts, with a known modification
      time. The scan below is stated for any name test `media`; the worker
      uses `IsMediaPath`. */
  predicate IsCandidate(media: string -> bool, e: DirEntry) {
    e.metadata.Some? && e.metadata.value.isFile && media(e.path) && e.metadata.value.modified.Some?
  }

  function Time(media: string -> bool, e: DirEntry): int
    requires IsCandidate(media, e)
  {
    e.metadata.value.modified.value
  }

  /** The entry's metadata can be read, and a regular file `media` accepts
      has a modification time. */
  predicate EntryReadable(media: string -> bool, e: DirEntry) {
    e.metadata.Some? && (e.metadata.value.isFile && media(e.path) ==> e.metadata.value.modified.Some?)
  }

  /** Every entry is readable: otherwise the scan gives up. */
  predicate Readable(media: string -> bool, es: seq<DirEntry>) {
    forall j :: 0 <= j < |es| ==> EntryReadable(media, es[j])
  }

  /** Among the first `n` entries, entry `k` is a candidate no other
      candidate is newer than, and every earlier candidate is strictly
      older. */
  predicate NewestBefore(media: string -> bool, es: seq<DirEntry>, n: int, k: int)
    requires n <= |es|
  {
    0 <= k < n && IsCandidate(media, es[k]) &&
    forall j :: 0 <= j < n && IsCandidate(media, es[j]) ==>
      Time(media, es[j]) <= Time(media, es[k]) && (j < k ==> Time(media, es[j]) < Time(media, es[k]))
  }

  /** Entry `k` is the first candidate with the greatest time. */
  predicate NewestAt(media: string -> bool, es: seq<DirEntry>, k: int) {
    NewestBefore(media, es, |es|, k)
  }

  /** The loop of `find_latest_file_sync` over the listed entries. */
  method Newest(media: string -> bool, es: seq<DirEntry>) returns (r: Option<string>)
    ensures r.Some? <==>
      Readable(media, es) && exists k :: 0 <= k < |es| && IsCandidate(media, es[k])
    ensures r.Some? ==> exists k :: NewestAt(media, es, k) && es[k].path == r.value
  {
    var best: Option<nat> := None;
    var i := 0;
    while i < |es|
      invariant 0 <= i <= |es|
      invariant forall j :: 0 <= j < i ==> EntryReadable(media, es[j])
      invariant best.None? <==> forall j :: 0 <= j < i ==> !IsCandidate(media, es[j])
      invariant best.Some? ==> NewestBefore(media, es, i, best.value)
    {
      var e := es[i];
      if !EntryReadable(media, e) {
        return None;
      }
      if IsCandidate(media, e) && (best.None? || Time(media, e) > Time(media, es[best.value])) {
        best := Some(i);
      }
      i := i + 1;
    }
    if best.None? {
      return None;
    }
    return Some(es[best.value].path);
  }

  /** `find_latest_file_sync`: the path of the first media file with the
      greatest modification time. It gives None when the folder is not a
      readable directory, when any entry's metadata or any media file's
      time cannot be read, or when there is no media file. */
  method FindLatestFile(folder: Folder) returns (r: Option<string>)
    ensures r.Some? <==>
      folder.Listing? && Readable(IsMediaPath, folder.entries) &&
      exists k :: 0 <= k < |folder.entries| && IsCandidate(IsMediaPath, folder.entries[k])
    ensures r.Some? ==>
      exists k :: NewestAt(IsMediaPath, folder.entries, k) && folder.entries[k].path == r.value
  {
    if !folder.Listing? {
      return None;
    }
    r := Newest(IsMediaPath, folder.entries);
  }

  /** At most one entry is the first newest candidate, so the scan's answer
      is determined by the listing. */
  lemma NewestAtUnique(media: string -> bool, es: seq<DirEntry>, k1: int, k2: int)
    requires NewestAt(media, es, k1) && NewestAt(media, es, k2)
    ensures k1 == k2
  {
  }
}

=== FILE: wrappers.dfy ===
/** Failure-compatible wrappers shared by every module of the model: the
    Rust `Option<T>` and `Result<T, E>` types the source returns. */
module Wrappers {

  datatype Option<+T> = None | Some(value: T) {

    /** The value held by `Some`, or `default` for `None` (Rust `unwrap_or`). */
    function GetOr(default: T): T {
      match this
      case Some(v) => v
      case None => default
    }

    /** `this` when it holds a value, otherwise `other` (Rust `or`). */
    function OrElse(other: Option<T>): Option<T> {
      if Some? then this else other
    }
  }

  datatype Result<+T, +E> = Ok(value: T) | Err(error: E) {

    /** The success value as an `Option` (Rust `ok()`). */
    function ToOption(): Option<T> {
      match this
      case Ok(v) => Some(v)
      case Err(_) => None
    }
  }

  /** `iter().filter_map(f)`: the values `f` gives for the elements it
      accepts, in order. */
  function FilterMap<A, B>(f: A -> Option<B>, xs: seq<A>): (r: seq<B>)
    ensures |r| <= |xs|
    decreases |xs|
  {
    if |xs| == 0 then []
    else
      var r := FilterMap(f, xs[..|xs| - 1]);
      match f(xs[|xs| - 1])
      case None => r
      case Some(y) => r + [y]
  }

  /** Every value `FilterMap` gives is what `f` made of some element. */
  lemma {:induction false} FilterMapSource<A, B>(f: A -> Option<B>, xs: seq<A>, k: nat)
    requires k < |FilterMap(f, xs)|
    ensures exists j :: 0 <= j < |xs| && f(xs[j]) == Some(FilterMap(f, xs)[k])
    decreases |xs|
  {
    var init := xs[..|xs| - 1];
    var r := FilterMap(f, init);
    if k < |r| {
      FilterMapSource(f, init, k);
      var j :| 0 <= j < |init| && f(init[j]) == Some(r[k]);
      assert init[j] == xs[j];
      assert FilterMap(f, xs)[k] == r[k];
    } else {
      assert f(xs[|xs| - 1]) == Some(FilterMap(f, xs)[k]);
    }
  }

  /** Every value `f` makes of an element is in the result. */
  lemma {:induction false} FilterMapKeeps<A, B>(f: A -> Option<B>, xs: seq<A>, k: nat)
    requires k < |xs| && f(xs[k]).Some?
    ensures f(xs[k]).value in FilterMap(f, xs)
    decreases |xs|
  {
    if k < |xs| - 1 {
      FilterMapKeeps(f, xs[..|xs| - 1], k);
      assert xs[..|xs| - 1][k] == xs[k];
    }
  }

  /** `FilterMap` distributes over concatenation. */
  lemma {:induction false} FilterMapAppend<A, B>(f: A -> Option<B>, a: seq<A>, b: seq<A>)
    ensures FilterMap(f, a + b) == FilterMap(f, a) + FilterMap(f, b)
    decreases |b|
  {
    if |b| == 0 {
      assert a + b == a;
    } else {
      var b' := b[..|b| - 1];
      FilterMapAppend(f, a, b');
      assert (a + b)[..|a + b| - 1] == a + b';
      assert (a + b)[|a + b| - 1] == b[|b| - 1];
    }
  }

  /** A single element gives what `f` makes of it. */
  lemma FilterMapOne<A, B>(f: A -> Option<B>, x: A)
    ensures FilterMap(f, [x]) == if f(x).Some? then [f(x).value] else []
  {
    assert [x][..0] == [];
  }
}
